=== FILE: README.md ===
# earnings-gap-trader decision core, in Dafny

This project models the decision logic of the earnings-gap trading system.
The system scans Indian equities for gaps after earnings announcements,
scores them, and sizes and admits the resulting trades. It places broker
orders with protective GTT (good-till-triggered) OCO legs and tracks market
hours and tick data. A Telegram bot asks for approval in manual mode, and a
health monitor bands each component. A small web API also stores settings
in a `.env` file.

The model leaves out the brokers, feeds, bots and web surface that wrap
this logic. It covers the pure threshold, banding, sizing, string and
small-state rules in between.

Several inputs become parameters:
- broker answers, price feeds, clock readings and Telegram delivery results;
- the epoch seconds of `time.time()` that ids are stamped with (`epochSeconds`), read separately from the local-time instant;
- cipher functions;
- the `str` of a float.

The source does not compute these itself. Money and percentages are Dafny
`real`. An instant is an `int` number of microseconds since midnight,
1 January 1970, local time (module `Clock`). A Python exception becomes an
explicit `Failure` or `None` outcome wherever the source catches it.

One module per source file:
- `EarningsScanner`: `core/earnings_scanner.py`.
- `RiskManager`: `core/risk_manager.py`.
- `OrderEngine`: `core/order_engine.py`.
- `MarketData`: `core/market_data.py`.
- `Validators`: `utils/validators.py`.
- `Encryption`: `utils/encryption.py`.
- `Config`: `config.py`.
- `TelegramService`: `core/telegram_service.py`.
- `HealthMonitor`: `monitoring/health_monitor.py`.
- `EnvConfig`: the `.env` merge and the configuration endpoints of `main.py`.
- `SetupWizard`: `scripts/setup_trading_system.py`.

Helper modules:
- `Wrappers`: `Option` and `Result`.
- `Numeric`: absolute value, min/max, clamp, truncation.
- `Text`: Python's `strip`, `upper`, `split`, `replace`, `str(int)` and `int(str)` on ASCII text.
- `Clock`: dates, weekdays and times of day.

## Model

| member | source | states |
|---|---|---|
| EarningsScanner.DetectGap | core/earnings_scanner.py:471-511 | a gap exists iff price and a non-zero previous close are known and the absolute gap percentage lies within the thresholds ×100; its amount is price − close and its percentage (price − close)/close·100; it carries the price, close, symbol and time; the gap is "up" iff the price rose, which for a positive close is iff the percentage is positive |
| EarningsScanner.ValidateGap | core/earnings_scanner.py:534-556 | a gap dated before the announcement fails; with a known surprise it passes iff the gap points the surprise's way (a zero surprise counts as down); without one iff the gap is at least the minimum ×100 |
| EarningsScanner.AnalyzeVolume | core/earnings_scanner.py:565-595 | volume data exists iff current and a non-zero average volume are known; ratio × average = current volume; a surge iff the ratio is at least 3 |
| EarningsScanner.ValidateVolumeSurge | core/earnings_scanner.py:618-636 | acceptance needs ratio ≥ 2, ratio ≥ 3 for gaps up to 5%, ratio ≥ 4 for gaps above 10%; for gaps in (5%, 10%] it is exactly ratio ≥ 2; ratio ≥ 4 always passes |
| EarningsScanner.VolumeSurgeMonotone | core/earnings_scanner.py:618-636 | a larger volume ratio never turns an accepted surge into a rejected one |
| EarningsScanner.SurprisePoints | core/earnings_scanner.py:713-723 | surprise points lie in [10, 40] and are 15 when the surprise is unknown |
| EarningsScanner.GapPoints | core/earnings_scanner.py:725-733 | gap points lie in [10, 30] |
| EarningsScanner.VolumePoints | core/earnings_scanner.py:735-743 | volume points lie in [10, 30] |
| EarningsScanner.ConfidenceScore | core/earnings_scanner.py:704-749 | the score is the sum of the three banded components and lies in [30, 100] |
| EarningsScanner.ConfidenceScoreMonotone | core/earnings_scanner.py:704-749 | a larger gap, volume ratio or known surprise never lowers the score |
| EarningsScanner.ConfidenceLevel | core/earnings_scanner.py:751-760 | VERY_HIGH iff score ≥ 85 and LOW iff score < 65 |
| EarningsScanner.ConfidenceLevelMonotone | core/earnings_scanner.py:751-760 | a higher score never maps to a lower level |
| EarningsScanner.CalculateRiskLevels | core/earnings_scanner.py:762-789 | for a positive price, stop < price < target on gaps up and target < price < stop on gaps down; reward/risk distance ratio lies in [8/3, 4.5]; the stop distance is zero iff the price is |
| EarningsScanner.RiskDistances | core/earnings_scanner.py:771-787 | for any stop fraction s and target fraction t with 8s ≤ 3t ≤ 13.5s, the derived levels keep the reward/risk bounds |
| EarningsScanner.GenerateSignal | core/earnings_scanner.py:644-702 | a signal exists iff the confidence score is ≥ 60 and the price is non-zero; its score is that confidence score, its stop and target are `CalculateRiskLevels` of the price, the gap direction and the score, and its gap and volume figures are the inputs'; it is GAP_UP iff the gap is up, its entry is the price, its level is the banded score, its surprise defaults to 0, its risk-reward lies in [8/3, 4.5], and for a positive price stop and target lie on the correct sides of it |
| EarningsScanner.CheckEntryCriteria | core/earnings_scanner.py:967-1007 | accepted iff the gap is ≥ 2%, the volume ratio ≥ 3, the surprise (when known) ≥ 5% in size or, without one, the gap ≥ 4%, the gap is dated the announcement day or the next, and 09:15 ≤ time ≤ 15:00 |
| EarningsScanner.AnalyzeAnnouncement | core/earnings_scanner.py:918-965 | a signal implies every gate passed (gap found and within the thresholds, volume surge, entry criteria on the announcement with the fetched surprise filled in); when every gate passes the result is exactly `GenerateSignal` of that announcement, gap and volume at the gap's price; a signal also implies a gap ≥ 2%, gap-up iff the price rose, a known surprise agreeing with the direction, the announcement window, trading hours and score ≥ 60 |
| EarningsScanner.FetchedSurpriseSignIsNotChecked | core/earnings_scanner.py:940-955 | a surprise fetched after gap validation is checked for size only: a gap up with a −25% fetched surprise still yields a GAP_UP signal |
| EarningsScanner.Deduplicate | core/earnings_scanner.py:418-429 | the output is the subsequence of first occurrences: kept positions increase, no earlier input has the same (symbol, date), output keys are pairwise distinct and the key set is unchanged |
| EarningsScanner.ResetDailyCounters | core/earnings_scanner.py:1020-1023 | count 0, last date today |
| EarningsScanner.IsDailyLimitReached | core/earnings_scanner.py:1009-1018 | on a new date the count restarts at 0 and the limit is not reached; on the same date nothing changes; the answer is count ≥ max_signals_per_day |
| EarningsScanner.SomesPrefix | core/earnings_scanner.py:886-898 | the signals among a prefix of the analyses are a prefix of all the signals |
| EarningsScanner.CollectSignals | core/earnings_scanner.py:886-898 | the scan loop returns the first min(found, max_signals_per_day) signals in order |
| EarningsScanner.ScanForSignals | core/earnings_scanner.py:858-916 | nothing when the day's limit is reached or the market is closed; otherwise a prefix of the found signals, at most the daily maximum, added to the day's count, which never exceeds the maximum |
| RiskManager.RawVolatilityFactor | core/risk_manager.py:317-356 | the factor is missing iff the ATR divides by a zero price, and otherwise lies in [0.21, 1.872] |
| RiskManager.ApplyVolatilityAdjustment | core/risk_manager.py:317-365 | the size is unchanged when readings fail, otherwise scaled by the factor clamped below at 0.3 (the 2.0 cap never binds), so it lies in [0.3, 1.872] × size |
| RiskManager.RawPerformanceFactor | core/risk_manager.py:367-405 | the performance factor lies in [0.28, 1.32], inside its [0.2, 1.5] clamp |
| RiskManager.WinRateIgnoredForFewTrades | core/risk_manager.py:385-395 | with fewer than 5 trades the win rate has no effect on the factor |
| RiskManager.ApplyPerformanceAdjustment | core/risk_manager.py:367-409 | unchanged without performance data; otherwise scaled by the factor, so within [0.28, 1.32] × size |
| RiskManager.SafePositionSize | core/risk_manager.py:300-315 | the fallback size is at most 1000 and at most 1% of a non-negative balance |
| RiskManager.RiskPerShare | core/risk_manager.py:254-257 | \|entry − stop\|, or 2% of the entry when they coincide; positive for a positive entry |
| RiskManager.CalculatePositionSize | core/risk_manager.py:240-315 | final ≤ max_allowed = min(balance·0.1, max_position_size) and final = min(adjusted, max_allowed); a division by zero gives the safe fallback |
| RiskManager.RiskAmountWithinBudget | core/risk_manager.py:254-290 | the money at risk of a computed position is at most 1.872 × 1.32 times the configured budget |
| RiskManager.CheckDailyLossLimit | core/risk_manager.py:459-486 | error iff balance 0; no alert when pnl ≥ 0 or loss < 2%; HIGH for loss in [2%, 3%); CRITICAL from 3% |
| RiskManager.DailyLossMonotone | core/risk_manager.py:459-486 | a deeper loss never gives a lower alert |
| RiskManager.CheckDrawdownLimit | core/risk_manager.py:488-513 | CRITICAL iff drawdown ≥ 0.10, HIGH iff in [0.08, 0.10), none below 0.08 |
| RiskManager.CheckPortfolioHeat | core/risk_manager.py:515-529 | a HIGH alert iff heat ≥ 0.15 |
| RiskManager.CheckPositionLimits | core/risk_manager.py:531-545 | a MEDIUM alert iff open positions ≥ max_open_positions |
| RiskManager.HaltTrading | core/risk_manager.py:547-552 | halted with the reason and time recorded |
| RiskManager.ResumeTrading | core/risk_manager.py:554-561 | not halted, reason and time cleared |
| RiskManager.ComputeRiskMetrics | core/risk_manager.py:907-957 | metrics exist iff start-of-day and peak balances are non-zero; pnl, pnl% and drawdown relate to the balances; heat = min(0.15, \|pnl%\|); risk level CRITICAL iff drawdown > 8% or pnl% < −2.5% |
| RiskManager.EmergencyHeatClauseUnreachable | core/risk_manager.py:591-599 | on computed metrics the emergency predicate holds iff pnl% < −5% or drawdown > 12% (the heat clause is dead) |
| RiskManager.InitialRiskState | core/risk_manager.py:614-631 | balance, peak and start of day 100000, not halted, no metrics |
| RiskManager.UpdateRiskMetrics | core/risk_manager.py:907-957 | only the metrics change; when computing them raises, nothing changes |
| RiskManager.CheckAllCircuitBreakers | core/risk_manager.py:858-905 | alerts are appended; halted iff already halted or a CRITICAL alert arose; emergency iff already or the emergency predicate holds; balances unchanged; nothing happens without metrics |
| RiskManager.CriticalAlerts | core/risk_manager.py:869-879 | a CRITICAL alert among the four checks comes only from daily loss or drawdown |
| RiskManager.ValidationState | core/risk_manager.py:663-680 | a halted manager is left alone; balances never change |
| RiskManager.ValidateTrade | core/risk_manager.py:650-753 | halted gives (False, None, one EMERGENCY_STOP alert); otherwise, with ps the computed position size: a critical breaker alert rejects with no size; without one the trade is valid iff 1000 ≤ ps.final ≤ 0.5·balance, a rejection carries ps and ends in a HIGH POSITION_SIZE_LIMIT alert, and an accepted trade carries ps, cut to 70% when confidence < 70 and ps is over 5% of the balance; balances never change |
| RiskManager.SizeCheck | core/risk_manager.py:697-740 | the size checks after the breakers: valid iff 1000 ≤ final ≤ 0.5·balance; a rejection adds a HIGH size alert; an accepted size is cut to 70% for confidence < 70 above 5% of the balance, so it lies in [700, 0.5·balance] |
| RiskManager.NoNewCritical | core/risk_manager.py:700-740 | appending a non-critical alert keeps a list free of critical alerts |
| RiskManager.UpdateAccountBalance | core/risk_manager.py:801-820 | balance set, peak = max(old peak, balance), start of day and breaker untouched; metrics untouched when the old balance was 0 |
| RiskManager.PeakIsRunningMaximum | core/risk_manager.py:801-820 | after any run of updates the peak is the maximum of the first peak and every balance seen |
| RiskManager.HaltedUntilResumed | core/risk_manager.py:547-561 | a halted manager stays halted through any events other than resume |
| RiskManager.StepKeepsHalt | core/risk_manager.py:547-561 | one non-resume event keeps the halt |
| OrderEngine.NewRateLimiter | core/order_engine.py:170-185 | both counters 0, the day window starting at midnight |
| OrderEngine.ResetWindows | core/order_engine.py:202-219 | a new day clears the daily count; a minute since the last reset clears the minute count; otherwise counts and stamps are kept |
| OrderEngine.CheckRateLimits | core/order_engine.py:202-225 | after the resets, permitted iff day count < 3000 and minute count < 200 |
| OrderEngine.CountOrder | core/order_engine.py:227-230 | both counters grow by exactly one |
| OrderEngine.OrderParams | core/order_engine.py:239-262 | price present iff LIMIT or SL; trigger_price iff SL or SL-M; disclosed quantity and tag only when set and non-zero/non-empty; exchange NSE |
| OrderEngine.FindOrder | core/order_engine.py:283-320 | the first order in the book with that id, or none iff no order has it |
| OrderEngine.PlaceOrder | core/order_engine.py:232-281 | a refused rate check returns nothing and sends nothing; the order is submitted iff the check passes and the broker answers; only a broker success increments the counters |
| OrderEngine.PlaceOrderWithinLimits | core/order_engine.py:202-236 | placing keeps both counters within their caps |
| OrderEngine.DailyOrderCap | core/order_engine.py:202-236 | within one day the counter grows by exactly the number of orders placed and never exceeds 3000 |
| OrderEngine.OcoLegs | core/order_engine.py:382-406 | two legs on the closing side for \|qty\|: a LIMIT at the target and an SL-M triggered at the stop |
| OrderEngine.OcoLegsFlatten | core/order_engine.py:382-406 | for the signed quantity of a long or short position, either leg's fill brings it back to zero |
| OrderEngine.PlaceGttOco | core/order_engine.py:376-437 | tracked as ACTIVE under the broker's id when accepted; otherwise nothing changes |
| OrderEngine.CancelGtt | core/order_engine.py:469-484 | on broker success a tracked GTT becomes CANCELLED and stays tracked; others untouched; failure changes nothing |
| OrderEngine.MonitorGtts | core/order_engine.py:486-502 | reported GTTs take their reported status; exactly the TRIGGERED, CANCELLED and EXPIRED ones leave the active map |
| OrderEngine.MonitoredGttsUnfinished | core/order_engine.py:486-502 | after monitoring no tracked GTT is in a finished state |
| OrderEngine.CalculateSlippage | core/order_engine.py:603-612 | error iff expected price 0; slippage positive iff a buy paid more or a sell got less; percent × expected = slippage × 100 |
| OrderEngine.SlippageMirrors | core/order_engine.py:603-612 | the same fill has opposite slippage for buyer and seller |
| OrderEngine.AssessFillQuality | core/order_engine.py:614-627 | bands on \|percent\| with cut points 0.05/0.1/0.2/0.5, each band as an iff |
| OrderEngine.FillQualityMonotone | core/order_engine.py:614-627 | larger \|slippage\| never rates better |
| OrderEngine.RecordExecution | core/order_engine.py:629-658 | appends one record with buy-side slippage and its fill quality; error iff expected price 0 |
| OrderEngine.CountQuality | core/order_engine.py:660-680 | a quality count never exceeds the number of records |
| OrderEngine.QualityDistributionTotal | core/order_engine.py:660-680 | the five quality counts sum to the number of records |
| OrderEngine.TrackedPosition | core/order_engine.py:556-583 | pnl = (cur − entry)·qty and value = cur·\|qty\|, priced at the live quote when there is one |
| OrderEngine.UpdatePositions | core/order_engine.py:546-586 | consistency of tracked positions is kept, and only symbols already tracked or present in the rows are tracked |
| OrderEngine.LastRow | core/order_engine.py:556-583 | the last row for a symbol, or none iff no row has it |
| OrderEngine.LastRowDecides | core/order_engine.py:556-583 | a symbol is tracked afterwards iff its last row is open (or it had no row and was tracked), with that row's figures |
| OrderEngine.EntrySideFollowsGap | core/order_engine.py:810 | BUY iff the signal is EARNINGS_GAP_UP (its value ends in "_up") |
| OrderEngine.GapDownExitLegsDoubleShort | core/order_engine.py:376-406 | for a gap-down entry of q shares the position is −q and either exit leg takes it to −2q |
| OrderEngine.ExitLegs | core/order_engine.py:872-886 | the intended exit legs: either fill closes the position the entry opened |
| OrderEngine.ExitLegsAgreeOnGapUp | core/order_engine.py:872-886 | for a gap up the intended legs are the ones placed |
| OrderEngine.EntryQuantity | core/order_engine.py:769 | `int(final/entry)` fails iff the entry price is 0 |
| OrderEngine.QuantityWithinApprovedSize | core/order_engine.py:769-772 | the shares bought cost at most the approved size and one more share would exceed it |
| OrderEngine.EntryRequest | core/order_engine.py:804-820 | a MARKET, intraday order for the signal's symbol and quantity on the entry side |
| OrderEngine.PaperFill | core/order_engine.py:821-835 | paper fills are COMPLETE at the signal's price |
| OrderEngine.MonitorEntryOrder | core/order_engine.py:842-870 | a fill is returned iff the first decisive poll is COMPLETE |
| OrderEngine.ExecuteSignal | core/order_engine.py:735-802 | no trade when uninitialized, emergency-stopped, risk-invalid, unsized or quantity ≤ 0; otherwise paper trading always trades and never touches the limiter, and live trading trades iff the entry order is placed and its polls show a fill, leaving the limiter as order placement does; a trade is added ACTIVE and monitored under `EGS_<symbol>_<epoch seconds>` with nothing else in the trade map changed and one execution recorded |
| OrderEngine.ExitRequest | core/order_engine.py:1047-1055 | a MARKET order that flattens the position |
| OrderEngine.EmergencyExitOrder | core/order_engine.py:1040-1060 | an exit order exists iff the trade's symbol has an open position, and it flattens it |
| OrderEngine.EmergencyExitTrade | core/order_engine.py:1033-1071 | an unknown trade changes nothing; otherwise only that trade becomes EMERGENCY_EXIT with the reason and monitoring off |
| OrderEngine.CompleteTrade | core/order_engine.py:1073-1078 | only that trade becomes COMPLETED with monitoring off |
| OrderEngine.ActiveCount | core/order_engine.py:1096-1108 | the number of ACTIVE trades is 0 iff none is ACTIVE |
| OrderEngine.EmergencyStopAll | core/order_engine.py:1080-1094 | emergency flag set; every ACTIVE trade exits with reason "EMERGENCY_STOP: …"; other trades untouched; no ACTIVE trade remains |
| OrderEngine.CancelAllGtts | core/order_engine.py:1086-1089 | each tracked GTT the broker deletes becomes CANCELLED, the rest are unchanged |
| OrderEngine.ExitActiveTrades | core/order_engine.py:1090-1093 | every ACTIVE trade, and only those, is exited |
| OrderEngine.MonitorTradeStep | core/order_engine.py:992-1031 | a trade past its maximum duration exits; a closed position completes it; monitoring goes on only while the position is open |
| OrderEngine.ExecuteSignalKeepsStatusInvariant | core/order_engine.py:735-802 | executing keeps "monitored iff ACTIVE" and changes no existing trade |
| OrderEngine.MonitorStepMovesOnlyActive | core/order_engine.py:992-1078 | a monitoring pass only moves a trade out of ACTIVE (to COMPLETED or EMERGENCY_EXIT) and keeps the invariant |
| OrderEngine.GetExecutionStatus | core/order_engine.py:1096-1108 | active ≤ total trades; active 0 iff none ACTIVE; positions and GTT counts are the map sizes |
| MarketData.GetMarketStatus | core/market_data.py:709-734 | HOLIDAY iff a holiday (before the weekend check); OPEN iff a trading day in [09:15, 15:30]; PRE_MARKET in [09:00, 09:15); POST_MARKET in (15:30, 16:00]; CLOSED otherwise |
| MarketData.IsMarketOpen | core/market_data.py:736-738 | open iff a trading day (neither a holiday nor a weekend) at a time from 09:15 through 15:30 inclusive |
| MarketData.SessionsInOrder | core/market_data.py:709-734 | within a trading day the sessions follow closed, pre-market, open, post-market, closed |
| MarketData.TradingDayWithinThree | core/market_data.py:697-707 | a trading day occurs within three days of any day |
| MarketData.GetNextMarketOpen | core/market_data.py:740-766 | the input when open; otherwise 09:15 on the first trading day from today (tomorrow after the close), never earlier than the input |
| MarketData.OwnIssues | core/market_data.py:530-540 | one issue each for price ≤ 0, volume < 0, high < low, price outside [low, high] |
| MarketData.IssuesAgainst | core/market_data.py:542-550 | one issue each for a move > 20% and a volume ratio > 5 |
| MarketData.ValidatePriceData | core/market_data.py:524-552 | each issue is present iff its condition holds; a zero previous price raises |
| MarketData.ValidPriceIsSane | core/market_data.py:524-552 | a valid quote has 0 < low ≤ price ≤ high and volume ≥ 0 |
| MarketData.PctChange | core/market_data.py:587-590 | `pct_change` of a series, with ±infinity after a zero close |
| MarketData.ActionAt | core/market_data.py:590-600 | a row is flagged iff \|return\| > 0.15; split iff return < −0.15; severity high iff \|return\| > 0.3 |
| MarketData.ActionsBeforeSound | core/market_data.py:590-600 | every action collected before row n is that row's action, rows increasing |
| MarketData.ActionsBeforeComplete | core/market_data.py:590-600 | every row before n that moves more than 15% is collected |
| MarketData.DetectCorporateActions | core/market_data.py:580-603 | exactly the rows moving more than 15%, in row order, each labelled by ActionAt |
| MarketData.ProcessTick | core/market_data.py:615-645 | the tick is appended to its symbol's buffer, which keeps the last 100; the last price is the tick's |
| MarketData.ProcessTickKeepsBound | core/market_data.py:620-631 | no buffer exceeds 100 ticks |
| MarketData.BufferHoldsLatest | core/market_data.py:620-631 | after any stream a buffer holds the symbol's latest ticks, at most 100, in arrival order |
| MarketData.LastPriceIsLatest | core/market_data.py:620-631 | the last price is that of the symbol's latest tick, or unchanged |
| MarketData.GetLatestTicks | core/market_data.py:669-673 | a suffix of the buffer; the last `count` ticks for a positive count, Python's slice reading otherwise |
| MarketData.GetLastPrice | core/market_data.py:675-677 | the recorded last price, if any |
| MarketData.AllMajorStocks | core/market_data.py:813-823 | Nifty 50 followed by Nifty Next 50, 100 symbols |
| MarketData.IsMajorStock | core/market_data.py:825-827 | membership in either list |
| MarketData.CacheAgeSeconds | core/market_data.py:888-890 | `timedelta.seconds` lies in [0, 86400), whole days ignored |
| MarketData.StaleEntryLooksFresh | core/market_data.py:888-890 | an entry one day and ten seconds old counts as ten seconds old, hence fresh |
| MarketData.GetRealTimePrice | core/market_data.py:882-923 | a fresh cache entry is returned as is; otherwise a valid primary quote, an invalid one replaced by a valid backup quote (else kept), the backup's answer when the primary has none; a returned quote is cached at `now`, and without one the cache is unchanged |
| MarketData.FetchedPriceIsCached | core/market_data.py:882-923 | a returned quote is what a second call at the same instant with caching on returns, whatever the sources then say |
| MarketData.Subscribe | core/market_data.py:960-977 | the callback is appended and success reported; other symbols untouched |
| MarketData.Unsubscribe | core/market_data.py:979-996 | false and nothing changes when not registered; otherwise the first occurrence is removed and an emptied symbol deleted |
| MarketData.UnsubscribeUndoesSubscribe | core/market_data.py:960-996 | unsubscribing a newly subscribed callback restores the registry |
| Validators.ValidateSymbol | utils/validators.py:10-45 | accepted iff non-empty and, after removing ".NS", 1–10 chars of [A-Z0-9&-] matching one of the three shapes |
| Validators.AcceptedSymbolShape | utils/validators.py:20-44 | an accepted symbol has 2–10 chars, starts with a letter and has no hyphen |
| Validators.OneLetterSymbolRejected | utils/validators.py:36-44 | "A" is refused |
| Validators.HyphenatedSymbolRejected | utils/validators.py:36-44 | "BAJAJ-AUTO", a Nifty 50 member, is refused |
| Validators.SuffixedSymbolAccepted | utils/validators.py:20-44 | "RELIANCE.NS" is accepted |
| Validators.AmpersandSymbolAccepted | utils/validators.py:36-44 | "M&M" is accepted |
| Validators.ValidatePrice | utils/validators.py:47-73 | accepted iff 0 < price ≤ 100000 with at most 2 written decimals |
| Validators.AcceptedPriceIsWholePaise | utils/validators.py:57-72 | an accepted price is a positive whole number of paise |
| Validators.TrailingZerosRefused | utils/validators.py:66-68 | "1.500" is refused while "1.5" is accepted |
| Validators.ValidateQuantity | utils/validators.py:75-97 | accepted iff `int(q)` succeeds and lies in [1, 100000] |
| Validators.QuantityTextAgreesWithInt | utils/validators.py:75-97 | a quantity written as text is judged like the number |
| Validators.FractionalQuantityTruncated | utils/validators.py:79-80 | 0.5 shares truncate to 0 and are refused; 100000.9 is accepted |
| Validators.ValidatePercentage | utils/validators.py:99-123 | accepted iff `float()` succeeds and min ≤ value ≤ max; "must be a valid number" when it fails, otherwise the message names the broken bound as the f-string prints it, followed by % |
| Validators.ValidateEmail | utils/validators.py:125-147 | accepted iff non-empty, of the address shape, at most 254 chars |
| Validators.AcceptedEmailHasOneAt | utils/validators.py:125-147 | an accepted address has exactly one '@' with text on both sides |
| Validators.ValidatePhoneNumber | utils/validators.py:149-176 | accepted iff, after deleting spaces, dashes and brackets, it is an Indian mobile number |
| Validators.PhoneFormattingIgnored | utils/validators.py:159-160 | inserting a space, dash or bracket never changes the verdict |
| Validators.ParseSignedDigits | utils/validators.py:188-202 | `int()` reads a `-?\d+` text as the number it denotes |
| Validators.ValidateTelegramChatId | utils/validators.py:178-203 | accepted iff non-empty, `-?\d+`, and \|id\| ≤ 10^12 |
| Validators.ValidateApiKey | utils/validators.py:205-230 | accepted iff non-empty, min ≤ length ≤ 100, and of the key charset; the empty, too-short (naming the minimum) and too-long texts |
| Validators.ApiKeyNewlineQuirk | utils/validators.py:218-227 | a 15-char key plus a final newline passes a 16-char minimum |
| Validators.ValidateTimeRange | utils/validators.py:232-262 | accepted iff both are H:MM / HH:MM times and start < end |
| Validators.TimeRangeIsStrictOrder | utils/validators.py:232-262 | an accepted range is refused reversed, and accepted ranges chain |
| Validators.NewlineTimeRefusedByStrptime | utils/validators.py:243-255 | "9:30\n" passes the pattern but not `strptime` |
| Validators.MissingFields | utils/validators.py:274-278 | one error per missing required field |
| Validators.PercentError | utils/validators.py:294-307 | an error iff the value × 100 is outside the range, carrying the range check's message |
| Validators.PositionsError | utils/validators.py:308-312 | an error iff max_open_positions is present and not a positive int |
| Validators.OrderError | utils/validators.py:314-320 | an error iff target ≤ stop |
| Validators.ValidateTradingConfig | utils/validators.py:264-324 | valid iff no errors iff the config is acceptable; a missing-field error iff the field is absent; every present out-of-range field reported; the target/stop error iff target ≤ stop; no other error |
| Validators.TradingConfigErrors | utils/validators.py:274-321 | the error list: missing fields exactly, every out-of-range field, the target/stop error exactly, nothing else |
| Validators.MissingOrRangeErrors | utils/validators.py:274-316 | the checks before the target/stop comparison: a missing-field error exactly for each absent field, a range error for every out-of-range field, never the target/stop error |
| Validators.FieldError | utils/validators.py:291-316 | one error for a present field outside its bound, none otherwise |
| Validators.RangeErrors | utils/validators.py:290-316 | every error names an out-of-range field, and every out-of-range field among those checked is reported |
| Validators.PositiveError | utils/validators.py:291-312 | an error iff the field is present and not positive |
| Validators.BoundedConfigAccepted | utils/validators.py:264-324 | a config with every field within its bounds and target above stop is accepted (the converse of AcceptedConfigMeetsBounds) |
| Validators.AcceptedConfigMeetsBounds | utils/validators.py:264-324 | an accepted config has every field, risk in [0.001, 0.1], stop in [0.005, 0.2], target in [0.01, 0.5] above the stop, positive sizes and positions |
| Validators.ValidateOrderParams | utils/validators.py:326-373 | valid iff no errors iff every check passes; one error each for a missing symbol or quantity; an order-type error iff outside the four types |
| Validators.CollapseSpace | utils/validators.py:393 | whitespace runs become single spaces |
| Validators.Normalize | utils/validators.py:390-396 | no control chars, single spacing, no leading whitespace |
| Validators.SanitizeInput | utils/validators.py:375-398 | "" for empty input; length ≤ max; no control chars; single-spaced; no leading whitespace; only input chars or spaces |
| Validators.RemoveControl | utils/validators.py:390 | no longer; every kept char is an input char and not a control char |
| Validators.Truncate | utils/validators.py:395-396 | a prefix of the text, at most max long, the whole text when it fits |
| Validators.NormalizeVisible | utils/validators.py:390-392 | cleaning keeps the visible (non-space, non-control) characters in order and never lengthens |
| Validators.SanitizeKeepsVisible | utils/validators.py:386-398 | the visible chars of the result are a prefix of the input's, all of them when the input fits |
| Validators.SanitizeFixedPoint | utils/validators.py:375-398 | text that is clean, single-spaced, edge-trimmed and short enough is returned unchanged |
| Validators.ControlCharactersDropped | utils/validators.py:390-391 | a control character vanishes without a trace |
| Validators.MissingRequiredFields | utils/validators.py:418-422 | one error per missing required field |
| Validators.ValidateJsonSchema | utils/validators.py:401-430 | non-dicts are refused; one error per missing required field plus one aggregate error for unexpected keys; valid iff no errors |
| Encryption.Stars | utils/encryption.py:278 | `'*' * n`: n stars, none for negative n |
| Encryption.MaskSensitiveData | utils/encryption.py:266-280 | empty stays empty; len ≤ 2·show gives all stars; for show > 0 the length is kept, and the first and last `show` chars are kept with stars between |
| Encryption.MaskWithoutShownCharsLeaks | utils/encryption.py:277-280 | with show = 0 the result is the stars followed by the whole secret |
| Encryption.MaskZeroExample | utils/encryption.py:277-280 | "secret" masks to "******secret" with show = 0 |
| Encryption.MaskShowing | utils/encryption.py:266-280 | the intended masking: length kept, every char a star or the original, all stars for show ≤ 0 |
| Encryption.MaskShowingAgrees | utils/encryption.py:277-280 | for show > 0 the intended and the written masking agree |
| Encryption.SecureCompare | utils/encryption.py:171-190 | true iff the strings are equal |
| Encryption.EncryptCredentials | utils/encryption.py:81-101 | the keys are kept; non-empty strings are encrypted and everything else passes through |
| Encryption.DecryptCredentials | utils/encryption.py:103-127 | the keys are kept; values that fail to decrypt are kept |
| Encryption.CredentialsRoundTrip | utils/encryption.py:81-127 | decrypting encrypted credentials gives them back |
| Encryption.EncryptConfig | utils/encryption.py:200-217 | only the six sensitive keys change, and only when present and truthy; a truthy non-string raises |
| Encryption.DecryptConfig | utils/encryption.py:219-240 | only sensitive string fields that decrypt change |
| Encryption.ConfigRoundTrip | utils/encryption.py:200-240 | decrypting an encrypted config gives it back |
| Config.BoundErrors | config.py:38-68 | one error per field outside its bound |
| Config.ValidateLogLevel | config.py:108-114 | accepted iff the upper-cased value is a level, returned upper-cased; a refusal prints the list of levels as Python does |
| Config.ListRepr | config.py:111-113 | Python's `str()` of a list of strings: bracketed, quoted items |
| Config.LogLevelIdempotent | config.py:108-114 | validating the stored level again changes nothing |
| Config.AnyCaseLevelAccepted | config.py:108-114 | any spelling that upper-cases to a level is accepted and stored as that level |
| Config.ValidateSizingMethod | config.py:116-122 | accepted iff one of the four methods, unchanged; a refusal prints the list of methods |
| Config.ValidateDataProvider | config.py:124-130 | accepted iff one of the three providers, unchanged; a refusal prints the list of providers |
| Config.CleanSymbols | config.py:134-137 | non-blank pieces, trimmed and upper-cased |
| Config.ParseWatchlist | config.py:132-137 | lists pass through; comma text becomes trimmed upper-case symbols |
| Config.WatchlistRoundTrip | config.py:132-137 | joining symbols with commas and parsing gives them back |
| Config.CrossFieldError | config.py:139-148 | no error iff target > stop and max gap > min gap |
| Config.MissingCredential | config.py:150-176 | none iff debug or every production credential is present; Kite key checked first |
| Config.CredentialMessage | config.py:155-174 | the Kite secrets are "required in production mode", the bot token "when Telegram is enabled", the mail settings "when email is enabled" |
| Config.ChoiceErrors | config.py:108-130 | an error per bad log level, sizing method or provider |
| Config.AllBoundErrors | config.py:38-68 | a bound error per field iff its value breaks its bound |
| Config.FieldErrors | config.py:21-130 | every field error, together: the required secret key missing iff it is not given, a bound error per broken bound, an error per bad choice |
| Config.ValueErrors | config.py:38-130 | an error per broken numeric bound and per choice the log-level, sizing-method or provider validator refuses, and none otherwise; never the secret-key error |
| Config.ModelValidation | config.py:139-176 | the two model validators in order: accepted iff no cross-field rule and no credential rule fails; the cross-field rule is reported before the credentials; a refusal is one error carrying the validator's message; an accepted result carries the upper-cased level and the parsed watchlist |
| Config.LoadSettings | config.py:14-176 | accepted iff every rule holds, the secret key given; field errors reported together before the model validators; a credential refusal carries its full message |
| Config.AcceptedSettingsBounds | config.py:38-148 | accepted settings have 0 < stop < target ≤ 0.5, risk in (0, 0.1], positions in (0, 20] |
| TelegramService.FirstSent | core/telegram_service.py:286-290 | the first message id returned, present iff some delivery succeeded |
| TelegramService.SignalId | core/telegram_service.py:252 | `signal_` followed by the seconds, '_' and the symbol |
| TelegramService.SignalIdInjective | core/telegram_service.py:252 | two alerts share an id iff they are for the same symbol in the same second |
| TelegramService.SendSignalAlert | core/telegram_service.py:249-310 | an entry keyed `signal_<ts>_<symbol>` is stored iff some message was sent, pending, with chat id `chat_ids[0]`, the first sent message's id, and expiry now + timeout; otherwise nothing changes |
| TelegramService.Approver | core/telegram_service.py:329 | the username, or the user id as text |
| TelegramService.HandleApproval | core/telegram_service.py:312-354 | false and nothing changes for an unknown or decided id; otherwise the entry is decided (approver recorded on approval) and removed |
| TelegramService.CheckSignalExpiry | core/telegram_service.py:374-395 | only a pending entry expires, and it is removed |
| TelegramService.ApprovalSucceedsIffPending | core/telegram_service.py:312-354 | on a map of pending entries a decision succeeds iff the id is present |
| TelegramService.ApprovalIsOneShot | core/telegram_service.py:312-395 | after a decision neither a second decision nor an expiry succeeds |
| TelegramService.ExpiryIsFinal | core/telegram_service.py:312-395 | an expired signal can no longer be decided |
| TelegramService.ToggleMode | core/telegram_service.py:650-657 | never PAUSED; MANUAL iff from AUTO |
| TelegramService.CommandAuthorized | core/telegram_service.py:671-673 | a chat may command iff it is one of the configured chat ids |
| TelegramService.RunCommand | core/telegram_service.py:578-673 | unauthorized chats change nothing; /stop sets the emergency stop; /pause gives PAUSED, /resume AUTO, /mode the toggle |
| TelegramService.ModeToggleTwice | core/telegram_service.py:650-657 | two toggles restore AUTO or MANUAL; from PAUSED one gives AUTO |
| TelegramService.ParseChatIds | core/telegram_service.py:771-772 | defined iff every piece parses, piecewise |
| TelegramService.CallbackAuthorized | core/telegram_service.py:767-775 | no or empty setting denies; an unparsable setting errors; true only for listed ids |
| TelegramService.CallbackAuthorizationRoundTrip | core/telegram_service.py:767-775 | a comma-joined list of ids authorizes exactly those ids, as the command handler configured with them does |
| TelegramService.ChatIdPiecesParse | core/telegram_service.py:771-772 | printed ids are comma-free and read back |
| TelegramService.ParseCallback | core/telegram_service.py:694-708 | dispatch by first matching prefix, in the order approve, reject, modify, details, each an iff; no prefix is no action; the id is the data with every occurrence of the prefix removed |
| TelegramService.ApproveButtonRoundTrip | core/telegram_service.py:694-696 | `approve_<id>` dispatches to approving that id when the prefix does not occur in it |
| TelegramService.ApproveButtonDecides | core/telegram_service.py:682-730 | for an authorized user the approve button of a pending id removes it and replies approved; of any other id it changes nothing and replies that approval failed |
| TelegramService.RejectButtonRoundTrip | core/telegram_service.py:698-700 | `reject_<id>` dispatches to rejecting that id |
| TelegramService.HandleCallback | core/telegram_service.py:682-715 | authorization first (errors answered generically); an authorized approve/reject is `DecisionCallback` on the parsed id, modify answers "not available", details shows the pending signal or "not found", anything else answers nothing; only a decision changes the pending map |
| TelegramService.DecisionCallback | core/telegram_service.py:717-730 | the reply is a decision iff the approval succeeded |
| TelegramService.ConfidenceTimesSize | core/telegram_service.py:988 | multiplying the confidence enum by a float always raises |
| TelegramService.ProcessSignal | core/telegram_service.py:976-1005 | PAUSED ignores; AUTO asks the engine and answers false; MANUAL sends the alert and answers whether it was stored |
| TelegramService.AutoModeReportsExecutedTradeAsFailure | core/telegram_service.py:983-994 | in AUTO mode an executed trade is reported as false |
| TelegramService.ProcessSignalReportingTrade | core/telegram_service.py:976-1005 | the intended behaviour: AUTO answers whether a trade came back |
| TelegramService.ProcessSignalVersionsAgree | core/telegram_service.py:976-1005 | outside AUTO, or without a trade, both versions agree |
| HealthMonitor.ApplicationStatus | monitoring/health_monitor.py:130-157 | HEALTHY iff 200 within 5 s; WARNING iff 200 slower; CRITICAL otherwise |
| HealthMonitor.DatabaseStatus | monitoring/health_monitor.py:169-230 | CRITICAL iff the query fails; WARNING iff more than 50 connections |
| HealthMonitor.RedisStatus | monitoring/health_monitor.py:232-274 | CRITICAL iff unreachable; WARNING iff a memory cap is set and usage exceeds 90% of it |
| HealthMonitor.ResourceStatus | monitoring/health_monitor.py:276-323 | CRITICAL iff cpu > 95 or mem > 95 (or failure); WARNING iff not critical and cpu > 80 or mem > 85 |
| HealthMonitor.UsedPercent | monitoring/health_monitor.py:331 | used/total·100, none iff the total is 0 |
| HealthMonitor.DiskBand | monitoring/health_monitor.py:334-338 | CRITICAL iff > 90; WARNING iff in (80, 90] |
| HealthMonitor.DiskStatus | monitoring/health_monitor.py:325-364 | an empty disk or failure is CRITICAL; otherwise the band of the used percentage |
| HealthMonitor.NetworkStatus | monitoring/health_monitor.py:366-421 | a failed check is CRITICAL; with n of the three services answering, CRITICAL iff 2n < 3 (rate below 0.5) and HEALTHY iff 5n ≥ 12 (rate at least 0.8), WARNING between |
| HealthMonitor.NetworkBands | monitoring/health_monitor.py:366-421 | with three services: HEALTHY iff all answer, WARNING iff two, CRITICAL iff at most one |
| HealthMonitor.ReachabilityBandsAgree | monitoring/health_monitor.py:394-398 | the network and external-API checks band the same count alike |
| HealthMonitor.TradingEngineStatus | monitoring/health_monitor.py:423-482 | CRITICAL iff unreachable, unhealthy or emergency-stopped; WARNING iff more than 10 active trades otherwise |
| HealthMonitor.WebsocketStatus | monitoring/health_monitor.py:484-520 | HEALTHY iff the ping is answered |
| HealthMonitor.ResourceStatusMonotone | monitoring/health_monitor.py:293-297 | higher usage never bands better |
| HealthMonitor.DiskBandMonotone | monitoring/health_monitor.py:334-338 | a fuller disk never bands better |
| HealthMonitor.ExternalApisMonotone | monitoring/health_monitor.py:549-553 | fewer healthy APIs never band better |
| HealthMonitor.ExternalApisStatus | monitoring/health_monitor.py:522-560 | a failed check is CRITICAL; with h of the three APIs healthy, CRITICAL iff 2h < 3 and HEALTHY iff 5h ≥ 12, WARNING between |
| HealthMonitor.RecentAlerts | monitoring/health_monitor.py:627-632 | exactly the unresolved alerts for the component from the last 30 minutes |
| HealthMonitor.ProcessAlert | monitoring/health_monitor.py:619-643 | at most one alert appended, the history kept; appended iff WARNING/CRITICAL and nothing recent suppresses it; its level mirrors the status |
| HealthMonitor.HealthyNeverAlerts | monitoring/health_monitor.py:621-623 | HEALTHY and UNKNOWN never alert |
| HealthMonitor.AlertNotRepeated | monitoring/health_monitor.py:627-643 | a component does not alert again within 30 minutes of its alert's time |
| HealthMonitor.StaleResultAlertsAgain | monitoring/health_monitor.py:627-643 | a result older than 30 minutes alerts again each time it is processed |
| HealthMonitor.RecordResults | monitoring/health_monitor.py:84-116 | results of checks that did not raise are recorded, the last one wins, history is kept |
| HealthMonitor.LatestFor | monitoring/health_monitor.py:101-107 | the last result mentioning a component, present iff one does |
| HealthMonitor.RecordResultsLatest | monitoring/health_monitor.py:101-107 | a component has a result afterwards iff it had one or a check reported it; it is the latest reported, else the old one |
| HealthMonitor.RecordResultsAlerts | monitoring/health_monitor.py:101-114 | every new history entry is the alert of some WARNING or CRITICAL result of the pass |
| HealthMonitor.SystemStatus | monitoring/health_monitor.py:778-793 | unknown with no results; critical iff any critical; warning iff any warning and none critical; healthy iff all healthy |
| HealthMonitor.SystemStatusIsWorstOf | monitoring/health_monitor.py:778-793 | with banded results the status is the worst of them |
| EnvConfig.SplitAssignment | main.py:233-234 | `split('=', 1)`: key before the first '=', the rest after it |
| EnvConfig.LineKey | main.py:231-235 | a line has a key iff its stripped text is non-empty, not a comment and contains '='; the key is the text before the first '=' |
| EnvConfig.KeyIndex | main.py:230-235 | each key maps to the last line assigning it |
| EnvConfig.LastAssignment | main.py:230-235 | no later line assigns the indexed key |
| EnvConfig.EnvValue | main.py:230-235 | on the file's lines, a key has a value iff some line assigns it |
| EnvConfig.ApplyUpdates | main.py:238-245 | the length grows by the number of new keys, which are appended in update order |
| EnvConfig.ApplyUpdatesRewrites | main.py:238-243 | each indexed key's line is replaced by its new line |
| EnvConfig.ApplyUpdatesKeeps | main.py:238-245 | a line changes only where a key is indexed |
| EnvConfig.AppendedSound | main.py:243-245 | every appended line is the line of a key missing from the index |
| EnvConfig.AppendedComplete | main.py:243-245 | the line of every key missing from the index is appended |
| EnvConfig.UpdateEnvFile | main.py:217-249 | the file keeps its lines and gains the new keys' lines |
| EnvConfig.UpdateRewritesInPlace | main.py:231-245 | only the last line assigning an updated key is rewritten; every other line is unchanged |
| EnvConfig.EnvLineReadsBack | main.py:239 | a well-formed update's line assigns its key its value |
| EnvConfig.UpdateThenRead | main.py:230-245 | on the line list, after the merge every updated key reads back as its new value |
| EnvConfig.ReadLineIsUpdate | main.py:230-245 | the line a reader picks for an updated key after the merge is that update's line |
| EnvConfig.ReadLines | main.py:226-227 | `readlines()`: the pieces are non-empty and written back they give the text |
| EnvConfig.ReadTerminated | main.py:227 | every line read from a text ending in a newline ends in its only newline |
| EnvConfig.ReadWritten | main.py:227-249 | lines each ending in their only newline, written and read again, come back |
| EnvConfig.EnvFileValue | main.py:226-235 | on the file's text, a key has a value iff some line assigns it |
| EnvConfig.UpdateEnvText | main.py:217-249 | for a text ending in a newline, reading the written file gives the merged lines |
| EnvConfig.UpdateThenReadText | main.py:217-249 | for a file ending in a newline, reading the written file gives every updated key its new value |
| EnvConfig.NewKeyGluedToLastLine | main.py:238-249 | `A=1` without a newline, updated with B=2, becomes `A=1B=2\n`: B is lost and A reads `1B=2` |
| EnvConfig.PercentFractionInverse | main.py:1045-1047 | percent → fraction → percent is the identity, and back |
| EnvConfig.GetConfiguration | main.py:1021-1085 | fractions shown ×100; max_position_size shown as portfolio value too; weekly loss = 7 × max_daily_loss |
| EnvConfig.DictSet | main.py:1107-1152 | insertion-ordered dict assignment: keys stay distinct, the new value is found, other keys unchanged |
| EnvConfig.TradingUpdates | main.py:1118-1129 | each sent field is stored: the portfolio value as MAX_POSITION_SIZE, max positions as MAX_OPEN_POSITIONS, the three percentages as value/100; an absent field keeps the old value; nothing else changes |
| EnvConfig.RiskUpdates | main.py:1131-1138 | each sent field is stored: the daily loss limit, the maximum drawdown, and the max position size, which overrides; an absent field keeps the old value; nothing else changes |
| EnvConfig.TelegramUpdates | main.py:1140-1147 | the bot token and enabled flag are stored as sent; only a non-empty chat list sets the chat id, to its first entry; an absent field keeps the old value; nothing else changes |
| EnvConfig.ApiUpdates | main.py:1108-1116 | the API key, secret and access token are stored verbatim and the paper-trading flag as that flag; an absent field keeps the old value; nothing else changes |
| EnvConfig.ScannerUpdates | main.py:1150-1152 | a sent minimum gap is stored as sent; nothing else changes |
| EnvConfig.ConfigSettings | main.py:1105-1152 | the settings dict has no duplicate keys |
| EnvConfig.ConfigSettingsSent | main.py:1104-1152 | every one of the fifteen settings in the dict is what the request sent for it (`Sent`): percentages of the trading section as fractions, MAX_POSITION_SIZE from the risk section before the trading one, and no entry for a field the request did not carry |
| EnvConfig.ConfigUpdates | main.py:1105-1156 | the dict handed to the file merge has no duplicate names |
| EnvConfig.ConfigSettingsStoresFractions | main.py:1124-1129 | the trading percentages reach the dict as fractions |
| EnvConfig.ConfigSettingsPositionSize | main.py:1120-1138 | MAX_POSITION_SIZE comes from risk, else trading, else is not written |
| EnvConfig.Named | main.py:1107-1152 | the dict under the variable names, values as strings |
| EnvConfig.PercentSurvivesSave | main.py:1124-1129 | for a file ending in a newline, a percentage saved and read back from the file's text, as `update_env_file` reads it, is the same percentage |
| EnvConfig.RiskPositionSizeWins | main.py:1120-1138 | for a file ending in a newline, with both sections given, the file's text, as `update_env_file` reads it, holds the risk value |
| SetupWizard.ValidApiSecret | scripts/setup_trading_system.py:950-952 | accepted iff at least 10 characters; an accepted secret is also an accepted user id |
| SetupWizard.ValidApiKey | scripts/setup_trading_system.py:946-948 | accepted iff at least 10 characters, all alphanumeric, i.e. a valid secret that is alphanumeric |
| SetupWizard.ValidUserId | scripts/setup_trading_system.py:954-956 | accepted iff at least 2 characters |
| SetupWizard.ValidTelegramToken | scripts/setup_trading_system.py:958-961 | accepted iff, less one final newline, it is digits, ':' and 35 token chars |
| SetupWizard.ValidChatId | scripts/setup_trading_system.py:963-969 | accepted iff the stripped text is an optionally signed group of digits with single underscores between them |
| SetupWizard.TokenBodyIsShape | scripts/setup_trading_system.py:958-961 | splitting at the first ':' decides exactly "digits, ':', 35 token chars" |
| SetupWizard.IssuedTokenAccepted | scripts/setup_trading_system.py:958-961 | a bot id, ':' and a 35-char secret is accepted |
| SetupWizard.TokenLength | scripts/setup_trading_system.py:958-961 | an accepted token has a ':' and at least 37 chars |
| SetupWizard.PrintedChatIdAccepted | scripts/setup_trading_system.py:963-969 | every printed integer is an accepted chat id and reads back |
| SetupWizard.FirstFailureFrom | scripts/setup_trading_system.py:1086-1089 | the first step that does not succeed, if any |
| SetupWizard.RunSetup | scripts/setup_trading_system.py:1072-1104 | the steps run in order up to and including the first failure; success iff every step succeeds |

## Left out

- Network, broker and database I/O are left out: KiteConnect, yfinance, scraping, Telegram, SMTP, Redis, PostgreSQL and WebSocket calls. Their answers are parameters (`Venue`, delivery results, health readings).
- Async scheduling, sleeps and polling loops are left out. Each loop body is modelled as one step over given readings (`MonitorTradeStep`, `MonitorEntryOrder`).
- The pandas/numpy analytics are oracle inputs: ATR, volatility percentile, market regime and `clean_historical_data`.
- Floating point: prices are exact reals, so rounding, NaN and infinity are not modelled. The one exception is `pct_change`'s ±infinity after a zero close.
- `str` of a float is a parameter (`Render`). Reading it back is an assumed inverse (`RenderParses`).
- The cipher is a pair of function parameters: Fernet, PBKDF2 and SHA-256.
- Randomness is left out: `generate_key` and `generate_secure_token`.
- Character classes are ASCII. `str.isalnum`, `str.isdigit` and the regex `\d` on non-ASCII digits are not modelled.
- Logging, message formatting (`MessageFormatter`), dashboards and the FastAPI routes other than the configuration endpoints are left out.
- The setup wizard's prompts, file writing and sub-processes are left out. Each step is represented only by its outcome.
- `OrderEngine`: the `int(gtt_id)` conversion, `modify_order`, `modify_gtt`, positions/holdings queries and the performance-summary averages are not modelled.
- `_record_trade`'s database write is left out. It names variables that do not exist there, so it raises; its own handler catches that after the execution and the ACTIVE trade are recorded, and the `EGS_` id is still returned. `ExecuteSignal` models exactly that outcome.
- Cached age uses `timedelta.seconds`, which is modelled as written (`CacheAgeSeconds`).
- `validate_price` on a non-numeric string raises `decimal.InvalidOperation`, which the source does not catch. The model takes a well-formed decimal.
- EnvConfig.UpdateEnvFile: works on the file's lines; `UpdateEnvText` adds `readlines()` and `writelines()` on the file's text (`ReadLines`, `WriteLines`). Opening, creating and encoding the file are not modelled, and a missing file is the empty text.
- EnvConfig.UpdateThenRead: stated on the line list. On the file's text, `UpdateThenReadText` states it for files whose last line ends in a newline; without that newline the first new key is glued to the last line (`NewKeyGluedToLastLine`).
- EnvConfig.PercentSurvivesSave: the round trip is exact only because the model's numbers are reals. Python stores `percentage / 100` as a float and writes it with `str()`, so for 7 the file holds `0.07`, and reading it back and scaling by 100 gives 7.000000000000001; 14, 28, 29 and 57 behave alike. Floating point is not modelled. The lemma also holds only for files whose last line ends in a newline, and reads the file back the way `update_env_file` reads it: the key is the text before the first '=', and the last line with that key wins. The settings loader of `config.py` reads the file differently. It is pydantic-settings with dotenv parsing (lines 7 and 102-106). That parsing allows spaces around '=', quotes, `export` and comments. It matches names in any letter case, and an environment variable overrides the file. So a later line such as `RISK_PER_TRADE = 0.03`, or a `RISK_PER_TRADE` environment variable, can give a different value at the next start. That loader is not part of this model. `main.py` also builds its configuration once at import (line 43), so the running process keeps the old values until it restarts.
- EnvConfig.RiskPositionSizeWins: the same limits as `PercentSurvivesSave`: a file ending in a newline, read back the way `update_env_file` reads it and not the way the dotenv-based settings loader reads it, and environment variables are not modelled.
- Config.FieldErrors: pydantic's errors are modelled by kind: which field is missing or out of bounds and which choice validator refused. Pydantic's own texts ("Field required", "Input should be greater than 0") and the "Value error, " prefix it puts before a validator's message are not modelled. The validators' own messages are modelled, in `ValidateLogLevel`, `ValidateSizingMethod`, `ValidateDataProvider`, `CrossFieldError` and `CredentialMessage`.
- Validators.ValidateTradingConfig: values are modelled as an int or a float (`Number`). A string value is not modelled. Python also treats `True`/`False` as the ints 1/0, and a string stop loss beside a numeric target raises `TypeError` at the comparison; neither is modelled.
- EnvConfig.ConfigSettings: a request field is modelled by its type in the request schema. `max_positions` is an int and the percentages are numbers; other JSON types are not modelled.
- EarningsScanner.ScanForSignals: the scan cap is the daily maximum (1), not the maximum minus the day's count. With the shipped maximum of 1 the two coincide, and the model follows the code.

## Findings

| source | as written | input that shows it | evidently intended | confidence | as-written member | corrected member |
|---|---|---|---|---|---|---|
| core/telegram_service.py:988 | in AUTO mode, after the order engine returns a trade id, `signal.confidence * config.max_position_size` multiplies a `SignalConfidence` enum member by a float. That raises `TypeError`, which the handler catches, so `process_signal` answers False and sends no entry notification | any signal in AUTO mode for which `execute_signal` returns a trade id | answer True when a trade was executed | high (not executed) | TelegramService.AutoModeReportsExecutedTradeAsFailure | TelegramService.ProcessSignalReportingTrade |
| core/order_engine.py:880-886 | `_place_exit_orders` passes the positive share count to `place_gtt_oco`, which takes a positive count for a long position. A gap-down trade is a short SELL entry, yet both of its exit legs are SELL too | a gap-down signal filled for 10 shares: either leg's fill takes the position from −10 to −20 | exit legs that BUY back the short, as the fallback orders at lines 901-902 do | high (not executed) | OrderEngine.GapDownExitLegsDoubleShort | OrderEngine.ExitLegs |
| utils/encryption.py:277-280 | `mask_sensitive_data(data, 0)` builds `data[:0] + '*' * len(data) + data[-0:]`, and `data[-0:]` is the whole string, so the secret is appended in clear | `mask_sensitive_data("secret", 0)` gives "******secret" | with nothing shown, all stars and the length kept | high (not executed) | Encryption.MaskWithoutShownCharsLeaks | Encryption.MaskShowing |

Source behaviour the model keeps as written:
- An approval entry records `chat_ids[0]` as its chat even when the message to that chat failed.
- A ValueError while reading the callback chat-id setting is answered with the generic error reply.
- `/mode` from PAUSED gives AUTO.
- Callback ids drop every occurrence of the prefix (`replace`), not only the leading one.
- A health alert is stamped with the result's time, so a result older than 30 minutes alerts again on every pass (`StaleResultAlertsAgain`).
- A zero-size disk raises ZeroDivisionError, which is reported as CRITICAL.
- `get_configuration` shows `max_position_size` as the portfolio value.
- `update_env_file` writes a new key right after the last line, so a file that does not end in a newline gets the key glued to its last line (`NewKeyGluedToLastLine`).
- Two Telegram alerts for the same symbol within one second share an id, and the later one replaces the earlier pending entry (`SignalIdInjective`).
- `ExecuteSignal` places the exit legs as the code does, from the unsigned share count; `ExitLegs` is the corrected construction (see Findings).

=== FILE: clock.dfy ===
/**
 * Wall-clock instants. The source works with naive local `datetime` values;
 * here an instant is a whole number of microseconds since midnight at the
 * start of 1970-01-01, local time, and a date is the number of days since
 * that midnight.
 */
module Clock {

  const MicrosPerSecond: int := 1_000_000
  const MicrosPerMinute: int := 60 * MicrosPerSecond
  const MicrosPerDay: int := 86_400 * MicrosPerSecond

  /** The date (`datetime.date()`) of an instant. */
  function Day(t: int): int
  {
    t / MicrosPerDay
  }

  /** The time of day (`datetime.time()`) of an instant, in microseconds. */
  function TimeOfDay(t: int): (r: int)
    ensures 0 <= r < MicrosPerDay
  {
    t % MicrosPerDay
  }

  /** Midnight at the start of a date. */
  function StartOfDay(d: int): int
  {
    d * MicrosPerDay
  }

  /** The time of day hh:mm:00.000000. */
  function HM(h: int, m: int): int
  {
    (h * 60 + m) * MicrosPerMinute
  }

  /** `date.weekday()`: Monday is 0 and Sunday is 6; 1970-01-01 was a Thursday. */
  function Weekday(d: int): (r: int)
    ensures 0 <= r < 7
  {
    (d + 3) % 7
  }

  lemma DayAndTime(t: int)
    ensures StartOfDay(Day(t)) + TimeOfDay(t) == t
  {
  }

  lemma DayOfStart(d: int, tod: int)
    requires 0 <= tod < MicrosPerDay
    ensures Day(StartOfDay(d) + tod) == d
    ensures TimeOfDay(StartOfDay(d) + tod) == tod
  {
    assert StartOfDay(d) + tod == d * MicrosPerDay + tod;
  }

  lemma WeekdayNext(d: int)
    ensures Weekday(d + 1) == (Weekday(d) + 1) % 7
  {
  }
}

=== FILE: config.dfy ===
/**
 * `TradingConfig` of `config.py`: the numeric field bounds, the field
 * validators (log level, position-sizing method, market-data provider,
 * watchlist parsing) and the two model validators (cross-field rules and
 * the credentials production mode needs). Environment loading and the
 * type coercion of raw strings are not modelled: every numeric field
 * arrives as a number.
 */
module Config {
  import opened Wrappers
  import Text

  // ---------------------------------------------------------------------
  // Field bounds (`Field(gt=0, le=...)`)
  // ---------------------------------------------------------------------

  /** The numeric fields that carry a `gt`/`le` constraint, in declaration order. */
  datatype Limit =
    | MaxPositionSize | RiskPerTrade | StopLossPercentage | TargetPercentage
    | MaxDailyLoss | MaxOpenPositions | MinGapPercentage | MaxGapPercentage
    | CapitalAllocation | UpdateInterval | DailyLossLimit | MaxDrawdownPercentage
    | PortfolioHeat | SessionTimeout | MaxWatchlistSize | ApiRateLimit | ApiTimeout

  const AllLimits: seq<Limit> := [
    MaxPositionSize, RiskPerTrade, StopLossPercentage, TargetPercentage,
    MaxDailyLoss, MaxOpenPositions, MinGapPercentage, MaxGapPercentage,
    CapitalAllocation, UpdateInterval, DailyLossLimit, MaxDrawdownPercentage,
    PortfolioHeat, SessionTimeout, MaxWatchlistSize, ApiRateLimit, ApiTimeout]

  /** Where a field sits in `AllLimits`. */
  function LimitIndex(l: Limit): (i: nat)
    ensures i < |AllLimits| && AllLimits[i] == l
  {
    match l
    case MaxPositionSize => 0 case RiskPerTrade => 1 case StopLossPercentage => 2
    case TargetPercentage => 3 case MaxDailyLoss => 4 case MaxOpenPositions => 5
    case MinGapPercentage => 6 case MaxGapPercentage => 7 case CapitalAllocation => 8
    case UpdateInterval => 9 case DailyLossLimit => 10 case MaxDrawdownPercentage => 11
    case PortfolioHeat => 12 case SessionTimeout => 13 case MaxWatchlistSize => 14
    case ApiRateLimit => 15 case ApiTimeout => 16
  }

  /** The `le=` bound of a field, when it has one (every field has `gt=0`). */
  function UpperBound(l: Limit): Option<real>
  {
    match l
    case RiskPerTrade => Some(0.1)
    case StopLossPercentage => Some(0.2)
    case TargetPercentage => Some(0.5)
    case MaxOpenPositions => Some(20.0)
    case CapitalAllocation => Some(1.0)
    case MaxDrawdownPercentage => Some(50.0)
    case PortfolioHeat => Some(20.0)
    case _ => None
  }

  predicate InBounds(l: Limit, x: real)
  {
    0.0 < x && (UpperBound(l).None? || x <= UpperBound(l).value)
  }

  /** One error per field of `ls` whose value breaks its bound, in order. */
  function BoundErrors(ls: seq<Limit>, value: Limit -> real): (r: seq<ConfigError>)
    ensures forall e :: e in r ==> e.FieldOutOfBounds? && !InBounds(e.field, value(e.field))
    ensures forall i :: 0 <= i < |ls| && !InBounds(ls[i], value(ls[i])) ==> FieldOutOfBounds(ls[i]) in r
    ensures |r| <= |ls|
  {
    if ls == [] then []
    else (if InBounds(ls[0], value(ls[0])) then [] else [FieldOutOfBounds(ls[0])]) + BoundErrors(ls[1..], value)
  }

  // ---------------------------------------------------------------------
  // Field validators
  // ---------------------------------------------------------------------

  const LogLevels: seq<string> := ["DEBUG", "INFO", "WARNING", "ERROR", "CRITICAL"]
  const SizingMethods: seq<string> := ["fixed_amount", "percentage", "volatility_based", "kelly"]
  const DataProviders: seq<string> := ["kite", "yfinance", "alpha_vantage"]

  /** Python's `str()` of a list of strings free of quotes and backslashes:
   *  each item in single quotes, separated by ", ", inside brackets. */
  function ListRepr(items: seq<string>): (r: string)
    ensures |r| >= 2 && r[0] == '[' && r[|r| - 1] == ']'
  {
    "[" + QuotedItems(items) + "]"
  }

  function QuotedItems(items: seq<string>): string
  {
    if items == [] then ""
    else if |items| == 1 then "'" + items[0] + "'"
    else "'" + items[0] + "', " + QuotedItems(items[1..])
  }

  /** `validate_log_level`: accepted in any letter case, stored upper-cased;
   *  the refusal prints the list of levels. */
  function ValidateLogLevel(v: string): (r: Result<string>)
    ensures r.Ok? <==> Text.Upper(v) in LogLevels
    ensures r.Ok? ==> r.value in LogLevels && |r.value| == |v|
    ensures r.Failure? ==> r.error == "log_level must be one of " + ListRepr(LogLevels)
  {
    var u := Text.Upper(v);
    if u in LogLevels then Ok(u) else Failure("log_level must be one of " + ListRepr(LogLevels))
  }

  /** Validating the stored level again changes nothing. */
  lemma LogLevelIdempotent(v: string)
    requires ValidateLogLevel(v).Ok?
    ensures ValidateLogLevel(ValidateLogLevel(v).value) == ValidateLogLevel(v)
  {
    Text.UpperIdempotent(v);
  }

  /** Any spelling of a level that differs from it only in letter case is
   *  accepted and stored as the canonical name. */
  lemma AnyCaseLevelAccepted(v: string, level: string)
    requires level in LogLevels
    requires |v| == |level| && forall i :: 0 <= i < |v| ==> Text.UpperChar(v[i]) == Text.UpperChar(level[i])
    ensures ValidateLogLevel(v) == Ok(level)
  {
    assert forall i :: 0 <= i < |level| ==> !Text.IsLower(level[i]);
    Text.UpperNoLower(level);
    assert Text.Upper(v) == Text.Upper(level);
  }

  /** `validate_position_sizing_method`: exact, case-sensitive membership;
   *  the refusal prints the list of methods. */
  function ValidateSizingMethod(v: string): (r: Result<string>)
    ensures r.Ok? <==> v in SizingMethods
    ensures r.Ok? ==> r.value == v
    ensures r.Failure? ==> r.error == "position_sizing_method must be one of " + ListRepr(SizingMethods)
  {
    if v in SizingMethods then Ok(v) else Failure("position_sizing_method must be one of " + ListRepr(SizingMethods))
  }

  /** `validate_market_data_provider`: exact membership; the refusal prints
   *  the list of providers. */
  function ValidateDataProvider(v: string): (r: Result<string>)
    ensures r.Ok? <==> v in DataProviders
    ensures r.Ok? ==> r.value == v
    ensures r.Failure? ==> r.error == "market_data_provider must be one of " + ListRepr(DataProviders)
  {
    if v in DataProviders then Ok(v) else Failure("market_data_provider must be one of " + ListRepr(DataProviders))
  }

  // ---------------------------------------------------------------------
  // parse_watchlist
  // ---------------------------------------------------------------------

  /** What `default_watchlist` arrives as: a comma-separated string from the
   *  environment, or a list already. */
  datatype WatchlistInput = CommaSeparated(text: string) | Symbols(items: seq<string>)

  /** A symbol as `parse_watchlist` leaves it: trimmed, upper-case, no comma. */
  predicate IsWatchSymbol(s: string)
  {
    IsTrimmedUpper(s) && ',' !in s
  }

  predicate IsTrimmedUpper(s: string)
  {
    s != [] && !Text.IsSpace(s[0]) && !Text.IsSpace(s[|s| - 1])
    && forall i :: 0 <= i < |s| ==> !Text.IsLower(s[i])
  }

  /** `[p.strip().upper() for p in pieces if p.strip()]`. */
  function CleanSymbols(pieces: seq<string>): (r: seq<string>)
    ensures |r| <= |pieces|
    ensures forall i :: 0 <= i < |r| ==> IsTrimmedUpper(r[i])
  {
    if pieces == [] then []
    else
      var s := Text.Strip(pieces[0]);
      var rest := CleanSymbols(pieces[1..]);
      if s == [] then rest
      else
        StripUpperChars(pieces[0]);
        [Text.Upper(s)] + rest
  }

  /** Cleaning adds no character a piece did not have; in particular no comma. */
  lemma {:induction false} CleanSymbolsCommaFree(pieces: seq<string>)
    requires forall i :: 0 <= i < |pieces| ==> ',' !in pieces[i]
    ensures forall i :: 0 <= i < |CleanSymbols(pieces)| ==> ',' !in CleanSymbols(pieces)[i]
  {
    if pieces != [] {
      CleanSymbolsCommaFree(pieces[1..]);
      if Text.Strip(pieces[0]) != [] {
        StripUpperChars(pieces[0]);
      }
    }
  }

  lemma StripUpperChars(p: string)
    requires Text.Strip(p) != []
    ensures IsTrimmedUpper(Text.Upper(Text.Strip(p)))
    ensures ',' !in p ==> ',' !in Text.Upper(Text.Strip(p))
  {
    UpperTrimmed(Text.Strip(p));
    if ',' !in p {
      Text.StripChars(p);
      UpperCommaFree(Text.Strip(p));
    }
  }

  lemma UpperTrimmed(t: string)
    requires t != [] && !Text.IsSpace(t[0]) && !Text.IsSpace(t[|t| - 1])
    ensures IsTrimmedUpper(Text.Upper(t))
  {
    var u := Text.Upper(t);
    UpperCharKeepsClass(t[0]);
    UpperCharKeepsClass(t[|t| - 1]);
    assert u[0] == Text.UpperChar(t[0]) && u[|u| - 1] == Text.UpperChar(t[|t| - 1]);
  }

  lemma UpperCommaFree(t: string)
    requires ',' !in t
    ensures ',' !in Text.Upper(t)
  {
    var u := Text.Upper(t);
    forall i | 0 <= i < |u| ensures u[i] != ',' {
      UpperCharKeepsClass(t[i]);
      assert t[i] in t;
    }
  }

  /** Upper-casing neither creates nor removes whitespace or a comma. */
  lemma UpperCharKeepsClass(c: char)
    ensures Text.IsSpace(Text.UpperChar(c)) <==> Text.IsSpace(c)
    ensures Text.UpperChar(c) == ',' <==> c == ','
  {
  }

  /** `parse_watchlist`: a comma string becomes its non-blank pieces,
   *  trimmed and upper-cased in order; a list passes through. */
  function ParseWatchlist(v: WatchlistInput): (r: seq<string>)
    ensures v.Symbols? ==> r == v.items
    ensures v.CommaSeparated? ==> forall i :: 0 <= i < |r| ==> IsWatchSymbol(r[i])
  {
    match v
    case Symbols(items) => items
    case CommaSeparated(text) =>
      CleanSymbolsCommaFree(Text.Split(text, ','));
      CleanSymbols(Text.Split(text, ','))
  }

  /** Joining symbols with commas and parsing the result gives them back. */
  lemma {:induction false} WatchlistRoundTrip(symbols: seq<string>)
    requires forall i :: 0 <= i < |symbols| ==> IsWatchSymbol(symbols[i])
    ensures ParseWatchlist(CommaSeparated(Text.Join(symbols, ','))) == symbols
  {
    if symbols == [] {
      assert Text.Split("", ',') == [""];
    } else {
      Text.SplitJoin(symbols, ',');
      CleanKeepsWatchSymbols(symbols);
    }
  }

  lemma {:induction false} CleanKeepsWatchSymbols(symbols: seq<string>)
    requires forall i :: 0 <= i < |symbols| ==> IsWatchSymbol(symbols[i])
    ensures CleanSymbols(symbols) == symbols
    decreases |symbols|
  {
    if symbols != [] {
      var s := symbols[0];
      assert Text.Strip(s) == s;
      Text.UpperNoLower(s);
      CleanKeepsWatchSymbols(symbols[1..]);
    }
  }

  // ---------------------------------------------------------------------
  // Model validators
  // ---------------------------------------------------------------------

  /** `validate_trading_parameters`: the first broken rule, if any. */
  function CrossFieldError(value: Limit -> real): (r: Option<string>)
    ensures r.None? <==> value(TargetPercentage) > value(StopLossPercentage)
                         && value(MaxGapPercentage) > value(MinGapPercentage)
    ensures value(TargetPercentage) <= value(StopLossPercentage) ==>
      r == Some("target_percentage must be greater than stop_loss_percentage")
  {
    if value(TargetPercentage) <= value(StopLossPercentage) then
      Some("target_percentage must be greater than stop_loss_percentage")
    else if value(MaxGapPercentage) <= value(MinGapPercentage) then
      Some("max_gap_percentage must be greater than min_gap_percentage")
    else None
  }

  /** The credential settings `validate_required_credentials` reads; a
   *  secret counts as set only when present and non-empty. */
  datatype Credentials = Credentials(
    kiteApiKey: Option<string>,
    kiteApiSecret: Option<string>,
    telegramEnabled: bool,
    telegramBotToken: Option<string>,
    emailEnabled: bool,
    smtpServer: Option<string>,
    emailUsername: Option<string>,
    emailPassword: Option<string>,
    recipientEmail: Option<string>)

  predicate Filled(o: Option<string>)
  {
    o.Some? && o.value != []
  }

  /** What production mode needs: both Kite secrets, a bot token when
   *  Telegram is on, and all four mail settings when email is on. */
  predicate ProductionReady(c: Credentials)
  {
    Filled(c.kiteApiKey) && Filled(c.kiteApiSecret)
    && (c.telegramEnabled ==> Filled(c.telegramBotToken))
    && (c.emailEnabled ==>
          Filled(c.smtpServer) && Filled(c.emailUsername)
          && Filled(c.emailPassword) && Filled(c.recipientEmail))
  }

  /** `validate_required_credentials`: the name of the first missing
   *  setting, checked only outside debug mode (its message is
   *  `CredentialMessage`). */
  function MissingCredential(debug: bool, c: Credentials): (r: Option<string>)
    ensures r.None? <==> debug || ProductionReady(c)
    ensures !debug && !Filled(c.kiteApiKey) ==> r == Some("KITE_API_KEY")
    ensures r.Some? && r.value == "TELEGRAM_BOT_TOKEN" ==> c.telegramEnabled
    ensures r.Some? && r.value == "SMTP_SERVER" ==> c.emailEnabled
  {
    if debug then None
    else if !Filled(c.kiteApiKey) then Some("KITE_API_KEY")
    else if !Filled(c.kiteApiSecret) then Some("KITE_API_SECRET")
    else if c.telegramEnabled && !Filled(c.telegramBotToken) then Some("TELEGRAM_BOT_TOKEN")
    else if c.emailEnabled && !Filled(c.smtpServer) then Some("SMTP_SERVER")
    else if c.emailEnabled && !Filled(c.emailUsername) then Some("EMAIL_USERNAME")
    else if c.emailEnabled && !Filled(c.emailPassword) then Some("EMAIL_PASSWORD")
    else if c.emailEnabled && !Filled(c.recipientEmail) then Some("RECIPIENT_EMAIL")
    else None
  }

  const EmailSettings: seq<string> := ["SMTP_SERVER", "EMAIL_USERNAME", "EMAIL_PASSWORD", "RECIPIENT_EMAIL"]

  /** The text `validate_required_credentials` raises for a missing setting:
   *  the Kite secrets are required in production mode, the bot token when
   *  Telegram is on, the mail settings when email is on. */
  function CredentialMessage(name: string): (m: string)
    ensures name == "KITE_API_KEY" || name == "KITE_API_SECRET" ==> m == name + " is required in production mode"
    ensures name == "TELEGRAM_BOT_TOKEN" ==> m == name + " is required when Telegram is enabled"
    ensures name in EmailSettings ==> m == name + " is required when email is enabled"
  {
    if name == "TELEGRAM_BOT_TOKEN" then name + " is required when Telegram is enabled"
    else if name in EmailSettings then name + " is required when email is enabled"
    else name + " is required in production mode"
  }

  // ---------------------------------------------------------------------
  // The whole settings object
  // ---------------------------------------------------------------------

  /** The settings as loaded, before validation. */
  datatype RawSettings = RawSettings(
    debug: bool,
    secretKey: Option<string>,
    value: Limit -> real,
    logLevel: string,
    sizingMethod: string,
    provider: string,
    watchlist: WatchlistInput,
    credentials: Credentials)

  datatype ConfigError =
    | SecretKeyRequired
    | FieldOutOfBounds(field: Limit)
    | BadLogLevel
    | BadSizingMethod
    | BadProvider
    | ModelRule(message: string)

  /** The validated settings: the log level canonical, the watchlist parsed. */
  datatype Settings = Settings(raw: RawSettings, logLevel: string, watchlist: seq<string>)

  datatype Outcome = Accepted(settings: Settings) | Rejected(errors: seq<ConfigError>)

  /** The errors of the three string-valued field validators. */
  function ChoiceErrors(raw: RawSettings): (r: seq<ConfigError>)
    ensures BadLogLevel in r <==> ValidateLogLevel(raw.logLevel).Failure?
    ensures BadSizingMethod in r <==> raw.sizingMethod !in SizingMethods
    ensures BadProvider in r <==> raw.provider !in DataProviders
    ensures r == [] <==> ValidateLogLevel(raw.logLevel).Ok? && raw.sizingMethod in SizingMethods
                         && raw.provider in DataProviders
    ensures forall l :: FieldOutOfBounds(l) !in r
    ensures SecretKeyRequired !in r
  {
    (if ValidateLogLevel(raw.logLevel).Failure? then [BadLogLevel] else [])
    + (if raw.sizingMethod !in SizingMethods then [BadSizingMethod] else [])
    + (if raw.provider !in DataProviders then [BadProvider] else [])
  }

  /** The bound errors over every constrained field. */
  function AllBoundErrors(value: Limit -> real): (r: seq<ConfigError>)
    ensures forall l :: FieldOutOfBounds(l) in r <==> !InBounds(l, value(l))
    ensures r == [] <==> forall l :: InBounds(l, value(l))
    ensures BadLogLevel !in r && BadSizingMethod !in r && BadProvider !in r && SecretKeyRequired !in r
  {
    var r := BoundErrors(AllLimits, value);
    assert forall l :: FieldOutOfBounds(l) in r <==> !InBounds(l, value(l)) by {
      forall l ensures FieldOutOfBounds(l) in r <==> !InBounds(l, value(l)) {
        var i := LimitIndex(l);
      }
    }
    assert r != [] ==> !InBounds(r[0].field, value(r[0].field)) by {
      if r != [] {
        assert r[0] in r;
      }
    }
    r
  }

  /** Every per-field error, collected together as a validation error does:
   *  the required `secret_key` missing (pydantic's "Field required"), then
   *  the value errors. */
  function FieldErrors(raw: RawSettings): (r: seq<ConfigError>)
    ensures SecretKeyRequired in r <==> raw.secretKey.None?
    ensures forall l :: FieldOutOfBounds(l) in r <==> !InBounds(l, raw.value(l))
    ensures BadLogLevel in r <==> ValidateLogLevel(raw.logLevel).Failure?
    ensures BadSizingMethod in r <==> raw.sizingMethod !in SizingMethods
    ensures BadProvider in r <==> raw.provider !in DataProviders
    ensures r == [] <==> raw.secretKey.Some? && ValueErrors(raw) == []
  {
    var values := ValueErrors(raw);
    if raw.secretKey.Some? then values
    else
      assert forall e :: e in [SecretKeyRequired] + values <==> e == SecretKeyRequired || e in values;
      [SecretKeyRequired] + values
  }

  /** The errors of the bounds and of the three choice validators. */
  function ValueErrors(raw: RawSettings): (r: seq<ConfigError>)
    ensures SecretKeyRequired !in r
    ensures forall l :: FieldOutOfBounds(l) in r <==> !InBounds(l, raw.value(l))
    ensures BadLogLevel in r <==> ValidateLogLevel(raw.logLevel).Failure?
    ensures BadSizingMethod in r <==> raw.sizingMethod !in SizingMethods
    ensures BadProvider in r <==> raw.provider !in DataProviders
    ensures r == [] <==> (forall l :: InBounds(l, raw.value(l))) && ValidateLogLevel(raw.logLevel).Ok?
                         && raw.sizingMethod in SizingMethods && raw.provider in DataProviders
  {
    var bounds := AllBoundErrors(raw.value);
    var choices := ChoiceErrors(raw);
    assert forall e :: e in bounds + choices <==> e in bounds || e in choices;
    bounds + choices
  }

  /** Every rule `TradingConfig` enforces, stated directly: a secret key is
   *  given (an empty one is allowed), every bound and choice holds, the
   *  cross-field rules hold, and outside debug mode the credentials are set. */
  predicate Valid(raw: RawSettings)
  {
    raw.secretKey.Some?
    && (forall l :: InBounds(l, raw.value(l)))
    && Text.Upper(raw.logLevel) in LogLevels
    && raw.sizingMethod in SizingMethods
    && raw.provider in DataProviders
    && raw.value(TargetPercentage) > raw.value(StopLossPercentage)
    && raw.value(MaxGapPercentage) > raw.value(MinGapPercentage)
    && (raw.debug || ProductionReady(raw.credentials))
  }

  /**
   * Constructing `TradingConfig`: field errors are all reported together
   * and stop the model validators; otherwise the cross-field validator runs
   * before the credentials validator, and the first one to raise is the
   * single error.
   */
  function LoadSettings(raw: RawSettings): (r: Outcome)
    ensures r.Accepted? <==> Valid(raw)
    ensures r.Accepted? ==>
      r.settings.raw == raw && r.settings.logLevel == Text.Upper(raw.logLevel)
      && r.settings.watchlist == ParseWatchlist(raw.watchlist)
    ensures r.Rejected? ==> |r.errors| > 0
    ensures FieldErrors(raw) != [] ==> r == Rejected(FieldErrors(raw))
    ensures FieldErrors(raw) == [] ==> r == ModelValidation(raw)
  {
    var fieldErrors := FieldErrors(raw);
    if fieldErrors != [] then
      assert !Valid(raw) by { ValidInStages(raw); }
      Rejected(fieldErrors)
    else
      var r := ModelValidation(raw);
      assert r.Accepted? <==> Valid(raw) by { ValidInStages(raw); }
      r
  }

  /** The two model validators in order: the cross-field rules, then the
   *  credentials; the first to raise gives the single error. */
  function ModelValidation(raw: RawSettings): (r: Outcome)
    ensures r.Accepted? <==> CrossFieldError(raw.value).None? && MissingCredential(raw.debug, raw.credentials).None?
    ensures r.Accepted? ==> r.settings == Settings(raw, Text.Upper(raw.logLevel), ParseWatchlist(raw.watchlist))
    ensures r.Rejected? ==> |r.errors| == 1 && r.errors[0].ModelRule?
    ensures CrossFieldError(raw.value).Some? ==> r == Rejected([ModelRule(CrossFieldError(raw.value).value)])
    ensures CrossFieldError(raw.value).None? && MissingCredential(raw.debug, raw.credentials).Some? ==>
      r == Rejected([ModelRule(CredentialMessage(MissingCredential(raw.debug, raw.credentials).value))])
  {
    var cross := CrossFieldError(raw.value);
    var missing := MissingCredential(raw.debug, raw.credentials);
    if cross.Some? then Rejected([ModelRule(cross.value)])
    else if missing.Some? then Rejected([ModelRule(CredentialMessage(missing.value))])
    else Accepted(Settings(raw, Text.Upper(raw.logLevel), ParseWatchlist(raw.watchlist)))
  }

  /** The rules hold exactly when each stage of the construction passes. */
  lemma ValidInStages(raw: RawSettings)
    ensures Valid(raw) <==> FieldErrors(raw) == [] && CrossFieldError(raw.value).None?
                            && MissingCredential(raw.debug, raw.credentials).None?
  {
  }

  /** Accepted settings keep a target above the stop within (0, 0.5] and a
   *  risk per trade within (0, 0.1]. */
  lemma AcceptedSettingsBounds(raw: RawSettings)
    requires LoadSettings(raw).Accepted?
    ensures 0.0 < raw.value(StopLossPercentage) < raw.value(TargetPercentage) <= 0.5
    ensures 0.0 < raw.value(RiskPerTrade) <= 0.1
    ensures 0.0 < raw.value(MaxOpenPositions) <= 20.0
  {
    ValidBounds(raw);
  }

  lemma ValidBounds(raw: RawSettings)
    requires Valid(raw)
    ensures 0.0 < raw.value(StopLossPercentage) < raw.value(TargetPercentage) <= 0.5
    ensures 0.0 < raw.value(RiskPerTrade) <= 0.1
    ensures 0.0 < raw.value(MaxOpenPositions) <= 20.0
  {
    assert InBounds(TargetPercentage, raw.value(TargetPercentage));
    assert InBounds(StopLossPercentage, raw.value(StopLossPercentage));
    assert InBounds(RiskPerTrade, raw.value(RiskPerTrade));
    assert InBounds(MaxOpenPositions, raw.value(MaxOpenPositions));
  }
}

=== FILE: earnings_scanner.dfy ===
/**
 * The earnings-gap strategy: which stocks that gapped after an earnings
 * announcement become trading signals, how a signal is scored and given
 * its stop-loss and profit target, and the one-signal-per-day cap.
 *
 * Every external answer the scanner waits for (a live price, the previous
 * close, average volume, the earnings surprise, today's date and the clock)
 * is a parameter.
 */
module EarningsScanner {
  import opened Wrappers
  import opened Numeric
  import opened Clock

  datatype SignalType = EarningsGapUp | EarningsGapDown

  /** The enum's string value. */
  function SignalTypeValue(t: SignalType): string
  {
    match t
    case EarningsGapUp => "earnings_gap_up"
    case EarningsGapDown => "earnings_gap_down"
  }

  datatype Confidence = Low | Medium | High | VeryHigh

  function ConfidenceRank(c: Confidence): nat
  {
    match c
    case Low => 0
    case Medium => 1
    case High => 2
    case VeryHigh => 3
  }

  datatype GapType = Up | Down

  datatype Announcement = Announcement(
    symbol: string,
    announcementDate: int,
    surprisePercent: Option<real>)

  datatype GapData = GapData(
    symbol: string,
    previousClose: real,
    currentPrice: real,
    gapPercent: real,
    gapAmount: real,
    gapType: GapType,
    timestamp: int)

  datatype VolumeData = VolumeData(
    symbol: string,
    currentVolume: int,
    averageVolume: real,
    volumeRatio: real,
    isSurge: bool)

  datatype Signal = Signal(
    symbol: string,
    signalType: SignalType,
    confidence: Confidence,
    confidenceScore: int,
    entryPrice: real,
    gapPercent: real,
    volumeRatio: real,
    earningsSurprise: real,
    stopLoss: real,
    profitTarget: real,
    riskRewardRatio: real)

  const VolumeSurgeThreshold: real := 3.0
  const MinConfidenceScore: int := 60
  const MaxSignalsPerDay: nat := 1

  // ---------------------------------------------------------------- gaps

  /**
   * `GapDetector.detect_gap`. The thresholds are fractions that the source
   * multiplies by 100 before comparing them with a gap given in percent.
   * A missing price, a missing or zero previous close, or a gap outside the
   * band yields no gap.
   */
  function DetectGap(symbol: string, price: Option<real>, previousClose: Option<real>,
                     minGap: real, maxGap: real, now: int): (r: Option<GapData>)
    ensures r.Some? <==>
      price.Some? && previousClose.Some? && previousClose.value != 0.0 &&
      minGap * 100.0 <= Abs((price.value - previousClose.value) / previousClose.value * 100.0) <= maxGap * 100.0
    ensures r.Some? ==> r.value.currentPrice == price.value && r.value.previousClose == previousClose.value
    ensures r.Some? ==> (r.value.gapType == Up <==> price.value > previousClose.value)
    ensures r.Some? && previousClose.value > 0.0 ==> (r.value.gapType == Up <==> r.value.gapPercent > 0.0)
    ensures r.Some? ==> r.value.timestamp == now && r.value.symbol == symbol
    ensures r.Some? ==> r.value.gapAmount == price.value - previousClose.value
    ensures r.Some? ==> r.value.gapPercent == (price.value - previousClose.value) / previousClose.value * 100.0
  {
    if price.None? || previousClose.None? || previousClose.value == 0.0 then None
    else
      var prev := previousClose.value;
      var amount := price.value - prev;
      var percent := amount / prev * 100.0;
      if Abs(percent) < minGap * 100.0 || Abs(percent) > maxGap * 100.0 then None
      else
        GapPositiveOverPositive(amount, prev);
        Some(GapData(symbol, prev, price.value, percent, amount,
                     if amount > 0.0 then Up else Down, now))
  }

  lemma GapPositiveOverPositive(amount: real, prev: real)
    requires prev != 0.0
    ensures prev > 0.0 ==> (amount > 0.0 <==> amount / prev * 100.0 > 0.0)
  {
    if prev > 0.0 && amount / prev * 100.0 > 0.0 {
      assert amount == (amount / prev) * prev;
    }
  }

  /**
   * `GapDetector.validate_gap`: the gap must not predate the announcement;
   * a known surprise must point the same way as the gap (a zero surprise
   * counts as "down"); without a surprise the gap must reach the minimum.
   */
  function ValidateGap(gap: GapData, ann: Announcement, minGap: real): (r: bool)
    ensures Day(gap.timestamp) < ann.announcementDate ==> !r
    ensures Day(gap.timestamp) >= ann.announcementDate && ann.surprisePercent.Some? ==>
      (r <==> (gap.gapType == Up <==> ann.surprisePercent.value > 0.0))
    ensures Day(gap.timestamp) >= ann.announcementDate && ann.surprisePercent.None? ==>
      (r <==> Abs(gap.gapPercent) >= minGap * 100.0)
  {
    if Day(gap.timestamp) < ann.announcementDate then false
    else if ann.surprisePercent.Some? then
      var expected := if ann.surprisePercent.value > 0.0 then Up else Down;
      gap.gapType == expected
    else Abs(gap.gapPercent) >= minGap * 100.0
  }

  // -------------------------------------------------------------- volume

  /** `VolumeAnalyzer.analyze_volume`: no data without a live reading or
   *  with a missing or zero average; a surge is three times the average. */
  function AnalyzeVolume(symbol: string, currentVolume: Option<int>, averageVolume: Option<real>): (r: Option<VolumeData>)
    ensures r.Some? <==> currentVolume.Some? && averageVolume.Some? && averageVolume.value != 0.0
    ensures r.Some? ==> r.value.volumeRatio * averageVolume.value == currentVolume.value as real
    ensures r.Some? ==> (r.value.isSurge <==> r.value.volumeRatio >= VolumeSurgeThreshold)
  {
    if currentVolume.None? || averageVolume.None? || averageVolume.value == 0.0 then None
    else
      var ratio := currentVolume.value as real / averageVolume.value;
      Some(VolumeData(symbol, currentVolume.value, averageVolume.value, ratio, ratio >= VolumeSurgeThreshold))
  }

  /** `VolumeAnalyzer.validate_volume_surge`: twice the average suffices for
   *  gaps above 5%, otherwise three times; gaps above 10% need four times. */
  function ValidateVolumeSurge(volume: VolumeData, gap: GapData): (r: bool)
    ensures r ==> volume.volumeRatio >= 2.0
    ensures r && Abs(gap.gapPercent) <= 5.0 ==> volume.volumeRatio >= 3.0
    ensures r && Abs(gap.gapPercent) > 10.0 ==> volume.volumeRatio >= 4.0
    ensures volume.volumeRatio >= 4.0 ==> r
    ensures Abs(gap.gapPercent) > 5.0 && Abs(gap.gapPercent) <= 10.0 ==> (r <==> volume.volumeRatio >= 2.0)
  {
    var minSurge := if Abs(gap.gapPercent) > 5.0 then 2.0 else 3.0;
    if volume.volumeRatio < minSurge then false
    else if Abs(gap.gapPercent) > 10.0 && volume.volumeRatio < 4.0 then false
    else true
  }

  /** A stronger volume ratio never turns an accepted surge into a rejected one. */
  lemma VolumeSurgeMonotone(v1: VolumeData, v2: VolumeData, gap: GapData)
    requires v1.volumeRatio <= v2.volumeRatio
    ensures ValidateVolumeSurge(v1, gap) ==> ValidateVolumeSurge(v2, gap)
  {
  }

  // ------------------------------------------------------------- scoring

  function SurprisePoints(surprise: Option<real>): (p: int)
    ensures 10 <= p <= 40
    ensures surprise.None? ==> p == 15
  {
    if surprise.None? then 15
    else
      var s := Abs(surprise.value);
      if s >= 20.0 then 40 else if s >= 10.0 then 30 else if s >= 5.0 then 20 else 10
  }

  function GapPoints(gapPercent: real): (p: int)
    ensures 10 <= p <= 30
  {
    var g := Abs(gapPercent);
    if g >= 8.0 then 30 else if g >= 5.0 then 25 else if g >= 3.0 then 20 else 10
  }

  function VolumePoints(ratio: real): (p: int)
    ensures 10 <= p <= 30
  {
    if ratio >= 5.0 then 30 else if ratio >= 4.0 then 25 else if ratio >= 3.0 then 20 else 10
  }

  /**
   * `SignalGenerator._calculate_confidence_score`: up to 40 points for the
   * surprise, 30 for the gap and 30 for volume, capped at 100. The cap never
   * bites: the three parts already sum to at most 100.
   */
  function ConfidenceScore(ann: Announcement, gap: GapData, volume: VolumeData): (s: int)
    ensures 30 <= s <= 100
    ensures s == SurprisePoints(ann.surprisePercent) + GapPoints(gap.gapPercent) + VolumePoints(volume.volumeRatio)
  {
    var total := SurprisePoints(ann.surprisePercent) + GapPoints(gap.gapPercent) + VolumePoints(volume.volumeRatio);
    if total < 100 then total else 100
  }

  /** A larger gap, a stronger volume ratio or a larger known surprise never lowers the score. */
  lemma ConfidenceScoreMonotone(a1: Announcement, g1: GapData, v1: VolumeData,
                                a2: Announcement, g2: GapData, v2: VolumeData)
    requires a1.surprisePercent.Some? == a2.surprisePercent.Some?
    requires a1.surprisePercent.Some? ==> Abs(a1.surprisePercent.value) <= Abs(a2.surprisePercent.value)
    requires Abs(g1.gapPercent) <= Abs(g2.gapPercent)
    requires v1.volumeRatio <= v2.volumeRatio
    ensures ConfidenceScore(a1, g1, v1) <= ConfidenceScore(a2, g2, v2)
  {
  }

  /** `SignalGenerator._get_confidence_level`. */
  function ConfidenceLevel(score: int): (c: Confidence)
    ensures c == VeryHigh <==> score >= 85
    ensures c == Low <==> score < 65
  {
    if score >= 85 then VeryHigh
    else if score >= 75 then High
    else if score >= 65 then Medium
    else Low
  }

  /** A higher score never maps to a lower confidence level. */
  lemma ConfidenceLevelMonotone(s1: int, s2: int)
    requires s1 <= s2
    ensures ConfidenceRank(ConfidenceLevel(s1)) <= ConfidenceRank(ConfidenceLevel(s2))
  {
  }

  datatype RiskLevels = RiskLevels(stopLoss: real, profitTarget: real)

  /**
   * `SignalGenerator._calculate_risk_levels`: a 3% stop and 8% target for
   * gaps up, 2% and 6% for gaps down; very confident signals (score at least
   * 85) get 1.5 times the target, weak ones (below 65) a stop 0.8 times as
   * wide. The stop lies on the losing side of the price and the target on the
   * winning side, and the target is always at least 8/3 and at most 4.5
   * times as far from the price as the stop.
   */
  function CalculateRiskLevels(price: real, gapType: GapType, score: int): (r: RiskLevels)
    ensures price > 0.0 && gapType == Up ==> r.stopLoss < price < r.profitTarget
    ensures price > 0.0 && gapType == Down ==> r.profitTarget < price < r.stopLoss
    ensures 3.0 * Abs(r.profitTarget - price) >= 8.0 * Abs(price - r.stopLoss)
    ensures Abs(r.profitTarget - price) <= 4.5 * Abs(price - r.stopLoss)
    ensures Abs(price - r.stopLoss) == 0.0 <==> price == 0.0
  {
    var stopPct := if gapType == Up then 0.03 else 0.02;
    var targetPct := if gapType == Up then 0.08 else 0.06;
    var targetPct' := if score >= 85 then targetPct * 1.5 else targetPct;
    var stopPct' := if score >= 85 then stopPct else if score < 65 then stopPct * 0.8 else stopPct;
    var r := if gapType == Up then RiskLevels(price * (1.0 - stopPct'), price * (1.0 + targetPct'))
             else RiskLevels(price * (1.0 + stopPct'), price * (1.0 - targetPct'));
    RiskDistances(price, stopPct', targetPct', gapType == Up, r);
    r
  }

  lemma RiskDistances(price: real, s: real, t: real, up: bool, r: RiskLevels)
    requires 0.0 < s && 8.0 * s <= 3.0 * t && t <= 4.5 * s
    requires up ==> r == RiskLevels(price * (1.0 - s), price * (1.0 + t))
    requires !up ==> r == RiskLevels(price * (1.0 + s), price * (1.0 - t))
    ensures 3.0 * Abs(r.profitTarget - price) >= 8.0 * Abs(price - r.stopLoss)
    ensures Abs(r.profitTarget - price) <= 4.5 * Abs(price - r.stopLoss)
    ensures Abs(price - r.stopLoss) == 0.0 <==> price == 0.0
  {
    RiskDistancesScale(price, s, t, up, r);
    ScaledDistances(Abs(price), s, t, Abs(r.profitTarget - price), Abs(price - r.stopLoss));
  }

  /** The stop and target distances are the price's size times the two fractions. */
  lemma RiskDistancesScale(price: real, s: real, t: real, up: bool, r: RiskLevels)
    requires 0.0 < s && 0.0 < t
    requires up ==> r == RiskLevels(price * (1.0 - s), price * (1.0 + t))
    requires !up ==> r == RiskLevels(price * (1.0 + s), price * (1.0 - t))
    ensures Abs(r.profitTarget - price) == Abs(price) * t
    ensures Abs(price - r.stopLoss) == Abs(price) * s
  {
    AbsScale(price, t);
    AbsScale(price, s);
    if up {
      assert r.profitTarget - price == price * t;
      assert price - r.stopLoss == price * s;
    } else {
      assert r.profitTarget - price == -(price * t);
      assert price - r.stopLoss == -(price * s);
    }
  }

  lemma AbsScale(x: real, k: real)
    requires k > 0.0
    ensures Abs(x * k) == Abs(-(x * k)) == Abs(x) * k
  {
  }

  /** Distances `dt` and `ds` that are `a` times `t` and `s` keep the fractions' ratio bounds. */
  lemma ScaledDistances(a: real, s: real, t: real, dt: real, ds: real)
    requires a >= 0.0 && 0.0 < s && 8.0 * s <= 3.0 * t && t <= 4.5 * s
    requires dt == a * t && ds == a * s
    ensures 3.0 * dt >= 8.0 * ds
    ensures dt <= 4.5 * ds
    ensures ds == 0.0 <==> a == 0.0
  {
    MulMonotone(a, 8.0 * s, 3.0 * t);
    MulMonotone(a, t, 4.5 * s);
  }

  lemma MulMonotone(a: real, x: real, y: real)
    requires a >= 0.0 && x <= y
    ensures a * x <= a * y
  {
  }

  /**
   * `SignalGenerator.generate_signal`. No signal below a score of 60; a zero
   * price makes the risk-reward division fail, which the source catches and
   * turns into no signal.
   */
  function GenerateSignal(ann: Announcement, gap: GapData, volume: VolumeData, price: real): (r: Option<Signal>)
    ensures r.Some? <==> ConfidenceScore(ann, gap, volume) >= MinConfidenceScore && price != 0.0
    ensures r.Some? ==> r.value.confidenceScore >= MinConfidenceScore
    ensures r.Some? ==> (r.value.signalType == EarningsGapUp <==> gap.gapType == Up)
    ensures r.Some? ==> r.value.entryPrice == price && r.value.symbol == gap.symbol
    ensures r.Some? ==> r.value.confidence == ConfidenceLevel(r.value.confidenceScore)
    ensures r.Some? ==> r.value.earningsSurprise == ann.surprisePercent.GetOr(0.0)
    ensures r.Some? ==> 3.0 * r.value.riskRewardRatio >= 8.0 && r.value.riskRewardRatio <= 4.5
    ensures r.Some? && price > 0.0 && gap.gapType == Up ==> r.value.stopLoss < price < r.value.profitTarget
    ensures r.Some? && price > 0.0 && gap.gapType == Down ==> r.value.profitTarget < price < r.value.stopLoss
    ensures r.Some? ==> r.value.confidenceScore == ConfidenceScore(ann, gap, volume)
    ensures r.Some? ==>
      var levels := CalculateRiskLevels(price, gap.gapType, r.value.confidenceScore);
      r.value.stopLoss == levels.stopLoss && r.value.profitTarget == levels.profitTarget
    ensures r.Some? ==> r.value.gapPercent == gap.gapPercent && r.value.volumeRatio == volume.volumeRatio
  {
    var score := ConfidenceScore(ann, gap, volume);
    if score < MinConfidenceScore then None
    else
      var levels := CalculateRiskLevels(price, gap.gapType, score);
      var risk := Abs(price - levels.stopLoss);
      if risk == 0.0 then None
      else
        var rr := Abs(levels.profitTarget - price) / risk;
        RatioBounds(Abs(levels.profitTarget - price), risk);
        Some(Signal(gap.symbol, if gap.gapType == Up then EarningsGapUp else EarningsGapDown,
                    ConfidenceLevel(score), score, price, gap.gapPercent, volume.volumeRatio,
                    ann.surprisePercent.GetOr(0.0), levels.stopLoss, levels.profitTarget, rr))
  }

  lemma RatioBounds(reward: real, risk: real)
    requires risk > 0.0 && 3.0 * reward >= 8.0 * risk && reward <= 4.5 * risk
    ensures 3.0 * (reward / risk) >= 8.0 && reward / risk <= 4.5
  {
    assert reward == (reward / risk) * risk;
  }

  // ------------------------------------------------------- entry criteria

  /**
   * `EarningsGapScanner._check_entry_criteria`: a surprise of at least 5%
   * (or, when none is known, a gap of at least 4%), a gap of at least 2%,
   * volume at least three times normal, the gap on the announcement day or
   * the day after, and the clock between 09:15 and 15:00 inclusive.
   */
  function CheckEntryCriteria(ann: Announcement, gap: GapData, volume: VolumeData, now: int): (r: bool)
    ensures r ==> Abs(gap.gapPercent) >= 2.0 && volume.volumeRatio >= 3.0
    ensures r ==> (ann.surprisePercent.Some? ==> Abs(ann.surprisePercent.value) >= 5.0)
    ensures r ==> (ann.surprisePercent.None? ==> Abs(gap.gapPercent) >= 4.0)
    ensures r ==> ann.announcementDate <= Day(gap.timestamp) <= ann.announcementDate + 1
    ensures r ==> HM(9, 15) <= TimeOfDay(now) <= HM(15, 0)
    ensures (Abs(gap.gapPercent) >= 2.0 && volume.volumeRatio >= 3.0
             && (ann.surprisePercent.Some? ==> Abs(ann.surprisePercent.value) >= 5.0)
             && (ann.surprisePercent.None? ==> Abs(gap.gapPercent) >= 4.0)
             && ann.announcementDate <= Day(gap.timestamp) <= ann.announcementDate + 1
             && HM(9, 15) <= TimeOfDay(now) <= HM(15, 0)) ==> r
  {
    if ann.surprisePercent.Some? && Abs(ann.surprisePercent.value) < 5.0 then false
    else if ann.surprisePercent.None? && Abs(gap.gapPercent) < 4.0 then false
    else if Abs(gap.gapPercent) < 2.0 then false
    else if volume.volumeRatio < 3.0 then false
    else if Day(gap.timestamp) < ann.announcementDate || Day(gap.timestamp) > ann.announcementDate + 1 then false
    else HM(9, 15) <= TimeOfDay(now) <= HM(15, 0)
  }

  /** What the market tells the scanner about one symbol. */
  datatype MarketSnapshot = MarketSnapshot(
    price: Option<real>,
    previousClose: Option<real>,
    currentVolume: Option<int>,
    averageVolume: Option<real>)

  /** The announcement with the fetched surprise filled in when none was known. */
  function Surprised(ann: Announcement, fetchedSurprise: Option<real>): Announcement
  {
    if ann.surprisePercent.None? then ann.(surprisePercent := fetchedSurprise) else ann
  }

  /**
   * Every gate of `_analyze_earnings_announcement` before the signal is
   * generated: a gap is detected and validated, the volume surges and fits
   * the gap, and the entry criteria hold for the surprise-filled
   * announcement.
   */
  predicate GatesPass(ann: Announcement, market: MarketSnapshot, fetchedSurprise: Option<real>,
                      minGap: real, maxGap: real, now: int)
  {
    var gapOpt := DetectGap(ann.symbol, market.price, market.previousClose, minGap, maxGap, now);
    var volOpt := AnalyzeVolume(ann.symbol, market.currentVolume, market.averageVolume);
    && gapOpt.Some?
    && ValidateGap(gapOpt.value, ann, minGap)
    && volOpt.Some? && volOpt.value.isSurge
    && ValidateVolumeSurge(volOpt.value, gapOpt.value)
    && CheckEntryCriteria(Surprised(ann, fetchedSurprise), gapOpt.value, volOpt.value, now)
  }

  /**
   * `EarningsGapScanner._analyze_earnings_announcement`: detect the gap,
   * check it against the announcement, require a volume surge that fits the
   * gap, fetch the surprise when it was not known (`fetchedSurprise`), check
   * the entry criteria and generate the signal at the gap's price. A signal
   * comes out only when every gate passed.
   */
  function AnalyzeAnnouncement(ann: Announcement, market: MarketSnapshot, fetchedSurprise: Option<real>,
                               minGap: real, maxGap: real, now: int): (r: Option<Signal>)
    ensures r.Some? ==> market.price.Some? && r.value.entryPrice == market.price.value
    ensures r.Some? ==> market.previousClose.Some? && market.previousClose.value != 0.0
    ensures r.Some? ==>
      var g := (market.price.value - market.previousClose.value) / market.previousClose.value * 100.0;
      minGap * 100.0 <= Abs(g) <= maxGap * 100.0 && Abs(g) >= 2.0 && r.value.gapPercent == g
    ensures r.Some? ==> r.value.volumeRatio >= VolumeSurgeThreshold
    ensures r.Some? ==> (r.value.signalType == EarningsGapUp <==> market.price.value > market.previousClose.value)
    ensures r.Some? && ann.surprisePercent.Some? ==>
      (r.value.signalType == EarningsGapUp <==> ann.surprisePercent.value > 0.0)
    ensures r.Some? ==> ann.announcementDate <= Day(now) <= ann.announcementDate + 1
    ensures r.Some? ==> HM(9, 15) <= TimeOfDay(now) <= HM(15, 0)
    ensures r.Some? ==> r.value.confidenceScore >= MinConfidenceScore
    ensures r.Some? ==> GatesPass(ann, market, fetchedSurprise, minGap, maxGap, now)
    ensures GatesPass(ann, market, fetchedSurprise, minGap, maxGap, now) ==>
      var gap := DetectGap(ann.symbol, market.price, market.previousClose, minGap, maxGap, now).value;
      var vol := AnalyzeVolume(ann.symbol, market.currentVolume, market.averageVolume).value;
      r == GenerateSignal(Surprised(ann, fetchedSurprise), gap, vol, gap.currentPrice)
  {
    var gapOpt := DetectGap(ann.symbol, market.price, market.previousClose, minGap, maxGap, now);
    if gapOpt.None? then None
    else
      var gap := gapOpt.value;
      if !ValidateGap(gap, ann, minGap) then None
      else
        var volOpt := AnalyzeVolume(ann.symbol, market.currentVolume, market.averageVolume);
        if volOpt.None? || !volOpt.value.isSurge then None
        else if !ValidateVolumeSurge(volOpt.value, gap) then None
        else
          var ann' := Surprised(ann, fetchedSurprise);
          if !CheckEntryCriteria(ann', gap, volOpt.value, now) then None
          else GenerateSignal(ann', gap, volOpt.value, gap.currentPrice)
  }

  /**
   * The direction check against the surprise happens only for a surprise
   * known before the gap is validated: a surprise fetched afterwards is
   * checked for size but not for sign, so a gap up can be signalled after
   * an earnings miss.
   */
  lemma FetchedSurpriseSignIsNotChecked()
    ensures
      var ann := Announcement("TCS", 0, None);
      var market := MarketSnapshot(Some(105.0), Some(100.0), Some(500), Some(100.0));
      var r := AnalyzeAnnouncement(ann, market, Some(-25.0), 0.02, 0.15, HM(10, 0));
      r.Some? && r.value.signalType == EarningsGapUp && r.value.earningsSurprise == -25.0
  {
    var ann := Announcement("TCS", 0, None);
    var gap := DetectGap("TCS", Some(105.0), Some(100.0), 0.02, 0.15, HM(10, 0));
    assert gap.Some? && gap.value.gapPercent == 5.0;
    assert Day(HM(10, 0)) == 0;
  }

  // ---------------------------------------------------------- deduplication

  function Key(a: Announcement): (string, int)
  {
    (a.symbol, a.announcementDate)
  }

  function KeysOf(s: seq<Announcement>): set<(string, int)>
  {
    set i | 0 <= i < |s| :: Key(s[i])
  }

  /**
   * `EarningsDataCollector._deduplicate_announcements`: keeps, in order, the
   * first announcement for each (symbol, date). `kept` lists the positions
   * of the survivors in the input: they increase, each is the first
   * position of its key, every key of the input survives, and no key
   * survives twice.
   */
  method Deduplicate(announcements: seq<Announcement>) returns (unique: seq<Announcement>, ghost kept: seq<nat>)
    ensures |kept| == |unique|
    ensures forall k :: 0 <= k < |kept| ==> kept[k] < |announcements| && unique[k] == announcements[kept[k]]
    ensures forall k, l :: 0 <= k < l < |kept| ==> kept[k] < kept[l]
    ensures forall k, j :: 0 <= k < |kept| && 0 <= j < kept[k] ==> Key(announcements[j]) != Key(unique[k])
    ensures forall k, l :: 0 <= k < l < |unique| ==> Key(unique[k]) != Key(unique[l])
    ensures KeysOf(unique) == KeysOf(announcements)
  {
    var seen: set<(string, int)> := {};
    unique := [];
    kept := [];
    var i := 0;
    while i < |announcements|
      invariant 0 <= i <= |announcements|
      invariant seen == KeysOf(announcements[..i]) == KeysOf(unique)
      invariant |kept| == |unique|
      invariant forall k :: 0 <= k < |kept| ==> kept[k] < i && unique[k] == announcements[kept[k]]
      invariant forall k, l :: 0 <= k < l < |kept| ==> kept[k] < kept[l]
      invariant forall k, j :: 0 <= k < |kept| && 0 <= j < kept[k] ==> Key(announcements[j]) != Key(unique[k])
      invariant forall k, l :: 0 <= k < l < |unique| ==> Key(unique[k]) != Key(unique[l])
    {
      var a := announcements[i];
      assert announcements[..i + 1] == announcements[..i] + [a];
      KeysOfSnoc(announcements[..i], a);
      if Key(a) !in seen {
        KeysOfSnoc(unique, a);
        forall j | 0 <= j < i ensures Key(announcements[j]) != Key(a) {
          assert Key(announcements[j]) in KeysOf(announcements[..i]) by {
            assert announcements[..i][j] == announcements[j];
          }
        }
        forall k | 0 <= k < |unique| ensures Key(unique[k]) != Key(a) {
          assert Key(unique[k]) in KeysOf(unique);
        }
        seen := seen + {Key(a)};
        unique := unique + [a];
        kept := kept + [i];
      }
      i := i + 1;
    }
    assert announcements[..i] == announcements;
  }

  lemma KeysOfSnoc(s: seq<Announcement>, a: Announcement)
    ensures KeysOf(s + [a]) == KeysOf(s) + {Key(a)}
  {
    var t := s + [a];
    forall x | x in KeysOf(t) ensures x in KeysOf(s) + {Key(a)} {
      var i :| 0 <= i < |t| && Key(t[i]) == x;
      if i < |s| { assert t[i] == s[i]; }
    }
    forall x | x in KeysOf(s) ensures x in KeysOf(t) {
      var i :| 0 <= i < |s| && Key(s[i]) == x;
      assert t[i] == s[i];
    }
    assert t[|s|] == a;
  }

  // ------------------------------------------------------- the daily cap

  datatype ScannerState = ScannerState(dailySignalCount: nat, lastSignalDate: Option<int>)

  /** `EarningsGapScanner._reset_daily_counters`. */
  function ResetDailyCounters(today: int): (s: ScannerState)
    ensures s.dailySignalCount == 0 && s.lastSignalDate == Some(today)
  {
    ScannerState(0, Some(today))
  }

  /**
   * `EarningsGapScanner._is_daily_limit_reached`: on a new day the count
   * starts again from zero; the limit is reached once the day's count is at
   * the maximum.
   */
  function IsDailyLimitReached(st: ScannerState, today: int): (r: (bool, ScannerState))
    ensures r.1.lastSignalDate == Some(today)
    ensures st.lastSignalDate == Some(today) ==> r.1 == st
    ensures st.lastSignalDate != Some(today) ==> r.1.dailySignalCount == 0 && !r.0
    ensures r.0 <==> r.1.dailySignalCount >= MaxSignalsPerDay
  {
    var st' := if st.lastSignalDate != Some(today) then ResetDailyCounters(today) else st;
    (st'.dailySignalCount >= MaxSignalsPerDay, st')
  }

  /** The signals among the analysis results, in order. */
  function Somes(rs: seq<Option<Signal>>): seq<Signal>
  {
    if |rs| == 0 then []
    else Somes(rs[..|rs| - 1]) + (if rs[|rs| - 1].Some? then [rs[|rs| - 1].value] else [])
  }

  lemma {:induction false} SomesPrefix(rs: seq<Option<Signal>>, i: nat)
    requires i <= |rs|
    ensures |Somes(rs[..i])| <= |Somes(rs)| && Somes(rs[..i]) == Somes(rs)[..|Somes(rs[..i])|]
    decreases |rs| - i
  {
    if i < |rs| {
      SomesPrefix(rs, i + 1);
      assert rs[..i + 1][..i] == rs[..i];
    } else {
      assert rs[..i] == rs;
    }
  }

  /**
   * The analysis loop of `EarningsGapScanner.scan_for_signals`: collect the
   * signals in order and stop as soon as the daily maximum is collected.
   * The result is the first `MaxSignalsPerDay` signals (or all of them).
   */
  method CollectSignals(analyses: seq<Option<Signal>>) returns (signals: seq<Signal>)
    ensures |signals| <= MaxSignalsPerDay
    ensures |signals| == if |Somes(analyses)| < MaxSignalsPerDay then |Somes(analyses)| else MaxSignalsPerDay
    ensures signals == Somes(analyses)[..|signals|]
  {
    signals := [];
    var i := 0;
    while i < |analyses|
      invariant 0 <= i <= |analyses|
      invariant signals == Somes(analyses[..i])
      invariant |signals| < MaxSignalsPerDay
    {
      assert analyses[..i + 1][..i] == analyses[..i];
      if analyses[i].Some? {
        signals := signals + [analyses[i].value];
        if |signals| >= MaxSignalsPerDay {
          SomesPrefix(analyses, i + 1);
          return;
        }
      }
      i := i + 1;
    }
    assert analyses[..i] == analyses;
  }

  /**
   * `EarningsGapScanner.scan_for_signals`: nothing once the daily limit is
   * reached, while the market is closed, or without announcements;
   * otherwise the collected signals, added to the day's count.
   */
  method ScanForSignals(st: ScannerState, today: int, marketOpen: bool, analyses: seq<Option<Signal>>)
    returns (signals: seq<Signal>, st': ScannerState)
    ensures IsDailyLimitReached(st, today).0 || !marketOpen ==> signals == []
    ensures st'.lastSignalDate == Some(today)
    ensures st'.dailySignalCount == IsDailyLimitReached(st, today).1.dailySignalCount + |signals|
    ensures |signals| <= |Somes(analyses)| && signals == Somes(analyses)[..|signals|]
    ensures st.dailySignalCount <= MaxSignalsPerDay ==> st'.dailySignalCount <= MaxSignalsPerDay
    ensures !IsDailyLimitReached(st, today).0 && marketOpen && |Somes(analyses)| > 0 ==> |signals| == MaxSignalsPerDay
  {
    var (reached, st1) := IsDailyLimitReached(st, today);
    if reached || !marketOpen || |analyses| == 0 {
      return [], st1;
    }
    signals := CollectSignals(analyses);
    st' := st1.(dailySignalCount := st1.dailySignalCount + |signals|);
  }
}

=== FILE: encryption.dfy ===
/**
 * The string-level part of `utils/encryption.py`: masking a secret for
 * display, constant-time equality, and the credential maps whose string
 * values are passed through a cipher. The cipher itself (Fernet behind
 * base64) is a pair of function parameters: `enc` never fails and `dec`
 * answers `None` where `decrypt_data` raises `ValueError`.
 */
module Encryption {
  import opened Wrappers
  import Text

  // ---------------------------------------------------------------------
  // mask_sensitive_data
  // ---------------------------------------------------------------------

  /** `'*' * n`; a negative count gives the empty string. */
  function Stars(n: int): (r: string)
    ensures |r| == if n < 0 then 0 else n
    ensures forall i :: 0 <= i < |r| ==> r[i] == '*'
    decreases if n < 0 then 0 else n
  {
    if n <= 0 then [] else Stars(n - 1) + ['*']
  }

  /**
   * `mask_sensitive_data(data, show_chars)` as written: a string no longer
   * than twice `show` becomes all stars; otherwise the first `show` and the
   * last `show` characters stay, read with Python's slices `data[:show]`
   * and `data[-show:]`.
   */
  function MaskSensitiveData(data: string, show: int): (r: string)
    ensures data == [] ==> r == []
    ensures |data| <= 2 * show ==> r == Stars(|data|)
    ensures show > 0 ==> |r| == |data|
    ensures show > 0 && |data| > 2 * show ==>
      (r[..show] == data[..show] && r[|data| - show..] == data[|data| - show..]
       && forall i :: show <= i < |data| - show ==> r[i] == '*')
  {
    if data == [] || |data| <= show * 2 then Stars(|data|)
    else Text.PySliceTo(data, show) + Stars(|data| - show * 2) + Text.PySliceFrom(data, -show)
  }

  /**
   * With `show_chars=0` the tail slice `data[-0:]` is the whole string, so
   * the secret is appended in clear after the stars; any `show <= 0` makes
   * the output longer than the input.
   */
  lemma MaskWithoutShownCharsLeaks(data: string, show: int)
    requires data != [] && show <= 0
    ensures |MaskSensitiveData(data, show)| > |data|
    ensures show == 0 ==> MaskSensitiveData(data, show) == Stars(|data|) + data
  {
  }

  /** The same leak on one concrete secret. */
  lemma MaskZeroExample()
    ensures MaskSensitiveData("secret", 0) == "******secret"
  {
    MaskWithoutShownCharsLeaks("secret", 0);
    var stars := Stars(6);
    assert forall i :: 0 <= i < 6 ==> stars[i] == "******"[i];
    assert stars == "******";
  }

  /**
   * The masking the function's documentation describes: `show` characters
   * at each end stay visible, none when `show` is not positive, and the
   * length never changes.
   */
  function MaskShowing(data: string, show: int): (r: string)
    ensures |r| == |data|
    ensures forall i :: 0 <= i < |r| ==> r[i] == '*' || r[i] == data[i]
    ensures show <= 0 || |data| <= 2 * show ==> r == Stars(|data|)
    ensures show > 0 && |data| > 2 * show ==>
      (r[..show] == data[..show] && r[|data| - show..] == data[|data| - show..]
       && forall i :: show <= i < |data| - show ==> r[i] == '*')
  {
    if show <= 0 || |data| <= 2 * show then Stars(|data|)
    else data[..show] + Stars(|data| - 2 * show) + data[|data| - show..]
  }

  /** For every positive `show` the two definitions agree. */
  lemma MaskShowingAgrees(data: string, show: int)
    requires show > 0
    ensures MaskShowing(data, show) == MaskSensitiveData(data, show)
  {
  }

  // ---------------------------------------------------------------------
  // secure_compare
  // ---------------------------------------------------------------------

  /** Python's `^` on non-negative integers, one bit at a time. */
  function BitXor(a: nat, b: nat): nat
    decreases a + b
  {
    if a == 0 && b == 0 then 0
    else 2 * BitXor(a / 2, b / 2) + (if a % 2 == b % 2 then 0 else 1)
  }

  /** Python's `|` on non-negative integers, one bit at a time. */
  function BitOr(a: nat, b: nat): nat
    decreases a + b
  {
    if a == 0 && b == 0 then 0
    else 2 * BitOr(a / 2, b / 2) + (if a % 2 == 0 && b % 2 == 0 then 0 else 1)
  }

  lemma {:induction false} XorZeroIffEqual(a: nat, b: nat)
    ensures BitXor(a, b) == 0 <==> a == b
    decreases a + b
  {
    if a != 0 || b != 0 {
      XorZeroIffEqual(a / 2, b / 2);
    }
  }

  lemma {:induction false} OrZeroIffBothZero(a: nat, b: nat)
    ensures BitOr(a, b) == 0 <==> a == 0 && b == 0
    decreases a + b
  {
    if a != 0 || b != 0 {
      OrZeroIffBothZero(a / 2, b / 2);
    }
  }

  /**
   * `secure_compare`: unequal lengths answer at once; otherwise
   * `ord(x) ^ ord(y)` of every character pair is OR-ed into one
   * accumulator, which is zero at the end exactly when the strings are equal.
   */
  method SecureCompare(a: string, b: string) returns (equal: bool)
    ensures equal <==> a == b
  {
    if |a| != |b| {
      return false;
    }
    var acc: nat := 0;
    var i := 0;
    while i < |a|
      invariant 0 <= i <= |a|
      invariant acc == 0 <==> a[..i] == b[..i]
    {
      var x := BitXor(a[i] as int, b[i] as int);
      XorZeroIffEqual(a[i] as int, b[i] as int);
      OrZeroIffBothZero(acc, x);
      assert a[..i + 1] == a[..i] + [a[i]] && b[..i + 1] == b[..i] + [b[i]];
      acc := BitOr(acc, x);
      i := i + 1;
    }
    assert a[..i] == a && b[..i] == b;
    return acc == 0;
  }

  // ---------------------------------------------------------------------
  // encrypt_credentials / decrypt_credentials
  // ---------------------------------------------------------------------

  /**
   * A value in a credentials or configuration dictionary. Anything other
   * than a `str` (None, numbers, booleans, lists) is kept only by its
   * truthiness, the one property the modelled code looks at.
   */
  datatype Value = Str(s: string) | Other(truthy: bool)

  predicate Truthy(v: Value)
  {
    match v
    case Str(s) => s != []
    case Other(t) => t
  }

  /** `value and isinstance(value, str)`: the values that get encrypted. */
  predicate IsSecretText(v: Value)
  {
    v.Str? && v.s != []
  }

  /** The cipher laws the round trips rest on: a token is never empty, and
   *  decrypting it gives the plaintext back. */
  ghost predicate CipherRoundTrips(enc: string -> string, dec: string -> Option<string>)
  {
    forall p :: enc(p) != [] && dec(enc(p)) == Some(p)
  }

  function EncryptValue(v: Value, enc: string -> string): Value
  {
    if IsSecretText(v) then Str(enc(v.s)) else v
  }

  function DecryptValue(v: Value, dec: string -> Option<string>): Value
  {
    if IsSecretText(v) && dec(v.s).Some? then Str(dec(v.s).value) else v
  }

  /** `encrypt_credentials`. */
  function EncryptCredentials(creds: map<string, Value>, enc: string -> string): (r: map<string, Value>)
    ensures r.Keys == creds.Keys
    ensures forall k :: k in creds && !IsSecretText(creds[k]) ==> r[k] == creds[k]
    ensures forall k :: k in creds && IsSecretText(creds[k]) ==> r[k] == Str(enc(creds[k].s))
  {
    map k | k in creds :: EncryptValue(creds[k], enc)
  }

  /** `decrypt_credentials`: a value that fails to decrypt is kept as it is. */
  function DecryptCredentials(creds: map<string, Value>, dec: string -> Option<string>): (r: map<string, Value>)
    ensures r.Keys == creds.Keys
    ensures forall k :: k in creds && !IsSecretText(creds[k]) ==> r[k] == creds[k]
    ensures forall k :: k in creds && IsSecretText(creds[k]) && dec(creds[k].s).None? ==> r[k] == creds[k]
    ensures forall k :: k in creds && IsSecretText(creds[k]) && dec(creds[k].s).Some? ==>
      r[k] == Str(dec(creds[k].s).value)
  {
    map k | k in creds :: DecryptValue(creds[k], dec)
  }

  /** Decrypting what `encrypt_credentials` produced restores every value. */
  lemma CredentialsRoundTrip(creds: map<string, Value>, enc: string -> string, dec: string -> Option<string>)
    requires CipherRoundTrips(enc, dec)
    ensures DecryptCredentials(EncryptCredentials(creds, enc), dec) == creds
  {
    var e := EncryptCredentials(creds, enc);
    var d := DecryptCredentials(e, dec);
    forall k | k in creds
      ensures d[k] == creds[k]
    {
      if IsSecretText(creds[k]) {
        assert e[k] == Str(enc(creds[k].s));
        assert enc(creds[k].s) != [] && dec(enc(creds[k].s)) == Some(creds[k].s);
      }
    }
  }

  // ---------------------------------------------------------------------
  // EncryptedConfig.encrypt_config / decrypt_config
  // ---------------------------------------------------------------------

  /** The keys `EncryptedConfig` treats as secrets, in its order. */
  const SensitiveFields: seq<string> :=
    ["kite_api_key", "kite_api_secret", "kite_access_token",
     "telegram_bot_token", "email_password", "webhook_secret"]

  predicate Distinct(xs: seq<string>)
  {
    forall i, j :: 0 <= i < j < |xs| ==> xs[i] != xs[j]
  }

  lemma SensitiveFieldsDistinct()
    ensures Distinct(SensitiveFields)
  {
  }

  /**
   * What `encrypt_config` does to one present, truthy field: a string is
   * encrypted; any other truthy value makes `encrypt_data` raise, and the
   * error leaves `encrypt_config`.
   */
  function EncryptField(v: Value, enc: string -> string): Result<Value>
  {
    match v
    case Str(s) => Ok(Str(enc(s)))
    case Other(_) => Failure("Encryption failed")
  }

  /** The field loop of `encrypt_config`, over the fields still to visit. */
  function EncryptFields(cfg: map<string, Value>, fields: seq<string>, enc: string -> string): (r: Result<map<string, Value>>)
    requires Distinct(fields)
    ensures r.Failure? <==> exists i :: 0 <= i < |fields| && fields[i] in cfg && cfg[fields[i]] == Other(true)
    ensures r.Ok? ==> r.value.Keys == cfg.Keys
    ensures r.Ok? ==> forall k :: k in cfg && k !in fields ==> r.value[k] == cfg[k]
    ensures r.Ok? ==> forall k :: k in cfg && k in fields ==>
      r.value[k] == (if Truthy(cfg[k]) then Str(enc(cfg[k].s)) else cfg[k])
    decreases |fields|
  {
    if fields == [] then Ok(cfg)
    else
      var f := fields[0];
      assert forall i :: 1 <= i < |fields| ==> fields[i] != f;
      if f in cfg && Truthy(cfg[f]) then
        match EncryptField(cfg[f], enc)
        case Failure(e) => Failure(e)
        case Ok(v) => EncryptFields(cfg[f := v], fields[1..], enc)
      else EncryptFields(cfg, fields[1..], enc)
  }

  /**
   * `EncryptedConfig.encrypt_config`: only the six sensitive keys can
   * change, and only when present and truthy; a truthy non-string secret
   * makes the whole call fail.
   */
  function EncryptConfig(cfg: map<string, Value>, enc: string -> string): (r: Result<map<string, Value>>)
    ensures r.Failure? <==> exists f :: f in SensitiveFields && f in cfg && cfg[f] == Other(true)
    ensures r.Ok? ==> r.value.Keys == cfg.Keys
    ensures r.Ok? ==> forall k :: k in cfg && k !in SensitiveFields ==> r.value[k] == cfg[k]
    ensures r.Ok? ==> forall k :: k in cfg && k in SensitiveFields && !Truthy(cfg[k]) ==> r.value[k] == cfg[k]
    ensures r.Ok? ==> forall k :: k in cfg && k in SensitiveFields && Truthy(cfg[k]) ==>
      cfg[k].Str? && r.value[k] == Str(enc(cfg[k].s))
  {
    SensitiveFieldsDistinct();
    EncryptFields(cfg, SensitiveFields, enc)
  }

  /** The field loop of `decrypt_config`: a field that fails to decrypt, or
   *  is not a string at all, is passed over. */
  function DecryptFields(cfg: map<string, Value>, fields: seq<string>, dec: string -> Option<string>): (r: map<string, Value>)
    requires Distinct(fields)
    ensures r.Keys == cfg.Keys
    ensures forall k :: k in cfg && k !in fields ==> r[k] == cfg[k]
    ensures forall k :: k in cfg && k in fields ==> r[k] == DecryptValue(cfg[k], dec)
    decreases |fields|
  {
    if fields == [] then cfg
    else
      var f := fields[0];
      assert forall i :: 1 <= i < |fields| ==> fields[i] != f;
      if f in cfg && Truthy(cfg[f]) then DecryptFields(cfg[f := DecryptValue(cfg[f], dec)], fields[1..], dec)
      else DecryptFields(cfg, fields[1..], dec)
  }

  /** `EncryptedConfig.decrypt_config`. */
  function DecryptConfig(cfg: map<string, Value>, dec: string -> Option<string>): (r: map<string, Value>)
    ensures r.Keys == cfg.Keys
    ensures forall k :: k in cfg && k !in SensitiveFields ==> r[k] == cfg[k]
    ensures forall k :: k in cfg && (!IsSecretText(cfg[k]) || dec(cfg[k].s).None?) ==> r[k] == cfg[k]
    ensures forall k :: k in cfg && k in SensitiveFields && IsSecretText(cfg[k]) && dec(cfg[k].s).Some? ==>
      r[k] == Str(dec(cfg[k].s).value)
  {
    SensitiveFieldsDistinct();
    DecryptFields(cfg, SensitiveFields, dec)
  }

  /** A configuration that encrypts comes back unchanged from decryption. */
  lemma ConfigRoundTrip(cfg: map<string, Value>, enc: string -> string, dec: string -> Option<string>)
    requires CipherRoundTrips(enc, dec)
    requires EncryptConfig(cfg, enc).Ok?
    ensures DecryptConfig(EncryptConfig(cfg, enc).value, dec) == cfg
  {
    var e := EncryptConfig(cfg, enc).value;
    var d := DecryptConfig(e, dec);
    forall k | k in cfg
      ensures d[k] == cfg[k]
    {
      if k in SensitiveFields && Truthy(cfg[k]) {
        assert e[k] == Str(enc(cfg[k].s));
        assert enc(cfg[k].s) != [] && dec(enc(cfg[k].s)) == Some(cfg[k].s);
      }
    }
  }
}

=== FILE: env_config.dfy ===
/**
 * The configuration endpoints of `main.py`: `update_env_file`, which
 * merges `KEY=value` updates into the lines of the `.env` file, and the
 * mapping between the percentages the dashboard shows and sends and the
 * fractions the settings store (`get_configuration`,
 * `update_configuration`). File access is left out: the file is the
 * sequence of its lines, each with its newline, as `readlines` gives it.
 */
module EnvConfig {
  import opened Wrappers
  import Text
  import Config
  import Numeric

  /** One `KEY=value` update; a Python dict gives them in insertion order
   *  with distinct keys. */
  type Update = (string, string)

  /** The key of entry `i`. */
  function KeyAt<K, V>(d: seq<(K, V)>, i: nat): K
    requires i < |d|
  {
    d[i].0
  }

  /** No key occurs twice. The quantifier fires only on `KeyAt` terms, so
   *  a proof that needs two entries told apart asks for it by name. */
  predicate DistinctKeys<K(==), V>(d: seq<(K, V)>)
  {
    forall i, j {:trigger KeyAt(d, i), KeyAt(d, j)} :: 0 <= i < j < |d| ==> KeyAt(d, i) != KeyAt(d, j)
  }

  /** Two different entries of a dict with distinct keys have different keys. */
  lemma DistinctKeysAt<K, V>(d: seq<(K, V)>, i: nat, j: nat)
    requires DistinctKeys(d) && i < |d| && j < |d| && i != j
    ensures d[i].0 != d[j].0
  {
    if i < j {
      assert KeyAt(d, i) != KeyAt(d, j);
    } else {
      assert KeyAt(d, j) != KeyAt(d, i);
    }
  }

  // ---------------------------------------------------------------------
  // Reading the file
  // ---------------------------------------------------------------------

  /** Stripped text that assigns a key: non-empty, not a comment, and
   *  holding an `=`. */
  predicate IsAssignment(t: string)
  {
    t != [] && t[0] != '#' && '=' in t
  }

  /** `key` is what precedes the first `=` of `t`. */
  predicate KeyOf(t: string, key: string)
  {
    |key| < |t| && t[..|key|] == key && t[|key|] == '=' && '=' !in key
  }

  /** `t.split('=', 1)` on stripped text, both halves. */
  function SplitAssignment(t: string): (r: Option<(string, string)>)
    ensures r.Some? <==> IsAssignment(t)
    ensures r.Some? ==> KeyOf(t, r.value.0) && t == r.value.0 + "=" + r.value.1
  {
    if IsAssignment(t) then
      var i := Text.IndexOf(t, '=');
      assert t == t[..i] + "=" + t[i + 1..];
      Some((t[..i], t[i + 1..]))
    else None
  }

  /** The key a line assigns: what precedes the first `=` of its stripped
   *  text, when that text is an assignment. */
  function LineKey(line: string): (r: Option<string>)
    ensures r.Some? <==> IsAssignment(Text.Strip(line))
    ensures r.Some? ==> KeyOf(Text.Strip(line), r.value)
  {
    var parts := SplitAssignment(Text.Strip(line));
    if parts.None? then None else Some(parts.value.0)
  }

  /** What follows the first `=` of an assignment line. */
  function LineValue(line: string): (r: Option<string>)
    ensures r.Some? <==> LineKey(line).Some?
    ensures r.Some? ==> Text.Strip(line) == LineKey(line).value + "=" + r.value
  {
    var parts := SplitAssignment(Text.Strip(line));
    if parts.None? then None else Some(parts.value.1)
  }

  /** The key each line assigns, line by line. */
  function LineKeys(lines: seq<string>): (ks: seq<Option<string>>)
    ensures |ks| == |lines|
    ensures forall i :: 0 <= i < |lines| ==> ks[i] == LineKey(lines[i])
  {
    if lines == [] then [] else [LineKey(lines[0])] + LineKeys(lines[1..])
  }

  /** Each key mapped to the last position that holds it. */
  function LastPositions(ks: seq<Option<string>>): (m: map<string, nat>)
    ensures forall k :: k in m <==> Some(k) in ks
    ensures forall k :: k in m ==> m[k] < |ks| && ks[m[k]] == Some(k)
    ensures forall k, j :: k in m && m[k] < j < |ks| ==> ks[j] != Some(k)
    decreases |ks|
  {
    if ks == [] then map[]
    else
      var last := |ks| - 1;
      var init := ks[..last];
      var m := LastPositions(init);
      assert ks == init + [ks[last]];
      match ks[last]
      case None => m
      case Some(k) => m[k := last]
  }

  /** `existing_vars`: each key maps to the LAST line that assigns it. */
  function KeyIndex(lines: seq<string>): (m: map<string, nat>)
    ensures forall k :: k in m <==> exists i :: 0 <= i < |lines| && LineKey(lines[i]) == Some(k)
    ensures forall k :: k in m ==> m[k] < |lines| && LineKey(lines[m[k]]) == Some(k)
    ensures forall k, j :: k in m && m[k] < j < |lines| ==> LineKey(lines[j]) != Some(k)
  {
    var ks := LineKeys(lines);
    forall k ensures Some(k) in ks <==> exists i :: 0 <= i < |lines| && LineKey(lines[i]) == Some(k) {
      KeyAssigned(lines, k);
    }
    LastPositions(ks)
  }

  /** A key is among the line keys exactly when some line assigns it. */
  lemma KeyAssigned(lines: seq<string>, k: string)
    ensures Some(k) in LineKeys(lines) <==> exists i :: 0 <= i < |lines| && LineKey(lines[i]) == Some(k)
  {
    var ks := LineKeys(lines);
    if Some(k) in ks {
      var i :| 0 <= i < |ks| && ks[i] == Some(k);
      assert LineKey(lines[i]) == Some(k);
    }
  }

  /** No line after the indexed one assigns the same key. */
  lemma LastAssignment(lines: seq<string>, key: string, p: nat)
    requires p < |lines| && LineKey(lines[p]) == Some(key)
    ensures key in KeyIndex(lines) && p <= KeyIndex(lines)[key]
  {
  }

  /** The value a reader of the file's lines sees for `key`: the last
   *  assignment wins. */
  function EnvValue(lines: seq<string>, key: string): (r: Option<string>)
    ensures r.Some? <==> exists i :: 0 <= i < |lines| && LineKey(lines[i]) == Some(key)
  {
    var index := KeyIndex(lines);
    if key in index then LineValue(lines[index[key]]) else None
  }

  // ---------------------------------------------------------------------
  // update_env_file
  // ---------------------------------------------------------------------

  /** `f"{key}={value}\n"`. */
  function EnvLine(u: Update): string
  {
    u.0 + "=" + u.1 + "\n"
  }

  predicate Distinct<T(==)>(xs: seq<T>)
  {
    forall i, j :: 0 <= i < j < |xs| ==> xs[i] != xs[j]
  }

  /** The keys of the updates, in order. */
  function UpdateKeys(updates: seq<Update>): (keys: seq<string>)
    ensures |keys| == |updates|
    ensures forall j :: 0 <= j < |updates| ==> keys[j] == updates[j].0
  {
    if updates == [] then [] else [updates[0].0] + UpdateKeys(updates[1..])
  }

  /** The line each update writes, in order. */
  function UpdateLines(updates: seq<Update>): (news: seq<string>)
    ensures |news| == |updates|
    ensures forall j :: 0 <= j < |updates| ==> news[j] == EnvLine(updates[j])
  {
    if updates == [] then [] else [EnvLine(updates[0])] + UpdateLines(updates[1..])
  }

  /** The new lines whose key is not in the index, in update order: what
   *  gets appended. */
  function Appended<T>(index: map<string, nat>, keys: seq<string>, news: seq<T>): (r: seq<T>)
    requires |keys| == |news|
    ensures |r| <= |news|
    decreases |keys|
  {
    if keys == [] then []
    else
      var n := |keys| - 1;
      var init := Appended(index, keys[..n], news[..n]);
      if keys[n] in index then init else init + [news[n]]
  }

  /** Every appended line is the line of a key missing from the index. */
  lemma {:induction false} AppendedSound<T>(index: map<string, nat>, keys: seq<string>, news: seq<T>, t: nat)
    requires |keys| == |news| && t < |Appended(index, keys, news)|
    ensures exists j :: 0 <= j < |keys| && keys[j] !in index && Appended(index, keys, news)[t] == news[j]
    decreases |keys|
  {
    var n := |keys| - 1;
    var init := Appended(index, keys[..n], news[..n]);
    if t < |init| {
      AppendedSound(index, keys[..n], news[..n], t);
      var j :| 0 <= j < n && keys[..n][j] !in index && init[t] == news[..n][j];
      assert keys[..n][j] == keys[j] && news[..n][j] == news[j];
      assert Appended(index, keys, news)[t] == init[t];
    } else {
      assert Appended(index, keys, news)[t] == news[n];
    }
  }

  /** The line of every key missing from the index is appended. */
  lemma {:induction false} AppendedComplete<T>(index: map<string, nat>, keys: seq<string>, news: seq<T>, j: nat)
    requires |keys| == |news| && j < |keys| && keys[j] !in index
    ensures news[j] in Appended(index, keys, news)
    decreases |keys|
  {
    var n := |keys| - 1;
    var init := Appended(index, keys[..n], news[..n]);
    if j < n {
      assert keys[..n][j] == keys[j] && news[..n][j] == news[j];
      AppendedComplete(index, keys[..n], news[..n], j);
      assert init <= Appended(index, keys, news);
    } else {
      assert Appended(index, keys, news) == init + [news[n]];
    }
  }

  /** An index that sends different keys to different positions, all
   *  below `size`. */
  predicate IndexWithin(size: nat, index: map<string, nat>)
  {
    (forall k :: k in index ==> index[k] < size)
    && forall k1, k2 :: k1 in index && k2 in index && index[k1] == index[k2] ==> k1 == k2
  }

  /** The loop over `updates.items()`: a key already in the file has its
   *  line replaced in place, any other key is appended. */
  function ApplyUpdates<T>(lines: seq<T>, index: map<string, nat>, keys: seq<string>, news: seq<T>): (r: seq<T>)
    requires IndexWithin(|lines|, index) && |keys| == |news|
    ensures |r| == |lines| + |Appended(index, keys, news)|
    ensures r[|lines|..] == Appended(index, keys, news)
    decreases |keys|
  {
    if keys == [] then lines
    else
      var n := |keys| - 1;
      var init := ApplyUpdates(lines, index, keys[..n], news[..n]);
      if keys[n] in index then
        var r := init[index[keys[n]] := news[n]];
        assert r[|lines|..] == init[|lines|..];
        r
      else
        var r := init + [news[n]];
        assert r[|lines|..] == init[|lines|..] + [news[n]];
        r
  }

  /** Each key already in the file ends up with its new line at its
   *  indexed position. */
  lemma {:induction false} ApplyUpdatesRewrites<T>(lines: seq<T>, index: map<string, nat>, keys: seq<string>, news: seq<T>, j: nat)
    requires IndexWithin(|lines|, index) && Distinct(keys) && |keys| == |news|
    requires j < |keys| && keys[j] in index
    ensures ApplyUpdates(lines, index, keys, news)[index[keys[j]]] == news[j]
    decreases |keys|
  {
    var n := |keys| - 1;
    var r := ApplyUpdates(lines, index, keys, news);
    var init := ApplyUpdates(lines, index, keys[..n], news[..n]);
    if j < n {
      assert keys[..n][j] == keys[j] && news[..n][j] == news[j];
      assert Distinct(keys[..n]) by {
        forall a, b | 0 <= a < b < n
          ensures keys[..n][a] != keys[..n][b]
        {
          assert keys[..n][a] == keys[a] && keys[..n][b] == keys[b];
        }
      }
      ApplyUpdatesRewrites(lines, index, keys[..n], news[..n], j);
      assert init[index[keys[j]]] == news[j];
      if keys[n] in index {
        assert keys[j] != keys[n];
        assert index[keys[j]] != index[keys[n]];
        assert r == init[index[keys[n]] := news[n]];
      } else {
        assert r == init + [news[n]];
      }
    }
  }

  /** A line of the file changes only where some key is indexed, and then
   *  holds that key's new line. */
  lemma {:induction false} ApplyUpdatesKeeps<T>(lines: seq<T>, index: map<string, nat>, keys: seq<string>, news: seq<T>, i: nat)
    requires IndexWithin(|lines|, index) && |keys| == |news|
    requires i < |lines| && ApplyUpdates(lines, index, keys, news)[i] != lines[i]
    ensures exists j :: 0 <= j < |keys| && keys[j] in index && index[keys[j]] == i
                        && ApplyUpdates(lines, index, keys, news)[i] == news[j]
    decreases |keys|
  {
    var n := |keys| - 1;
    var r := ApplyUpdates(lines, index, keys, news);
    var init := ApplyUpdates(lines, index, keys[..n], news[..n]);
    if keys[n] in index && index[keys[n]] == i {
      assert r[i] == news[n];
    } else {
      assert r[i] == init[i];
      ApplyUpdatesKeeps(lines, index, keys[..n], news[..n], i);
      var j :| 0 <= j < n && keys[..n][j] in index && index[keys[..n][j]] == i && init[i] == news[..n][j];
      assert keys[..n][j] == keys[j] && news[..n][j] == news[j];
    }
  }

  /** `update_env_file` on the file's lines: the file keeps its length
   *  and gains the lines of new keys at its end. */
  function UpdateEnvFile(lines: seq<string>, updates: seq<Update>): (r: seq<string>)
    ensures |r| == |lines| + |Appended(KeyIndex(lines), UpdateKeys(updates), UpdateLines(updates))|
    ensures r[|lines|..] == Appended(KeyIndex(lines), UpdateKeys(updates), UpdateLines(updates))
  {
    ApplyUpdates(lines, KeyIndex(lines), UpdateKeys(updates), UpdateLines(updates))
  }

  /** Only the last line assigning an updated key is rewritten, to that
   *  update's line; every other line of the file is left as it was. */
  lemma UpdateRewritesInPlace(lines: seq<string>, updates: seq<Update>, i: nat)
    requires DistinctKeys(updates)
    requires i < |lines|
    ensures var r := UpdateEnvFile(lines, updates);
      r[i] == lines[i]
      || exists j :: 0 <= j < |updates| && LineKey(lines[i]) == Some(updates[j].0)
                     && KeyIndex(lines)[updates[j].0] == i && r[i] == EnvLine(updates[j])
    ensures forall j :: 0 <= j < |updates| && updates[j].0 in KeyIndex(lines) ==>
      UpdateEnvFile(lines, updates)[KeyIndex(lines)[updates[j].0]] == EnvLine(updates[j])
  {
    var index := KeyIndex(lines);
    var keys := UpdateKeys(updates);
    var news := UpdateLines(updates);
    var r := UpdateEnvFile(lines, updates);
    if r[i] != lines[i] {
      ApplyUpdatesKeeps(lines, index, keys, news, i);
    }
    assert Distinct(keys) by {
      forall a, b | 0 <= a < b < |keys| ensures keys[a] != keys[b] {
        DistinctKeysAt(updates, a, b);
      }
    }
    forall j | 0 <= j < |updates| && updates[j].0 in index
      ensures r[index[updates[j].0]] == EnvLine(updates[j])
    {
      ApplyUpdatesRewrites(lines, index, keys, news, j);
    }
  }

  /** An update whose line reads back as written: a key that is a key
   *  (non-empty, no `=`, not a comment, no surrounding whitespace) and a
   *  value that strip() leaves alone, neither spanning lines. */
  predicate WellFormed(u: Update)
  {
    u.0 != [] && !Text.IsSpace(u.0[0]) && !Text.IsSpace(u.0[|u.0| - 1]) && u.0[0] != '#'
    && '=' !in u.0 && '\n' !in u.0 && '\n' !in u.1
    && (u.1 == [] || !Text.IsSpace(u.1[|u.1| - 1]))
  }

  /** A well-formed update's line assigns its key its value. */
  lemma EnvLineReadsBack(u: Update)
    requires WellFormed(u)
    ensures LineKey(EnvLine(u)) == Some(u.0)
    ensures LineValue(EnvLine(u)) == Some(u.1)
  {
    var t := u.0 + "=" + u.1;
    assert EnvLine(u) == t + "\n";
    assert t[0] == u.0[0];
    if u.1 == [] {
      assert t[|t| - 1] == '=';
    } else {
      assert t[|t| - 1] == u.1[|u.1| - 1];
    }
    Text.StripNewline(t);
    assert t == u.0 + ("=" + u.1);
    Text.IndexOfAfterFree(u.0, "=" + u.1, '=');
    assert t[..|u.0|] == u.0;
    assert t[|u.0| + 1..] == u.1;
  }

  /** After the merge, every updated key reads back as its new value. */
  lemma UpdateThenRead(lines: seq<string>, updates: seq<Update>, j: nat)
    requires DistinctKeys(updates)
    requires forall i :: 0 <= i < |updates| ==> WellFormed(updates[i])
    requires j < |updates|
    ensures EnvValue(UpdateEnvFile(lines, updates), updates[j].0) == Some(updates[j].1)
  {
    ReadLineIsUpdate(lines, updates, j);
    EnvLineReadsBack(updates[j]);
  }

  /** The line a reader of the merged file picks for an updated key is that
   *  update's line. */
  lemma ReadLineIsUpdate(lines: seq<string>, updates: seq<Update>, j: nat)
    requires DistinctKeys(updates)
    requires forall i :: 0 <= i < |updates| ==> WellFormed(updates[i])
    requires j < |updates|
    ensures var r := UpdateEnvFile(lines, updates);
      updates[j].0 in KeyIndex(r) && r[KeyIndex(r)[updates[j].0]] == EnvLine(updates[j])
  {
    var index := KeyIndex(lines);
    var r := UpdateEnvFile(lines, updates);
    var k := updates[j].0;
    UpdatedLineWritten(lines, updates, j);
    EnvLineReadsBack(updates[j]);
    var q :| 0 <= q < |r| && r[q] == EnvLine(updates[j]) && (k in index ==> q == index[k]);
    LastAssignment(r, k, q);
    var p := KeyIndex(r)[k];
    var i := PickedLineIsAnUpdate(lines, updates, p);
    if p < |lines| && r[p] == lines[p] {
      LastAssignment(lines, k, p);
      assert p == q;
    } else {
      assert i < |updates| && r[p] == EnvLine(updates[i]);
      SameLineSameUpdate(updates, i, j);
    }
  }

  /** Two well-formed updates whose lines assign the same key are the same
   *  update, when the keys are distinct. */
  lemma SameLineSameUpdate(updates: seq<Update>, i: nat, j: nat)
    requires DistinctKeys(updates)
    requires i < |updates| && j < |updates| && WellFormed(updates[i]) && WellFormed(updates[j])
    requires LineKey(EnvLine(updates[i])) == LineKey(EnvLine(updates[j]))
    ensures i == j
  {
    EnvLineReadsBack(updates[i]);
    EnvLineReadsBack(updates[j]);
    if i != j {
      DistinctKeysAt(updates, i, j);
    }
  }

  /** Each update's line is in the result: in place of the key's last
   *  line, or appended. */
  lemma UpdatedLineWritten(lines: seq<string>, updates: seq<Update>, j: nat)
    requires DistinctKeys(updates) && j < |updates|
    ensures var r := UpdateEnvFile(lines, updates);
      exists q :: 0 <= q < |r| && r[q] == EnvLine(updates[j])
                  && (updates[j].0 in KeyIndex(lines) ==> q == KeyIndex(lines)[updates[j].0])
  {
    var index := KeyIndex(lines);
    var r := UpdateEnvFile(lines, updates);
    if updates[j].0 in index {
      UpdateRewritesInPlace(lines, updates, 0);
      assert r[index[updates[j].0]] == EnvLine(updates[j]);
    } else {
      var a := Appended(index, UpdateKeys(updates), UpdateLines(updates));
      assert UpdateKeys(updates)[j] !in index;
      AppendedComplete(index, UpdateKeys(updates), UpdateLines(updates), j);
      var t :| 0 <= t < |a| && a[t] == EnvLine(updates[j]);
      assert r[|lines| + t] == a[t];
    }
  }

  /** A line of the result is an original line left alone, or the line of
   *  some update. */
  lemma PickedLineIsAnUpdate(lines: seq<string>, updates: seq<Update>, p: nat) returns (i: nat)
    requires DistinctKeys(updates)
    requires p < |UpdateEnvFile(lines, updates)|
    ensures (p < |lines| && UpdateEnvFile(lines, updates)[p] == lines[p])
            || (i < |updates| && UpdateEnvFile(lines, updates)[p] == EnvLine(updates[i]))
  {
    var r := UpdateEnvFile(lines, updates);
    i := 0;
    if p < |lines| {
      UpdateRewritesInPlace(lines, updates, p);
      if r[p] != lines[p] {
        var j :| 0 <= j < |updates| && r[p] == EnvLine(updates[j]);
        i := j;
      }
    } else {
      var a := Appended(KeyIndex(lines), UpdateKeys(updates), UpdateLines(updates));
      assert r[p] == a[p - |lines|];
      AppendedSound(KeyIndex(lines), UpdateKeys(updates), UpdateLines(updates), p - |lines|);
      var j :| 0 <= j < |updates| && a[p - |lines|] == UpdateLines(updates)[j];
      i := j;
    }
  }

  // ---------------------------------------------------------------------
  // The file's text: readlines() and writelines()
  // ---------------------------------------------------------------------

  /** A line as `readlines()` returns it from a text that ends in a
   *  newline: one newline, at its end. */
  predicate Terminated(line: string)
  {
    |line| > 0 && line[|line| - 1] == '\n' && '\n' !in line[..|line| - 1]
  }

  /** A text whose last line has its newline (or no text at all). */
  predicate EndsInNewline(text: string)
  {
    text == [] || text[|text| - 1] == '\n'
  }

  /** `f.writelines(lines)`: the lines written one after another, with no
   *  separator added. */
  function WriteLines(lines: seq<string>): (text: string)
    ensures lines == [] ==> text == []
  {
    if lines == [] then [] else lines[0] + WriteLines(lines[1..])
  }

  /** `f.readlines()`: the text cut after each newline; a last piece
   *  without a newline is a line too. Reading gives back the text when
   *  written out again. */
  function ReadLines(text: string): (lines: seq<string>)
    ensures WriteLines(lines) == text
    ensures forall i :: 0 <= i < |lines| ==> |lines[i]| > 0
    decreases |text|
  {
    if text == [] then []
    else if '\n' !in text then [text]
    else
      var i := Text.IndexOf(text, '\n');
      var rest := ReadLines(text[i + 1..]);
      var lines := [text[..i + 1]] + rest;
      Text.TailOfAppend([text[..i + 1]], rest);
      Text.SplitAt(text, i + 1);
      lines
  }

  /** Every line read from a text that ends in a newline has its newline,
   *  and only that one. */
  lemma {:induction false} ReadTerminated(text: string)
    requires EndsInNewline(text)
    ensures forall i :: 0 <= i < |ReadLines(text)| ==> Terminated(ReadLines(text)[i])
    decreases |text|
  {
    if text != [] {
      assert '\n' in text by {
        assert text[|text| - 1] == '\n';
      }
      var i := Text.IndexOf(text, '\n');
      var rest := text[i + 1..];
      if rest != [] {
        assert rest[|rest| - 1] == text[|text| - 1];
      }
      ReadTerminated(rest);
      var first := text[..i + 1];
      assert first[..|first| - 1] == text[..i];
      var lines := ReadLines(text);
      assert lines == [first] + ReadLines(rest);
      forall k | 0 <= k < |lines| ensures Terminated(lines[k]) {
        if k > 0 {
          assert lines[k] == ReadLines(rest)[k - 1];
        }
      }
    }
  }

  /** Writing lines that each end in their only newline and reading the
   *  text back gives the same lines. */
  lemma {:induction false} ReadWritten(lines: seq<string>)
    requires forall i :: 0 <= i < |lines| ==> Terminated(lines[i])
    ensures ReadLines(WriteLines(lines)) == lines
    decreases |lines|
  {
    if lines != [] {
      ReadWritten(lines[1..]);
      ReadFirstLine(lines[0], WriteLines(lines[1..]));
      assert lines == [lines[0]] + lines[1..];
    }
  }

  /** A terminated line in front of a text is read as the first line. */
  lemma ReadFirstLine(first: string, rest: string)
    requires Terminated(first)
    ensures ReadLines(first + rest) == [first] + ReadLines(rest)
  {
    var body := first[..|first| - 1];
    var text := first + rest;
    Text.SplitAt(first, |first| - 1);
    assert first[|first| - 1..] == "\n";
    Text.AppendAssoc(body, "\n", rest);
    Text.IndexOfAfterFree(body, "\n" + rest, '\n');
    assert text[..|first|] == first;
    assert text[|first|..] == rest;
  }

  /** A well-formed update's line has its newline and no other. */
  lemma EnvLineTerminated(u: Update)
    requires WellFormed(u)
    ensures Terminated(EnvLine(u))
  {
    var line := EnvLine(u);
    assert line[..|line| - 1] == u.0 + "=" + u.1;
  }

  /** `update_env_file` on the file's text: read the lines, merge, write
   *  them back. */
  function UpdateEnvText(text: string, updates: seq<Update>): (r: string)
    ensures EndsInNewline(text) && DistinctKeys(updates) && (forall i :: 0 <= i < |updates| ==> WellFormed(updates[i]))
            ==> ReadLines(r) == UpdateEnvFile(ReadLines(text), updates)
  {
    var r := WriteLines(UpdateEnvFile(ReadLines(text), updates));
    assert EndsInNewline(text) && DistinctKeys(updates) && (forall i :: 0 <= i < |updates| ==> WellFormed(updates[i]))
           ==> ReadLines(r) == UpdateEnvFile(ReadLines(text), updates) by {
      if EndsInNewline(text) && DistinctKeys(updates) && (forall i :: 0 <= i < |updates| ==> WellFormed(updates[i])) {
        MergedTerminated(text, updates);
        ReadWritten(UpdateEnvFile(ReadLines(text), updates));
      }
    }
    r
  }

  /** The value a reader of the file's text sees for `key`. */
  function EnvFileValue(text: string, key: string): (r: Option<string>)
    ensures r.Some? <==> exists i :: 0 <= i < |ReadLines(text)| && LineKey(ReadLines(text)[i]) == Some(key)
  {
    EnvValue(ReadLines(text), key)
  }

  /** Every line of the merged file has its newline, when the file's last
   *  line had one. */
  lemma MergedTerminated(text: string, updates: seq<Update>)
    requires EndsInNewline(text)
    requires DistinctKeys(updates)
    requires forall i :: 0 <= i < |updates| ==> WellFormed(updates[i])
    ensures forall p :: 0 <= p < |UpdateEnvFile(ReadLines(text), updates)| ==> Terminated(UpdateEnvFile(ReadLines(text), updates)[p])
  {
    var lines := ReadLines(text);
    var r := UpdateEnvFile(lines, updates);
    ReadTerminated(text);
    forall p | 0 <= p < |r| ensures Terminated(r[p]) {
      var i := PickedLineIsAnUpdate(lines, updates, p);
      if !(p < |lines| && r[p] == lines[p]) {
        EnvLineTerminated(updates[i]);
      }
    }
  }

  /** After the merge is written and the file read again, every updated
   *  key reads back as its new value, provided the file ended in a
   *  newline. */
  lemma UpdateThenReadText(text: string, updates: seq<Update>, j: nat)
    requires EndsInNewline(text)
    requires DistinctKeys(updates)
    requires forall i :: 0 <= i < |updates| ==> WellFormed(updates[i])
    requires j < |updates|
    ensures EnvFileValue(UpdateEnvText(text, updates), updates[j].0) == Some(updates[j].1)
  {
    UpdateThenRead(ReadLines(text), updates, j);
  }

  /** A file whose last line lacks its newline gets the first new key
   *  glued to that line: `A=1` merged with `B=2` is written as
   *  `A=1B=2` plus a newline, where `B` is not assigned and `A` holds
   *  `1B=2`. */
  lemma NewKeyGluedToLastLine()
    ensures UpdateEnvText("A=1", [("B", "2")]) == "A=1B=2\n"
    ensures EnvFileValue("A=1B=2\n", "B") == None
    ensures EnvFileValue("A=1B=2\n", "A") == Some("1B=2")
  {
    GlueWritten();
    var text := "A=1B=2\n";
    GlueRead();
    var lines := ReadLines(text);
    assert KeyIndex(lines)["A"] == 0;
  }

  /** The merge of `B=2` into the text `A=1`, written out. */
  lemma GlueWritten()
    ensures UpdateEnvText("A=1", [("B", "2")]) == "A=1B=2\n"
  {
    var before := "A=1";
    assert '\n' !in before;
    assert ReadLines(before) == [before];
    GlueMerged();
    var r := [before, "B=2\n"];
    assert UpdateEnvText(before, [("B", "2")]) == WriteLines(r);
    assert r[1..] == ["B=2\n"] && r[1..][1..] == [];
    assert WriteLines(["B=2\n"]) == "B=2\n";
    assert WriteLines(r) == before + "B=2\n";
    GlueConcat();
  }

  lemma GlueConcat()
    ensures "A=1" + "B=2\n" == "A=1B=2\n"
  {
    var t := "A=1" + "B=2\n";
    assert |t| == 7 && t[0] == 'A' && t[1] == '=' && t[2] == '1' && t[3] == 'B' && t[4] == '=' && t[5] == '2' && t[6] == '\n';
  }

  /** Merging `B=2` into the single line `A=1` appends its line. */
  lemma GlueMerged()
    ensures UpdateEnvFile(["A=1"], [("B", "2")]) == ["A=1", "B=2\n"]
  {
    var before := "A=1";
    Text.IndexOfAfterFree("A", "=1", '=');
    assert "A" + "=1" == before;
    assert Text.Strip(before) == before;
    assert LineKey(before) == Some("A");
    var updates := [("B", "2")];
    var lines := [before];
    var r := UpdateEnvFile(lines, updates);
    var index := KeyIndex(lines);
    assert "B" !in index;
    var keys := ["B"];
    var news := ["B=2\n"];
    GlueNewLine();
    assert |UpdateKeys(updates)| == 1 && UpdateKeys(updates)[0] == "B";
    assert UpdateKeys(updates) == keys;
    assert |UpdateLines(updates)| == 1 && UpdateLines(updates)[0] == "B=2\n";
    assert UpdateLines(updates) == news;
    assert keys[..0] == [] && news[..0] == [];
    assert Appended(index, keys[..0], news[..0]) == [];
    assert Appended(index, keys, news) == [] + [news[0]];
    UpdateRewritesInPlace(lines, updates, 0);
  }

  lemma GlueNewLine()
    ensures EnvLine(("B", "2")) == "B=2\n"
  {
    var line := EnvLine(("B", "2"));
    assert |line| == 4 && line[0] == 'B' && line[1] == '=' && line[2] == '2' && line[3] == '\n';
  }

  /** The glued text is one line that assigns `A` the value `1B=2`. */
  lemma GlueRead()
    ensures ReadLines("A=1B=2\n") == ["A=1B=2\n"]
    ensures LineKey("A=1B=2\n") == Some("A")
    ensures LineValue("A=1B=2\n") == Some("1B=2")
  {
    GlueReadLines();
    GlueLine();
  }

  lemma GlueReadLines()
    ensures ReadLines("A=1B=2\n") == ["A=1B=2\n"]
  {
    var t := "A=1B=2";
    var text := t + "\n";
    assert text == "A=1B=2\n";
    assert '\n' !in t;
    Text.IndexOfAfterFree(t, "\n", '\n');
    assert text[..|t| + 1] == text && text[|t| + 1..] == [];
    assert ReadLines(text) == [text] + ReadLines([]);
  }

  lemma GlueLine()
    ensures LineKey("A=1B=2\n") == Some("A")
    ensures LineValue("A=1B=2\n") == Some("1B=2")
  {
    var t := "A=1B=2";
    assert t + "\n" == "A=1B=2\n";
    Text.StripNewline(t);
    Text.IndexOfAfterFree("A", "=1B=2", '=');
    assert "A" + "=1B=2" == t;
    assert t[..1] == "A" && t[2..] == "1B=2";
    assert SplitAssignment(t) == Some(("A", "1B=2"));
  }

  // ---------------------------------------------------------------------
  // get_configuration and update_configuration
  // ---------------------------------------------------------------------

  /** The percentages the dashboard shows as fractions of one. */
  function PercentToFraction(p: real): (f: real)
    ensures f * 100.0 == p
  {
    p / 100.0
  }

  function FractionToPercent(f: real): (p: real)
    ensures p / 100.0 == f
  {
    f * 100.0
  }

  lemma PercentFractionInverse(p: real, f: real)
    ensures FractionToPercent(PercentToFraction(p)) == p
    ensures PercentToFraction(FractionToPercent(f)) == f
  {
  }

  /** The numeric part of the dashboard's configuration view, read from
   *  the stored settings. */
  datatype ConfigView = ConfigView(
    portfolioValue: real,
    maxPositions: int,
    positionSizePercent: real,
    stopLossPercent: real,
    profitTargetPercent: real,
    dailyLossLimit: real,
    weeklyLossLimit: real,
    maxDrawdown: real,
    maxPositionSize: real,
    minGapPercent: real)

  /** `get_configuration`: fractions are shown ×100, the weekly loss limit
   *  is seven daily losses, and both the portfolio value and the maximum
   *  position size show `max_position_size`. */
  function GetConfiguration(value: Config.Limit -> real): (v: ConfigView)
    ensures v.portfolioValue == v.maxPositionSize == value(Config.MaxPositionSize)
    ensures PercentToFraction(v.positionSizePercent) == value(Config.RiskPerTrade)
    ensures PercentToFraction(v.stopLossPercent) == value(Config.StopLossPercentage)
    ensures PercentToFraction(v.profitTargetPercent) == value(Config.TargetPercentage)
    ensures v.weeklyLossLimit == 7.0 * value(Config.MaxDailyLoss)
  {
    ConfigView(
      value(Config.MaxPositionSize),
      Numeric.Trunc(value(Config.MaxOpenPositions)),
      FractionToPercent(value(Config.RiskPerTrade)),
      FractionToPercent(value(Config.StopLossPercentage)),
      FractionToPercent(value(Config.TargetPercentage)),
      value(Config.DailyLossLimit),
      value(Config.MaxDailyLoss) * 7.0,
      value(Config.MaxDrawdownPercentage),
      value(Config.MaxPositionSize),
      value(Config.MinGapPercentage))
  }

  // ---------------------------------------------------------------------
  // The update dict of update_configuration
  // ---------------------------------------------------------------------

  /** The settings `update_configuration` can write. */
  datatype EnvKey =
    | KiteApiKey | KiteApiSecret | KiteAccessToken | PaperTrading
    | MaxPositionSize | MaxOpenPositions | RiskPerTrade | StopLossPercentage | TargetPercentage
    | DailyLossLimit | MaxDrawdownPercentage
    | TelegramBotToken | TelegramChatId | TelegramEnabled | MinGapPercentage

  /** The variable name each setting has in the file. */
  function Name(k: EnvKey): string
  {
    match k
    case KiteApiKey => "KITE_API_KEY"
    case KiteApiSecret => "KITE_API_SECRET"
    case KiteAccessToken => "KITE_ACCESS_TOKEN"
    case PaperTrading => "PAPER_TRADING"
    case MaxPositionSize => "MAX_POSITION_SIZE"
    case MaxOpenPositions => "MAX_OPEN_POSITIONS"
    case RiskPerTrade => "RISK_PER_TRADE"
    case StopLossPercentage => "STOP_LOSS_PERCENTAGE"
    case TargetPercentage => "TARGET_PERCENTAGE"
    case DailyLossLimit => "DAILY_LOSS_LIMIT"
    case MaxDrawdownPercentage => "MAX_DRAWDOWN_PERCENTAGE"
    case TelegramBotToken => "TELEGRAM_BOT_TOKEN"
    case TelegramChatId => "TELEGRAM_CHAT_ID"
    case TelegramEnabled => "TELEGRAM_ENABLED"
    case MinGapPercentage => "MIN_GAP_PERCENTAGE"
  }

  lemma NamesDistinct(a: EnvKey, b: EnvKey)
    ensures Name(a) == Name(b) ==> a == b
  {
  }

  /** `d[key]` on an insertion-ordered dict, `None` for a missing key. */
  function Lookup<K(==), V>(d: seq<(K, V)>, key: K): (r: Option<V>)
    ensures r.None? <==> forall j :: 0 <= j < |d| ==> d[j].0 != key
    ensures r.Some? ==> exists j :: 0 <= j < |d| && d[j] == (key, r.value)
  {
    if d == [] then None
    else if d[0].0 == key then Some(d[0].1)
    else
      var r := Lookup(d[1..], key);
      assert forall j :: 1 <= j < |d| ==> d[j] == d[1..][j - 1];
      r
  }

  /** Looking up in a dict whose first entry is `x`. */
  lemma ConsLookup<K, V>(x: (K, V), rest: seq<(K, V)>, k: K)
    ensures Lookup([x] + rest, k) == if x.0 == k then Some(x.1) else Lookup(rest, k)
  {
    assert ([x] + rest)[1..] == rest;
  }

  /** Keys stay distinct when an entry with a new key is put in front. */
  lemma ConsDistinct<K, V>(x: (K, V), rest: seq<(K, V)>)
    requires DistinctKeys(rest)
    requires forall j :: 0 <= j < |rest| ==> rest[j].0 != x.0
    ensures DistinctKeys([x] + rest)
  {
    var r := [x] + rest;
    forall i, j | 0 <= i < j < |r| ensures KeyAt(r, i) != KeyAt(r, j) {
      assert r[j] == rest[j - 1];
      if i > 0 {
        assert r[i] == rest[i - 1];
        DistinctKeysAt(rest, i - 1, j - 1);
      }
    }
  }

  /** A dict with distinct keys splits into its first entry and a rest
   *  that does not repeat that key. */
  lemma UnconsDistinct<K, V>(d: seq<(K, V)>)
    requires d != [] && DistinctKeys(d)
    ensures d == [d[0]] + d[1..]
    ensures DistinctKeys(d[1..])
    ensures forall j :: 0 <= j < |d[1..]| ==> d[1..][j].0 != d[0].0
  {
    assert forall j :: 0 <= j < |d[1..]| ==> d[1..][j] == d[j + 1];
    forall i, j | 0 <= i < j < |d[1..]| ensures KeyAt(d[1..], i) != KeyAt(d[1..], j) {
      DistinctKeysAt(d, i + 1, j + 1);
    }
    forall j | 0 <= j < |d[1..]| ensures d[1..][j].0 != d[0].0 {
      DistinctKeysAt(d, 0, j + 1);
    }
  }

  /** `d[key] = value`: an existing key keeps its place and takes the new
   *  value, a new key goes at the end. */
  function DictSet<K(==,!new), V>(d: seq<(K, V)>, key: K, value: V): (r: seq<(K, V)>)
    requires DistinctKeys(d)
    ensures DistinctKeys(r)
    ensures Lookup(r, key) == Some(value)
    ensures forall k :: k != key ==> Lookup(r, k) == Lookup(d, k)
  {
    if d == [] then [(key, value)]
    else
      UnconsDistinct(d);
      if d[0].0 == key then
        var r := [(key, value)] + d[1..];
        ConsLookup((key, value), d[1..], key);
        forall k | k != key ensures Lookup(r, k) == Lookup(d, k) {
          ConsLookup((key, value), d[1..], k);
          ConsLookup(d[0], d[1..], k);
        }
        ConsDistinct((key, value), d[1..]);
        r
      else
        var rest := DictSet(d[1..], key, value);
        var r := [d[0]] + rest;
        ConsLookup(d[0], rest, key);
        forall k | k != key ensures Lookup(r, k) == Lookup(d, k) {
          ConsLookup(d[0], rest, k);
          ConsLookup(d[0], d[1..], k);
        }
        assert Lookup(rest, d[0].0).None?;
        ConsDistinct(d[0], rest);
        r
  }

  /** A value as `update_configuration` has it before `str()`. */
  datatype SettingValue = Number(x: real) | Whole(n: int) | Flag(b: bool) | Verbatim(s: string)

  type Settings = seq<(EnvKey, SettingValue)>

  /** `d[key] = value` when the request carries the field. */
  function SetIf(d: Settings, key: EnvKey, value: Option<SettingValue>): (r: Settings)
    requires DistinctKeys(d)
    ensures DistinctKeys(r)
    ensures Lookup(r, key) == if value.Some? then value else Lookup(d, key)
    ensures forall k :: k != key ==> Lookup(r, k) == Lookup(d, k)
  {
    if value.Some? then DictSet(d, key, value.value) else d
  }

  datatype ApiSection = ApiSection(apiKey: Option<string>, apiSecret: Option<string>,
                                   accessToken: Option<string>, paperTrading: Option<bool>)
  datatype TradingSection = TradingSection(portfolioValue: Option<real>, maxPositions: Option<int>,
                                           positionSizePercent: Option<real>, stopLossPercent: Option<real>,
                                           profitTargetPercent: Option<real>)
  datatype RiskSection = RiskSection(dailyLossLimit: Option<real>, maxDrawdown: Option<real>, maxPositionSize: Option<real>)
  datatype TelegramSection = TelegramSection(botToken: Option<string>, chatIds: Option<seq<string>>, enabled: Option<bool>)
  datatype ScannerSection = ScannerSection(minGapPercent: Option<real>)

  /** The body of `POST /api/config`; a missing section and an empty one
   *  behave alike. */
  datatype ConfigRequest = ConfigRequest(
    api: Option<ApiSection>,
    trading: Option<TradingSection>,
    risk: Option<RiskSection>,
    telegram: Option<TelegramSection>,
    scanner: Option<ScannerSection>)

  function Verbatims(x: Option<string>): Option<SettingValue>
  {
    if x.Some? then Some(Verbatim(x.value)) else None
  }

  function Num(x: Option<real>): Option<SettingValue>
  {
    if x.Some? then Some(Number(x.value)) else None
  }

  /** A percentage as the fraction that is stored. */
  function Fraction(p: Option<real>): Option<SettingValue>
  {
    if p.Some? then Some(Number(PercentToFraction(p.value))) else None
  }

  /** The api section: credentials verbatim, the paper-trading flag. */
  function ApiUpdates(d: Settings, section: Option<ApiSection>): (r: Settings)
    requires DistinctKeys(d)
    ensures DistinctKeys(r)
    ensures forall k :: k != KiteApiKey && k != KiteApiSecret && k != KiteAccessToken && k != PaperTrading ==> Lookup(r, k) == Lookup(d, k)
    ensures Lookup(r, KiteApiKey) ==
      if section.Some? && section.value.apiKey.Some? then Some(Verbatim(section.value.apiKey.value)) else Lookup(d, KiteApiKey)
    ensures Lookup(r, KiteApiSecret) ==
      if section.Some? && section.value.apiSecret.Some? then Some(Verbatim(section.value.apiSecret.value)) else Lookup(d, KiteApiSecret)
    ensures Lookup(r, KiteAccessToken) ==
      if section.Some? && section.value.accessToken.Some? then Some(Verbatim(section.value.accessToken.value)) else Lookup(d, KiteAccessToken)
    ensures Lookup(r, PaperTrading) ==
      if section.Some? && section.value.paperTrading.Some? then Some(Flag(section.value.paperTrading.value)) else Lookup(d, PaperTrading)
  {
    if section.None? then d
    else
      var api := section.value;
      var d1 := SetIf(d, KiteApiKey, Verbatims(api.apiKey));
      var d2 := SetIf(d1, KiteApiSecret, Verbatims(api.apiSecret));
      var d3 := SetIf(d2, KiteAccessToken, Verbatims(api.accessToken));
      SetIf(d3, PaperTrading, if api.paperTrading.Some? then Some(Flag(api.paperTrading.value)) else None)
  }

  /** The trading section: percentages are stored as fractions, and the
   *  portfolio value is written to MAX_POSITION_SIZE. */
  function TradingUpdates(d: Settings, section: Option<TradingSection>): (r: Settings)
    requires DistinctKeys(d)
    ensures DistinctKeys(r)
    ensures Lookup(r, MaxPositionSize) ==
      if section.Some? && section.value.portfolioValue.Some? then Some(Number(section.value.portfolioValue.value))
      else Lookup(d, MaxPositionSize)
    ensures Lookup(r, MaxOpenPositions) ==
      if section.Some? && section.value.maxPositions.Some? then Some(Whole(section.value.maxPositions.value))
      else Lookup(d, MaxOpenPositions)
    ensures Lookup(r, RiskPerTrade) ==
      if section.Some? && section.value.positionSizePercent.Some? then Some(Number(PercentToFraction(section.value.positionSizePercent.value)))
      else Lookup(d, RiskPerTrade)
    ensures Lookup(r, StopLossPercentage) ==
      if section.Some? && section.value.stopLossPercent.Some? then Some(Number(PercentToFraction(section.value.stopLossPercent.value)))
      else Lookup(d, StopLossPercentage)
    ensures Lookup(r, TargetPercentage) ==
      if section.Some? && section.value.profitTargetPercent.Some? then Some(Number(PercentToFraction(section.value.profitTargetPercent.value)))
      else Lookup(d, TargetPercentage)
    ensures forall k :: k != MaxPositionSize && k != MaxOpenPositions && k != RiskPerTrade && k != StopLossPercentage && k != TargetPercentage ==>
      Lookup(r, k) == Lookup(d, k)
  {
    if section.None? then d
    else TradingPercentUpdates(TradingSizeUpdates(d, section.value), section.value)
  }

  /** The size settings of the trading section. */
  function TradingSizeUpdates(d: Settings, t: TradingSection): (r: Settings)
    requires DistinctKeys(d)
    ensures DistinctKeys(r)
    ensures Lookup(r, MaxPositionSize) ==
      if t.portfolioValue.Some? then Some(Number(t.portfolioValue.value)) else Lookup(d, MaxPositionSize)
    ensures Lookup(r, MaxOpenPositions) ==
      if t.maxPositions.Some? then Some(Whole(t.maxPositions.value)) else Lookup(d, MaxOpenPositions)
    ensures forall k :: k != MaxPositionSize && k != MaxOpenPositions ==> Lookup(r, k) == Lookup(d, k)
  {
    var d1 := SetIf(d, MaxPositionSize, Num(t.portfolioValue));
    SetIf(d1, MaxOpenPositions, if t.maxPositions.Some? then Some(Whole(t.maxPositions.value)) else None)
  }

  /** The percentages of the trading section, stored as fractions. */
  function TradingPercentUpdates(d: Settings, t: TradingSection): (r: Settings)
    requires DistinctKeys(d)
    ensures DistinctKeys(r)
    ensures Lookup(r, RiskPerTrade) == if t.positionSizePercent.Some? then Fraction(t.positionSizePercent) else Lookup(d, RiskPerTrade)
    ensures Lookup(r, StopLossPercentage) == if t.stopLossPercent.Some? then Fraction(t.stopLossPercent) else Lookup(d, StopLossPercentage)
    ensures Lookup(r, TargetPercentage) == if t.profitTargetPercent.Some? then Fraction(t.profitTargetPercent) else Lookup(d, TargetPercentage)
    ensures forall k :: k != RiskPerTrade && k != StopLossPercentage && k != TargetPercentage ==> Lookup(r, k) == Lookup(d, k)
  {
    var d1 := SetIf(d, RiskPerTrade, Fraction(t.positionSizePercent));
    var d2 := SetIf(d1, StopLossPercentage, Fraction(t.stopLossPercent));
    SetIf(d2, TargetPercentage, Fraction(t.profitTargetPercent))
  }

  /** The risk section, which comes after the trading section: its maximum
   *  position size overrides the portfolio value. */
  function RiskUpdates(d: Settings, section: Option<RiskSection>): (r: Settings)
    requires DistinctKeys(d)
    ensures DistinctKeys(r)
    ensures Lookup(r, MaxPositionSize) ==
      if section.Some? && section.value.maxPositionSize.Some? then Some(Number(section.value.maxPositionSize.value))
      else Lookup(d, MaxPositionSize)
    ensures Lookup(r, DailyLossLimit) ==
      if section.Some? && section.value.dailyLossLimit.Some? then Some(Number(section.value.dailyLossLimit.value))
      else Lookup(d, DailyLossLimit)
    ensures Lookup(r, MaxDrawdownPercentage) ==
      if section.Some? && section.value.maxDrawdown.Some? then Some(Number(section.value.maxDrawdown.value))
      else Lookup(d, MaxDrawdownPercentage)
    ensures forall k :: k != DailyLossLimit && k != MaxDrawdownPercentage && k != MaxPositionSize ==> Lookup(r, k) == Lookup(d, k)
  {
    if section.None? then d
    else
      var risk := section.value;
      var d1 := SetIf(d, DailyLossLimit, Num(risk.dailyLossLimit));
      var d2 := SetIf(d1, MaxDrawdownPercentage, Num(risk.maxDrawdown));
      SetIf(d2, MaxPositionSize, Num(risk.maxPositionSize))
  }

  /** The Telegram section: only a non-empty chat list sets the chat id,
   *  to its first entry. */
  function TelegramUpdates(d: Settings, section: Option<TelegramSection>): (r: Settings)
    requires DistinctKeys(d)
    ensures DistinctKeys(r)
    ensures forall k :: k != TelegramBotToken && k != TelegramChatId && k != TelegramEnabled ==> Lookup(r, k) == Lookup(d, k)
    ensures Lookup(r, TelegramChatId) ==
      if section.Some? && section.value.chatIds.Some? && section.value.chatIds.value != [] then Some(Verbatim(section.value.chatIds.value[0]))
      else Lookup(d, TelegramChatId)
    ensures Lookup(r, TelegramBotToken) ==
      if section.Some? && section.value.botToken.Some? then Some(Verbatim(section.value.botToken.value)) else Lookup(d, TelegramBotToken)
    ensures Lookup(r, TelegramEnabled) ==
      if section.Some? && section.value.enabled.Some? then Some(Flag(section.value.enabled.value)) else Lookup(d, TelegramEnabled)
  {
    if section.None? then d
    else
      var tg := section.value;
      var d1 := SetIf(d, TelegramBotToken, Verbatims(tg.botToken));
      var d2 := SetIf(d1, TelegramChatId, if tg.chatIds.Some? && tg.chatIds.value != [] then Some(Verbatim(tg.chatIds.value[0])) else None);
      SetIf(d2, TelegramEnabled, if tg.enabled.Some? then Some(Flag(tg.enabled.value)) else None)
  }

  /** The scanner section: the minimum gap, as sent. */
  function ScannerUpdates(d: Settings, section: Option<ScannerSection>): (r: Settings)
    requires DistinctKeys(d)
    ensures DistinctKeys(r)
    ensures forall k :: k != MinGapPercentage ==> Lookup(r, k) == Lookup(d, k)
    ensures Lookup(r, MinGapPercentage) ==
      if section.Some? && section.value.minGapPercent.Some? then Some(Number(section.value.minGapPercent.value)) else Lookup(d, MinGapPercentage)
  {
    if section.None? then d else SetIf(d, MinGapPercentage, Num(section.value.minGapPercent))
  }

  /** `env_updates` of `update_configuration`, section by section in the
   *  order the handler visits them. */
  function ConfigSettings(req: ConfigRequest): (r: Settings)
    ensures DistinctKeys(r)
  {
    AfterTrading(TradingUpdates(ApiUpdates([], req.api), req.trading), req)
  }

  /** The keys the risk, telegram and scanner sections write. */
  predicate LaterSectionKey(k: EnvKey)
  {
    k == DailyLossLimit || k == MaxDrawdownPercentage || k == MaxPositionSize
    || k == TelegramBotToken || k == TelegramChatId || k == TelegramEnabled || k == MinGapPercentage
  }

  /** The sections the handler visits after the trading one: risk,
   *  telegram, scanner. Only their keys change. */
  function AfterTrading(d: Settings, req: ConfigRequest): (r: Settings)
    requires DistinctKeys(d)
    ensures DistinctKeys(r)
    ensures forall k :: !LaterSectionKey(k) ==> Lookup(r, k) == Lookup(d, k)
    ensures Lookup(r, MaxPositionSize) ==
      if req.risk.Some? && req.risk.value.maxPositionSize.Some? then Some(Number(req.risk.value.maxPositionSize.value))
      else Lookup(d, MaxPositionSize)
  {
    ScannerUpdates(TelegramUpdates(RiskUpdates(d, req.risk), req.telegram), req.scanner)
  }

  /** Percentages from the trading section reach the dict as fractions:
   *  no later section writes those keys. */
  lemma ConfigSettingsStoresFractions(req: ConfigRequest)
    requires req.trading.Some?
    ensures var r := ConfigSettings(req); var t := req.trading.value;
      && (t.positionSizePercent.Some? ==> Lookup(r, RiskPerTrade) == Some(Number(PercentToFraction(t.positionSizePercent.value))))
      && (t.stopLossPercent.Some? ==> Lookup(r, StopLossPercentage) == Some(Number(PercentToFraction(t.stopLossPercent.value))))
      && (t.profitTargetPercent.Some? ==> Lookup(r, TargetPercentage) == Some(Number(PercentToFraction(t.profitTargetPercent.value))))
  {
    ConfigSettingsSent(req, RiskPerTrade);
    ConfigSettingsSent(req, StopLossPercentage);
    ConfigSettingsSent(req, TargetPercentage);
    SentFractions(req);
  }

  /** `Sent` for the three percentages of the trading section. */
  lemma SentFractions(req: ConfigRequest)
    requires req.trading.Some?
    ensures var t := req.trading.value;
      && (t.positionSizePercent.Some? ==> Sent(req, RiskPerTrade) == Some(Number(PercentToFraction(t.positionSizePercent.value))))
      && (t.stopLossPercent.Some? ==> Sent(req, StopLossPercentage) == Some(Number(PercentToFraction(t.stopLossPercent.value))))
      && (t.profitTargetPercent.Some? ==> Sent(req, TargetPercentage) == Some(Number(PercentToFraction(t.profitTargetPercent.value))))
  {
  }

  /** MAX_POSITION_SIZE comes from the risk section when it has one, else
   *  from the trading section's portfolio value, else it is not written. */
  lemma ConfigSettingsPositionSize(req: ConfigRequest)
    ensures Lookup(ConfigSettings(req), MaxPositionSize) ==
      if req.risk.Some? && req.risk.value.maxPositionSize.Some? then Some(Number(req.risk.value.maxPositionSize.value))
      else if req.trading.Some? && req.trading.value.portfolioValue.Some? then Some(Number(req.trading.value.portfolioValue.value))
      else None
  {
    ConfigSettingsSent(req, MaxPositionSize);
    SentPositionSize(req);
  }

  /** `Sent` for MAX_POSITION_SIZE. */
  lemma SentPositionSize(req: ConfigRequest)
    ensures Sent(req, MaxPositionSize) ==
      if req.risk.Some? && req.risk.value.maxPositionSize.Some? then Some(Number(req.risk.value.maxPositionSize.value))
      else if req.trading.Some? && req.trading.value.portfolioValue.Some? then Some(Number(req.trading.value.portfolioValue.value))
      else None
  {
  }

  /**
   * What `update_configuration` puts in `env_updates` for each setting,
   * read off the request directly: the field as sent (percentages of the
   * trading section as fractions, MIN_GAP_PERCENTAGE as sent), MAX_POSITION_SIZE
   * from the risk section before the trading one, and nothing for a field
   * the request did not carry.
   */
  function Sent(req: ConfigRequest, k: EnvKey): Option<SettingValue>
  {
    match k
    case KiteApiKey => if req.api.Some? then Verbatims(req.api.value.apiKey) else None
    case KiteApiSecret => if req.api.Some? then Verbatims(req.api.value.apiSecret) else None
    case KiteAccessToken => if req.api.Some? then Verbatims(req.api.value.accessToken) else None
    case PaperTrading =>
      if req.api.Some? && req.api.value.paperTrading.Some? then Some(Flag(req.api.value.paperTrading.value)) else None
    case MaxPositionSize =>
      if req.risk.Some? && req.risk.value.maxPositionSize.Some? then Num(req.risk.value.maxPositionSize)
      else if req.trading.Some? then Num(req.trading.value.portfolioValue)
      else None
    case MaxOpenPositions =>
      if req.trading.Some? && req.trading.value.maxPositions.Some? then Some(Whole(req.trading.value.maxPositions.value))
      else None
    case RiskPerTrade => if req.trading.Some? then Fraction(req.trading.value.positionSizePercent) else None
    case StopLossPercentage => if req.trading.Some? then Fraction(req.trading.value.stopLossPercent) else None
    case TargetPercentage => if req.trading.Some? then Fraction(req.trading.value.profitTargetPercent) else None
    case DailyLossLimit => if req.risk.Some? then Num(req.risk.value.dailyLossLimit) else None
    case MaxDrawdownPercentage => if req.risk.Some? then Num(req.risk.value.maxDrawdown) else None
    case TelegramBotToken => if req.telegram.Some? then Verbatims(req.telegram.value.botToken) else None
    case TelegramChatId =>
      if req.telegram.Some? && req.telegram.value.chatIds.Some? && req.telegram.value.chatIds.value != []
      then Some(Verbatim(req.telegram.value.chatIds.value[0])) else None
    case TelegramEnabled =>
      if req.telegram.Some? && req.telegram.value.enabled.Some? then Some(Flag(req.telegram.value.enabled.value)) else None
    case MinGapPercentage => if req.scanner.Some? then Num(req.scanner.value.minGapPercent) else None
  }

  /** Every setting of the dict holds what the request sent for it, and a
   *  setting the request did not carry is not written. */
  lemma ConfigSettingsSent(req: ConfigRequest, k: EnvKey)
    ensures Lookup(ConfigSettings(req), k) == Sent(req, k)
  {
    var d1 := ApiUpdates([], req.api);
    var d2 := TradingUpdates(d1, req.trading);
    var d3 := RiskUpdates(d2, req.risk);
    var d4 := TelegramUpdates(d3, req.telegram);
    ApiStored([], req.api, k);
    TradingStored(d1, req.trading, k);
    RiskStored(d2, req.risk, k);
    TelegramStored(d3, req.telegram, k);
    ScannerStored(d4, req.scanner, k);
    SentByStages(req, k);
  }

  /** Each section, read key by key: the value after it is `XValue` of the
   *  value before. */
  lemma ApiStored(d: Settings, section: Option<ApiSection>, k: EnvKey)
    requires DistinctKeys(d)
    ensures Lookup(ApiUpdates(d, section), k) == ApiValue(section, k, Lookup(d, k))
  {
    ApiReads(section, k, Lookup(d, k), Lookup(ApiUpdates(d, section), k));
  }

  /** A value that changed as the api section writes it reads as
   *  `ApiValue`. */
  lemma ApiReads(section: Option<ApiSection>, k: EnvKey, was: Option<SettingValue>, now: Option<SettingValue>)
    requires k != KiteApiKey && k != KiteApiSecret && k != KiteAccessToken && k != PaperTrading ==> now == was
    requires k == KiteApiKey ==>
      now == (if section.Some? && section.value.apiKey.Some? then Some(Verbatim(section.value.apiKey.value)) else was)
    requires k == KiteApiSecret ==>
      now == (if section.Some? && section.value.apiSecret.Some? then Some(Verbatim(section.value.apiSecret.value)) else was)
    requires k == KiteAccessToken ==>
      now == (if section.Some? && section.value.accessToken.Some? then Some(Verbatim(section.value.accessToken.value)) else was)
    requires k == PaperTrading ==>
      now == (if section.Some? && section.value.paperTrading.Some? then Some(Flag(section.value.paperTrading.value)) else was)
    ensures now == ApiValue(section, k, was)
  {
  }

  lemma TradingStored(d: Settings, section: Option<TradingSection>, k: EnvKey)
    requires DistinctKeys(d)
    ensures Lookup(TradingUpdates(d, section), k) == TradingValue(section, k, Lookup(d, k))
  {
    if section.Some? {
      var t := section.value;
      TradingSizeStored(d, t, k);
      TradingPercentStored(TradingSizeUpdates(d, t), t, k);
    }
  }

  /** The trading section in its two halves. */
  lemma TradingSizeStored(d: Settings, t: TradingSection, k: EnvKey)
    requires DistinctKeys(d)
    ensures Lookup(TradingSizeUpdates(d, t), k) == TradingSizeValue(t, k, Lookup(d, k))
  {
    TradingSizeReads(t, k, Lookup(d, k), Lookup(TradingSizeUpdates(d, t), k));
  }

  lemma TradingPercentStored(d: Settings, t: TradingSection, k: EnvKey)
    requires DistinctKeys(d)
    ensures Lookup(TradingPercentUpdates(d, t), k) == TradingPercentValue(t, k, Lookup(d, k))
  {
    TradingPercentReads(t, k, Lookup(d, k), Lookup(TradingPercentUpdates(d, t), k));
  }

  /** A value that changed as the trading section's size settings are
   *  written reads as `TradingSizeValue`. */
  lemma TradingSizeReads(t: TradingSection, k: EnvKey, was: Option<SettingValue>, now: Option<SettingValue>)
    requires k == MaxPositionSize ==>
      now == (if t.portfolioValue.Some? then Some(Number(t.portfolioValue.value)) else was)
    requires k == MaxOpenPositions ==>
      now == (if t.maxPositions.Some? then Some(Whole(t.maxPositions.value)) else was)
    requires k != MaxPositionSize && k != MaxOpenPositions ==> now == was
    ensures now == TradingSizeValue(t, k, was)
  {
  }

  /** A value that changed as the trading section's percentages are
   *  written reads as `TradingPercentValue`. */
  lemma TradingPercentReads(t: TradingSection, k: EnvKey, was: Option<SettingValue>, now: Option<SettingValue>)
    requires k == RiskPerTrade ==>
      now == (if t.positionSizePercent.Some? then Fraction(t.positionSizePercent) else was)
    requires k == StopLossPercentage ==>
      now == (if t.stopLossPercent.Some? then Fraction(t.stopLossPercent) else was)
    requires k == TargetPercentage ==>
      now == (if t.profitTargetPercent.Some? then Fraction(t.profitTargetPercent) else was)
    requires k != RiskPerTrade && k != StopLossPercentage && k != TargetPercentage ==> now == was
    ensures now == TradingPercentValue(t, k, was)
  {
  }

  lemma RiskStored(d: Settings, section: Option<RiskSection>, k: EnvKey)
    requires DistinctKeys(d)
    ensures Lookup(RiskUpdates(d, section), k) == RiskValue(section, k, Lookup(d, k))
  {
    RiskReads(section, k, Lookup(d, k), Lookup(RiskUpdates(d, section), k));
  }

  /** A value that changed as the risk section writes it reads as
   *  `RiskValue`. */
  lemma RiskReads(section: Option<RiskSection>, k: EnvKey, was: Option<SettingValue>, now: Option<SettingValue>)
    requires k == MaxPositionSize ==>
      now == (if section.Some? && section.value.maxPositionSize.Some? then Some(Number(section.value.maxPositionSize.value)) else was)
    requires k == DailyLossLimit ==>
      now == (if section.Some? && section.value.dailyLossLimit.Some? then Some(Number(section.value.dailyLossLimit.value)) else was)
    requires k == MaxDrawdownPercentage ==>
      now == (if section.Some? && section.value.maxDrawdown.Some? then Some(Number(section.value.maxDrawdown.value)) else was)
    requires k != DailyLossLimit && k != MaxDrawdownPercentage && k != MaxPositionSize ==> now == was
    ensures now == RiskValue(section, k, was)
  {
    if section.Some? {
      match k
      case DailyLossLimit =>
      case MaxDrawdownPercentage =>
      case MaxPositionSize =>
      case _ =>
    }
  }

  lemma TelegramStored(d: Settings, section: Option<TelegramSection>, k: EnvKey)
    requires DistinctKeys(d)
    ensures Lookup(TelegramUpdates(d, section), k) == TelegramValue(section, k, Lookup(d, k))
  {
    TelegramReads(section, k, Lookup(d, k), Lookup(TelegramUpdates(d, section), k));
  }

  /** A value that changed as the Telegram section writes it reads as
   *  `TelegramValue`. */
  lemma TelegramReads(section: Option<TelegramSection>, k: EnvKey, was: Option<SettingValue>, now: Option<SettingValue>)
    requires k != TelegramBotToken && k != TelegramChatId && k != TelegramEnabled ==> now == was
    requires k == TelegramChatId ==>
      now == (if section.Some? && section.value.chatIds.Some? && section.value.chatIds.value != [] then Some(Verbatim(section.value.chatIds.value[0])) else was)
    requires k == TelegramBotToken ==>
      now == (if section.Some? && section.value.botToken.Some? then Some(Verbatim(section.value.botToken.value)) else was)
    requires k == TelegramEnabled ==>
      now == (if section.Some? && section.value.enabled.Some? then Some(Flag(section.value.enabled.value)) else was)
    ensures now == TelegramValue(section, k, was)
  {
  }

  lemma ScannerStored(d: Settings, section: Option<ScannerSection>, k: EnvKey)
    requires DistinctKeys(d)
    ensures Lookup(ScannerUpdates(d, section), k) == ScannerValue(section, k, Lookup(d, k))
  {
  }

  /** `Sent`, section by section in the handler's order. */
  lemma SentByStages(req: ConfigRequest, k: EnvKey)
    ensures Sent(req, k) ==
      ScannerValue(req.scanner, k, TelegramValue(req.telegram, k, RiskValue(req.risk, k,
        TradingValue(req.trading, k, ApiValue(req.api, k, None)))))
  {
  }

  /** A setting after the api section, given its value before. */
  function ApiValue(api: Option<ApiSection>, k: EnvKey, before: Option<SettingValue>): Option<SettingValue>
  {
    if api.None? then before
    else
      match k
      case KiteApiKey => if api.value.apiKey.Some? then Verbatims(api.value.apiKey) else before
      case KiteApiSecret => if api.value.apiSecret.Some? then Verbatims(api.value.apiSecret) else before
      case KiteAccessToken => if api.value.accessToken.Some? then Verbatims(api.value.accessToken) else before
      case PaperTrading => if api.value.paperTrading.Some? then Some(Flag(api.value.paperTrading.value)) else before
      case _ => before
  }

  function TradingValue(trading: Option<TradingSection>, k: EnvKey, before: Option<SettingValue>): Option<SettingValue>
  {
    if trading.None? then before
    else TradingPercentValue(trading.value, k, TradingSizeValue(trading.value, k, before))
  }

  function TradingSizeValue(t: TradingSection, k: EnvKey, before: Option<SettingValue>): Option<SettingValue>
  {
    match k
    case MaxPositionSize => if t.portfolioValue.Some? then Num(t.portfolioValue) else before
    case MaxOpenPositions => if t.maxPositions.Some? then Some(Whole(t.maxPositions.value)) else before
    case _ => before
  }

  function TradingPercentValue(t: TradingSection, k: EnvKey, before: Option<SettingValue>): Option<SettingValue>
  {
    match k
    case RiskPerTrade => if t.positionSizePercent.Some? then Fraction(t.positionSizePercent) else before
    case StopLossPercentage => if t.stopLossPercent.Some? then Fraction(t.stopLossPercent) else before
    case TargetPercentage => if t.profitTargetPercent.Some? then Fraction(t.profitTargetPercent) else before
    case _ => before
  }

  function RiskValue(risk: Option<RiskSection>, k: EnvKey, before: Option<SettingValue>): Option<SettingValue>
  {
    if risk.None? then before
    else
      match k
      case DailyLossLimit => if risk.value.dailyLossLimit.Some? then Num(risk.value.dailyLossLimit) else before
      case MaxDrawdownPercentage => if risk.value.maxDrawdown.Some? then Num(risk.value.maxDrawdown) else before
      case MaxPositionSize => if risk.value.maxPositionSize.Some? then Num(risk.value.maxPositionSize) else before
      case _ => before
  }

  function TelegramValue(telegram: Option<TelegramSection>, k: EnvKey, before: Option<SettingValue>): Option<SettingValue>
  {
    if telegram.None? then before
    else
      var tg := telegram.value;
      match k
      case TelegramBotToken => if tg.botToken.Some? then Verbatims(tg.botToken) else before
      case TelegramChatId =>
        if tg.chatIds.Some? && tg.chatIds.value != [] then Some(Verbatim(tg.chatIds.value[0])) else before
      case TelegramEnabled => if tg.enabled.Some? then Some(Flag(tg.enabled.value)) else before
      case _ => before
  }

  function ScannerValue(scanner: Option<ScannerSection>, k: EnvKey, before: Option<SettingValue>): Option<SettingValue>
  {
    if scanner.Some? && k == MinGapPercentage && scanner.value.minGapPercent.Some? then Num(scanner.value.minGapPercent)
    else before
  }

  /** `str(x)` of a number the dashboard sent, as Python prints it. */
  type Render = real -> string

  /** `str(value)`, with `str(flag).lower()` for the flags. */
  function Show(v: SettingValue, render: Render): string
  {
    match v
    case Number(x) => render(x)
    case Whole(n) => Text.IntToString(n)
    case Flag(b) => if b then "true" else "false"
    case Verbatim(s) => s
  }

  /** The dict as `update_env_file` receives it: names as the file spells
   *  them, values as strings. */
  function Named(d: Settings, render: Render): (r: seq<Update>)
    requires DistinctKeys(d)
    ensures DistinctKeys(r)
    ensures forall k :: Lookup(r, Name(k)) == if Lookup(d, k).Some? then Some(Show(Lookup(d, k).value, render)) else None
  {
    var r := NamedEntries(d, render);
    forall a, b | 0 <= a < b < |r| ensures KeyAt(r, a) != KeyAt(r, b) {
      DistinctKeysAt(d, a, b);
      NamesDistinct(d[a].0, d[b].0);
    }
    forall k ensures Lookup(r, Name(k)) == if Lookup(d, k).Some? then Some(Show(Lookup(d, k).value, render)) else None {
      NamedLookup(d, render, k);
    }
    r
  }

  /** Each entry renamed and rendered, in place. */
  function NamedEntries(d: Settings, render: Render): (r: seq<Update>)
    ensures |r| == |d|
    ensures forall i :: 0 <= i < |d| ==> r[i].0 == Name(d[i].0) && r[i].1 == Show(d[i].1, render)
  {
    seq(|d|, i requires 0 <= i < |d| => (Name(d[i].0), Show(d[i].1, render)))
  }

  /** Looking a setting up by its file name finds its rendered value. */
  lemma NamedLookup(d: Settings, render: Render, k: EnvKey)
    ensures Lookup(NamedEntries(d, render), Name(k)) == if Lookup(d, k).Some? then Some(Show(Lookup(d, k).value, render)) else None
  {
    var r := NamedEntries(d, render);
    forall j | 0 <= j < |d| ensures (r[j].0 == Name(k)) == (d[j].0 == k) {
      NamesDistinct(d[j].0, k);
    }
    LookupRenamed(d, r, render, k);
  }

  /** Lookup through a renaming that matches exactly where the key does. */
  lemma {:induction false} LookupRenamed(d: Settings, r: seq<Update>, render: Render, k: EnvKey)
    requires |r| == |d|
    requires forall j :: 0 <= j < |d| ==> (r[j].0 == Name(k)) == (d[j].0 == k) && r[j].1 == Show(d[j].1, render)
    ensures Lookup(r, Name(k)) == if Lookup(d, k).Some? then Some(Show(Lookup(d, k).value, render)) else None
    decreases |d|
  {
    if d != [] {
      assert forall j :: 0 <= j < |d| - 1 ==> r[1..][j] == r[j + 1] && d[1..][j] == d[j + 1];
      LookupRenamed(d[1..], r[1..], render, k);
    }
  }

  /** `update_configuration`'s `env_updates`. */
  function ConfigUpdates(req: ConfigRequest, render: Render): (r: seq<Update>)
    ensures DistinctKeys(r)
  {
    Named(ConfigSettings(req), render)
  }

  /** `render` prints a number so that `float` reads back the same
   *  number, as Python's `str` and `float` do. */
  ghost predicate RenderParses(render: Render, parse: string -> real)
  {
    forall x :: parse(render(x)) == x
  }

  /** What the file's text holds for a key, as `update_env_file`'s own
   *  line reading sees it (the key before the first '='), read as a number. */
  function StoredNumber(text: string, key: string, parse: string -> real): Option<real>
  {
    var v := EnvFileValue(text, key);
    if v.Some? then Some(parse(v.value)) else None
  }

  /** A percentage sent from the dashboard is stored as a fraction that,
   *  read back from the file's lines as `update_env_file` reads them, is
   *  the same percentage again. */
  lemma PercentSurvivesSave(text: string, req: ConfigRequest, render: Render, parse: string -> real)
    requires EndsInNewline(text)
    requires RenderParses(render, parse)
    requires forall i :: 0 <= i < |ConfigUpdates(req, render)| ==> WellFormed(ConfigUpdates(req, render)[i])
    requires req.trading.Some? && req.trading.value.positionSizePercent.Some?
    ensures var stored := StoredNumber(UpdateEnvText(text, ConfigUpdates(req, render)), "RISK_PER_TRADE", parse);
      stored.Some? && FractionToPercent(stored.value) == req.trading.value.positionSizePercent.value
  {
    var updates := ConfigUpdates(req, render);
    var p := req.trading.value.positionSizePercent.value;
    ConfigSettingsStoresFractions(req);
    assert Lookup(updates, Name(RiskPerTrade)) == Some(render(PercentToFraction(p)));
    var j :| 0 <= j < |updates| && updates[j] == ("RISK_PER_TRADE", render(PercentToFraction(p)));
    UpdateThenReadText(text, updates, j);
    PercentFractionInverse(p, 0.0);
  }

  /** When both the trading and the risk section set a position size, the
   *  risk section's value is the one saved: the file's lines, read as
   *  `update_env_file` reads them, give it for `MAX_POSITION_SIZE`. */
  lemma RiskPositionSizeWins(text: string, req: ConfigRequest, render: Render)
    requires EndsInNewline(text)
    requires forall i :: 0 <= i < |ConfigUpdates(req, render)| ==> WellFormed(ConfigUpdates(req, render)[i])
    requires req.trading.Some? && req.trading.value.portfolioValue.Some?
    requires req.risk.Some? && req.risk.value.maxPositionSize.Some?
    ensures EnvFileValue(UpdateEnvText(text, ConfigUpdates(req, render)), "MAX_POSITION_SIZE")
         == Some(render(req.risk.value.maxPositionSize.value))
  {
    var updates := ConfigUpdates(req, render);
    ConfigSettingsPositionSize(req);
    assert Lookup(updates, Name(MaxPositionSize)) == Some(render(req.risk.value.maxPositionSize.value));
    var j :| 0 <= j < |updates| && updates[j] == ("MAX_POSITION_SIZE", render(req.risk.value.maxPositionSize.value));
    UpdateThenReadText(text, updates, j);
  }
}

=== FILE: health_monitor.dfy ===
/**
 * The decision logic of `monitoring/health_monitor.py`: how each probe's
 * answer is banded into a status, how a check result raises an alert at
 * most once per half hour, and how the stored results are summarised.
 * The probes themselves (HTTP, PostgreSQL, Redis, psutil, WebSocket) are
 * parameters: each check receives what its probe answered, or `None`
 * when the probe raised.
 */
module HealthMonitor {
  import opened Wrappers
  import Clock

  datatype HealthStatus = Healthy | Warning | Critical | Unknown

  /** The nine checks of `run_health_checks`, one component name each. */
  datatype Component =
    | Application | Database | Redis | SystemResources | DiskSpace
    | NetworkConnectivity | TradingEngine | Websocket | ExternalApis

  /** How bad a banded status is; `Unknown` is never produced by a check. */
  function Rank(s: HealthStatus): nat
  {
    match s
    case Healthy => 0
    case Warning => 1
    case Critical => 2
    case Unknown => 0
  }

  // ---------------------------------------------------------------------
  // Per-check banding
  // ---------------------------------------------------------------------

  /** What `GET /health` answered. */
  datatype HttpAnswer = HttpAnswer(statusCode: int, responseSeconds: real)

  /** `_check_application_health`: a 200 is healthy unless it took more
   *  than five seconds; any other answer, or no answer, is critical. */
  function ApplicationStatus(answer: Option<HttpAnswer>): (r: HealthStatus)
    ensures r == Healthy <==> answer.Some? && answer.value.statusCode == 200 && answer.value.responseSeconds <= 5.0
    ensures r == Warning <==> answer.Some? && answer.value.statusCode == 200 && answer.value.responseSeconds > 5.0
    ensures r != Unknown
  {
    match answer
    case None => Critical
    case Some(a) =>
      if a.statusCode == 200 then (if a.responseSeconds > 5.0 then Warning else Healthy)
      else Critical
  }

  /** `_check_database_health`: more than 50 active connections is a
   *  warning; a failed connection or query is critical. */
  function DatabaseStatus(activeConnections: Option<int>): (r: HealthStatus)
    ensures r == Critical <==> activeConnections.None?
    ensures r == Warning <==> activeConnections.Some? && activeConnections.value > 50
    ensures r != Unknown
  {
    match activeConnections
    case None => Critical
    case Some(n) => if n > 50 then Warning else Healthy
  }

  /** What Redis `INFO` reported. */
  datatype RedisInfo = RedisInfo(usedMemory: int, maxMemory: int)

  /** `_check_redis_health`: above 90% of a configured memory cap is a
   *  warning; with no cap (`maxmemory` 0) memory is never a concern. */
  function RedisStatus(info: Option<RedisInfo>): (r: HealthStatus)
    ensures r == Critical <==> info.None?
    ensures r == Warning <==> info.Some? && info.value.maxMemory > 0
                              && (info.value.usedMemory as real) > 0.9 * (info.value.maxMemory as real)
    ensures r != Unknown
  {
    match info
    case None => Critical
    case Some(i) =>
      if i.maxMemory > 0 && (i.usedMemory as real) / (i.maxMemory as real) > 0.9 then Warning
      else if i.maxMemory > 0 then
        RatioAbove(i.usedMemory as real, i.maxMemory as real, 0.9);
        Healthy
      else Healthy
  }

  /** `u / m > t` is `u > t * m` for a positive `m`. */
  lemma RatioAbove(u: real, m: real, t: real)
    requires m > 0.0
    ensures u / m > t <==> u > t * m
  {
    var q := u / m;
    assert q * m == u;
    if q > t {
      assert q * m > t * m;
    } else {
      assert q * m <= t * m;
    }
  }

  /** `_check_system_resources`: CPU above 80% or memory above 85% is a
   *  warning, either above 95% is critical (the later test wins). */
  function ResourceStatus(usage: Option<(real, real)>): (r: HealthStatus)
    ensures r == Critical <==> usage.None? || usage.value.0 > 95.0 || usage.value.1 > 95.0
    ensures r == Warning <==> usage.Some? && !(usage.value.0 > 95.0 || usage.value.1 > 95.0)
                              && (usage.value.0 > 80.0 || usage.value.1 > 85.0)
    ensures r != Unknown
  {
    match usage
    case None => Critical
    case Some((cpu, memory)) =>
      var afterWarning := if cpu > 80.0 || memory > 85.0 then Warning else Healthy;
      if cpu > 95.0 || memory > 95.0 then Critical else afterWarning
  }

  /** Disk usage as `psutil.disk_usage` reports it. */
  datatype DiskUsage = DiskUsage(usedBytes: nat, totalBytes: nat)

  /** `used / total * 100`, or `None` where Python divides by zero. */
  function UsedPercent(d: DiskUsage): (r: Option<real>)
    ensures r.None? <==> d.totalBytes == 0
    ensures r.Some? ==> r.value * (d.totalBytes as real) == 100.0 * (d.usedBytes as real)
  {
    if d.totalBytes == 0 then None else Some((d.usedBytes as real) / (d.totalBytes as real) * 100.0)
  }

  /** The disk band on a percentage: above 80 warns, above 90 is critical. */
  function DiskBand(usedPercent: real): (r: HealthStatus)
    ensures r == Critical <==> usedPercent > 90.0
    ensures r == Warning <==> 80.0 < usedPercent <= 90.0
    ensures r != Unknown
  {
    var afterWarning := if usedPercent > 80.0 then Warning else Healthy;
    if usedPercent > 90.0 then Critical else afterWarning
  }

  /** `_check_disk_space`: the `ZeroDivisionError` of an empty disk is
   *  caught like any other failure. */
  function DiskStatus(usage: Option<DiskUsage>): (r: HealthStatus)
    ensures usage.None? || usage.value.totalBytes == 0 ==> r == Critical
    ensures usage.Some? && usage.value.totalBytes > 0 ==> r == DiskBand(UsedPercent(usage.value).value)
  {
    if usage.None? then Critical
    else
      match UsedPercent(usage.value)
      case None => Critical
      case Some(p) => DiskBand(p)
  }

  /** The external services `_check_network_connectivity` probes. */
  const NetworkServices: nat := 3

  /** `_check_network_connectivity` on the number of services that
   *  answered below 500: a rate below 0.8 warns, below 0.5 is critical. */
  function NetworkStatus(reachable: Option<nat>): (r: HealthStatus)
    ensures r != Unknown
    ensures reachable.None? ==> r == Critical
    ensures reachable.Some? ==> (r == Critical <==> 2 * reachable.value < NetworkServices)
    ensures reachable.Some? ==> (r == Healthy <==> 5 * reachable.value >= 4 * NetworkServices)
  {
    match reachable
    case None => Critical
    case Some(n) =>
      var rate := (n as real) / (NetworkServices as real);
      assert rate < 0.5 <==> 2 * n < NetworkServices;
      assert rate < 0.8 <==> 5 * n < 4 * NetworkServices;
      var afterWarning := if rate < 0.8 then Warning else Healthy;
      if rate < 0.5 then Critical else afterWarning
  }

  /** With three services, every one must answer for the network to be
   *  healthy, and a single success is already critical. */
  lemma NetworkBands(n: nat)
    requires n <= NetworkServices
    ensures NetworkStatus(Some(n)) == Healthy <==> n == 3
    ensures NetworkStatus(Some(n)) == Warning <==> n == 2
    ensures NetworkStatus(Some(n)) == Critical <==> n <= 1
  {
  }

  /** The APIs `_check_external_apis` probes. */
  const ExternalApiCount: nat := 3

  /** `_check_external_apis`: fewer healthy APIs than 0.8 of the total
   *  warns, fewer than half is critical. */
  function ExternalApisStatus(healthyApis: Option<nat>): (r: HealthStatus)
    ensures r != Unknown
    ensures healthyApis.None? ==> r == Critical
    ensures healthyApis.Some? ==> (r == Critical <==> 2 * healthyApis.value < ExternalApiCount)
    ensures healthyApis.Some? ==> (r == Healthy <==> 5 * healthyApis.value >= 4 * ExternalApiCount)
  {
    match healthyApis
    case None => Critical
    case Some(h) =>
      var total := ExternalApiCount as real;
      var afterWarning := if (h as real) < total * 0.8 then Warning else Healthy;
      if (h as real) < total * 0.5 then Critical else afterWarning
  }

  /** The two reachability checks band alike: a rate against 0.8 and a
   *  count against 0.8 of the total are the same test. */
  lemma ReachabilityBandsAgree(n: Option<nat>)
    ensures NetworkStatus(n) == ExternalApisStatus(n)
  {
    if n.Some? {
      var x := n.value as real;
      assert (x / 3.0 < 0.8) <==> (x < 3.0 * 0.8);
      assert (x / 3.0 < 0.5) <==> (x < 3.0 * 0.5);
    }
  }

  /** What `GET /api/status` answered. */
  datatype EngineReport = EngineReport(statusCode: int, systemHealthy: bool, activeTrades: int, emergencyStop: bool)

  /** `_check_trading_engine_health`: an unhealthy or emergency-stopped
   *  engine is critical, more than ten open trades a warning. */
  function TradingEngineStatus(report: Option<EngineReport>): (r: HealthStatus)
    ensures r == Critical <==> report.None? || report.value.statusCode != 200
                               || !report.value.systemHealthy || report.value.emergencyStop
    ensures r == Warning <==> report.Some? && report.value.statusCode == 200 && report.value.systemHealthy
                              && !report.value.emergencyStop && report.value.activeTrades > 10
    ensures r != Unknown
  {
    match report
    case None => Critical
    case Some(e) =>
      if e.statusCode != 200 then Critical
      else if !e.systemHealthy || e.emergencyStop then Critical
      else if e.activeTrades > 10 then Warning
      else Healthy
  }

  /** `_check_websocket_connections`: a ping answered is healthy. */
  function WebsocketStatus(answered: bool): (r: HealthStatus)
    ensures r == Healthy <==> answered
    ensures r == Critical <==> !answered
  {
    if answered then Healthy else Critical
  }

  /** Higher usage never gives a better band. */
  lemma ResourceStatusMonotone(cpu: real, memory: real, cpu2: real, memory2: real)
    requires cpu <= cpu2 && memory <= memory2
    ensures Rank(ResourceStatus(Some((cpu, memory)))) <= Rank(ResourceStatus(Some((cpu2, memory2))))
  {
  }

  lemma DiskBandMonotone(p: real, q: real)
    requires p <= q
    ensures Rank(DiskBand(p)) <= Rank(DiskBand(q))
  {
  }

  /** Fewer healthy APIs never give a better band. */
  lemma ExternalApisMonotone(h: nat, h2: nat)
    requires h2 <= h
    ensures Rank(ExternalApisStatus(Some(h))) <= Rank(ExternalApisStatus(Some(h2)))
  {
  }

  // ---------------------------------------------------------------------
  // Alerts
  // ---------------------------------------------------------------------

  datatype AlertLevel = InfoLevel | WarningLevel | CriticalLevel | EmergencyLevel

  datatype CheckResult = CheckResult(component: Component, status: HealthStatus, message: string, timestamp: int)

  datatype Alert = Alert(level: AlertLevel, component: Component, message: string, timestamp: int, resolved: bool)

  /** Alerts about one component are suppressed for this long. */
  const AlertWindow: int := 30 * Clock.MicrosPerMinute

  /** An unresolved alert for `component` newer than half an hour before
   *  `now`. */
  predicate Suppresses(a: Alert, component: Component, now: int)
  {
    a.component == component && a.timestamp > now - AlertWindow && !a.resolved
  }

  /** The `recent_alerts` comprehension of `_process_alert`. */
  function RecentAlerts(history: seq<Alert>, component: Component, now: int): (r: seq<Alert>)
    ensures forall a :: a in r <==> a in history && Suppresses(a, component, now)
  {
    if history == [] then []
    else
      var rest := RecentAlerts(history[1..], component, now);
      assert forall a :: a in history <==> a == history[0] || a in history[1..];
      if Suppresses(history[0], component, now) then [history[0]] + rest else rest
  }

  /**
   * `_process_alert`: a warning or critical result raises an alert of the
   * matching level, stamped with the result's own time, unless one that
   * still suppresses it is on record. The history only ever grows at its
   * end.
   */
  function ProcessAlert(history: seq<Alert>, result: CheckResult, now: int): (r: seq<Alert>)
    ensures |r| == |history| || |r| == |history| + 1
    ensures r[..|history|] == history
    ensures |r| == |history| + 1 <==>
      (result.status == Warning || result.status == Critical)
      && !exists a :: a in history && Suppresses(a, result.component, now)
    ensures |r| == |history| + 1 ==>
      r[|history|] == Alert(if result.status == Warning then WarningLevel else CriticalLevel,
                            result.component, result.message, result.timestamp, false)
  {
    if result.status == Warning || result.status == Critical then
      var level := if result.status == Warning then WarningLevel else CriticalLevel;
      if RecentAlerts(history, result.component, now) == [] then
        history + [Alert(level, result.component, result.message, result.timestamp, false)]
      else
        assert RecentAlerts(history, result.component, now)[0] in history;
        history
    else history
  }

  /** Healthy and unknown results never alert. */
  lemma HealthyNeverAlerts(history: seq<Alert>, result: CheckResult, now: int)
    requires result.status == Healthy || result.status == Unknown
    ensures ProcessAlert(history, result, now) == history
  {
  }

  /** Once a component has alerted, it does not alert again while the
   *  stored alert is younger than the window. */
  lemma AlertNotRepeated(history: seq<Alert>, result: CheckResult, now: int, next: CheckResult, later: int)
    requires |ProcessAlert(history, result, now)| == |history| + 1
    requires next.component == result.component
    requires later - AlertWindow < result.timestamp
    ensures ProcessAlert(ProcessAlert(history, result, now), next, later) == ProcessAlert(history, result, now)
  {
    var after := ProcessAlert(history, result, now);
    assert after[|history|] in after;
    assert Suppresses(after[|history|], next.component, later);
  }

  /** Because the stored alert carries the result's time and not the time
   *  it was processed, a result older than the window alerts every time
   *  it is processed. */
  lemma StaleResultAlertsAgain(history: seq<Alert>, result: CheckResult, now: int)
    requires |ProcessAlert(history, result, now)| == |history| + 1
    requires result.timestamp <= now - AlertWindow
    ensures |ProcessAlert(ProcessAlert(history, result, now), result, now)| == |history| + 2
  {
    var after := ProcessAlert(history, result, now);
    forall a | a in after
      ensures !Suppresses(a, result.component, now)
    {
      assert after == history + [after[|history|]];
    }
  }

  // ---------------------------------------------------------------------
  // run_health_checks and get_system_status
  // ---------------------------------------------------------------------

  datatype MonitorState = MonitorState(results: map<Component, CheckResult>, history: seq<Alert>)

  /**
   * `run_health_checks` after `asyncio.gather`: a check that raised
   * (`None`) is skipped; every other result replaces the stored result for
   * its component and is offered to `_process_alert`, in order.
   */
  function RecordResults(st: MonitorState, outcomes: seq<Option<CheckResult>>, now: int): (r: MonitorState)
    ensures r.results.Keys == st.results.Keys + (set i | 0 <= i < |outcomes| && outcomes[i].Some? :: outcomes[i].value.component)
    ensures forall c :: c in r.results && c !in st.results ==> exists i :: 0 <= i < |outcomes| && outcomes[i] == Some(r.results[c])
    ensures |outcomes| > 0 && outcomes[|outcomes| - 1].Some? ==>
      r.results[outcomes[|outcomes| - 1].value.component] == outcomes[|outcomes| - 1].value
    ensures |st.history| <= |r.history| && r.history[..|st.history|] == st.history
    decreases |outcomes|
  {
    if outcomes == [] then st
    else
      var init := RecordResults(st, outcomes[..|outcomes| - 1], now);
      match outcomes[|outcomes| - 1]
      case None => init
      case Some(result) =>
        var history := ProcessAlert(init.history, result, now);
        assert history[..|st.history|] == init.history[..|st.history|];
        MonitorState(init.results[result.component := result], history)
  }

  /** Outcome `i` is a result for component `c`. */
  predicate MentionsAt(outcomes: seq<Option<CheckResult>>, i: nat, c: Component)
    requires i < |outcomes|
  {
    outcomes[i].Some? && outcomes[i].value.component == c
  }

  /** The latest result for `c` among the outcomes, if any. */
  function LatestFor(outcomes: seq<Option<CheckResult>>, c: Component): (r: Option<CheckResult>)
    ensures r.Some? <==> exists i :: 0 <= i < |outcomes| && MentionsAt(outcomes, i, c)
    ensures r.Some? ==> exists i :: 0 <= i < |outcomes| && outcomes[i] == r
                                    && forall j :: i < j < |outcomes| ==> !MentionsAt(outcomes, j, c)
    decreases |outcomes|
  {
    if outcomes == [] then None
    else
      var n := |outcomes| - 1;
      var init := outcomes[..n];
      if MentionsAt(outcomes, n, c) then outcomes[n]
      else
        var r := LatestFor(init, c);
        assert forall i :: 0 <= i < n ==> (MentionsAt(init, i, c) <==> MentionsAt(outcomes, i, c));
        assert r.Some? ==> exists i :: 0 <= i < |outcomes| && outcomes[i] == r
                                      && forall j :: i < j < |outcomes| ==> !MentionsAt(outcomes, j, c) by {
          if r.Some? {
            var i :| 0 <= i < n && init[i] == r && forall j :: i < j < n ==> !MentionsAt(init, j, c);
            assert outcomes[i] == r;
          }
        }
        r
  }

  /** After recording, each component holds its latest result, or the one
   *  it held before when no outcome is about it. */
  lemma {:induction false} RecordResultsLatest(st: MonitorState, outcomes: seq<Option<CheckResult>>, now: int, c: Component)
    ensures var r := RecordResults(st, outcomes, now);
      && (c in r.results <==> c in st.results || LatestFor(outcomes, c).Some?)
      && (c in r.results ==> r.results[c] == if LatestFor(outcomes, c).Some? then LatestFor(outcomes, c).value else st.results[c])
    decreases |outcomes|
  {
    if outcomes != [] {
      var n := |outcomes| - 1;
      var r := RecordResults(st, outcomes, now);
      var init := RecordResults(st, outcomes[..n], now);
      RecordResultsLatest(st, outcomes[..n], now, c);
      if MentionsAt(outcomes, n, c) {
        assert LatestFor(outcomes, c) == outcomes[n];
        assert r.results == init.results[c := outcomes[n].value];
      } else {
        assert LatestFor(outcomes, c) == LatestFor(outcomes[..n], c);
        assert c in r.results <==> c in init.results;
        assert c in r.results ==> r.results[c] == init.results[c];
      }
    }
  }

  /** The alert `_process_alert` raises for a warning or critical result. */
  function AlertFor(result: CheckResult): Alert
  {
    Alert(if result.status == Warning then WarningLevel else CriticalLevel,
          result.component, result.message, result.timestamp, false)
  }

  /** Every alert recording adds is the alert of one of the outcomes, a
   *  warning or critical one. */
  lemma {:induction false} RecordResultsAlerts(st: MonitorState, outcomes: seq<Option<CheckResult>>, now: int, k: nat)
    requires |st.history| <= k < |RecordResults(st, outcomes, now).history|
    ensures exists i ::
      && 0 <= i < |outcomes| && outcomes[i].Some?
      && (outcomes[i].value.status == Warning || outcomes[i].value.status == Critical)
      && RecordResults(st, outcomes, now).history[k] == AlertFor(outcomes[i].value)
    decreases |outcomes|
  {
    var n := |outcomes| - 1;
    var r := RecordResults(st, outcomes, now);
    var init := RecordResults(st, outcomes[..n], now);
    if k < |init.history| {
      assert r.history[k] == init.history[k] by {
        if outcomes[n].Some? {
          assert r.history == ProcessAlert(init.history, outcomes[n].value, now);
        }
      }
      RecordResultsAlerts(st, outcomes[..n], now, k);
      var i :| 0 <= i < n && outcomes[..n][i].Some?
        && (outcomes[..n][i].value.status == Warning || outcomes[..n][i].value.status == Critical)
        && init.history[k] == AlertFor(outcomes[..n][i].value);
      assert outcomes[..n][i] == outcomes[i];
    } else {
      assert outcomes[n].Some?;
      assert r.history == ProcessAlert(init.history, outcomes[n].value, now);
    }
  }

  /** `get_system_status`: no results is unknown; otherwise any critical
   *  component makes the system critical, else any warning a warning, and
   *  only all-healthy results are healthy. */
  function SystemStatus(results: map<Component, CheckResult>): (r: HealthStatus)
    ensures results == map[] ==> r == Unknown
    ensures r == Critical <==> exists c :: c in results && results[c].status == Critical
    ensures r == Warning <==> (exists c :: c in results && results[c].status == Warning)
                              && !exists c :: c in results && results[c].status == Critical
    ensures r == Healthy <==> results != map[] && forall c :: c in results ==> results[c].status == Healthy
  {
    if results == map[] then Unknown
    else if exists c :: c in results && results[c].status == Critical then Critical
    else if exists c :: c in results && results[c].status == Warning then Warning
    else if forall c :: c in results ==> results[c].status == Healthy then Healthy
    else Unknown
  }

  /** When every check produced a banded status, the overall status is
   *  the worst of them. */
  lemma SystemStatusIsWorstOf(results: map<Component, CheckResult>)
    requires results != map[]
    requires forall c :: c in results ==> results[c].status != Unknown
    ensures SystemStatus(results) != Unknown
    ensures forall c :: c in results ==> Rank(results[c].status) <= Rank(SystemStatus(results))
    ensures exists c :: c in results && results[c].status == SystemStatus(results)
  {
    var r := SystemStatus(results);
    var c0 :| c0 in results;
    if r == Healthy {
      assert results[c0].status == Healthy;
    }
  }
}

=== FILE: market_data.dfy ===
/**
 * The decision logic of `core/market_data.py`: the NSE session calendar,
 * the sanity checks on quotes, corporate-action flagging on a close
 * series, the bounded per-symbol tick buffer, the stock lists, the quote
 * cache with its primary/backup failover, and the subscriber registry.
 *
 * Data sources (Kite ticker, Yahoo) are parameters: the quote each returns.
 */
module MarketData {
  import opened Wrappers
  import opened Numeric
  import opened Clock
  import Text

  // --------------------------------------------------------------- calendar

  datatype MarketStatus = Open | Closed | PreMarket | PostMarket | Holiday

  /** The 2024 exchange holidays, as day numbers (see `Clock.Day`):
   *  Jan 26, Mar 8, Mar 29, Aug 15, Oct 2, Nov 1 and Dec 25. */
  const Holidays: set<int> := {19748, 19790, 19811, 19950, 19998, 20028, 20082}

  const PreMarketStart: int := HM(9, 0)
  const MarketOpenTime: int := HM(9, 15)
  const MarketCloseTime: int := HM(15, 30)
  const PostMarketEnd: int := HM(16, 0)

  /** A day the exchange trades: not a holiday and not Saturday or Sunday. */
  predicate IsTradingDay(d: int)
  {
    d !in Holidays && Weekday(d) < 5
  }

  /**
   * `MarketHoursManager.get_market_status`: holidays first, then weekends,
   * then the time of day: before 09:00 closed, pre-market until 09:15, open
   * through 15:30 inclusive, post-market through 16:00 inclusive, closed
   * after.
   */
  function GetMarketStatus(t: int): (s: MarketStatus)
    ensures s == Holiday <==> Day(t) in Holidays
    ensures s == Open <==> IsTradingDay(Day(t)) && MarketOpenTime <= TimeOfDay(t) <= MarketCloseTime
    ensures s == PreMarket <==> IsTradingDay(Day(t)) && PreMarketStart <= TimeOfDay(t) < MarketOpenTime
    ensures s == PostMarket <==> IsTradingDay(Day(t)) && MarketCloseTime < TimeOfDay(t) <= PostMarketEnd
    ensures s == Closed <==> (Day(t) !in Holidays
      && (Weekday(Day(t)) >= 5 || TimeOfDay(t) < PreMarketStart || TimeOfDay(t) > PostMarketEnd))
  {
    var tod := TimeOfDay(t);
    if Day(t) in Holidays then Holiday
    else if Weekday(Day(t)) >= 5 then Closed
    else if tod < PreMarketStart then Closed
    else if tod < MarketOpenTime then PreMarket
    else if tod <= MarketCloseTime then Open
    else if tod <= PostMarketEnd then PostMarket
    else Closed
  }

  /** `is_market_open`: a trading day, from the open through the close. */
  predicate IsMarketOpen(t: int): (open: bool)
    ensures open <==> IsTradingDay(Day(t)) && MarketOpenTime <= TimeOfDay(t) <= MarketCloseTime
  {
    GetMarketStatus(t) == Open
  }

  /** Within a trading day the sessions come in order: closed, pre-market,
   *  open, post-market, closed. */
  lemma SessionsInOrder(t1: int, t2: int)
    requires Day(t1) == Day(t2) && TimeOfDay(t1) <= TimeOfDay(t2) && IsTradingDay(Day(t1))
    ensures GetMarketStatus(t1) == Open ==> GetMarketStatus(t2) in {Open, PostMarket, Closed}
    ensures GetMarketStatus(t2) == Open ==> GetMarketStatus(t1) in {Open, PreMarket, Closed}
    ensures GetMarketStatus(t1) == PostMarket ==> GetMarketStatus(t2) != Open
  {
  }

  /**
   * No run of closed days is longer than three (a Friday holiday and the
   * weekend), so every day has a trading day at most three days later.
   */
  lemma TradingDayWithinThree(d: int)
    ensures exists e :: d <= e <= d + 3 && IsTradingDay(e)
  {
    var w := Weekday(d);
    WeekdayNext(d);
    WeekdayNext(d + 1);
    WeekdayNext(d + 2);
    if IsTradingDay(d) {
      assert IsTradingDay(d + 0);
    } else if w == 5 {
      assert IsTradingDay(d + 2);
    } else if w == 6 {
      assert IsTradingDay(d + 1);
    } else if w == 4 {
      assert IsTradingDay(d + 3);
    } else {
      assert IsTradingDay(d + 1);
    }
  }

  /** The day `get_next_market_open` starts looking from: today, or
   *  tomorrow once the close has passed. */
  function FirstCandidateDay(t: int): int
  {
    if TimeOfDay(t) > MarketCloseTime then Day(t) + 1 else Day(t)
  }

  /**
   * `get_next_market_open`: the instant itself while the market is open;
   * otherwise 09:15 on the first trading day from today, or from tomorrow
   * when today's close has passed. The result is never earlier than the
   * input and never more than four days later.
   */
  method GetNextMarketOpen(t: int) returns (r: int)
    ensures IsMarketOpen(t) ==> r == t
    ensures !IsMarketOpen(t) ==> (
      && TimeOfDay(r) == MarketOpenTime
      && IsTradingDay(Day(r))
      && FirstCandidateDay(t) <= Day(r) <= FirstCandidateDay(t) + 3
      && (forall d :: FirstCandidateDay(t) <= d < Day(r) ==> !IsTradingDay(d)))
    ensures r >= t
  {
    if IsMarketOpen(t) {
      return t;
    }
    var start := FirstCandidateDay(t);
    var d := start;
    TradingDayWithinThree(start);
    while !IsTradingDay(d)
      invariant start <= d <= start + 3
      invariant forall e :: start <= e < d ==> !IsTradingDay(e)
      invariant exists e :: d <= e <= start + 3 && IsTradingDay(e)
      decreases start + 3 - d
    {
      d := d + 1;
    }
    r := StartOfDay(d) + MarketOpenTime;
    DayOfStart(d, MarketOpenTime);
    OpenNotBefore(t, d);
  }

  /** Outside market hours, 09:15 on a trading day from the first candidate
   *  day on is not before `t`: on `t`'s own day the market has not opened
   *  yet, and any later day starts after `t`. */
  lemma OpenNotBefore(t: int, d: int)
    requires !IsMarketOpen(t) && FirstCandidateDay(t) <= d && IsTradingDay(d)
    ensures StartOfDay(d) + MarketOpenTime >= t
  {
    DayAndTime(t);
    if d == Day(t) {
      assert TimeOfDay(t) < MarketOpenTime;
    } else {
      assert StartOfDay(d) >= StartOfDay(Day(t)) + MicrosPerDay;
    }
  }

  // ----------------------------------------------------------- data quality

  datatype PriceData = PriceData(
    symbol: string,
    open: real,
    high: real,
    low: real,
    close: real,
    volume: int,
    lastPrice: real,
    timestamp: int)

  datatype PriceIssue =
    | NonPositivePrice
    | NegativeVolume
    | HighBelowLow
    | OutsideRange
    | LargePriceDeviation
    | VolumeSpike

  const PriceDeviationThreshold: real := 0.2
  const VolumeSpikeThreshold: real := 5.0

  function Flag(b: bool): nat { if b then 1 else 0 }

  /** The relative move from the previous quote exceeds 20%. */
  predicate Deviates(p: PriceData, previous: PriceData)
    requires previous.lastPrice != 0.0
  {
    Abs(p.lastPrice - previous.lastPrice) / previous.lastPrice > PriceDeviationThreshold
  }

  /** The volume grew more than fivefold over a previous positive volume. */
  predicate Spikes(p: PriceData, previous: PriceData)
  {
    previous.volume > 0 && p.volume as real / previous.volume as real > VolumeSpikeThreshold
  }

  /** The checks a quote undergoes on its own. */
  function OwnIssues(p: PriceData): (r: seq<PriceIssue>)
    ensures NonPositivePrice in r <==> p.lastPrice <= 0.0
    ensures NegativeVolume in r <==> p.volume < 0
    ensures HighBelowLow in r <==> p.high < p.low
    ensures OutsideRange in r <==> !(p.low <= p.lastPrice <= p.high)
    ensures LargePriceDeviation !in r && VolumeSpike !in r
    ensures |r| == Flag(p.lastPrice <= 0.0) + Flag(p.volume < 0) + Flag(p.high < p.low)
      + Flag(!(p.low <= p.lastPrice <= p.high))
  {
    (if p.lastPrice <= 0.0 then [NonPositivePrice] else [])
    + (if p.volume < 0 then [NegativeVolume] else [])
    + (if p.high < p.low then [HighBelowLow] else [])
    + (if !(p.low <= p.lastPrice <= p.high) then [OutsideRange] else [])
  }

  /** The checks against the previous quote. */
  function IssuesAgainst(p: PriceData, previous: PriceData): (r: seq<PriceIssue>)
    requires previous.lastPrice != 0.0
    ensures LargePriceDeviation in r <==> Deviates(p, previous)
    ensures VolumeSpike in r <==> Spikes(p, previous)
    ensures forall i :: i in r ==> i == LargePriceDeviation || i == VolumeSpike
    ensures |r| == Flag(Deviates(p, previous)) + Flag(Spikes(p, previous))
  {
    (if Deviates(p, previous) then [LargePriceDeviation] else [])
    + (if Spikes(p, previous) then [VolumeSpike] else [])
  }

  /**
   * `DataValidator.validate_price_data`: the list of issues, one per failed
   * check, in the order the checks run. Against a previous quote priced at
   * zero the relative move divides by zero and the call raises.
   */
  function ValidatePriceData(p: PriceData, previous: Option<PriceData>): (r: Result<seq<PriceIssue>>)
    ensures r.Failure? <==> previous.Some? && previous.value.lastPrice == 0.0
    ensures r.Ok? ==> (
      && (NonPositivePrice in r.value <==> p.lastPrice <= 0.0)
      && (NegativeVolume in r.value <==> p.volume < 0)
      && (HighBelowLow in r.value <==> p.high < p.low)
      && (OutsideRange in r.value <==> !(p.low <= p.lastPrice <= p.high)))
    ensures r.Ok? ==>
      && (LargePriceDeviation in r.value <==> previous.Some? && Deviates(p, previous.value))
      && (VolumeSpike in r.value <==> previous.Some? && Spikes(p, previous.value))
    ensures r.Ok? && previous.None? ==> r.value == OwnIssues(p)
  {
    if previous.Some? && previous.value.lastPrice == 0.0 then Failure("float division by zero")
    else if previous.None? then Ok(OwnIssues(p))
    else
      var own := OwnIssues(p);
      var against := IssuesAgainst(p, previous.value);
      assert forall i :: i in own + against <==> i in own || i in against;
      Ok(own + against)
  }

  /** A quote passes when it raises no issue. */
  predicate IsValidPrice(p: PriceData, previous: Option<PriceData>)
    requires previous.None? || previous.value.lastPrice != 0.0
  {
    |ValidatePriceData(p, previous).value| == 0
  }

  /** A valid quote has a positive price inside its own high-low range. */
  lemma ValidPriceIsSane(p: PriceData, previous: Option<PriceData>)
    requires previous.None? || previous.value.lastPrice != 0.0
    requires IsValidPrice(p, previous)
    ensures 0.0 < p.lastPrice && p.low <= p.lastPrice <= p.high && p.low <= p.high && p.volume >= 0
  {
    var issues := ValidatePriceData(p, previous).value;
    assert NonPositivePrice !in issues && OutsideRange !in issues && NegativeVolume !in issues;
  }

  /** `pct_change` on a close series: infinite after a zero close, not a
   *  number for zero over zero. */
  datatype Return = Finite(value: real) | PosInf | NegInf | NaN

  function PctChange(previous: real, current: real): (r: Return)
    ensures previous != 0.0 ==> r.Finite? && r.value * previous == current - previous
    ensures previous == 0.0 ==> (r == PosInf <==> current > 0.0) && (r == NegInf <==> current < 0.0)
  {
    if previous != 0.0 then
      var v := (current - previous) / previous;
      assert v * previous == current - previous;
      Finite(v)
    else if current > 0.0 then PosInf
    else if current < 0.0 then NegInf
    else NaN
  }

  /** `abs(r) > x`, false for NaN. */
  predicate AbsExceeds(r: Return, x: real)
  {
    match r
    case Finite(v) => Abs(v) > x
    case PosInf => true
    case NegInf => true
    case NaN => false
  }

  /** `r < x`, false for NaN. */
  predicate Below(r: Return, x: real)
  {
    match r
    case Finite(v) => v < x
    case PosInf => false
    case NegInf => true
    case NaN => false
  }

  datatype ActionKind = Split | Bonus
  datatype Severity = High | Medium

  datatype CorporateAction = CorporateAction(row: nat, kind: ActionKind, ret: Return, severity: Severity)

  /** The move into row `i` of the series. */
  function RowReturn(closes: seq<real>, i: nat): Return
    requires 1 <= i < |closes|
  {
    PctChange(closes[i - 1], closes[i])
  }

  /** What row `i` is flagged as, if it moved more than 15%. */
  function ActionAt(closes: seq<real>, i: nat): (r: seq<CorporateAction>)
    requires 1 <= i < |closes|
    ensures |r| <= 1
    ensures |r| == 1 <==> AbsExceeds(RowReturn(closes, i), 0.15)
    ensures |r| == 1 ==> (r[0].row == i && r[0].ret == RowReturn(closes, i)
      && (r[0].kind == Split <==> Below(RowReturn(closes, i), -0.15))
      && (r[0].severity == High <==> AbsExceeds(RowReturn(closes, i), 0.3)))
  {
    var ret := RowReturn(closes, i);
    if AbsExceeds(ret, 0.15) then
      [CorporateAction(i, if Below(ret, -0.15) then Split else Bonus, ret, if AbsExceeds(ret, 0.3) then High else Medium)]
    else []
  }

  /** The actions flagged among rows 1 to n - 1, in row order. */
  function ActionsBefore(closes: seq<real>, n: nat): (r: seq<CorporateAction>)
    requires 1 <= n <= |closes|
    ensures forall k :: 0 <= k < |r| ==> 1 <= r[k].row < n
    decreases n
  {
    if n == 1 then [] else ActionsBefore(closes, n - 1) + ActionAt(closes, n - 1)
  }

  /** Each action of `acts` is exactly what its row calls for. */
  predicate AllListed(closes: seq<real>, acts: seq<CorporateAction>)
  {
    forall k :: 0 <= k < |acts| ==> 1 <= acts[k].row < |closes| && ActionAt(closes, acts[k].row) == [acts[k]]
  }

  /** The rows of `acts` strictly increase. */
  predicate RowsIncrease(acts: seq<CorporateAction>)
  {
    forall k, l :: 0 <= k < l < |acts| ==> acts[k].row < acts[l].row
  }

  lemma ActionAtListed(closes: seq<real>, i: nat)
    requires 1 <= i < |closes|
    ensures AllListed(closes, ActionAt(closes, i))
  {
    var last := ActionAt(closes, i);
    if |last| == 1 {
      assert last == [last[0]];
    }
  }

  lemma ConcatListed(closes: seq<real>, a: seq<CorporateAction>, b: seq<CorporateAction>)
    requires AllListed(closes, a) && AllListed(closes, b)
    ensures AllListed(closes, a + b)
  {
    forall k | 0 <= k < |a + b|
      ensures 1 <= (a + b)[k].row < |closes| && ActionAt(closes, (a + b)[k].row) == [(a + b)[k]]
    {
      if k < |a| {
        assert (a + b)[k] == a[k];
      } else {
        assert (a + b)[k] == b[k - |a|];
      }
    }
  }

  lemma ConcatIncrease(a: seq<CorporateAction>, b: seq<CorporateAction>, bound: nat)
    requires RowsIncrease(a) && RowsIncrease(b)
    requires forall k :: 0 <= k < |a| ==> a[k].row < bound
    requires forall k :: 0 <= k < |b| ==> b[k].row == bound
    requires |b| <= 1
    ensures RowsIncrease(a + b)
  {
    forall k, l | 0 <= k < l < |a + b| ensures (a + b)[k].row < (a + b)[l].row {
      if l < |a| {
        assert (a + b)[k] == a[k] && (a + b)[l] == a[l];
      } else {
        assert (a + b)[k] == a[k] && (a + b)[l] == b[l - |a|];
      }
    }
  }

  /** Every action listed is the one its row calls for, and rows increase. */
  lemma {:induction false} ActionsBeforeSound(closes: seq<real>, n: nat)
    requires 1 <= n <= |closes|
    ensures AllListed(closes, ActionsBefore(closes, n))
    ensures RowsIncrease(ActionsBefore(closes, n))
    decreases n
  {
    if n > 1 {
      ActionsBeforeSound(closes, n - 1);
      var prefix := ActionsBefore(closes, n - 1);
      var last := ActionAt(closes, n - 1);
      assert ActionsBefore(closes, n) == prefix + last;
      ActionAtListed(closes, n - 1);
      ConcatListed(closes, prefix, last);
      ConcatIncrease(prefix, last, n - 1);
    }
  }

  /** Some action of `acts` is on row `i`. */
  predicate Covers(acts: seq<CorporateAction>, i: nat)
  {
    exists k :: 0 <= k < |acts| && acts[k].row == i
  }

  /** Every row that moved more than 15% is listed. */
  lemma {:induction false} ActionsBeforeComplete(closes: seq<real>, n: nat)
    requires 1 <= n <= |closes|
    ensures forall i :: 1 <= i < n && AbsExceeds(RowReturn(closes, i), 0.15) ==> Covers(ActionsBefore(closes, n), i)
    decreases n
  {
    if n > 1 {
      ActionsBeforeComplete(closes, n - 1);
      var prefix := ActionsBefore(closes, n - 1);
      var last := ActionAt(closes, n - 1);
      var r := ActionsBefore(closes, n);
      assert r == prefix + last;
      forall i | 1 <= i < n && AbsExceeds(RowReturn(closes, i), 0.15)
        ensures Covers(r, i)
      {
        if i < n - 1 {
          assert Covers(prefix, i);
          var k :| 0 <= k < |prefix| && prefix[k].row == i;
          assert r[k] == prefix[k];
        } else {
          assert |last| == 1 && r[|prefix|] == last[0];
          assert r[|prefix|].row == i;
        }
      }
    }
  }

  /**
   * `DataValidator.detect_corporate_actions` over a close series: one
   * action per row whose move exceeds 15% in size, in row order; a fall
   * beyond 15% is a split, anything else a bonus; a move beyond 30% is of
   * high severity. A series shorter than two rows yields nothing.
   */
  function DetectCorporateActions(closes: seq<real>): (r: seq<CorporateAction>)
    ensures |closes| < 2 ==> r == []
    ensures forall k :: 0 <= k < |r| ==> 1 <= r[k].row < |closes| && ActionAt(closes, r[k].row) == [r[k]]
    ensures forall k, l :: 0 <= k < l < |r| ==> r[k].row < r[l].row
    ensures forall i :: 1 <= i < |closes| && AbsExceeds(RowReturn(closes, i), 0.15) ==> Covers(r, i)
  {
    if |closes| < 2 then []
    else
      ActionsBeforeSound(closes, |closes|);
      ActionsBeforeComplete(closes, |closes|);
      ActionsBefore(closes, |closes|)
  }

  // ------------------------------------------------------------ tick buffer

  datatype Tick = Tick(symbol: string, lastPrice: real, volume: int, timestamp: int)

  /** `TickDataProcessor.tick_buffer` and `last_prices`. */
  datatype TickStore = TickStore(buffers: map<string, seq<Tick>>, lastPrices: map<string, real>)

  const BufferSize: nat := 100

  /** `xs[-n:]` for n > 0: the last `n` items, or all of them. */
  function LastN<T>(xs: seq<T>, n: nat): (r: seq<T>)
    ensures |r| == if |xs| <= n then |xs| else n
  {
    if |xs| <= n then xs else xs[|xs| - n..]
  }

  function BufferOf(st: TickStore, symbol: string): seq<Tick>
  {
    if symbol in st.buffers then st.buffers[symbol] else []
  }

  predicate BuffersBounded(st: TickStore)
  {
    forall s :: s in st.buffers ==> |st.buffers[s]| <= BufferSize
  }

  /** What a buffer keeps: its last 100 ticks. */
  function Retain(buffer: seq<Tick>): seq<Tick>
  {
    LastN(buffer, BufferSize)
  }

  /**
   * `process_tick`: appends the tick to its symbol's buffer, keeps the last
   * 100, and records its price. The flag says whether this tick is one of
   * those sampled to the database (the buffer length is a multiple of 10).
   */
  function ProcessTick(st: TickStore, tick: Tick): (r: (TickStore, bool))
    ensures r.0.buffers.Keys == st.buffers.Keys + {tick.symbol}
    ensures forall s :: BufferOf(r.0, s) == if s == tick.symbol then Retain(BufferOf(st, s) + [tick]) else BufferOf(st, s)
    ensures r.0.lastPrices == st.lastPrices[tick.symbol := tick.lastPrice]
    ensures r.1 <==> |BufferOf(r.0, tick.symbol)| % 10 == 0
  {
    var buffer := Retain(BufferOf(st, tick.symbol) + [tick]);
    (TickStore(st.buffers[tick.symbol := buffer], st.lastPrices[tick.symbol := tick.lastPrice]), |buffer| % 10 == 0)
  }

  /** No buffer ever grows beyond 100 ticks. */
  lemma ProcessTickKeepsBound(st: TickStore, tick: Tick)
    requires BuffersBounded(st)
    ensures BuffersBounded(ProcessTick(st, tick).0)
  {
    var r := ProcessTick(st, tick).0;
    forall s | s in r.buffers
      ensures |r.buffers[s]| <= BufferSize
    {
      assert r.buffers[s] == BufferOf(r, s);
      if s != tick.symbol {
        assert BufferOf(r, s) == BufferOf(st, s);
      }
    }
  }

  /** A stream of ticks processed in arrival order. */
  function ProcessAll(st: TickStore, ticks: seq<Tick>): TickStore
    decreases |ticks|
  {
    if |ticks| == 0 then st else ProcessTick(ProcessAll(st, ticks[..|ticks| - 1]), ticks[|ticks| - 1]).0
  }

  /** The ticks of one symbol, in arrival order. */
  function TicksOf(ticks: seq<Tick>, symbol: string): (r: seq<Tick>)
    ensures |r| <= |ticks|
    decreases |ticks|
  {
    if |ticks| == 0 then []
    else TicksOf(ticks[..|ticks| - 1], symbol) + (if ticks[|ticks| - 1].symbol == symbol then [ticks[|ticks| - 1]] else [])
  }

  lemma RetainSnoc(xs: seq<Tick>, x: Tick)
    ensures Retain(Retain(xs) + [x]) == Retain(xs + [x])
  {
  }

  /**
   * After any stream, a symbol's buffer holds its most recent ticks, at
   * most 100 of them, in arrival order.
   */
  lemma {:induction false} BufferHoldsLatest(st: TickStore, ticks: seq<Tick>, symbol: string)
    requires |BufferOf(st, symbol)| <= BufferSize
    ensures BufferOf(ProcessAll(st, ticks), symbol) == Retain(BufferOf(st, symbol) + TicksOf(ticks, symbol))
    decreases |ticks|
  {
    if |ticks| == 0 {
      assert BufferOf(st, symbol) + [] == BufferOf(st, symbol);
    } else {
      var init := ticks[..|ticks| - 1];
      var last := ticks[|ticks| - 1];
      BufferHoldsLatest(st, init, symbol);
      var before := BufferOf(st, symbol) + TicksOf(init, symbol);
      var mid := ProcessAll(st, init);
      assert ProcessAll(st, ticks) == ProcessTick(mid, last).0;
      if last.symbol == symbol {
        RetainSnoc(before, last);
        assert before + [last] == BufferOf(st, symbol) + TicksOf(ticks, symbol);
      } else {
        assert TicksOf(ticks, symbol) == TicksOf(init, symbol);
      }
    }
  }

  /** The price of the latest of `ts`, or `otherwise` when there is none. */
  function LatestPrice(ts: seq<Tick>, otherwise: Option<real>): Option<real>
  {
    if |ts| > 0 then Some(ts[|ts| - 1].lastPrice) else otherwise
  }

  /** A symbol's last price is that of its latest tick, or unchanged when
   *  the stream carried none for it. */
  lemma {:induction false} LastPriceIsLatest(st: TickStore, ticks: seq<Tick>, symbol: string)
    ensures GetLastPrice(ProcessAll(st, ticks), symbol) == LatestPrice(TicksOf(ticks, symbol), GetLastPrice(st, symbol))
    decreases |ticks|
  {
    if |ticks| == 0 {
      assert ProcessAll(st, ticks) == st;
      assert TicksOf(ticks, symbol) == [];
    } else {
      var init := ticks[..|ticks| - 1];
      var last := ticks[|ticks| - 1];
      LastPriceIsLatest(st, init, symbol);
      var mid := ProcessAll(st, init);
      var prices := mid.lastPrices[last.symbol := last.lastPrice];
      assert ProcessAll(st, ticks).lastPrices == prices;
      if last.symbol == symbol {
        var t := TicksOf(ticks, symbol);
        assert t == TicksOf(init, symbol) + [last];
        assert t[|t| - 1] == last;
        assert GetLastPrice(ProcessAll(st, ticks), symbol) == Some(last.lastPrice);
      } else {
        assert TicksOf(ticks, symbol) == TicksOf(init, symbol);
        assert GetLastPrice(ProcessAll(st, ticks), symbol) == GetLastPrice(mid, symbol);
      }
    }
  }

  /**
   * `get_latest_ticks(symbol, count)`, which slices `buffer[-count:]`: for a
   * positive count the last `count` ticks; a count of zero gives the whole
   * buffer; a negative count drops that many ticks from the front.
   */
  function GetLatestTicks(st: TickStore, symbol: string, count: int): (r: seq<Tick>)
    ensures |r| <= |BufferOf(st, symbol)|
    ensures r == BufferOf(st, symbol)[|BufferOf(st, symbol)| - |r|..]
    ensures count > 0 ==> r == LastN(BufferOf(st, symbol), count)
    ensures count == 0 ==> r == BufferOf(st, symbol)
    ensures count < 0 ==> |r| == if -count >= |BufferOf(st, symbol)| then 0 else |BufferOf(st, symbol)| + count
  {
    Text.PySliceFrom(BufferOf(st, symbol), -count)
  }

  /** `get_last_price`. */
  function GetLastPrice(st: TickStore, symbol: string): (r: Option<real>)
    ensures r.Some? <==> symbol in st.lastPrices
    ensures r.Some? ==> r.value == st.lastPrices[symbol]
  {
    if symbol in st.lastPrices then Some(st.lastPrices[symbol]) else None
  }

  // ------------------------------------------------------------- stock lists

  const Nifty50: seq<string> :=
    ["RELIANCE", "TCS", "HDFCBANK", "INFY", "HINDUNILVR"]
    + ["ICICIBANK", "SBIN", "BHARTIARTL", "ITC", "ASIANPAINT"]
    + ["LT", "AXISBANK", "MARUTI", "KOTAKBANK", "HCLTECH"]
    + ["WIPRO", "ULTRACEMCO", "ONGC", "TECHM", "TITAN"]
    + ["SUNPHARMA", "POWERGRID", "NESTLEIND", "TATAMOTORS", "TATASTEEL"]
    + ["BAJFINANCE", "M&M", "NTPC", "JSWSTEEL", "DRREDDY"]
    + ["EICHERMOT", "ADANIPORTS", "HEROMOTOCO", "CIPLA", "COALINDIA"]
    + ["GRASIM", "BRITANNIA", "BPCL", "HINDALCO", "DIVISLAB"]
    + ["SHREECEM", "BAJAJFINSV", "INDUSINDBK", "UPL", "APOLLOHOSP"]
    + ["TATACONSUM", "BAJAJ-AUTO", "HDFCLIFE", "SBILIFE", "ADANIENT"]

  const NiftyNext50: seq<string> :=
    ["ADANIGREEN", "ADANITRANS", "AMBUJACEM", "BANDHANBNK", "BERGEPAINT"]
    + ["BIOCON", "BOSCHLTD", "CANFINHOME", "CHOLAFIN", "COLPAL"]
    + ["CONCOR", "COFORGE", "DABUR", "DALBHARAT", "DELTACORP"]
    + ["DMART", "ESCORTS", "GODREJCP", "GODREJPROP", "GRANULES"]
    + ["HAVELLS", "ICICIPRULI", "IDFCFIRSTB", "INDIGO", "INDUSTOWER"]
    + ["JINDALSTEL", "JUBLFOOD", "LALPATHLAB", "LICHSGFIN", "LUPIN"]
    + ["MARICO", "MCDOWELL-N", "MFSL", "MOTHERSON", "MPHASIS"]
    + ["MRF", "NAUKRI", "NMDC", "PAGEIND", "PEL"]
    + ["PIDILITIND", "PIIND", "PNB", "SAIL", "SIEMENS"]
    + ["TORNTPHARM", "TORNTPOWER", "TRENT", "VOLTAS", "ZEEL"]

  /** `get_all_major_stocks`: the Nifty 50 followed by the Nifty Next 50. */
  function AllMajorStocks(): (r: seq<string>)
    ensures |r| == 100 && r[..50] == Nifty50 && r[50..] == NiftyNext50
  {
    Nifty50 + NiftyNext50
  }

  /** `is_major_stock`. */
  function IsMajorStock(symbol: string): (b: bool)
    ensures b <==> symbol in Nifty50 || symbol in NiftyNext50
  {
    symbol in AllMajorStocks()
  }

  lemma MajorStockExamples()
    ensures IsMajorStock("RELIANCE") && IsMajorStock("ZEEL") && IsMajorStock("M&M")
  {
  }

  // ---------------------------------------------------- quote cache/failover

  const CacheTimeoutSeconds: int := 30

  /**
   * The cache age `get_real_time_price` compares: `timedelta.seconds`, the
   * seconds part of the age without its whole days.
   */
  function CacheAgeSeconds(cachedAt: int, now: int): (s: int)
    ensures 0 <= s < 86_400
  {
    ((now - cachedAt) % MicrosPerDay) / MicrosPerSecond
  }

  /** So an entry a day and ten seconds old still counts as fresh. */
  lemma StaleEntryLooksFresh(cachedAt: int)
    ensures CacheAgeSeconds(cachedAt, cachedAt + MicrosPerDay + 10 * MicrosPerSecond) == 10
    ensures CacheAgeSeconds(cachedAt, cachedAt + MicrosPerDay + 10 * MicrosPerSecond) < CacheTimeoutSeconds
  {
    var delta := MicrosPerDay + 10 * MicrosPerSecond;
    assert delta % MicrosPerDay == 10 * MicrosPerSecond;
  }

  /** The answers of the two data sources for one symbol. `backup` is
   *  `None` when there is no backup source. */
  datatype Sources = Sources(primary: Option<PriceData>, backup: Option<Option<PriceData>>)

  datatype CacheEntry = CacheEntry(data: PriceData, cachedAt: int)

  /** The cache answers: caching is on and the symbol's entry is younger
   *  than the timeout by the measure above. */
  predicate CacheHit(cache: map<string, CacheEntry>, symbol: string, useCache: bool, now: int)
  {
    useCache && symbol in cache && CacheAgeSeconds(cache[symbol].cachedAt, now) < CacheTimeoutSeconds
  }

  /**
   * `MarketDataManager.get_real_time_price`: a cache entry younger than 30
   * seconds (by the measure above) is returned as is. Otherwise the primary
   * quote is used, replaced by the backup's when it fails validation and
   * the backup's passes, or taken from the backup when the primary has
   * none. Whatever quote results is cached.
   */
  function GetRealTimePrice(cache: map<string, CacheEntry>, symbol: string, useCache: bool,
                            sources: Sources, now: int): (r: (Option<PriceData>, map<string, CacheEntry>))
    ensures useCache && symbol in cache && CacheAgeSeconds(cache[symbol].cachedAt, now) < CacheTimeoutSeconds ==>
      r == (Some(cache[symbol].data), cache)
    ensures r.0.None? ==> r.1 == cache
    ensures r.1 != cache ==> r.0.Some? && r.1 == cache[symbol := CacheEntry(r.0.value, now)]
    ensures r.0.Some? && r.1 != cache ==> (r.0 == sources.primary
      || (sources.backup.Some? && r.0 == sources.backup.value))
    ensures sources.primary.Some? && IsValidPrice(sources.primary.value, None) && r.1 != cache ==>
      r.0 == sources.primary
    ensures sources.primary.Some? && r.1 != cache && r.0 != sources.primary ==>
      IsValidPrice(r.0.value, None)
    ensures !CacheHit(cache, symbol, useCache, now) ==>
      && (r.0.Some? ==> r.1 == cache[symbol := CacheEntry(r.0.value, now)])
      && (sources.primary.None? ==> r.0 == if sources.backup.Some? then sources.backup.value else None)
      && (sources.primary.Some? && IsValidPrice(sources.primary.value, None) ==> r.0 == sources.primary)
      && (sources.primary.Some? && !IsValidPrice(sources.primary.value, None) ==>
            r.0 == if sources.backup.Some? && sources.backup.value.Some?
                      && IsValidPrice(sources.backup.value.value, None)
                   then sources.backup.value else sources.primary)
  {
    if useCache && symbol in cache && CacheAgeSeconds(cache[symbol].cachedAt, now) < CacheTimeoutSeconds then
      (Some(cache[symbol].data), cache)
    else
      var checked :=
        match sources.primary
        case None => None
        case Some(p) =>
          if IsValidPrice(p, None) then Some(p)
          else if sources.backup.Some? && sources.backup.value.Some? && IsValidPrice(sources.backup.value.value, None) then
            sources.backup.value
          else Some(p);
      var price := if checked.None? && sources.backup.Some? then sources.backup.value else checked;
      if price.Some? then (price, cache[symbol := CacheEntry(price.value, now)]) else (None, cache)
  }

  /** A quote the call returns is in the cache afterwards: asking again at
   *  the same instant with caching on gives it back whatever the sources
   *  would now say, and leaves the cache as it is. */
  lemma FetchedPriceIsCached(cache: map<string, CacheEntry>, symbol: string, useCache: bool,
                             sources: Sources, later: Sources, now: int)
    requires GetRealTimePrice(cache, symbol, useCache, sources, now).0.Some?
    ensures var r := GetRealTimePrice(cache, symbol, useCache, sources, now);
      GetRealTimePrice(r.1, symbol, true, later, now) == r
  {
    var r := GetRealTimePrice(cache, symbol, useCache, sources, now);
    if !CacheHit(cache, symbol, useCache, now) {
      assert r.1[symbol] == CacheEntry(r.0.value, now);
      assert CacheAgeSeconds(now, now) == 0;
    }
  }

  // ------------------------------------------------------------ subscribers

  /** Callbacks are identified by a handle; Python compares them by equality. */
  type Callback = int

  /** The position of the first occurrence of `x`. */
  function FirstIndex(xs: seq<Callback>, x: Callback): (i: nat)
    requires x in xs
    ensures i < |xs| && xs[i] == x && x !in xs[..i]
  {
    if xs[0] == x then 0
    else
      var j := FirstIndex(xs[1..], x);
      assert xs[..j + 1] == [xs[0]] + xs[1..][..j];
      j + 1
  }

  /** `list.remove`: drops the first occurrence. */
  function RemoveFirst(xs: seq<Callback>, x: Callback): (r: seq<Callback>)
    requires x in xs
    ensures |r| == |xs| - 1
    ensures exists i :: 0 <= i < |xs| && xs[i] == x && x !in xs[..i] && r == xs[..i] + xs[i + 1..]
  {
    var i := FirstIndex(xs, x);
    xs[..i] + xs[i + 1..]
  }

  /** No symbol is registered with an empty list. */
  predicate NoEmptyLists(subs: map<string, seq<Callback>>)
  {
    forall s :: s in subs ==> |subs[s]| > 0
  }

  /** `subscribe_to_price_updates`: appends the callback (even a second time)
   *  and always reports success. */
  function Subscribe(subs: map<string, seq<Callback>>, symbol: string, cb: Callback): (r: (bool, map<string, seq<Callback>>))
    ensures r.0
    ensures r.1.Keys == subs.Keys + {symbol}
    ensures r.1[symbol] == (if symbol in subs then subs[symbol] else []) + [cb]
    ensures forall s :: s in subs && s != symbol ==> r.1[s] == subs[s]
    ensures NoEmptyLists(subs) ==> NoEmptyLists(r.1)
  {
    (true, subs[symbol := (if symbol in subs then subs[symbol] else []) + [cb]])
  }

  /**
   * `unsubscribe_from_price_updates`: false, and nothing changes, when the
   * callback is not registered for the symbol; otherwise its first
   * registration is removed, and the symbol too once its list is empty.
   */
  function Unsubscribe(subs: map<string, seq<Callback>>, symbol: string, cb: Callback): (r: (bool, map<string, seq<Callback>>))
    ensures r.0 <==> symbol in subs && cb in subs[symbol]
    ensures !r.0 ==> r.1 == subs
    ensures r.0 ==> (
      var rest := RemoveFirst(subs[symbol], cb);
      && (|rest| == 0 ==> r.1 == subs - {symbol})
      && (|rest| > 0 ==> r.1 == subs[symbol := rest]))
    ensures NoEmptyLists(subs) ==> NoEmptyLists(r.1)
  {
    if symbol in subs && cb in subs[symbol] then
      var rest := RemoveFirst(subs[symbol], cb);
      if |rest| == 0 then (true, subs - {symbol}) else (true, subs[symbol := rest])
    else (false, subs)
  }

  /** Unsubscribing a callback that was just subscribed, and not before,
   *  restores the registry. */
  lemma UnsubscribeUndoesSubscribe(subs: map<string, seq<Callback>>, symbol: string, cb: Callback)
    requires NoEmptyLists(subs)
    requires symbol in subs ==> cb !in subs[symbol]
    ensures Unsubscribe(Subscribe(subs, symbol, cb).1, symbol, cb) == (true, subs)
  {
    var before := if symbol in subs then subs[symbol] else [];
    var after := Subscribe(subs, symbol, cb).1;
    assert after == subs[symbol := before + [cb]];
    assert (before + [cb])[|before|] == cb;
    RemoveFirstAppended(before, cb);
    if symbol !in subs {
      RemoveAddedKey(subs, symbol, before + [cb]);
    } else {
      RestoreKey(subs, symbol, before + [cb]);
    }
  }

  lemma RemoveAddedKey<K, V>(m: map<K, V>, k: K, v: V)
    requires k !in m
    ensures m[k := v] - {k} == m
  {
  }

  lemma RestoreKey<K, V>(m: map<K, V>, k: K, v: V)
    requires k in m
    ensures m[k := v][k := m[k]] == m
  {
  }

  lemma RemoveFirstAppended(xs: seq<Callback>, x: Callback)
    requires x !in xs
    ensures RemoveFirst(xs + [x], x) == xs
  {
    var ys := xs + [x];
    var i :| 0 <= i < |ys| && ys[i] == x && x !in ys[..i] && RemoveFirst(ys, x) == ys[..i] + ys[i + 1..];
    assert forall j :: 0 <= j < |xs| ==> ys[j] == xs[j];
    assert i == |xs|;
    assert ys[..i] == xs;
  }
}

=== FILE: numeric.dfy ===
/**
 * Real-number helpers shared by the money arithmetic: Python's `abs`,
 * `min`, `max`, the `max(lo, min(hi, x))` clamp and `int()` on a float,
 * which truncates toward zero.
 */
module Numeric {

  function Abs(x: real): (r: real)
    ensures r >= 0.0 && (r == x || r == -x)
  {
    if x < 0.0 then -x else x
  }

  function Min(a: real, b: real): (r: real)
    ensures r <= a && r <= b && (r == a || r == b)
  {
    if a <= b then a else b
  }

  function Max(a: real, b: real): (r: real)
    ensures r >= a && r >= b && (r == a || r == b)
  {
    if a >= b then a else b
  }

  /** `max(lo, min(hi, x))`. */
  function Clamp(lo: real, hi: real, x: real): (r: real)
    requires lo <= hi
    ensures lo <= r <= hi
    ensures lo <= x <= hi ==> r == x
  {
    Max(lo, Min(hi, x))
  }

  /** `int(x)` for a float `x`: the integer part, rounding toward zero. */
  function Trunc(x: real): (n: int)
    ensures x >= 0.0 ==> n as real <= x < n as real + 1.0
    ensures x < 0.0 ==> n as real - 1.0 < x <= n as real
  {
    if x >= 0.0 then x.Floor else -((-x).Floor)
  }

  function IntAbs(n: int): (r: nat)
    ensures r == n || r == -n
  {
    if n < 0 then -n else n
  }
}

=== FILE: order_engine.dfy ===
/**
 * The bookkeeping of `core/order_engine.py`: the broker rate limiter, the
 * shaping of order parameters, the two-leg GTT exit orders and their
 * lifecycle, slippage and fill quality, the position tracker and the
 * trade-status map of the order engine with the guard chain that admits a
 * signal.
 *
 * The broker (Kite Connect) is a `Venue`: a bundle of the answers its calls
 * give. Time is a parameter `now` (microseconds, see `Clock`).
 */
module OrderEngine {
  import opened Wrappers
  import opened Numeric
  import opened Clock
  import opened Text
  import EarningsScanner
  import RiskManager

  datatype OrderType = Market | Limit | StopLoss | StopLossMarket

  function OrderTypeValue(t: OrderType): string
  {
    match t
    case Market => "MARKET"
    case Limit => "LIMIT"
    case StopLoss => "SL"
    case StopLossMarket => "SL-M"
  }

  datatype OrderStatus = Pending | Open | Complete | Cancelled | Rejected | TriggerPending

  datatype Side = Buy | Sell

  function SideValue(s: Side): string
  {
    match s
    case Buy => "BUY"
    case Sell => "SELL"
  }

  /** The side that closes a position of signed quantity `quantity`. */
  function ClosingSide(quantity: int): Side
  {
    if quantity > 0 then Sell else Buy
  }

  /** The signed change a fill of `quantity` on `side` makes to a position. */
  function SignedQuantity(side: Side, quantity: int): int
  {
    if side == Buy then quantity else -quantity
  }

  datatype Product = Intraday | CashAndCarry | Normal

  function ProductValue(p: Product): string
  {
    match p
    case Intraday => "MIS"
    case CashAndCarry => "CNC"
    case Normal => "NRML"
  }

  datatype GttStatus = GttActive | Triggered | Disabled | Expired | GttCancelled

  datatype OrderRequest = OrderRequest(
    symbol: string,
    side: Side,
    quantity: int,
    orderType: OrderType,
    product: Product,
    price: Option<real>,
    triggerPrice: Option<real>,
    disclosedQuantity: Option<int>,
    validity: string,
    tag: Option<string>)

  datatype OrderResponse = OrderResponse(
    orderId: string,
    status: OrderStatus,
    symbol: string,
    side: Side,
    quantity: int,
    averagePrice: real,
    timestamp: int)

  /**
   * What the broker answers. `placeOrder` gives the new order's id, or
   * `None` when the call raises; `orders` is the order book `kite.orders()`
   * returns; `deleteGtt` says whether deleting a GTT succeeds; `placeGtt`
   * gives the new GTT's id for a symbol, or `None` when the call raises;
   * `gttStatus` is the status the GTT list reports per id.
   */
  datatype Venue = Venue(
    placeOrder: map<ParamKey, ParamValue> -> Option<string>,
    orders: seq<OrderResponse>,
    deleteGtt: string -> bool,
    placeGtt: string -> Option<string>,
    gttStatus: map<string, GttStatus>)

  // ------------------------------------------------------------ rate limiter

  const MaxOrdersPerDay: nat := 3000
  const MaxOrdersPerMinute: nat := 200

  /** `ZerodhaOrderManager.rate_limiter`; `lastDayReset` is a midnight. */
  datatype RateLimiter = RateLimiter(
    ordersPerDay: nat,
    ordersPerMinute: nat,
    lastMinuteReset: int,
    lastDayReset: int)

  function NewRateLimiter(now: int): (rl: RateLimiter)
    ensures rl.ordersPerDay == 0 && rl.ordersPerMinute == 0
    ensures Day(rl.lastDayReset) == Day(now) && TimeOfDay(rl.lastDayReset) == 0
  {
    DayOfStart(Day(now), 0);
    RateLimiter(0, 0, now, StartOfDay(Day(now)))
  }

  predicate WithinLimits(rl: RateLimiter)
  {
    rl.ordersPerDay <= MaxOrdersPerDay && rl.ordersPerMinute <= MaxOrdersPerMinute
  }

  /** The window resets of `_check_rate_limits`: a new calendar day clears
   *  the daily count, a minute since the last reset clears the other. */
  function ResetWindows(rl: RateLimiter, now: int): (r: RateLimiter)
    ensures Day(now) > Day(rl.lastDayReset) ==>
      r.ordersPerDay == 0 && Day(r.lastDayReset) == Day(now) && TimeOfDay(r.lastDayReset) == 0
    ensures Day(now) <= Day(rl.lastDayReset) ==>
      r.ordersPerDay == rl.ordersPerDay && r.lastDayReset == rl.lastDayReset
    ensures now - rl.lastMinuteReset >= MicrosPerMinute ==>
      r.ordersPerMinute == 0 && r.lastMinuteReset == now
    ensures now - rl.lastMinuteReset < MicrosPerMinute ==>
      r.ordersPerMinute == rl.ordersPerMinute && r.lastMinuteReset == rl.lastMinuteReset
    ensures r.ordersPerDay <= rl.ordersPerDay && r.ordersPerMinute <= rl.ordersPerMinute
  {
    var daily :=
      if Day(now) > Day(rl.lastDayReset) then
        DayOfStart(Day(now), 0);
        rl.(ordersPerDay := 0, lastDayReset := StartOfDay(Day(now)))
      else rl;
    if now - rl.lastMinuteReset >= MicrosPerMinute then daily.(ordersPerMinute := 0, lastMinuteReset := now)
    else daily
  }

  /** `_check_rate_limits`: the verdict and the limiter after the resets. */
  function CheckRateLimits(rl: RateLimiter, now: int): (r: (bool, RateLimiter))
    ensures r.1 == ResetWindows(rl, now)
    ensures r.0 <==> r.1.ordersPerDay < MaxOrdersPerDay && r.1.ordersPerMinute < MaxOrdersPerMinute
  {
    var reset := ResetWindows(rl, now);
    (reset.ordersPerDay < MaxOrdersPerDay && reset.ordersPerMinute < MaxOrdersPerMinute, reset)
  }

  /** `_update_rate_limiter`. */
  function CountOrder(rl: RateLimiter): (r: RateLimiter)
    ensures r.ordersPerDay == rl.ordersPerDay + 1 && r.ordersPerMinute == rl.ordersPerMinute + 1
    ensures r.lastDayReset == rl.lastDayReset && r.lastMinuteReset == rl.lastMinuteReset
  {
    rl.(ordersPerDay := rl.ordersPerDay + 1, ordersPerMinute := rl.ordersPerMinute + 1)
  }

  // ------------------------------------------------------- order parameters

  datatype ParamValue = Str(s: string) | Int(n: int) | Price(p: Option<real>)

  /** Every key an order's parameters may carry. */
  datatype ParamKey =
    | TradingSymbol | Exchange | TransactionType | Quantity | OrderTypeKey
    | Product | Validity | PriceKey | TriggerPrice | DisclosedQuantity | Tag

  /** The key as it is written in the dict sent to the broker. */
  function KeyName(k: ParamKey): string
  {
    match k
    case TradingSymbol => "tradingsymbol"
    case Exchange => "exchange"
    case TransactionType => "transaction_type"
    case Quantity => "quantity"
    case OrderTypeKey => "order_type"
    case Product => "product"
    case Validity => "validity"
    case PriceKey => "price"
    case TriggerPrice => "trigger_price"
    case DisclosedQuantity => "disclosed_quantity"
    case Tag => "tag"
  }

  /** Distinct keys are written differently, so a map over `ParamKey` is
   *  the broker's dict. */
  lemma KeyNamesDistinct(k: ParamKey, l: ParamKey)
    ensures KeyName(k) == KeyName(l) ==> k == l
  {
    if k != l {
      var a, b := KeyName(k), KeyName(l);
      assert |a| != |b| || a[0] != b[0] || a[1] != b[1] || a[|a| - 1] != b[|b| - 1];
    }
  }

  /** Whether `place_order` puts key `k` into the dict: the seven basic
   *  keys always, a price for LIMIT and SL orders, a trigger price for SL
   *  and SL-M orders, a disclosed quantity when set and non-zero, a tag
   *  when set and non-empty. */
  predicate Sent(req: OrderRequest, k: ParamKey)
  {
    match k
    case PriceKey => req.orderType == Limit || req.orderType == StopLoss
    case TriggerPrice => req.orderType == StopLoss || req.orderType == StopLossMarket
    case DisclosedQuantity => req.disclosedQuantity.Some? && req.disclosedQuantity.value != 0
    case Tag => req.tag.Some? && req.tag.value != ""
    case _ => true
  }

  /** The value `place_order` writes under key `k`. */
  function SentValue(req: OrderRequest, k: ParamKey): ParamValue
    requires Sent(req, k)
  {
    match k
    case TradingSymbol => Str(req.symbol)
    case Exchange => Str("NSE")
    case TransactionType => Str(SideValue(req.side))
    case Quantity => Int(req.quantity)
    case OrderTypeKey => Str(OrderTypeValue(req.orderType))
    case Product => Str(ProductValue(req.product))
    case Validity => Str(req.validity)
    case PriceKey => Price(req.price)
    case TriggerPrice => Price(req.triggerPrice)
    case DisclosedQuantity => Int(req.disclosedQuantity.value)
    case Tag => Str(req.tag.value)
  }

  /** The `order_params` dict `place_order` sends to the broker. */
  function OrderParams(req: OrderRequest): (m: map<ParamKey, ParamValue>)
    ensures TradingSymbol in m && m[TradingSymbol] == Str(req.symbol)
    ensures Exchange in m && m[Exchange] == Str("NSE")
    ensures TransactionType in m && m[TransactionType] == Str(SideValue(req.side))
    ensures Quantity in m && m[Quantity] == Int(req.quantity)
    ensures OrderTypeKey in m && m[OrderTypeKey] == Str(OrderTypeValue(req.orderType))
    ensures Product in m && m[Product] == Str(ProductValue(req.product))
    ensures Validity in m && m[Validity] == Str(req.validity)
    ensures PriceKey in m <==> req.orderType == Limit || req.orderType == StopLoss
    ensures PriceKey in m ==> m[PriceKey] == Price(req.price)
    ensures TriggerPrice in m <==> req.orderType == StopLoss || req.orderType == StopLossMarket
    ensures TriggerPrice in m ==> m[TriggerPrice] == Price(req.triggerPrice)
    ensures DisclosedQuantity in m <==> req.disclosedQuantity.Some? && req.disclosedQuantity.value != 0
    ensures DisclosedQuantity in m ==> m[DisclosedQuantity] == Int(req.disclosedQuantity.value)
    ensures Tag in m <==> req.tag.Some? && req.tag.value != ""
    ensures Tag in m ==> m[Tag] == Str(req.tag.value)
  {
    map k: ParamKey | Sent(req, k) :: SentValue(req, k)
  }

  /** `get_order_status`: the first order in the book with that id. */
  function FindOrder(orders: seq<OrderResponse>, orderId: string): (r: Option<OrderResponse>)
    ensures r.None? <==> forall i :: 0 <= i < |orders| ==> orders[i].orderId != orderId
    ensures r.Some? ==> (exists i :: 0 <= i < |orders| && orders[i] == r.value
                           && (forall j :: 0 <= j < i ==> orders[j].orderId != orderId))
    ensures r.Some? ==> r.value.orderId == orderId
  {
    if |orders| == 0 then None
    else if orders[0].orderId == orderId then Some(orders[0])
    else
      var r := FindOrder(orders[1..], orderId);
      assert forall i :: 1 <= i < |orders| ==> orders[i] == orders[1..][i - 1];
      r
  }

  /** The outcome of one `place_order` call. */
  datatype Placement = Placement(response: Option<OrderResponse>, limiter: RateLimiter, submitted: bool)

  /**
   * `ZerodhaOrderManager.place_order`: refused outright when the rate limit
   * is reached; otherwise the order goes to the broker and, only when the
   * broker accepts it, both counters grow by one and the order is looked up.
   * There is no retry.
   */
  function PlaceOrder(rl: RateLimiter, now: int, req: OrderRequest, venue: Venue): (r: Placement)
    ensures var check := CheckRateLimits(rl, now);
      && (!check.0 ==> r == Placement(None, check.1, false))
      && (r.submitted <==> check.0 && venue.placeOrder(OrderParams(req)).Some?)
      && (r.submitted ==> (r.limiter == CountOrder(check.1)
                             && r.response == FindOrder(venue.orders, venue.placeOrder(OrderParams(req)).value)))
      && (!r.submitted ==> r.limiter == check.1 && r.response.None?)
  {
    var check := CheckRateLimits(rl, now);
    if !check.0 then Placement(None, check.1, false)
    else
      match venue.placeOrder(OrderParams(req))
      case None => Placement(None, check.1, false)
      case Some(orderId) => Placement(FindOrder(venue.orders, orderId), CountOrder(check.1), true)
  }

  /** `place_order` keeps both counters within their caps. */
  lemma PlaceOrderWithinLimits(rl: RateLimiter, now: int, req: OrderRequest, venue: Venue)
    requires WithinLimits(rl)
    ensures WithinLimits(PlaceOrder(rl, now, req, venue).limiter)
  {
  }

  datatype Attempt = Attempt(at: int, request: OrderRequest)

  /** A run of `place_order` calls: how many reached the broker, and the
   *  final limiter. */
  function PlaceAll(rl: RateLimiter, venue: Venue, attempts: seq<Attempt>): (r: (nat, RateLimiter))
    decreases |attempts|
  {
    if |attempts| == 0 then (0, rl)
    else
      var p := PlaceOrder(rl, attempts[0].at, attempts[0].request, venue);
      var rest := PlaceAll(p.limiter, venue, attempts[1..]);
      ((if p.submitted then 1 else 0) + rest.0, rest.1)
  }

  /**
   * Within one calendar day, at most 3000 orders reach the broker in
   * total, counting those already placed that day.
   */
  lemma {:induction false} DailyOrderCap(rl: RateLimiter, venue: Venue, attempts: seq<Attempt>)
    requires WithinLimits(rl)
    requires forall i :: 0 <= i < |attempts| ==> Day(attempts[i].at) == Day(rl.lastDayReset)
    ensures rl.ordersPerDay + PlaceAll(rl, venue, attempts).0 == PlaceAll(rl, venue, attempts).1.ordersPerDay
    ensures PlaceAll(rl, venue, attempts).1.ordersPerDay <= MaxOrdersPerDay
    decreases |attempts|
  {
    if |attempts| > 0 {
      var p := PlaceOrder(rl, attempts[0].at, attempts[0].request, venue);
      PlaceOrderWithinLimits(rl, attempts[0].at, attempts[0].request, venue);
      assert p.limiter.lastDayReset == rl.lastDayReset;
      assert p.limiter.ordersPerDay == rl.ordersPerDay + (if p.submitted then 1 else 0);
      assert forall i :: 0 <= i < |attempts[1..]| ==> attempts[1..][i] == attempts[i + 1];
      DailyOrderCap(p.limiter, venue, attempts[1..]);
    }
  }

  // -------------------------------------------------------------------- GTT

  /** One leg of a GTT order. */
  datatype GttLeg = GttLeg(
    side: Side,
    quantity: nat,
    orderType: OrderType,
    product: Product,
    price: Option<real>,
    triggerPrice: Option<real>)

  datatype Gtt = Gtt(
    gttId: string,
    symbol: string,
    triggerType: string,
    triggerPrice: real,
    lastPrice: real,
    orders: seq<GttLeg>,
    status: GttStatus,
    createdAt: int,
    updatedAt: int,
    expiresAt: int)

  /** A GTT stays valid for a year. */
  const GttLifetime: int := 365 * MicrosPerDay

  /**
   * The two legs of `place_gtt_oco`: a limit order at the target and a
   * stop-loss-market order triggered at the stop, both on the side that
   * closes the position and for its whole size.
   */
  function OcoLegs(quantity: int, profitTarget: real, stopLoss: real): (legs: seq<GttLeg>)
    ensures |legs| == 2
    ensures forall i :: 0 <= i < |legs| ==>
      legs[i].side == ClosingSide(quantity) && legs[i].quantity == IntAbs(quantity) && legs[i].product == Intraday
    ensures legs[0].orderType == Limit && legs[0].price == Some(profitTarget) && legs[0].triggerPrice.None?
    ensures legs[1].orderType == StopLossMarket && legs[1].triggerPrice == Some(stopLoss) && legs[1].price.None?
  {
    var side := if quantity > 0 then Sell else Buy;
    [GttLeg(side, IntAbs(quantity), Limit, Intraday, Some(profitTarget), None),
     GttLeg(side, IntAbs(quantity), StopLossMarket, Intraday, None, Some(stopLoss))]
  }

  /** Whichever leg fires, its fill brings a long or a short position back
   *  to zero. */
  lemma OcoLegsFlatten(quantity: int, profitTarget: real, stopLoss: real, i: int)
    requires quantity != 0 && 0 <= i < 2
    ensures var leg := OcoLegs(quantity, profitTarget, stopLoss)[i];
      quantity + SignedQuantity(leg.side, leg.quantity) == 0
  {
  }

  /**
   * `GTTManager.place_gtt_oco`: when the broker accepts the two-leg trigger,
   * it is tracked as ACTIVE under the broker's id, expiring a year later;
   * when the call raises, nothing is tracked and no id is returned.
   */
  function PlaceGttOco(gtts: map<string, Gtt>, symbol: string, quantity: int, profitTarget: real,
                       stopLoss: real, currentPrice: real, venue: Venue, now: int): (r: (Option<string>, map<string, Gtt>))
    ensures venue.placeGtt(symbol).None? ==> r.0.None? && r.1 == gtts
    ensures venue.placeGtt(symbol).Some? ==> (
      var id := venue.placeGtt(symbol).value;
      && r.0 == Some(id)
      && r.1.Keys == gtts.Keys + {id}
      && r.1[id].status == GttActive && r.1[id].symbol == symbol
      && r.1[id].orders == OcoLegs(quantity, profitTarget, stopLoss)
      && r.1[id].expiresAt == now + GttLifetime
      && (forall k :: k in gtts && k != id ==> r.1[k] == gtts[k]))
  {
    match venue.placeGtt(symbol)
    case None => (None, gtts)
    case Some(id) =>
      var gtt := Gtt(id, symbol, "two-leg", currentPrice, currentPrice, OcoLegs(quantity, profitTarget, stopLoss),
                     GttActive, now, now, now + GttLifetime);
      (Some(id), gtts[id := gtt])
  }

  /**
   * `GTTManager.cancel_gtt`: when the broker deletes the trigger, a tracked
   * GTT is marked CANCELLED (it stays tracked) and the call reports success,
   * even for an id that was not tracked.
   */
  function CancelGtt(gtts: map<string, Gtt>, gttId: string, venue: Venue, now: int): (r: (bool, map<string, Gtt>))
    ensures !venue.deleteGtt(gttId) ==> r == (false, gtts)
    ensures venue.deleteGtt(gttId) ==> r.0 && r.1.Keys == gtts.Keys
    ensures venue.deleteGtt(gttId) && gttId in gtts ==>
      r.1[gttId] == gtts[gttId].(status := GttCancelled, updatedAt := now)
    ensures forall k :: k in gtts && k != gttId ==> r.1[k] == gtts[k]
  {
    if !venue.deleteGtt(gttId) then (false, gtts)
    else if gttId in gtts then (true, gtts[gttId := gtts[gttId].(status := GttCancelled, updatedAt := now)])
    else (true, gtts)
  }

  /** The statuses after which a GTT is no longer tracked. */
  predicate IsFinished(s: GttStatus)
  {
    s == Triggered || s == GttCancelled || s == Expired
  }

  /**
   * `GTTManager.monitor_gtts`: every tracked GTT the broker reports takes
   * the reported status; the reported ones are returned; those now
   * triggered, cancelled or expired stop being tracked (a DISABLED one
   * stays). GTTs the broker does not report are left as they were.
   */
  function MonitorGtts(gtts: map<string, Gtt>, venue: Venue, now: int): (r: (map<string, Gtt>, map<string, Gtt>))
    ensures r.0.Keys == gtts.Keys * venue.gttStatus.Keys
    ensures forall k :: k in r.0 ==> r.0[k] == gtts[k].(status := venue.gttStatus[k], updatedAt := now)
    ensures forall k :: k in r.1 <==> k in gtts && !(k in venue.gttStatus && IsFinished(venue.gttStatus[k]))
    ensures forall k :: k in r.1 ==> r.1[k] == if k in r.0 then r.0[k] else gtts[k]
  {
    var updated := map k | k in gtts && k in venue.gttStatus :: gtts[k].(status := venue.gttStatus[k], updatedAt := now);
    var kept := map k | k in gtts && !(k in venue.gttStatus && IsFinished(venue.gttStatus[k])) ::
      if k in updated then updated[k] else gtts[k];
    (updated, kept)
  }

  /** After monitoring, no tracked GTT is in a finished state. */
  lemma MonitoredGttsUnfinished(gtts: map<string, Gtt>, venue: Venue, now: int)
    requires forall k :: k in gtts ==> !IsFinished(gtts[k].status)
    ensures var r := MonitorGtts(gtts, venue, now);
      forall k :: k in r.1 ==> !IsFinished(r.1[k].status)
  {
  }

  // --------------------------------------------------------------- analysis

  /**
   * `ExecutionAnalyzer.calculate_slippage`: positive when the fill is worse
   * than expected (paid more on a buy, got less on a sell), and as a
   * percentage of the expected price. A zero expected price raises.
   */
  function CalculateSlippage(expected: real, actual: real, side: Side): (r: Result<(real, real)>)
    ensures expected == 0.0 <==> r.Failure?
    ensures r.Ok? ==> r.value.1 * expected == r.value.0 * 100.0
    ensures r.Ok? && side == Buy ==> (r.value.0 > 0.0 <==> actual > expected)
    ensures r.Ok? && side == Sell ==> (r.value.0 > 0.0 <==> actual < expected)
    ensures r.Ok? ==> (r.value.0 == 0.0 <==> actual == expected)
  {
    if expected == 0.0 then Failure("float division by zero")
    else
      var slippage := if side == Buy then actual - expected else expected - actual;
      var percent := slippage / expected * 100.0;
      assert percent * expected == slippage * 100.0;
      Ok((slippage, percent))
  }

  /** The same fill is slippage of opposite sign for a buyer and a seller. */
  lemma SlippageMirrors(expected: real, actual: real)
    requires expected != 0.0
    ensures CalculateSlippage(expected, actual, Buy).value.0 == -CalculateSlippage(expected, actual, Sell).value.0
    ensures CalculateSlippage(expected, actual, Buy).value.1 == -CalculateSlippage(expected, actual, Sell).value.1
  {
  }

  datatype FillQuality = Excellent | Good | Fair | Poor | VeryPoor

  function FillQualityRank(q: FillQuality): nat
  {
    match q
    case Excellent => 0
    case Good => 1
    case Fair => 2
    case Poor => 3
    case VeryPoor => 4
  }

  /** `assess_fill_quality`: bands on the absolute slippage percentage. */
  function AssessFillQuality(slippagePercent: real): (q: FillQuality)
    ensures q == Excellent <==> Abs(slippagePercent) <= 0.05
    ensures q == Good <==> 0.05 < Abs(slippagePercent) <= 0.1
    ensures q == Fair <==> 0.1 < Abs(slippagePercent) <= 0.2
    ensures q == Poor <==> 0.2 < Abs(slippagePercent) <= 0.5
    ensures q == VeryPoor <==> 0.5 < Abs(slippagePercent)
  {
    var a := Abs(slippagePercent);
    if a <= 0.05 then Excellent
    else if a <= 0.1 then Good
    else if a <= 0.2 then Fair
    else if a <= 0.5 then Poor
    else VeryPoor
  }

  /** More slippage, in either direction, never rates better. */
  lemma FillQualityMonotone(a: real, b: real)
    requires Abs(a) <= Abs(b)
    ensures FillQualityRank(AssessFillQuality(a)) <= FillQualityRank(AssessFillQuality(b))
  {
  }

  /** One row of `execution_history`. The instants are microseconds, so
   *  `executionDelay` is the delay in microseconds; the source stores
   *  `.total_seconds()`, the same delay as float seconds. */
  datatype ExecutionRecord = ExecutionRecord(
    symbol: string,
    signalTime: int,
    executionTime: int,
    entryPrice: real,
    expectedPrice: real,
    slippage: real,
    slippagePercent: real,
    executionDelay: int,
    fillQuality: FillQuality,
    commission: real)

  /**
   * `record_execution`: the slippage is always computed with the buy-side
   * sign, whatever side the entry was on; the record is appended. A zero
   * expected price raises.
   */
  function RecordExecution(records: seq<ExecutionRecord>, symbol: string, signalTime: int, executionTime: int,
                           entryPrice: real, expectedPrice: real): (r: Result<seq<ExecutionRecord>>)
    ensures r.Failure? <==> expectedPrice == 0.0
    ensures r.Ok? ==> |r.value| == |records| + 1 && r.value[..|records|] == records
    ensures r.Ok? ==> (
      var rec := r.value[|records|];
      && rec.slippage == CalculateSlippage(expectedPrice, entryPrice, Buy).value.0
      && rec.fillQuality == AssessFillQuality(rec.slippagePercent)
      && rec.executionDelay == executionTime - signalTime)
  {
    match CalculateSlippage(expectedPrice, entryPrice, Buy)
    case Failure(e) => Failure(e)
    case Ok(s) =>
      var rec := ExecutionRecord(symbol, signalTime, executionTime, entryPrice, expectedPrice, s.0, s.1,
                                 executionTime - signalTime, AssessFillQuality(s.1), 0.0);
      Ok(records + [rec])
  }

  /** How many records have fill quality `q`. */
  function CountQuality(records: seq<ExecutionRecord>, q: FillQuality): (n: nat)
    ensures n <= |records|
  {
    if |records| == 0 then 0
    else CountQuality(records[..|records| - 1], q) + (if records[|records| - 1].fillQuality == q then 1 else 0)
  }

  /** The `fill_quality_distribution` of `get_performance_summary`: the
   *  five counts partition the records. */
  lemma {:induction false} QualityDistributionTotal(records: seq<ExecutionRecord>)
    ensures CountQuality(records, Excellent) + CountQuality(records, Good) + CountQuality(records, Fair)
            + CountQuality(records, Poor) + CountQuality(records, VeryPoor) == |records|
    decreases |records|
  {
    if |records| > 0 {
      QualityDistributionTotal(records[..|records| - 1]);
    }
  }

  // ------------------------------------------------------ position tracking

  /** One row of the broker's position list. */
  datatype BrokerPosition = BrokerPosition(
    symbol: string,
    quantity: int,
    averagePrice: real,
    lastPrice: real,
    unrealised: real,
    pnl: real)

  datatype PositionStatus = PositionStatus(
    symbol: string,
    quantity: int,
    entryPrice: real,
    currentPrice: real,
    pnl: real,
    pnlPercent: real,
    unrealizedPnl: real,
    dayPnl: real,
    positionValue: real,
    lastUpdated: int)

  /** What a tracked position's derived figures mean. */
  predicate ConsistentPosition(p: PositionStatus)
  {
    && p.quantity != 0
    && p.pnl == (p.currentPrice - p.entryPrice) * p.quantity as real
    && p.positionValue == p.currentPrice * IntAbs(p.quantity) as real
    && p.pnlPercent * (p.entryPrice * IntAbs(p.quantity) as real) == p.pnl * 100.0
  }

  /** The status `_update_positions` builds for an open row, priced at the
   *  live quote when there is one. The entry price must be nonzero: the
   *  percentage divides by it. */
  function TrackedPosition(row: BrokerPosition, quotes: map<string, real>, now: int): (p: PositionStatus)
    requires row.quantity != 0 && row.averagePrice != 0.0
    ensures ConsistentPosition(p) && p.symbol == row.symbol && p.quantity == row.quantity
    ensures p.entryPrice == row.averagePrice
    ensures p.currentPrice == if row.symbol in quotes then quotes[row.symbol] else row.lastPrice
  {
    var current := if row.symbol in quotes then quotes[row.symbol] else row.lastPrice;
    var pnl := (current - row.averagePrice) * row.quantity as real;
    var cost := row.averagePrice * IntAbs(row.quantity) as real;
    assert cost != 0.0 by { NonzeroProduct(row.averagePrice, IntAbs(row.quantity) as real); }
    var percent := pnl / cost * 100.0;
    assert percent * cost == pnl * 100.0;
    PositionStatus(row.symbol, row.quantity, row.averagePrice, current, pnl, percent,
                   row.unrealised, row.pnl, current * IntAbs(row.quantity) as real, now)
  }

  lemma NonzeroProduct(a: real, b: real)
    requires a != 0.0 && b != 0.0
    ensures a * b != 0.0
  {
  }

  /**
   * `PositionTracker._update_positions`: rows are taken in order; an open
   * row (re)sets its symbol's status, a flat row removes the symbol. A
   * zero entry price on an open row raises, which abandons the remaining
   * rows and keeps what was already updated.
   */
  function UpdatePositions(positions: map<string, PositionStatus>, rows: seq<BrokerPosition>,
                           quotes: map<string, real>, now: int): (r: map<string, PositionStatus>)
    ensures (forall s :: s in positions ==> ConsistentPosition(positions[s])) ==>
      forall s :: s in r ==> ConsistentPosition(r[s])
    ensures forall s :: s in r ==> s in positions || exists i :: 0 <= i < |rows| && rows[i].symbol == s
    decreases |rows|
  {
    if |rows| == 0 then positions
    else
      var row := rows[0];
      if row.quantity != 0 then
        if row.averagePrice == 0.0 then positions
        else UpdatePositions(positions[row.symbol := TrackedPosition(row, quotes, now)], rows[1..], quotes, now)
      else UpdatePositions(positions - {row.symbol}, rows[1..], quotes, now)
  }

  /** The index of the last row for `symbol`, if any. */
  function LastRow(rows: seq<BrokerPosition>, symbol: string): (r: Option<nat>)
    ensures r.Some? ==> (r.value < |rows| && rows[r.value].symbol == symbol
                         && forall j :: r.value < j < |rows| ==> rows[j].symbol != symbol)
    ensures r.None? ==> forall j :: 0 <= j < |rows| ==> rows[j].symbol != symbol
  {
    if |rows| == 0 then None
    else if rows[|rows| - 1].symbol == symbol then Some(|rows| - 1)
    else LastRow(rows[..|rows| - 1], symbol)
  }

  /**
   * When no open row has a zero entry price, a symbol is tracked afterwards
   * exactly when its last row is open, or it has no row and was already
   * tracked; its status is then built from that last row.
   */
  lemma {:induction false} LastRowDecides(positions: map<string, PositionStatus>, rows: seq<BrokerPosition>,
                                          quotes: map<string, real>, now: int, symbol: string)
    requires forall i :: 0 <= i < |rows| && rows[i].quantity != 0 ==> rows[i].averagePrice != 0.0
    ensures var r := UpdatePositions(positions, rows, quotes, now);
      match LastRow(rows, symbol)
      case None => (symbol in r <==> symbol in positions) && (symbol in r ==> r[symbol] == positions[symbol])
      case Some(i) =>
        (symbol in r <==> rows[i].quantity != 0)
        && (symbol in r ==> r[symbol] == TrackedPosition(rows[i], quotes, now))
    decreases |rows|
  {
    if |rows| > 0 {
      var row := rows[0];
      var next := if row.quantity != 0 then positions[row.symbol := TrackedPosition(row, quotes, now)]
                  else positions - {row.symbol};
      assert UpdatePositions(positions, rows, quotes, now) == UpdatePositions(next, rows[1..], quotes, now);
      LastRowDecides(next, rows[1..], quotes, now, symbol);
      LastRowShift(rows, symbol);
    }
  }

  /** How the last row for a symbol moves when the first row is dropped. */
  lemma LastRowShift(rows: seq<BrokerPosition>, symbol: string)
    requires |rows| > 0
    ensures LastRow(rows, symbol).Some? && LastRow(rows, symbol).value > 0 ==>
      LastRow(rows[1..], symbol) == Some(LastRow(rows, symbol).value - 1)
    ensures LastRow(rows, symbol) == Some(0) ==> LastRow(rows[1..], symbol).None?
    ensures LastRow(rows, symbol).None? ==> LastRow(rows[1..], symbol).None? && rows[0].symbol != symbol
    ensures LastRow(rows[1..], symbol).None? && rows[0].symbol == symbol ==> LastRow(rows, symbol) == Some(0)
  {
    var a := LastRow(rows, symbol);
    var b := LastRow(rows[1..], symbol);
    if b.Some? {
      assert rows[1..][b.value] == rows[b.value + 1];
      LastRowUnique(rows, symbol, b.value + 1);
    } else if rows[0].symbol == symbol {
      LastRowUnique(rows, symbol, 0);
    }
  }

  lemma LastRowUnique(rows: seq<BrokerPosition>, symbol: string, i: nat)
    requires i < |rows| && rows[i].symbol == symbol
    requires forall j :: i < j < |rows| ==> rows[j].symbol != symbol
    ensures LastRow(rows, symbol) == Some(i)
  {
    var r := LastRow(rows, symbol);
    assert r.Some?;
  }

  // ----------------------------------------------------------- order engine

  datatype TradeStatus = Active | Completed | EmergencyExit

  /** An entry of `OrderEngine.active_trades`. */
  datatype Trade = Trade(
    symbol: string,
    side: Side,
    quantity: int,
    entryOrder: OrderResponse,
    gttId: Option<string>,
    positionSize: RiskManager.PositionSize,
    status: TradeStatus,
    entryTime: int,
    monitoring: bool,
    exitReason: Option<string>,
    completionTime: Option<int>)

  datatype Engine = Engine(
    initialized: bool,
    paperTrading: bool,
    emergencyStop: bool,
    trades: map<string, Trade>,
    gtts: map<string, Gtt>,
    positions: map<string, PositionStatus>,
    limiter: RateLimiter,
    executions: seq<ExecutionRecord>)

  /** The entry side: BUY exactly when the signal type's value ends in "_up". */
  function EntrySide(signal: EarningsScanner.Signal): Side
  {
    if EndsWith(EarningsScanner.SignalTypeValue(signal.signalType), "_up") then Buy else Sell
  }

  /** So a gap-up signal is bought and a gap-down signal is sold short. */
  lemma EntrySideFollowsGap(signal: EarningsScanner.Signal)
    ensures EntrySide(signal) == Buy <==> signal.signalType == EarningsScanner.EarningsGapUp
  {
    var v := EarningsScanner.SignalTypeValue(signal.signalType);
    if signal.signalType == EarningsScanner.EarningsGapDown {
      assert v[|v| - 3..] == "own";
    } else {
      assert v[|v| - 3..] == "_up";
    }
  }

  /**
   * `_place_exit_orders` hands `place_gtt_oco` the unsigned share count,
   * so a short entry on a gap down gets two SELL legs: either fill doubles
   * the short instead of closing it.
   */
  lemma GapDownExitLegsDoubleShort(signal: EarningsScanner.Signal, quantity: int, i: int)
    requires signal.signalType == EarningsScanner.EarningsGapDown && quantity > 0 && 0 <= i < 2
    ensures var entry := SignedQuantity(EntrySide(signal), quantity);
      var leg := OcoLegs(quantity, signal.profitTarget, signal.stopLoss)[i];
      entry == -quantity && entry + SignedQuantity(leg.side, leg.quantity) == -2 * quantity
  {
    EntrySideFollowsGap(signal);
  }

  /** The exit legs as intended: built from the position the entry opened,
   *  so they sit on its closing side whichever way the gap went. */
  function ExitLegs(signal: EarningsScanner.Signal, quantity: int): (legs: seq<GttLeg>)
    requires quantity > 0
    ensures |legs| == 2
    ensures forall i :: 0 <= i < 2 ==>
      SignedQuantity(EntrySide(signal), quantity) + SignedQuantity(legs[i].side, legs[i].quantity) == 0
  {
    var legs := OcoLegs(SignedQuantity(EntrySide(signal), quantity), signal.profitTarget, signal.stopLoss);
    assert forall i :: 0 <= i < 2 ==> legs[i].side == ClosingSide(SignedQuantity(EntrySide(signal), quantity));
    legs
  }

  /** For a gap up the intended legs are the ones the code places. */
  lemma ExitLegsAgreeOnGapUp(signal: EarningsScanner.Signal, quantity: int)
    requires signal.signalType == EarningsScanner.EarningsGapUp && quantity > 0
    ensures ExitLegs(signal, quantity) == OcoLegs(quantity, signal.profitTarget, signal.stopLoss)
  {
    EntrySideFollowsGap(signal);
  }

  /** `int(final_size / entry_price)`; a zero entry price raises. */
  function EntryQuantity(finalSize: real, entryPrice: real): (r: Result<int>)
    ensures r.Failure? <==> entryPrice == 0.0
  {
    if entryPrice == 0.0 then Failure("float division by zero") else Ok(Trunc(finalSize / entryPrice))
  }

  /** The shares bought never cost more than the approved size. */
  lemma QuantityWithinApprovedSize(finalSize: real, entryPrice: real)
    requires entryPrice > 0.0 && finalSize >= 0.0
    ensures var q := EntryQuantity(finalSize, entryPrice).value;
      q >= 0 && q as real * entryPrice <= finalSize < (q as real + 1.0) * entryPrice
  {
    var x := finalSize / entryPrice;
    var q := Trunc(x);
    assert x * entryPrice == finalSize;
    assert x >= 0.0;
    assert q as real <= x < q as real + 1.0;
    assert EntryQuantity(finalSize, entryPrice).value == q;
    ScaledBelow(q as real, x, entryPrice, finalSize);
    ScaledAbove(x, q as real + 1.0, entryPrice, finalSize);
  }

  lemma ScaledBelow(a: real, x: real, c: real, f: real)
    requires c > 0.0 && a <= x && x * c == f
    ensures a * c <= f
  {
    MulMonotoneRight(a, x, c);
  }

  lemma ScaledAbove(x: real, b: real, c: real, f: real)
    requires c > 0.0 && x < b && x * c == f
    ensures f < b * c
  {
    MulMonotoneRight(x, b, c);
  }

  lemma MulMonotoneRight(a: real, b: real, c: real)
    requires c > 0.0
    ensures a <= b ==> a * c <= b * c
    ensures a < b ==> a * c < b * c
  {
  }

  /** The signal's guard chain in `execute_signal`, up to the quantity. */
  predicate Refused(e: Engine, signal: EarningsScanner.Signal, verdict: RiskManager.TradeVerdict)
  {
    || !e.initialized
    || e.emergencyStop
    || !verdict.valid
    || verdict.positionSize.None?
    || signal.entryPrice == 0.0
    || Trunc(verdict.positionSize.value.finalSize / signal.entryPrice) <= 0
  }

  /** `f"EGS_{symbol}_{int(time.time())}"`: `epochSeconds` is the wall
   *  clock's whole seconds since the epoch, a reading of its own and not
   *  the local-time instant `now`. */
  function TradeId(symbol: string, epochSeconds: int): string
  {
    "EGS_" + symbol + "_" + IntToString(epochSeconds)
  }

  /** `_place_entry_order`'s market order. */
  function EntryRequest(signal: EarningsScanner.Signal, quantity: int): (req: OrderRequest)
    ensures req.symbol == signal.symbol && req.side == EntrySide(signal) && req.quantity == quantity
    ensures req.orderType == Market && req.product == Intraday
  {
    OrderRequest(signal.symbol, EntrySide(signal), quantity, Market, Intraday, None, None, None, "DAY",
                 Some("EGS_ENTRY_" + signal.symbol))
  }

  /** The fill paper trading pretends: complete, at the signal's price. */
  function PaperFill(signal: EarningsScanner.Signal, quantity: int, now: int, epochSeconds: int): (o: OrderResponse)
    ensures o.status == Complete && o.averagePrice == signal.entryPrice && o.quantity == quantity
    ensures o.side == EntrySide(signal)
  {
    OrderResponse("PAPER_" + IntToString(epochSeconds), Complete, signal.symbol, EntrySide(signal), quantity,
                  signal.entryPrice, now)
  }

  /** Whether a poll of the entry order ends the wait: filled, cancelled or
   *  rejected. */
  predicate Decisive(poll: Option<OrderResponse>)
  {
    poll.Some? && (poll.value.status == Complete || poll.value.status == Cancelled || poll.value.status == Rejected)
  }

  /**
   * `_monitor_entry_order` over the polls made before its timeout: the
   * first complete order, unless the order was cancelled or rejected first
   * or never completed in time.
   */
  function MonitorEntryOrder(polls: seq<Option<OrderResponse>>): (r: Option<OrderResponse>)
    ensures r.Some? <==> exists i :: 0 <= i < |polls| && Decisive(polls[i]) && polls[i].value.status == Complete
                                     && forall j :: 0 <= j < i ==> !Decisive(polls[j])
    ensures r.Some? ==> r.value.status == Complete && Some(r.value) in polls
  {
    if |polls| == 0 then None
    else if Decisive(polls[0]) then
      if polls[0].value.status == Complete then Some(polls[0].value) else None
    else
      var r := MonitorEntryOrder(polls[1..]);
      assert forall i :: 1 <= i < |polls| ==> polls[i] == polls[1..][i - 1];
      r
  }

  /** The answers the live path needs besides the venue: the polls of the
   *  entry order within its 30-second timeout. */
  datatype LiveAnswers = LiveAnswers(polls: seq<Option<OrderResponse>>)

  /**
   * `OrderEngine.execute_signal`: after the guard chain, the entry order is
   * placed (simulated in paper trading), awaited, protected by a GTT pair
   * (simulated in paper trading), its execution recorded, and the trade
   * stored as ACTIVE and monitored under a fresh id, which is returned.
   */
  function ExecuteSignal(e: Engine, signal: EarningsScanner.Signal, verdict: RiskManager.TradeVerdict,
                         venue: Venue, live: LiveAnswers, signalTime: int, now: int, epochSeconds: int)
    : (r: (Option<string>, Engine))
    ensures Refused(e, signal, verdict) ==> r == (None, e)
    ensures r.0.Some? ==> (
      && !Refused(e, signal, verdict)
      && r.0.value == TradeId(signal.symbol, epochSeconds)
      && r.1.trades.Keys == e.trades.Keys + {r.0.value}
      && (forall k :: k in e.trades && k != r.0.value ==> r.1.trades[k] == e.trades[k])
      && var t := r.1.trades[r.0.value];
      && t.status == Active && t.monitoring && t.symbol == signal.symbol
      && t.side == EntrySide(signal)
      && t.quantity == Trunc(verdict.positionSize.value.finalSize / signal.entryPrice) > 0
      && t.positionSize == verdict.positionSize.value
      && |r.1.executions| == |e.executions| + 1)
    ensures r.0.None? ==> r.1.trades == e.trades
    ensures e.paperTrading && !Refused(e, signal, verdict) ==> r.0.Some? && r.1.limiter == e.limiter
    ensures !e.paperTrading && !Refused(e, signal, verdict) ==>
      var placed := PlaceOrder(e.limiter, now,
        EntryRequest(signal, Trunc(verdict.positionSize.value.finalSize / signal.entryPrice)), venue);
      && (r.0.Some? <==> placed.response.Some? && MonitorEntryOrder(live.polls).Some?)
      && r.1.limiter == placed.limiter
    ensures r.1.initialized == e.initialized && r.1.paperTrading == e.paperTrading
    ensures r.1.emergencyStop == e.emergencyStop && r.1.positions == e.positions
  {
    if Refused(e, signal, verdict) then (None, e)
    else
      var size := verdict.positionSize.value;
      var quantity := Trunc(size.finalSize / signal.entryPrice);
      var placed :=
        if e.paperTrading then Placement(Some(PaperFill(signal, quantity, now, epochSeconds)), e.limiter, false)
        else PlaceOrder(e.limiter, now, EntryRequest(signal, quantity), venue);
      var e1 := e.(limiter := placed.limiter);
      if placed.response.None? then (None, e1)
      else
        var filled := if e.paperTrading then placed.response else MonitorEntryOrder(live.polls);
        if filled.None? then (None, e1)
        else
          var id := TradeId(signal.symbol, epochSeconds);
          (Some(id), StoreTrade(e1, signal, size, quantity, filled.value, venue, signalTime, now, epochSeconds))
  }

  /**
   * The steps of `execute_signal` after the fill: the exit legs (simulated
   * in paper trading), the execution record and the ACTIVE, monitored
   * trade under its `EGS_` id.
   */
  function StoreTrade(e: Engine, signal: EarningsScanner.Signal, size: RiskManager.PositionSize, quantity: int,
                      fill: OrderResponse, venue: Venue, signalTime: int, now: int, epochSeconds: int): (r: Engine)
    requires signal.entryPrice != 0.0
    ensures var id := TradeId(signal.symbol, epochSeconds);
      && r.trades.Keys == e.trades.Keys + {id}
      && (forall k :: k in e.trades && k != id ==> r.trades[k] == e.trades[k])
      && r.trades[id].status == Active && r.trades[id].monitoring && r.trades[id].symbol == signal.symbol
      && r.trades[id].side == EntrySide(signal) && r.trades[id].quantity == quantity
      && r.trades[id].positionSize == size
    ensures |r.executions| == |e.executions| + 1
    ensures r.limiter == e.limiter && r.initialized == e.initialized && r.paperTrading == e.paperTrading
    ensures r.emergencyStop == e.emergencyStop && r.positions == e.positions
  {
    var gtt :=
      if e.paperTrading then (Some("PAPER_GTT_" + IntToString(epochSeconds)), e.gtts)
      else PlaceGttOco(e.gtts, signal.symbol, quantity, signal.profitTarget, signal.stopLoss,
                       fill.averagePrice, venue, now);
    var executions := RecordExecution(e.executions, signal.symbol, signalTime, fill.timestamp,
                                      fill.averagePrice, signal.entryPrice).value;
    var id := TradeId(signal.symbol, epochSeconds);
    var trade := Trade(signal.symbol, EntrySide(signal), quantity, fill, gtt.0, size, Active,
                       fill.timestamp, true, None, None);
    e.(gtts := gtt.1, executions := executions, trades := e.trades[id := trade])
  }

  /** `_emergency_exit_trade`'s market order closing the tracked position. */
  function ExitRequest(symbol: string, quantity: int, reason: string): (req: OrderRequest)
    requires quantity != 0
    ensures quantity + SignedQuantity(req.side, req.quantity) == 0
    ensures req.orderType == Market && req.symbol == symbol
  {
    OrderRequest(symbol, ClosingSide(quantity), IntAbs(quantity), Market, Intraday, None, None, None, "DAY",
                 Some("EGS_EMERGENCY_" + reason))
  }

  /** The exit order `_emergency_exit_trade` builds, if the trade's symbol
   *  has an open tracked position. */
  function EmergencyExitOrder(e: Engine, tradeId: string, reason: string): (r: Option<OrderRequest>)
    requires tradeId in e.trades
    ensures r.Some? <==> (e.trades[tradeId].symbol in e.positions && e.positions[e.trades[tradeId].symbol].quantity != 0)
    ensures r.Some? ==> e.positions[e.trades[tradeId].symbol].quantity + SignedQuantity(r.value.side, r.value.quantity) == 0
  {
    var symbol := e.trades[tradeId].symbol;
    if symbol in e.positions && e.positions[symbol].quantity != 0 then
      Some(ExitRequest(symbol, e.positions[symbol].quantity, reason))
    else None
  }

  /**
   * `_emergency_exit_trade`: an unknown trade is ignored. Otherwise the
   * trade's GTT is cancelled, a market order closes its open position (sent
   * only when trading live), and the trade is marked EMERGENCY_EXIT with its
   * reason and no longer monitored, whatever the broker answered.
   */
  function EmergencyExitTrade(e: Engine, tradeId: string, reason: string, venue: Venue, now: int): (r: Engine)
    ensures tradeId !in e.trades ==> r == e
    ensures r.trades.Keys == e.trades.Keys
    ensures tradeId in e.trades ==>
      r.trades[tradeId] == e.trades[tradeId].(status := EmergencyExit, exitReason := Some(reason), monitoring := false)
    ensures forall k :: k in e.trades && k != tradeId ==> r.trades[k] == e.trades[k]
    ensures r.gtts.Keys == e.gtts.Keys
    ensures r.initialized == e.initialized && r.paperTrading == e.paperTrading
    ensures r.emergencyStop == e.emergencyStop && r.positions == e.positions && r.executions == e.executions
  {
    if tradeId !in e.trades then e
    else
      var t := e.trades[tradeId];
      var gtts :=
        if t.gttId.Some? && t.gttId.value != "" then CancelGtt(e.gtts, t.gttId.value, venue, now).1 else e.gtts;
      var exit := EmergencyExitOrder(e, tradeId, reason);
      var limiter :=
        if exit.Some? && !e.paperTrading then PlaceOrder(e.limiter, now, exit.value, venue).limiter else e.limiter;
      e.(gtts := gtts, limiter := limiter,
         trades := e.trades[tradeId := t.(status := EmergencyExit, exitReason := Some(reason), monitoring := false)])
  }

  /** `_complete_trade`. */
  function CompleteTrade(trades: map<string, Trade>, tradeId: string, now: int): (r: map<string, Trade>)
    ensures r.Keys == trades.Keys
    ensures tradeId in trades ==>
      r[tradeId] == trades[tradeId].(status := Completed, monitoring := false, completionTime := Some(now))
    ensures forall k :: k in trades && k != tradeId ==> r[k] == trades[k]
  {
    if tradeId in trades then
      trades[tradeId := trades[tradeId].(status := Completed, monitoring := false, completionTime := Some(now))]
    else trades
  }

  /** How many trades are ACTIVE. */
  function ActiveCount(trades: map<string, Trade>): (n: nat)
    ensures n <= |trades|
    ensures n == 0 <==> forall k :: k in trades ==> trades[k].status != Active
  {
    var active := set k | k in trades && trades[k].status == Active;
    SubsetCardinality(active, trades.Keys);
    if forall k :: k in trades ==> trades[k].status != Active then
      assert active == {};
      |active|
    else
      var k :| k in trades && trades[k].status == Active;
      assert k in active;
      |active|
  }

  lemma SubsetCardinality<T>(a: set<T>, b: set<T>)
    requires a <= b
    ensures |a| <= |b|
  {
    assert b == a + (b - a);
  }

  /**
   * `emergency_stop_all`: sets the emergency flag, cancels every tracked
   * GTT, and exits every ACTIVE trade; completed and already exited trades
   * are left as they were. Afterwards no trade is active.
   */
  method EmergencyStopAll(e: Engine, reason: string, venue: Venue, now: int) returns (r: Engine)
    ensures r.emergencyStop && r.initialized == e.initialized && r.positions == e.positions
    ensures r.trades.Keys == e.trades.Keys && r.gtts.Keys == e.gtts.Keys
    ensures forall k :: k in e.trades && e.trades[k].status == Active ==>
      r.trades[k] == e.trades[k].(status := EmergencyExit, exitReason := Some("EMERGENCY_STOP: " + reason),
                                  monitoring := false)
    ensures forall k :: k in e.trades && e.trades[k].status != Active ==> r.trades[k] == e.trades[k]
    ensures ActiveCount(r.trades) == 0
    ensures MonitoringMatchesStatus(e.trades) ==>
      MonitoringMatchesStatus(r.trades) && OnlyActiveMoved(e.trades, r.trades)
  {
    var gtts := CancelAllGtts(e.gtts, venue, now);
    r := ExitActiveTrades(e.(emergencyStop := true, gtts := gtts), "EMERGENCY_STOP: " + reason, venue, now);
  }

  /** The GTT cancellations of `emergency_stop_all`, one per tracked GTT. */
  method CancelAllGtts(gtts: map<string, Gtt>, venue: Venue, now: int) returns (r: map<string, Gtt>)
    ensures r.Keys == gtts.Keys
    ensures forall k :: k in r ==> r[k] == if venue.deleteGtt(k) then gtts[k].(status := GttCancelled, updatedAt := now)
                                           else gtts[k]
  {
    r := gtts;
    var ids := gtts.Keys;
    while ids != {}
      invariant ids <= gtts.Keys && r.Keys == gtts.Keys
      invariant forall k :: k in ids ==> r[k] == gtts[k]
      invariant forall k :: k in r && k !in ids ==>
        r[k] == if venue.deleteGtt(k) then gtts[k].(status := GttCancelled, updatedAt := now) else gtts[k]
      decreases |ids|
    {
      var id :| id in ids;
      r := CancelGtt(r, id, venue, now).1;
      ids := ids - {id};
    }
  }

  /** The exits of `emergency_stop_all`, one per ACTIVE trade. */
  method ExitActiveTrades(e: Engine, reason: string, venue: Venue, now: int) returns (r: Engine)
    ensures r.emergencyStop == e.emergencyStop && r.initialized == e.initialized && r.positions == e.positions
    ensures r.trades.Keys == e.trades.Keys && r.gtts.Keys == e.gtts.Keys
    ensures forall k :: k in e.trades && e.trades[k].status == Active ==>
      r.trades[k] == e.trades[k].(status := EmergencyExit, exitReason := Some(reason), monitoring := false)
    ensures forall k :: k in e.trades && e.trades[k].status != Active ==> r.trades[k] == e.trades[k]
    ensures ActiveCount(r.trades) == 0
  {
    r := e;
    var ids := e.trades.Keys;
    while ids != {}
      invariant ids <= e.trades.Keys
      invariant ExitedOutside(e, r, ids, reason)
      decreases |ids|
    {
      var id :| id in ids;
      ExitOne(e, r, ids, id, reason, venue, now);
      r := ExitIfActive(r, id, reason, venue, now);
      ids := ids - {id};
    }
    assert forall k :: k in e.trades ==> r.trades[k] == Exited(e.trades[k], reason);
  }

  /** A trade after the emergency stop: exited if it was ACTIVE. */
  function Exited(t: Trade, reason: string): (r: Trade)
    ensures r.status != Active
  {
    if t.status == Active then t.(status := EmergencyExit, exitReason := Some(reason), monitoring := false) else t
  }

  /** One iteration of the exit loop. */
  function ExitIfActive(r: Engine, id: string, reason: string, venue: Venue, now: int): Engine
    requires id in r.trades
  {
    if r.trades[id].status == Active then EmergencyExitTrade(r, id, reason, venue, now) else r
  }

  /** The loop state of `ExitActiveTrades`: the trades outside `ids` are
   *  exited, and nothing else has changed. */
  predicate ExitedOutside(e: Engine, r: Engine, ids: set<string>, reason: string)
  {
    && r.emergencyStop == e.emergencyStop && r.initialized == e.initialized && r.positions == e.positions
    && r.trades.Keys == e.trades.Keys && r.gtts.Keys == e.gtts.Keys
    && (forall k :: k in e.trades ==> r.trades[k] == if k in ids then e.trades[k] else Exited(e.trades[k], reason))
  }

  lemma ExitOne(e: Engine, r: Engine, ids: set<string>, id: string, reason: string, venue: Venue, now: int)
    requires ids <= e.trades.Keys && id in ids && ExitedOutside(e, r, ids, reason)
    ensures ExitedOutside(e, ExitIfActive(r, id, reason, venue, now), ids - {id}, reason)
  {
  }

  /** A trade is exited after two hours. */
  const MaxTradeDuration: int := 120 * MicrosPerMinute

  /**
   * One pass of `_monitor_trade_lifecycle` for a trade monitored since
   * `startTime`: whether monitoring goes on, and the engine afterwards. An
   * unknown or unmonitored trade stops the loop; past two hours the trade
   * is exited with reason TIME_LIMIT; once its position is gone it is
   * completed.
   */
  function MonitorTradeStep(e: Engine, tradeId: string, startTime: int, venue: Venue, now: int): (r: (bool, Engine))
    ensures r.1.trades.Keys == e.trades.Keys
    ensures r.0 ==> r.1 == e && tradeId in e.trades && e.trades[tradeId].monitoring
    ensures !r.0 && tradeId in e.trades ==> !r.1.trades[tradeId].monitoring
    ensures tradeId in e.trades && e.trades[tradeId].monitoring && now - startTime > MaxTradeDuration ==>
      r.1.trades[tradeId].status == EmergencyExit && r.1.trades[tradeId].exitReason == Some("TIME_LIMIT")
    ensures tradeId in e.trades && e.trades[tradeId].monitoring && now - startTime <= MaxTradeDuration ==>
      (r.0 <==> e.trades[tradeId].symbol in e.positions)
      && (!r.0 ==> r.1.trades[tradeId].status == Completed)
  {
    if tradeId !in e.trades || !e.trades[tradeId].monitoring then (false, e)
    else if now - startTime > MaxTradeDuration then (false, EmergencyExitTrade(e, tradeId, "TIME_LIMIT", venue, now))
    else if e.trades[tradeId].symbol !in e.positions then (false, e.(trades := CompleteTrade(e.trades, tradeId, now)))
    else (true, e)
  }

  /** A trade is monitored exactly while it is ACTIVE. */
  predicate MonitoringMatchesStatus(trades: map<string, Trade>)
  {
    forall k :: k in trades ==> (trades[k].monitoring <==> trades[k].status == Active)
  }

  /** A status change only ever leaves ACTIVE. */
  predicate OnlyActiveMoved(before: map<string, Trade>, after: map<string, Trade>)
    requires before.Keys <= after.Keys
  {
    forall k :: k in before && after[k].status != before[k].status ==> before[k].status == Active && after[k].status != Active
  }

  /** Executing a signal keeps monitoring tied to ACTIVE and changes no
   *  existing trade. */
  lemma ExecuteSignalKeepsStatusInvariant(e: Engine, signal: EarningsScanner.Signal, verdict: RiskManager.TradeVerdict,
                                          venue: Venue, live: LiveAnswers, signalTime: int, now: int,
                                          epochSeconds: int)
    requires MonitoringMatchesStatus(e.trades)
    ensures var r := ExecuteSignal(e, signal, verdict, venue, live, signalTime, now, epochSeconds);
      MonitoringMatchesStatus(r.1.trades) && e.trades.Keys <= r.1.trades.Keys
      && forall k :: k in e.trades && (r.0.None? || k != r.0.value) ==> r.1.trades[k] == e.trades[k]
  {
  }

  /**
   * Under that invariant, one monitoring pass moves a trade only out of
   * ACTIVE (to COMPLETED or EMERGENCY_EXIT) and keeps the invariant.
   */
  lemma MonitorStepMovesOnlyActive(e: Engine, tradeId: string, startTime: int, venue: Venue, now: int)
    requires MonitoringMatchesStatus(e.trades)
    ensures var r := MonitorTradeStep(e, tradeId, startTime, venue, now);
      MonitoringMatchesStatus(r.1.trades) && OnlyActiveMoved(e.trades, r.1.trades)
  {
  }

  datatype ExecutionStatus = ExecutionStatus(
    initialized: bool,
    paperTrading: bool,
    emergencyStop: bool,
    activeTrades: nat,
    totalTrades: nat,
    activePositions: nat,
    activeGtts: nat)

  /** `get_execution_status`: the counts it reports. */
  function GetExecutionStatus(e: Engine): (s: ExecutionStatus)
    ensures s.activeTrades <= s.totalTrades == |e.trades|
    ensures s.activeTrades == 0 <==> forall k :: k in e.trades ==> e.trades[k].status != Active
    ensures s.activePositions == |e.positions| && s.activeGtts == |e.gtts|
    ensures s.emergencyStop == e.emergencyStop && s.initialized == e.initialized
  {
    ExecutionStatus(e.initialized, e.paperTrading, e.emergencyStop, ActiveCount(e.trades), |e.trades|,
                    |e.positions|, |e.gtts|)
  }
}

=== FILE: risk_manager.dfy ===
/**
 * Risk admission and sizing: how big a position may be, the circuit
 * breakers that halt trading, the emergency predicate, the ordered checks a
 * trade passes before execution, and the running peak balance.
 *
 * Volatility readings, recent performance and the clock are parameters;
 * the analytics that produce them are not part of this model.
 */
module RiskManager {
  import opened Wrappers
  import opened Numeric

  datatype RiskLevel = Low | Medium | High | Critical

  function RiskLevelRank(l: RiskLevel): nat
  {
    match l
    case Low => 0
    case Medium => 1
    case High => 2
    case Critical => 3
  }

  datatype MarketRegime = Trending | Choppy | Volatile | Calm

  datatype AlertType =
    | PositionSizeLimit | DailyLossLimit | DrawdownLimit
    | VolatilitySpike | EmergencyStop | CorrelationBreach

  datatype RiskAlert = RiskAlert(
    alertType: AlertType,
    severity: RiskLevel,
    currentValue: real,
    limitValue: real,
    requiresAction: bool)

  /** The severity of an optional alert; no alert ranks below every alert. */
  function AlertRank(a: Option<RiskAlert>): int
  {
    if a.None? then -1 else RiskLevelRank(a.value.severity)
  }

  predicate HasCritical(alerts: seq<RiskAlert>)
  {
    exists i :: 0 <= i < |alerts| && alerts[i].severity == Critical
  }

  // ------------------------------------------------------------ sizing

  /** What the volatility analytics report for one symbol. */
  datatype VolatilityReadings = VolatilityReadings(
    atr: Option<real>,
    lastPrice: Option<real>,
    percentile: Option<real>,
    regime: MarketRegime)

  function RegimeFactor(r: MarketRegime): real
  {
    match r
    case Volatile => 0.5
    case Choppy => 0.7
    case Trending => 1.2
    case Calm => 1.1
  }

  /**
   * The unclamped factor of `_apply_volatility_adjustment`, or `None` when
   * the ATR percentage divides by a zero price (the source then falls back
   * to the unadjusted size). It never exceeds 1.872, so the upper clamp at
   * 2.0 never applies.
   */
  function RawVolatilityFactor(v: VolatilityReadings): (f: Option<real>)
    ensures f.None? <==> v.atr.Some? && v.lastPrice.Some? && v.lastPrice.value == 0.0
    ensures f.Some? ==> 0.21 <= f.value <= 1.872
  {
    if v.atr.Some? && v.lastPrice.Some? && v.lastPrice.value == 0.0 then None
    else
      var atrFactor :=
        if v.atr.Some? && v.lastPrice.Some? then
          var atrPercent := v.atr.value / v.lastPrice.value * 100.0;
          if atrPercent > 5.0 then 0.7 else if atrPercent < 2.0 then 1.2 else 1.0
        else 1.0;
      var percentileFactor :=
        if v.percentile.Some? then
          if v.percentile.value > 80.0 then 0.6 else if v.percentile.value < 20.0 then 1.3 else 1.0
        else 1.0;
      Some(1.0 * atrFactor * percentileFactor * RegimeFactor(v.regime))
  }

  /** `PositionSizer._apply_volatility_adjustment`: the size scaled by a
   *  factor clamped to [0.3, 2.0], or unchanged when the readings fail. */
  function ApplyVolatilityAdjustment(baseSize: real, v: VolatilityReadings): (r: real)
    ensures RawVolatilityFactor(v).None? ==> r == baseSize
    ensures RawVolatilityFactor(v).Some? ==> r == baseSize * Max(0.3, RawVolatilityFactor(v).value)
    ensures baseSize >= 0.0 ==> 0.3 * baseSize <= r <= 1.872 * baseSize
  {
    match RawVolatilityFactor(v)
    case None => baseSize
    case Some(f) =>
      var factor := Clamp(0.3, 2.0, f);
      assert factor == Max(0.3, f);
      ScaleBetween(baseSize, factor, 0.3, 1.872);
      baseSize * factor
  }

  lemma ScaleBetween(x: real, f: real, lo: real, hi: real)
    requires lo <= f <= hi
    ensures x >= 0.0 ==> lo * x <= x * f <= hi * x
  {
  }

  /** The performance dictionary; a missing key takes the source's default. */
  datatype Performance = Performance(
    winRate: Option<real>,
    avgReturn: Option<real>,
    consecutiveLosses: Option<int>,
    tradesCount: Option<int>)

  /**
   * The unclamped factor of `_apply_performance_adjustment`. It lies in
   * [0.28, 1.32], so the clamp to [0.2, 1.5] never changes it.
   */
  function RawPerformanceFactor(p: Performance): (f: real)
    ensures 0.28 <= f <= 1.32
  {
    var winRate := p.winRate.GetOr(0.5);
    var avgReturn := p.avgReturn.GetOr(0.0);
    var losses := p.consecutiveLosses.GetOr(0);
    var trades := p.tradesCount.GetOr(0);
    var winFactor :=
      if trades >= 5 then (if winRate > 0.7 then 1.2 else if winRate < 0.3 then 0.7 else 1.0) else 1.0;
    var returnFactor := if avgReturn > 0.05 then 1.1 else if avgReturn < -0.03 then 0.8 else 1.0;
    var lossFactor := if losses >= 3 then 0.5 else if losses >= 2 then 0.8 else 1.0;
    1.0 * winFactor * returnFactor * lossFactor
  }

  /** With fewer than five trades the win rate has no influence. */
  lemma WinRateIgnoredForFewTrades(p: Performance, w: real)
    requires p.tradesCount.GetOr(0) < 5
    ensures RawPerformanceFactor(p) == RawPerformanceFactor(p.(winRate := Some(w)))
  {
  }

  /** `PositionSizer._apply_performance_adjustment`: unchanged without
   *  performance data, otherwise scaled by the (never clamped) factor. */
  function ApplyPerformanceAdjustment(size: real, perf: Option<Performance>): (r: real)
    ensures perf.None? ==> r == size
    ensures perf.Some? ==> r == size * RawPerformanceFactor(perf.value)
    ensures size >= 0.0 ==> 0.28 * size <= r <= 1.32 * size
  {
    match perf
    case None => size
    case Some(p) =>
      var f := RawPerformanceFactor(p);
      ScaleBetween(size, f, 0.28, 1.32);
      size * Clamp(0.2, 1.5, f)
  }

  datatype PositionSize = PositionSize(
    symbol: string,
    baseSize: real,
    volatilityAdjustedSize: real,
    performanceAdjustedSize: real,
    finalSize: real,
    maxAllowedSize: real,
    sizePercentage: real,
    riskAmount: real)

  /** The fallback the source returns when sizing raises: 1% of the
   *  balance, at most 1000. */
  function SafePositionSize(symbol: string, balance: real): (p: PositionSize)
    ensures p.finalSize <= 1000.0 && p.finalSize == p.maxAllowedSize
    ensures balance >= 0.0 ==> p.finalSize <= balance * 0.01
  {
    var safe := Min(balance * 0.01, 1000.0);
    PositionSize(symbol, safe, safe, safe, safe, safe, 1.0, safe * 0.02)
  }

  /** When the sizing arithmetic divides by zero: a zero entry price (the
   *  risk amount divides by it), a zero balance (the percentage divides by
   *  it) or a zero risk fraction (the rationale divides by the base size). */
  predicate SizingFails(entry: real, balance: real, riskPercent: real)
  {
    entry == 0.0 || balance == 0.0 || riskPercent == 0.0
  }

  /** `abs(entry - stop)`, or 2% of the entry when the two coincide. */
  function RiskPerShare(entry: real, stop: real): (r: real)
    ensures entry != stop ==> r == Abs(entry - stop)
    ensures entry == stop ==> r == entry * 0.02
    ensures entry > 0.0 ==> r > 0.0
  {
    if Abs(entry - stop) == 0.0 then entry * 0.02 else Abs(entry - stop)
  }

  /** The position whose loss at the stop equals the risk budget. */
  function BaseSize(budget: real, rps: real, entry: real): (b: real)
    requires rps != 0.0 && entry != 0.0
    ensures b / entry * rps == budget
  {
    DivScaleInverse(budget, rps, entry);
    budget / rps * entry
  }

  /** The money a position of `size` loses when the stop is hit. */
  function RiskAmount(size: real, entry: real, rps: real): (r: real)
    requires entry != 0.0
    ensures r * entry == size * rps
  {
    ScaleCancel(size, entry, rps);
    size / entry * rps
  }

  /** `size` as a percentage of the balance. */
  function SizePercentage(size: real, balance: real): (r: real)
    requires balance != 0.0
    ensures r * balance == size * 100.0
  {
    ScaleCancel(size, balance, 100.0);
    size / balance * 100.0
  }

  /**
   * `PositionSizer.calculate_position_size`: risk a fixed fraction of the
   * balance on the stop distance, scale for volatility and performance, and
   * cap at 10% of the balance and at the configured maximum.
   */
  function CalculatePositionSize(symbol: string, entry: real, stop: real, balance: real,
                                 riskPercent: real, maxPositionSize: real,
                                 vol: VolatilityReadings, perf: Option<Performance>): (p: PositionSize)
    ensures p.finalSize <= p.maxAllowedSize
    ensures SizingFails(entry, balance, riskPercent) ==> p == SafePositionSize(symbol, balance)
    ensures !SizingFails(entry, balance, riskPercent) ==>
      p.maxAllowedSize == Min(balance * 0.1, maxPositionSize)
      && p.finalSize == Min(p.performanceAdjustedSize, p.maxAllowedSize)
      && p.volatilityAdjustedSize == ApplyVolatilityAdjustment(p.baseSize, vol)
      && p.performanceAdjustedSize == ApplyPerformanceAdjustment(p.volatilityAdjustedSize, perf)
    ensures !SizingFails(entry, balance, riskPercent) ==>
      p.baseSize == BaseSize(balance * riskPercent, RiskPerShare(entry, stop), entry)
      && p.riskAmount == RiskAmount(p.finalSize, entry, RiskPerShare(entry, stop))
      && p.sizePercentage == SizePercentage(p.finalSize, balance)
    ensures !SizingFails(entry, balance, riskPercent) && balance > 0.0 ==> p.finalSize <= balance * 0.1
  {
    if SizingFails(entry, balance, riskPercent) then SafePositionSize(symbol, balance)
    else
      var rps := RiskPerShare(entry, stop);
      var baseSize := BaseSize(balance * riskPercent, rps, entry);
      var volAdjusted := ApplyVolatilityAdjustment(baseSize, vol);
      var perfAdjusted := ApplyPerformanceAdjustment(volAdjusted, perf);
      var maxAllowed := Min(balance * 0.1, maxPositionSize);
      var final := Min(perfAdjusted, maxAllowed);
      PositionSize(symbol, baseSize, volAdjusted, perfAdjusted, final, maxAllowed,
                   SizePercentage(final, balance), RiskAmount(final, entry, rps))
  }

  lemma DivScaleInverse(b: real, r: real, e: real)
    requires r != 0.0 && e != 0.0
    ensures (b / r * e) / e * r == b
  {
    assert (b / r * e) / e == b / r;
    assert (b / r) * r == b;
  }

  lemma ScaleCancel(a: real, d: real, k: real)
    requires d != 0.0
    ensures (a / d * k) * d == a * k
  {
    assert (a / d) * d == a;
    assert (a / d * k) * d == ((a / d) * d) * k;
  }

  /**
   * The money actually put at risk by a computed position is at most
   * 1.872 * 1.32 (about 2.47) times the configured risk budget: the
   * volatility and performance factors can together scale the position up
   * by that much before the caps apply.
   */
  lemma RiskAmountWithinBudget(symbol: string, entry: real, stop: real, balance: real,
                               riskPercent: real, maxPositionSize: real,
                               vol: VolatilityReadings, perf: Option<Performance>)
    requires entry > 0.0 && balance > 0.0 && riskPercent > 0.0
    ensures CalculatePositionSize(symbol, entry, stop, balance, riskPercent, maxPositionSize, vol, perf).riskAmount
            <= balance * riskPercent * (1.872 * 1.32)
  {
    var p := CalculatePositionSize(symbol, entry, stop, balance, riskPercent, maxPositionSize, vol, perf);
    var rps := RiskPerShare(entry, stop);
    var budget := balance * riskPercent;
    MulPos(balance, riskPercent);
    var base := BaseSize(budget, rps, entry);
    assert p.baseSize == base;
    BaseSizePositive(budget, rps, entry);
    assert p.volatilityAdjustedSize <= 1.872 * base;
    assert p.performanceAdjustedSize <= 1.32 * p.volatilityAdjustedSize;
    RiskAmountBound(budget, rps, entry, base, p.volatilityAdjustedSize, p.performanceAdjustedSize, p.finalSize);
    assert p.riskAmount == RiskAmount(p.finalSize, entry, rps);
  }

  lemma BaseSizePositive(budget: real, rps: real, entry: real)
    requires budget > 0.0 && rps > 0.0 && entry > 0.0
    ensures BaseSize(budget, rps, entry) > 0.0
  {
    var q := budget / rps;
    assert q > 0.0;
    MulPos(q, entry);
  }

  lemma MulPos(a: real, b: real)
    requires a > 0.0 && b > 0.0
    ensures a * b > 0.0
  {
  }

  lemma RiskAmountBound(baseRisk: real, rps: real, entry: real, baseSize: real,
                        volAdjusted: real, perfAdjusted: real, final: real)
    requires baseRisk > 0.0 && rps > 0.0 && entry > 0.0
    requires baseSize == BaseSize(baseRisk, rps, entry) && baseSize > 0.0
    requires volAdjusted <= 1.872 * baseSize && perfAdjusted <= 1.32 * volAdjusted && volAdjusted >= 0.0
    requires final <= perfAdjusted
    ensures RiskAmount(final, entry, rps) <= baseRisk * (1.872 * 1.32)
  {
    assert final <= (1.872 * 1.32) * baseSize;
    DivMulMonotone(final, (1.872 * 1.32) * baseSize, entry, rps);
    assert ((1.872 * 1.32) * baseSize) / entry * rps == (1.872 * 1.32) * (baseSize / entry * rps);
  }

  lemma DivMulMonotone(x: real, y: real, d: real, m: real)
    requires x <= y && d > 0.0 && m > 0.0
    ensures x / d * m <= y / d * m
  {
    assert x / d <= y / d;
  }

  // ------------------------------------------------------ circuit breakers

  /** `CircuitBreaker.check_daily_loss_limit`. The loss is measured against
   *  the current balance; a zero balance raises `ZeroDivisionError`. */
  function CheckDailyLossLimit(dailyPnl: real, balance: real): (r: Result<Option<RiskAlert>>)
    ensures r.Failure? <==> balance == 0.0
    ensures r.Ok? && r.value.Some? ==> r.value.value.alertType == DailyLossLimit && dailyPnl < 0.0
    ensures r.Ok? ==> (AlertRank(r.value) == 3 <==> dailyPnl < 0.0 && Abs(dailyPnl) / balance >= 0.03)
    ensures r.Ok? ==> (AlertRank(r.value) == 2 <==> dailyPnl < 0.0 && 0.02 <= Abs(dailyPnl) / balance < 0.03)
    ensures r.Ok? ==> (r.value.None? <==> dailyPnl >= 0.0 || Abs(dailyPnl) / balance < 0.02)
  {
    if balance == 0.0 then Failure("ZeroDivisionError")
    else
      var lossPercent := Abs(dailyPnl) / balance;
      if dailyPnl < 0.0 && lossPercent >= 0.03 then
        Ok(Some(RiskAlert(DailyLossLimit, Critical, lossPercent, 0.03, true)))
      else if dailyPnl < 0.0 && lossPercent >= 0.02 then
        Ok(Some(RiskAlert(DailyLossLimit, High, lossPercent, 0.03, false)))
      else Ok(None)
  }

  /** A deeper loss on the same positive balance never lowers the alert. */
  lemma DailyLossMonotone(pnl1: real, pnl2: real, balance: real)
    requires balance > 0.0 && pnl2 <= pnl1
    ensures AlertRank(CheckDailyLossLimit(pnl1, balance).value) <= AlertRank(CheckDailyLossLimit(pnl2, balance).value)
  {
    if pnl1 < 0.0 {
      DivMulMonotone(Abs(pnl1), Abs(pnl2), balance, 1.0);
    }
  }

  /** `CircuitBreaker.check_drawdown_limit`: critical from 10%, high from 8%. */
  function CheckDrawdownLimit(drawdown: real): (r: Option<RiskAlert>)
    ensures r.Some? ==> r.value.alertType == DrawdownLimit
    ensures AlertRank(r) == 3 <==> drawdown >= 0.10
    ensures AlertRank(r) == 2 <==> 0.08 <= drawdown < 0.10
    ensures r.None? <==> drawdown < 0.08
  {
    if drawdown >= 0.10 then Some(RiskAlert(DrawdownLimit, Critical, drawdown, 0.10, true))
    else if drawdown >= 0.10 * 0.8 then Some(RiskAlert(DrawdownLimit, High, drawdown, 0.10, false))
    else None
  }

  /** `CircuitBreaker.check_portfolio_heat`: high from 15%. */
  function CheckPortfolioHeat(heat: real): (r: Option<RiskAlert>)
    ensures r.Some? <==> heat >= 0.15
    ensures r.Some? ==> r.value.severity == High && r.value.alertType == PositionSizeLimit
  {
    if heat >= 0.15 then Some(RiskAlert(PositionSizeLimit, High, heat, 0.15, true)) else None
  }

  /** `CircuitBreaker.check_position_limits`: medium once the count is at the maximum. */
  function CheckPositionLimits(openPositions: int, maxOpenPositions: int): (r: Option<RiskAlert>)
    ensures r.Some? <==> openPositions >= maxOpenPositions
    ensures r.Some? ==> r.value.severity == Medium && r.value.alertType == PositionSizeLimit
  {
    if openPositions >= maxOpenPositions then
      Some(RiskAlert(PositionSizeLimit, Medium, openPositions as real, maxOpenPositions as real, true))
    else None
  }

  datatype Breaker = Breaker(
    isTradingHalted: bool,
    haltReason: Option<string>,
    haltTimestamp: Option<int>,
    maxOpenPositions: int)

  /** `CircuitBreaker.halt_trading`. */
  function HaltTrading(b: Breaker, reason: string, now: int): (b': Breaker)
    ensures b'.isTradingHalted && b'.haltReason == Some(reason) && b'.haltTimestamp == Some(now)
    ensures b'.maxOpenPositions == b.maxOpenPositions
  {
    b.(isTradingHalted := true, haltReason := Some(reason), haltTimestamp := Some(now))
  }

  /** `CircuitBreaker.resume_trading`. */
  function ResumeTrading(b: Breaker): (b': Breaker)
    ensures !b'.isTradingHalted && b'.haltReason.None? && b'.haltTimestamp.None?
    ensures b'.maxOpenPositions == b.maxOpenPositions
  {
    b.(isTradingHalted := false, haltReason := None, haltTimestamp := None)
  }

  // --------------------------------------------------------------- metrics

  datatype RiskMetrics = RiskMetrics(
    dailyPnl: real,
    dailyPnlPercent: real,
    currentDrawdown: real,
    portfolioHeat: real,
    openPositions: int,
    riskLevel: RiskLevel)

  /** `EmergencyManager.check_emergency_conditions`. */
  predicate EmergencyConditions(m: RiskMetrics)
  {
    m.dailyPnlPercent < -0.05 || m.currentDrawdown > 0.12 || m.portfolioHeat > 0.20
  }

  /**
   * The metrics `RiskManager._update_risk_metrics` computes, or `None` when
   * a zero start-of-day or peak balance makes it raise (the source then
   * keeps the previous metrics). Heat is capped at 0.15 and at most one
   * position is reported, a loss-making day.
   */
  function ComputeRiskMetrics(balance: real, peak: real, dailyStart: real): (m: Option<RiskMetrics>)
    ensures m.Some? <==> dailyStart != 0.0 && peak != 0.0
    ensures m.Some? ==> m.value.dailyPnl == balance - dailyStart
    ensures m.Some? ==> m.value.dailyPnlPercent * dailyStart == balance - dailyStart
    ensures m.Some? ==> m.value.currentDrawdown * peak == peak - balance
    ensures m.Some? ==> 0.0 <= m.value.portfolioHeat <= 0.15
    ensures m.Some? ==> m.value.portfolioHeat == Min(0.15, Abs(m.value.dailyPnlPercent))
    ensures m.Some? ==> (m.value.openPositions == 1 <==> balance < dailyStart) && 0 <= m.value.openPositions <= 1
    ensures m.Some? ==> (m.value.riskLevel == Critical <==>
      m.value.currentDrawdown > 0.08 || m.value.dailyPnlPercent < -0.025)
  {
    if dailyStart == 0.0 || peak == 0.0 then None
    else
      var pnl := balance - dailyStart;
      var pnlPercent := pnl / dailyStart;
      var drawdown := (peak - balance) / peak;
      var openPositions := if balance < dailyStart then 1 else 0;
      var heat := Min(0.15, Abs(pnlPercent));
      var level :=
        if drawdown > 0.08 || pnlPercent < -0.025 then Critical
        else if drawdown > 0.05 || pnlPercent < -0.015 then High
        else if drawdown > 0.02 || pnlPercent < -0.005 then Medium
        else Low;
      Some(RiskMetrics(pnl, pnlPercent, drawdown, heat, openPositions, level))
  }

  /** The heat clause of the emergency predicate can never fire on metrics
   *  the risk manager computed itself: heat is capped at 0.15. */
  lemma EmergencyHeatClauseUnreachable(balance: real, peak: real, dailyStart: real)
    requires ComputeRiskMetrics(balance, peak, dailyStart).Some?
    ensures var m := ComputeRiskMetrics(balance, peak, dailyStart).value;
      EmergencyConditions(m) <==> m.dailyPnlPercent < -0.05 || m.currentDrawdown > 0.12
  {
  }

  // ------------------------------------------------------------ the manager

  datatype RiskState = RiskState(
    accountBalance: real,
    peakBalance: real,
    dailyStartBalance: real,
    currentMetrics: Option<RiskMetrics>,
    breaker: Breaker,
    emergencyStopTriggered: bool,
    alerts: seq<RiskAlert>)

  /** A freshly constructed `RiskManager`: balance, peak and start of day all 100000. */
  function InitialRiskState(maxOpenPositions: int): (s: RiskState)
    ensures s.accountBalance == s.peakBalance == s.dailyStartBalance == 100000.0
    ensures !s.breaker.isTradingHalted && !s.emergencyStopTriggered && s.currentMetrics.None?
  {
    RiskState(100000.0, 100000.0, 100000.0, None, Breaker(false, None, None, maxOpenPositions), false, [])
  }

  /** `RiskManager._update_risk_metrics`. */
  function UpdateRiskMetrics(s: RiskState): (s': RiskState)
    ensures s' == s.(currentMetrics := s'.currentMetrics)
    ensures ComputeRiskMetrics(s.accountBalance, s.peakBalance, s.dailyStartBalance).Some? ==>
      s'.currentMetrics == ComputeRiskMetrics(s.accountBalance, s.peakBalance, s.dailyStartBalance)
    ensures ComputeRiskMetrics(s.accountBalance, s.peakBalance, s.dailyStartBalance).None? ==> s' == s
  {
    match ComputeRiskMetrics(s.accountBalance, s.peakBalance, s.dailyStartBalance)
    case None => s
    case Some(m) => s.(currentMetrics := Some(m))
  }

  function OptToSeq(a: Option<RiskAlert>): seq<RiskAlert>
  {
    if a.Some? then [a.value] else []
  }

  /**
   * `RiskManager._check_all_circuit_breakers`: run the four checks on the
   * current metrics, halt on a critical daily-loss or drawdown alert, start
   * the emergency stop when the emergency predicate holds, and record the
   * alerts. Without metrics nothing is checked. A zero balance makes the
   * daily-loss check raise before anything changes.
   */
  function CheckAllCircuitBreakers(s: RiskState, now: int): (r: Result<(seq<RiskAlert>, RiskState)>)
    ensures r.Failure? <==> s.currentMetrics.Some? && s.accountBalance == 0.0
    ensures r.Ok? ==> r.value.1.alerts == s.alerts + r.value.0
    ensures r.Ok? ==> (r.value.1.breaker.isTradingHalted <==> s.breaker.isTradingHalted || HasCritical(r.value.0))
    ensures r.Ok? ==> (r.value.1.accountBalance == s.accountBalance && r.value.1.peakBalance == s.peakBalance
      && r.value.1.dailyStartBalance == s.dailyStartBalance && r.value.1.currentMetrics == s.currentMetrics)
    ensures r.Ok? ==> (r.value.1.emergencyStopTriggered <==>
      s.emergencyStopTriggered || (s.currentMetrics.Some? && EmergencyConditions(s.currentMetrics.value)))
    ensures s.currentMetrics.None? ==> r == Ok(([], s))
  {
    if s.currentMetrics.None? then Ok(([], s))
    else
      var m := s.currentMetrics.value;
      match CheckDailyLossLimit(m.dailyPnl, s.accountBalance)
      case Failure(e) => Failure(e)
      case Ok(daily) =>
        var b1 := if daily.Some? && daily.value.severity == Critical
                  then HaltTrading(s.breaker, "Daily loss limit breached", now) else s.breaker;
        var drawdown := CheckDrawdownLimit(m.currentDrawdown);
        var b2 := if drawdown.Some? && drawdown.value.severity == Critical
                  then HaltTrading(b1, "Maximum drawdown breached", now) else b1;
        var heat := CheckPortfolioHeat(m.portfolioHeat);
        var positions := CheckPositionLimits(m.openPositions, s.breaker.maxOpenPositions);
        var alerts := OptToSeq(daily) + OptToSeq(drawdown) + OptToSeq(heat) + OptToSeq(positions);
        var emergency := s.emergencyStopTriggered || EmergencyConditions(m);
        CriticalAlerts(daily, drawdown, heat, positions);
        Ok((alerts, s.(breaker := b2, emergencyStopTriggered := emergency, alerts := s.alerts + alerts)))
  }

  lemma CriticalAlerts(daily: Option<RiskAlert>, drawdown: Option<RiskAlert>,
                       heat: Option<RiskAlert>, positions: Option<RiskAlert>)
    requires heat.Some? ==> heat.value.severity == High
    requires positions.Some? ==> positions.value.severity == Medium
    ensures var all := OptToSeq(daily) + OptToSeq(drawdown) + OptToSeq(heat) + OptToSeq(positions);
      HasCritical(all) <==> (daily.Some? && daily.value.severity == Critical)
                            || (drawdown.Some? && drawdown.value.severity == Critical)
  {
    var all := OptToSeq(daily) + OptToSeq(drawdown) + OptToSeq(heat) + OptToSeq(positions);
    if daily.Some? && daily.value.severity == Critical {
      assert all[0] == daily.value;
    } else if drawdown.Some? && drawdown.value.severity == Critical {
      assert all[|OptToSeq(daily)|] == drawdown.value;
    }
  }

  /** The risk manager's state after `validate_trade`, whatever the trade:
   *  a halted manager is left alone; otherwise the metrics are refreshed
   *  and the circuit breakers run. */
  function ValidationState(s: RiskState, now: int): (s': RiskState)
    ensures s.breaker.isTradingHalted ==> s' == s
    ensures s'.accountBalance == s.accountBalance && s'.peakBalance == s.peakBalance
  {
    if s.breaker.isTradingHalted then s
    else
      var s1 := UpdateRiskMetrics(s);
      match CheckAllCircuitBreakers(s1, now)
      case Failure(_) => s1
      case Ok((_, s2)) => s2
  }

  datatype TradeVerdict = TradeVerdict(valid: bool, positionSize: Option<PositionSize>, alerts: seq<RiskAlert>)

  /** The sizing configuration and the analytics' answers for one trade. */
  datatype SizingInputs = SizingInputs(
    riskPercent: real,
    maxPositionSize: real,
    volatility: VolatilityReadings,
    performance: Option<Performance>)

  /**
   * `RiskManager.validate_trade`. The checks run in order and the first
   * failing one decides: a halted breaker, a critical circuit-breaker alert,
   * a position below 1000, a position above half the balance. A confident
   * enough signal keeps its size; a signal scored below 70 whose size
   * exceeds 5% of the balance is cut to 70% of it. An exception anywhere
   * (here: a zero balance reaching the daily-loss check) rejects the trade
   * with a single emergency-stop alert.
   */
  function ValidateTrade(s: RiskState, symbol: string, entry: real, stop: real,
                         confidenceScore: real, sizing: SizingInputs, now: int): (r: (TradeVerdict, RiskState))
    ensures s.breaker.isTradingHalted ==>
      r.1 == s && !r.0.valid && r.0.positionSize.None? && |r.0.alerts| == 1
      && r.0.alerts[0].alertType == EmergencyStop && r.0.alerts[0].severity == Critical
    ensures r.0.valid ==> (r.0.positionSize.Some?
      && 700.0 <= r.0.positionSize.value.finalSize <= r.1.accountBalance * 0.5)
    ensures r.0.valid ==> !HasCritical(r.0.alerts) && !r.1.breaker.isTradingHalted
    ensures HasCritical(r.0.alerts) ==> !r.0.valid
    ensures r.1.accountBalance == s.accountBalance && r.1.peakBalance == s.peakBalance
    ensures r.1.breaker.isTradingHalted ==> !r.0.valid
    ensures r.1 == ValidationState(s, now)
    ensures var ps := CalculatePositionSize(symbol, entry, stop, s.accountBalance, sizing.riskPercent,
                                            sizing.maxPositionSize, sizing.volatility, sizing.performance);
      && (r.0.valid <==> !HasCritical(r.0.alerts) && 1000.0 <= ps.finalSize <= s.accountBalance * 0.5)
      && (HasCritical(r.0.alerts) ==> r.0.positionSize.None?)
      && (!HasCritical(r.0.alerts) && !r.0.valid ==>
            r.0.positionSize == Some(ps) && r.0.alerts != []
            && r.0.alerts[|r.0.alerts| - 1].alertType == PositionSizeLimit
            && r.0.alerts[|r.0.alerts| - 1].severity == High)
      && (r.0.valid ==>
            if confidenceScore < 70.0 && ps.sizePercentage > 5.0
            then r.0.positionSize == Some(ps.(finalSize := ps.finalSize * 0.7,
                                              sizePercentage := ps.finalSize * 0.7 / s.accountBalance * 100.0))
            else r.0.positionSize == Some(ps))
  {
    if s.breaker.isTradingHalted then
      (TradeVerdict(false, None, [RiskAlert(EmergencyStop, Critical, 1.0, 0.0, true)]), s)
    else
      var s1 := UpdateRiskMetrics(s);
      match CheckAllCircuitBreakers(s1, now)
      case Failure(_) =>
        var failed := TradeVerdict(false, None, [RiskAlert(EmergencyStop, Critical, 0.0, 0.0, true)]);
        assert failed.alerts[0].severity == Critical;
        (failed, s1)
      case Ok((circuit, s2)) =>
        if HasCritical(circuit) then (TradeVerdict(false, None, circuit), s2)
        else
          assert s2.accountBalance == s.accountBalance;
          var ps := CalculatePositionSize(symbol, entry, stop, s2.accountBalance, sizing.riskPercent,
                                          sizing.maxPositionSize, sizing.volatility, sizing.performance);
          (SizeCheck(circuit, ps, s2.accountBalance, confidenceScore), s2)
  }

  /**
   * The part of `validate_trade` after the circuit breakers passed: the
   * position must be at least 1000 and at most half the balance, and a
   * signal scored below 70 whose size exceeds 5% of the balance is cut to
   * 70% of it, with a medium alert. No critical alert is added.
   */
  function SizeCheck(circuit: seq<RiskAlert>, ps: PositionSize, balance: real, confidenceScore: real): (v: TradeVerdict)
    requires !HasCritical(circuit)
    ensures !HasCritical(v.alerts)
    ensures v.valid <==> 1000.0 <= ps.finalSize <= balance * 0.5
    ensures !v.valid ==>
      && v.positionSize == Some(ps) && v.alerts != []
      && v.alerts[|v.alerts| - 1].alertType == PositionSizeLimit && v.alerts[|v.alerts| - 1].severity == High
    ensures v.valid ==>
      if confidenceScore < 70.0 && ps.sizePercentage > 5.0
      then v.positionSize == Some(ps.(finalSize := ps.finalSize * 0.7,
                                      sizePercentage := ps.finalSize * 0.7 / balance * 100.0))
      else v.positionSize == Some(ps)
    ensures v.valid ==> v.positionSize.Some? && 700.0 <= v.positionSize.value.finalSize <= balance * 0.5
  {
    if ps.finalSize < 1000.0 then
      var a := RiskAlert(PositionSizeLimit, High, ps.finalSize, 1000.0, true);
      NoNewCritical(circuit, a);
      TradeVerdict(false, Some(ps), circuit + [a])
    else if ps.finalSize > balance * 0.5 then
      var a := RiskAlert(PositionSizeLimit, High, ps.sizePercentage, 50.0, true);
      NoNewCritical(circuit, a);
      TradeVerdict(false, Some(ps), circuit + [a])
    else if confidenceScore < 70.0 && ps.sizePercentage > 5.0 then
      var final := ps.finalSize * 0.7;
      var reduced := ps.(finalSize := final, sizePercentage := final / balance * 100.0);
      var a := RiskAlert(PositionSizeLimit, Medium, confidenceScore, 70.0, false);
      NoNewCritical(circuit, a);
      TradeVerdict(true, Some(reduced), circuit + [a])
    else TradeVerdict(true, Some(ps), circuit)
  }

  lemma NoNewCritical(alerts: seq<RiskAlert>, a: RiskAlert)
    requires !HasCritical(alerts) && a.severity != Critical
    ensures !HasCritical(alerts + [a])
  {
    var all := alerts + [a];
    forall i | 0 <= i < |all| ensures all[i].severity != Critical {
      if i < |alerts| { assert all[i] == alerts[i]; }
    }
  }

  /** `RiskManager.update_account_balance`: the peak only ever rises. The
   *  metrics refresh is skipped when the old balance was zero, because the
   *  change percentage divides by it first. */
  function UpdateAccountBalance(s: RiskState, newBalance: real): (s': RiskState)
    ensures s'.accountBalance == newBalance
    ensures s'.peakBalance == Max(s.peakBalance, newBalance)
    ensures s'.peakBalance >= s.peakBalance && s'.peakBalance >= newBalance
    ensures s'.dailyStartBalance == s.dailyStartBalance && s'.breaker == s.breaker
    ensures s.accountBalance == 0.0 ==> s'.currentMetrics == s.currentMetrics
  {
    var s1 := s.(accountBalance := newBalance,
                 peakBalance := if newBalance > s.peakBalance then newBalance else s.peakBalance);
    if s.accountBalance == 0.0 then s1 else UpdateRiskMetrics(s1)
  }

  function MaxOf(start: real, xs: seq<real>): real
  {
    if |xs| == 0 then start else Max(MaxOf(start, xs[..|xs| - 1]), xs[|xs| - 1])
  }

  function ApplyBalances(s: RiskState, balances: seq<real>): RiskState
  {
    if |balances| == 0 then s
    else UpdateAccountBalance(ApplyBalances(s, balances[..|balances| - 1]), balances[|balances| - 1])
  }

  /** After any run of balance updates the peak is the largest of the
   *  starting peak and every balance seen, so it never drops below the
   *  current balance once it starts there. */
  lemma {:induction false} PeakIsRunningMaximum(s: RiskState, balances: seq<real>)
    ensures ApplyBalances(s, balances).peakBalance == MaxOf(s.peakBalance, balances)
    ensures s.peakBalance >= s.accountBalance ==>
      ApplyBalances(s, balances).peakBalance >= ApplyBalances(s, balances).accountBalance
  {
    if |balances| > 0 {
      PeakIsRunningMaximum(s, balances[..|balances| - 1]);
    }
  }

  /** The events that act on the breaker. */
  datatype BreakerEvent =
    | BalanceUpdate(balance: real)
    | Validate(at: int)
    | Halt(reason: string, at: int)
    | Resume

  function Step(s: RiskState, e: BreakerEvent): RiskState
  {
    match e
    case BalanceUpdate(b) => UpdateAccountBalance(s, b)
    case Validate(at) => ValidationState(s, at)
    case Halt(reason, at) => s.(breaker := HaltTrading(s.breaker, reason, at))
    case Resume => s.(breaker := ResumeTrading(s.breaker))
  }

  function Run(s: RiskState, events: seq<BreakerEvent>): RiskState
    decreases |events|
  {
    if |events| == 0 then s else Run(Step(s, events[0]), events[1..])
  }

  /** The halt latch: once halted, trading stays halted through any
   *  sequence of balance updates, validations and further halts until
   *  trading is explicitly resumed, and every validation meanwhile is
   *  rejected. */
  lemma {:induction false} HaltedUntilResumed(s: RiskState, events: seq<BreakerEvent>)
    requires s.breaker.isTradingHalted
    requires forall i :: 0 <= i < |events| ==> !events[i].Resume?
    ensures Run(s, events).breaker.isTradingHalted
    decreases |events|
  {
    if |events| > 0 {
      StepKeepsHalt(s, events[0]);
      HaltedUntilResumed(Step(s, events[0]), events[1..]);
    }
  }

  lemma StepKeepsHalt(s: RiskState, e: BreakerEvent)
    requires s.breaker.isTradingHalted && !e.Resume?
    ensures Step(s, e).breaker.isTradingHalted
  {
    match e
    case BalanceUpdate(b) =>
    case Validate(at) =>
    case Halt(reason, at) =>
  }
}

=== FILE: setup_wizard.dfy ===
/**
 * The decision parts of the interactive setup wizard in
 * `scripts/setup_trading_system.py`: the format checks applied to the
 * credentials the user types in, and the order in which `run_setup` runs
 * its steps. What each step does (prompts, files, sub-processes) is
 * input/output and is represented only by the verdict it returns.
 */
module SetupWizard {
  import opened Wrappers
  import opened Text
  import Validators

  // ------------------------------------------------------------ credentials

  /** `_validate_api_secret`: non-empty and at least ten characters, which
   *  comes to ten characters at least. Every accepted secret would also
   *  pass as a user id. */
  function ValidApiSecret(apiSecret: string): (r: bool)
    ensures r <==> |apiSecret| >= 10
    ensures r ==> ValidUserId(apiSecret)
  {
    |apiSecret| > 0 && |apiSecret| >= 10
  }

  /** `_validate_api_key`: non-empty, at least ten characters, all letters
   *  or digits (`str.isalnum`). The key check is the secret check with the
   *  character rule added. */
  function ValidApiKey(apiKey: string): (r: bool)
    ensures r <==> ValidApiSecret(apiKey) && AllChars(apiKey, IsAlnum)
    ensures r <==> |apiKey| >= 10 && forall i :: 0 <= i < |apiKey| ==> IsAlnum(apiKey[i])
  {
    |apiKey| > 0 && |apiKey| >= 10 && AllChars(apiKey, IsAlnum)
  }

  /** `_validate_user_id`: non-empty and at least two characters; the
   *  emptiness test adds nothing to the length bound. */
  function ValidUserId(userId: string): (r: bool)
    ensures r <==> |userId| >= 2
  {
    |userId| > 0 && |userId| >= 2
  }

  // ------------------------------------------------------------ bot token

  /** The characters `[A-Za-z0-9_-]` of the token's secret part. */
  predicate IsTokenChar(c: char)
  {
    IsAlnum(c) || c == '_' || c == '-'
  }

  /** The length of the token's secret part. */
  const TokenSecretLength: nat := 35

  /** `\d+:[A-Za-z0-9_-]{35}` on the whole text, read by splitting at the
   *  first colon (the digits before it cannot hold one). */
  predicate TokenBody(t: string)
  {
    ':' in t
    && var i := IndexOf(t, ':');
    i > 0 && AllChars(t[..i], IsDigit)
    && |t| - (i + 1) == TokenSecretLength && AllChars(t[i + 1..], IsTokenChar)
  }

  /** The same pattern as a shape: some digits, a colon, 35 token
   *  characters. */
  ghost predicate TokenShape(t: string)
  {
    exists n :: 0 < n < |t| && AllChars(t[..n], IsDigit) && t[n] == ':'
      && |t| - (n + 1) == TokenSecretLength && AllChars(t[n + 1..], IsTokenChar)
  }

  /** Splitting at the first colon decides exactly the pattern. */
  lemma TokenBodyIsShape(t: string)
    ensures TokenBody(t) <==> TokenShape(t)
  {
    if TokenBody(t) {
      TokenBodyShape(t);
    }
    if TokenShape(t) {
      TokenShapeBody(t);
    }
  }

  lemma TokenBodyShape(t: string)
    requires TokenBody(t)
    ensures TokenShape(t)
  {
    var i := IndexOf(t, ':');
    assert 0 < i < |t| && AllChars(t[..i], IsDigit) && t[i] == ':';
  }

  /** The colon after the digits is the first one. */
  lemma TokenShapeBody(t: string)
    requires TokenShape(t)
    ensures TokenBody(t)
  {
    var n :| 0 < n < |t| && AllChars(t[..n], IsDigit) && t[n] == ':'
      && |t| - (n + 1) == TokenSecretLength && AllChars(t[n + 1..], IsTokenChar);
    var digits := t[..n];
    assert ':' !in digits by {
      forall k | 0 <= k < |digits| ensures digits[k] != ':' {
        assert IsDigit(digits[k]);
      }
    }
    Text.SplitAt(t, n);
    Text.IndexOfAfterFree(digits, t[n..], ':');
  }

  /** `_validate_telegram_token`: `re.match(r'^\d+:[A-Za-z0-9_-]{35}$', token)`.
   *  `$` also matches before one final newline, so a token followed by a
   *  newline passes, and nothing else does. */
  function ValidTelegramToken(token: string): (r: bool)
    ensures r <==> TokenShape(Validators.WithoutFinalNewline(token))
  {
    TokenBodyIsShape(token);
    if |token| > 0 && token[|token| - 1] == '\n' then
      NewlineEndNotShape(token);
      TokenBodyIsShape(token[..|token| - 1]);
      Validators.MatchesWhole(token, TokenBody)
    else
      Validators.MatchesWhole(token, TokenBody)
  }

  /** The token pattern never matches a text that ends in a newline: the
   *  secret part would have to hold it. */
  lemma NewlineEndNotShape(t: string)
    requires |t| > 0 && t[|t| - 1] == '\n'
    ensures !TokenShape(t)
  {
  }

  /** A bot id and a 35-character secret joined by a colon, as BotFather
   *  issues them, pass the check. */
  lemma IssuedTokenAccepted(botId: nat, secret: string)
    requires |secret| == TokenSecretLength && AllChars(secret, IsTokenChar)
    ensures ValidTelegramToken(NatToDigits(botId) + ":" + secret)
  {
    var digits := NatToDigits(botId);
    var t := digits + ":" + secret;
    var n := |digits|;
    assert t[..n] == digits;
    assert t[n + 1..] == secret;
    assert t[n] == ':';
    TokenBodyIsShape(t);
  }

  /** The token check never accepts a text without its colon or with a
   *  secret part of the wrong length. */
  lemma TokenLength(token: string)
    requires ValidTelegramToken(token)
    ensures ':' in token
    ensures |token| >= 2 + TokenSecretLength
  {
    if TokenBody(token) {
      assert IndexOf(token, ':') > 0;
    } else {
      var body := token[..|token| - 1];
      assert TokenBody(body);
      assert IndexOf(body, ':') > 0;
      assert body[IndexOf(body, ':')] == ':';
    }
  }

  // ------------------------------------------------------------ chat id

  /** `_validate_chat_id`: `int(chat_id)` raises no `ValueError`, that is,
   *  after surrounding whitespace, an optional sign and digit groups. */
  function ValidChatId(chatId: string): (r: bool)
    ensures r <==> var t := Strip(chatId);
      (|t| > 0 && (t[0] == '-' || t[0] == '+') && IsDigitGroups(t[1..])) || IsDigitGroups(t)
  {
    ParseInt(chatId).Some?
  }

  /** Every integer's decimal text, negative group ids included, is
   *  accepted and reads back as that integer. */
  lemma PrintedChatIdAccepted(n: int)
    ensures ValidChatId(IntToString(n))
    ensures ParseInt(IntToString(n)) == Some(n)
  {
    IntToStringRoundTrip(n);
  }

  // ------------------------------------------------------------ run_setup

  /** The steps of `run_setup`, in the order of its list. */
  datatype Step =
    | CheckSystemRequirements
    | SetupVirtualEnvironment
    | InstallDependencies
    | CollectZerodhaCredentials
    | SetupTelegramBot
    | GenerateConfiguration
    | InitializeDatabase
    | ValidateSystem
    | StartSystem

  const StepOrder: seq<Step> := [CheckSystemRequirements, SetupVirtualEnvironment, InstallDependencies,
                                 CollectZerodhaCredentials, SetupTelegramBot, GenerateConfiguration,
                                 InitializeDatabase, ValidateSystem, StartSystem]

  /** How a step ends: it returns true, returns false, or raises (an
   *  `Exception` or `KeyboardInterrupt`, both caught by `run_setup`). */
  datatype StepOutcome = Succeeded | Declined | Raised

  /** The position of the first step whose outcome is not success, looking
   *  from position `from` on. */
  function FirstFailureFrom(outcome: Step -> StepOutcome, from: nat): (r: Option<nat>)
    requires from <= |StepOrder|
    ensures r.Some? ==> from <= r.value < |StepOrder| && outcome(StepOrder[r.value]) != Succeeded
    ensures r.Some? ==> forall i :: from <= i < r.value ==> outcome(StepOrder[i]) == Succeeded
    ensures r.None? <==> forall i :: from <= i < |StepOrder| ==> outcome(StepOrder[i]) == Succeeded
    decreases |StepOrder| - from
  {
    if from == |StepOrder| then None
    else if outcome(StepOrder[from]) != Succeeded then Some(from)
    else FirstFailureFrom(outcome, from + 1)
  }

  /** `run_setup` with each step's outcome given: it runs the steps in
   *  order and stops at the first that does not succeed. `ran` lists the
   *  steps started. */
  method RunSetup(outcome: Step -> StepOutcome) returns (ran: seq<Step>, success: bool)
    ensures |ran| <= |StepOrder| && ran == StepOrder[..|ran|]
    ensures success <==> forall s :: s in StepOrder ==> outcome(s) == Succeeded
    ensures success ==> ran == StepOrder
    ensures !success ==> var k := FirstFailureFrom(outcome, 0);
      k.Some? && ran == StepOrder[..k.value + 1]
  {
    ran := [];
    var i := 0;
    while i < |StepOrder|
      invariant 0 <= i <= |StepOrder|
      invariant ran == StepOrder[..i]
      invariant forall j :: 0 <= j < i ==> outcome(StepOrder[j]) == Succeeded
    {
      var step := StepOrder[i];
      ran := ran + [step];
      if outcome(step) != Succeeded {
        assert FirstFailureFrom(outcome, 0) == Some(i);
        return ran, false;
      }
      i := i + 1;
    }
    assert ran == StepOrder;
    return ran, true;
  }
}

=== FILE: telegram_service.dfy ===
/**
 * The decision logic of `core/telegram_service.py`: the manual-approval
 * state machine of `SignalNotifier` (pending, then approved, rejected or
 * expired, and removed), the trading-mode commands of `CommandHandler`,
 * the prefix dispatch and authorization of `CallbackHandler`, and
 * `TelegramBot.process_signal`. Telegram itself is a parameter: the
 * outcome of each `send_message` is an input, and message texts are not
 * modelled.
 */
module TelegramService {
  import opened Wrappers
  import Text
  import Clock
  import EarningsScanner

  datatype TradingMode = Auto | Manual | Paused

  datatype ApprovalStatus = Pending | Approved | Rejected | Expired | Modified

  /** `PendingSignal`; instants are microseconds, as everywhere in the model. */
  datatype PendingSignal = PendingSignal(
    signalId: string,
    signal: EarningsScanner.Signal,
    messageId: int,
    chatId: int,
    createdAt: int,
    expiresAt: int,
    status: ApprovalStatus,
    approvedBy: Option<string>)

  type PendingMap = map<string, PendingSignal>

  /** What the notifier keeps: only entries still awaiting a decision, each
   *  under its own id. */
  predicate OnlyPending(pending: PendingMap)
  {
    forall id :: id in pending ==> pending[id].status == Pending && pending[id].signalId == id
  }

  // ---------------------------------------------------------------------
  // send_signal_alert
  // ---------------------------------------------------------------------

  /** The answer to one `send_message` call: the message id, or `None`
   *  when the call raised. */
  datatype Delivery = Delivery(chatId: int, messageId: Option<int>)

  /** `f"signal_{int(time.time())}_{signal.symbol}"`. */
  function SignalId(epochSeconds: int, symbol: string): (id: string)
    ensures |id| > 8 + |symbol| && id[..7] == "signal_" && id[|id| - |symbol|..] == symbol
  {
    "signal_" + Text.IntToString(epochSeconds) + "_" + symbol
  }

  /** `str(n)` has no underscore. */
  lemma IntToStringUnderscoreFree(n: int)
    ensures '_' !in Text.IntToString(n)
  {
    var d := Text.NatToDigits(if n < 0 then -n else n);
    assert forall i :: 0 <= i < |d| ==> Text.IsDigit(d[i]);
  }

  /** Two alerts get the same id exactly when they are for the same symbol
   *  in the same second; the later one then replaces the earlier pending
   *  entry. */
  lemma SignalIdInjective(a: int, s: string, b: int, t: string)
    ensures SignalId(a, s) == SignalId(b, t) <==> a == b && s == t
  {
    if SignalId(a, s) == SignalId(b, t) {
      SignalIdBody(a, s);
      SignalIdBody(b, t);
      IntToStringUnderscoreFree(a);
      IntToStringUnderscoreFree(b);
      UnderscoreSplit(Text.IntToString(a), s, Text.IntToString(b), t);
      Text.IntToStringRoundTrip(a);
      Text.IntToStringRoundTrip(b);
    }
  }

  /** What follows the `signal_` prefix. */
  lemma SignalIdBody(n: int, symbol: string)
    ensures SignalId(n, symbol)[7..] == Text.IntToString(n) + ("_" + symbol)
  {
    var d := Text.IntToString(n);
    assert SignalId(n, symbol) == "signal_" + (d + ("_" + symbol));
  }

  /** Text glued at an underscore splits back at its first underscore. */
  lemma UnderscoreSplit(a: string, s: string, b: string, t: string)
    requires '_' !in a && '_' !in b && a + ("_" + s) == b + ("_" + t)
    ensures a == b && s == t
  {
    var r := a + ("_" + s);
    Text.IndexOfAfterFree(a, "_" + s, '_');
    Text.IndexOfAfterFree(b, "_" + t, '_');
    assert a == r[..|a|] == b;
    assert s == r[|a| + 1..] == t;
  }


  /** The first message id that came back, if any did. */
  function FirstSent(deliveries: seq<Delivery>): (r: Option<int>)
    ensures r.Some? <==> exists i :: 0 <= i < |deliveries| && deliveries[i].messageId.Some?
    ensures r.Some? ==> exists i :: 0 <= i < |deliveries| && deliveries[i].messageId == r
                                    && forall j :: 0 <= j < i ==> deliveries[j].messageId.None?
  {
    if deliveries == [] then None
    else if deliveries[0].messageId.Some? then deliveries[0].messageId
    else
      var r := FirstSent(deliveries[1..]);
      if r.Some? then
        ghost var i :| 0 <= i < |deliveries| - 1 && deliveries[1..][i].messageId == r
                       && forall j :: 0 <= j < i ==> deliveries[1..][j].messageId.None?;
        assert deliveries[i + 1].messageId == r;
        r
      else r
  }

  /**
   * `send_signal_alert`: the alert goes to every configured chat; an entry
   * is stored only when at least one message went out. It records the
   * first message that did go out but always the first configured chat,
   * and expires `timeoutSeconds` after `now`.
   */
  function SendSignalAlert(pending: PendingMap, signal: EarningsScanner.Signal, epochSeconds: int,
                           now: int, timeoutSeconds: int, deliveries: seq<Delivery>): (r: (PendingMap, Option<string>))
    ensures r.1.Some? <==> exists i :: 0 <= i < |deliveries| && deliveries[i].messageId.Some?
    ensures r.1.None? ==> r.0 == pending
    ensures r.1.Some? ==>
      r.1.value == SignalId(epochSeconds, signal.symbol)
      && r.0.Keys == pending.Keys + {r.1.value}
      && (forall id :: id in pending && id != r.1.value ==> r.0[id] == pending[id])
      && var entry := r.0[r.1.value];
         entry.status == Pending && entry.signal == signal && entry.approvedBy.None?
         && entry.messageId == FirstSent(deliveries).value
         && entry.chatId == deliveries[0].chatId && entry.createdAt == now
         && entry.expiresAt == now + timeoutSeconds * Clock.MicrosPerSecond
    ensures OnlyPending(pending) ==> OnlyPending(r.0)
  {
    var first := FirstSent(deliveries);
    if first.None? then (pending, None)
    else
      var id := SignalId(epochSeconds, signal.symbol);
      var entry := PendingSignal(id, signal, first.value, deliveries[0].chatId, now,
                                 now + timeoutSeconds * Clock.MicrosPerSecond, Pending, None);
      (pending[id := entry], Some(id))
  }

  // ---------------------------------------------------------------------
  // handle_approval and the expiry check
  // ---------------------------------------------------------------------

  /** `username or str(user_id)`. */
  function Approver(userId: int, username: Option<string>): (r: string)
    ensures r != []
    ensures username.Some? && username.value != [] ==> r == username.value
  {
    if username.Some? && username.value != [] then username.value else Text.IntToString(userId)
  }

  /**
   * `handle_approval`: an unknown id or an entry already decided answers
   * false and changes nothing; otherwise the entry is marked approved
   * (with its approver; the order engine is then asked to execute it) or
   * rejected, and leaves the pending map. The decided entry is returned.
   */
  function HandleApproval(pending: PendingMap, signalId: string, approved: bool,
                          userId: int, username: Option<string>): (r: (bool, PendingMap, Option<PendingSignal>))
    ensures !r.0 <==> signalId !in pending || pending[signalId].status != Pending
    ensures !r.0 ==> r.1 == pending && r.2.None?
    ensures r.0 ==>
      r.1 == pending - {signalId} && r.2.Some?
      && r.2.value == pending[signalId].(status := if approved then Approved else Rejected,
                                         approvedBy := if approved then Some(Approver(userId, username))
                                                       else pending[signalId].approvedBy)
    ensures OnlyPending(pending) ==> OnlyPending(r.1)
  {
    if signalId !in pending then (false, pending, None)
    else
      var entry := pending[signalId];
      if entry.status != Pending then (false, pending, None)
      else
        var decided :=
          if approved then entry.(status := Approved, approvedBy := Some(Approver(userId, username)))
          else entry.(status := Rejected);
        (true, pending - {signalId}, Some(decided))
  }

  /** `_check_signal_expiry` once its timer fires: only an entry still
   *  pending expires, and it leaves the map. */
  function CheckSignalExpiry(pending: PendingMap, signalId: string): (r: (PendingMap, Option<PendingSignal>))
    ensures r.1.Some? <==> signalId in pending && pending[signalId].status == Pending
    ensures r.1.None? ==> r.0 == pending
    ensures r.1.Some? ==> r.0 == pending - {signalId} && r.1.value == pending[signalId].(status := Expired)
    ensures OnlyPending(pending) ==> OnlyPending(r.0)
  {
    if signalId in pending && pending[signalId].status == Pending then
      (pending - {signalId}, Some(pending[signalId].(status := Expired)))
    else (pending, None)
  }

  /** While the map holds only pending entries, a decision succeeds exactly
   *  for an id in the map. */
  lemma ApprovalSucceedsIffPending(pending: PendingMap, signalId: string, approved: bool,
                                   userId: int, username: Option<string>)
    requires OnlyPending(pending)
    ensures HandleApproval(pending, signalId, approved, userId, username).0 <==> signalId in pending
  {
  }

  /** A decision is final: a second decision on the same id and a late
   *  expiry both find nothing to do. */
  lemma ApprovalIsOneShot(pending: PendingMap, signalId: string, approved: bool, userId: int,
                          username: Option<string>, again: bool, userId2: int, username2: Option<string>)
    requires HandleApproval(pending, signalId, approved, userId, username).0
    ensures var after := HandleApproval(pending, signalId, approved, userId, username).1;
      !HandleApproval(after, signalId, again, userId2, username2).0
      && CheckSignalExpiry(after, signalId).1.None?
  {
  }

  /** An expired signal can no longer be approved or rejected. */
  lemma ExpiryIsFinal(pending: PendingMap, signalId: string, approved: bool, userId: int, username: Option<string>)
    requires CheckSignalExpiry(pending, signalId).1.Some?
    ensures !HandleApproval(CheckSignalExpiry(pending, signalId).0, signalId, approved, userId, username).0
  {
  }

  // ---------------------------------------------------------------------
  // CommandHandler
  // ---------------------------------------------------------------------

  datatype Command = StatusCommand | PnlCommand | StopCommand | PauseCommand | ResumeCommand | ModeCommand

  /** The effect of a command on the bot: its new mode, and whether the
   *  order engine was told to stop everything. */
  datatype CommandEffect = CommandEffect(mode: TradingMode, emergencyStop: bool, authorized: bool)

  /** `_is_authorized` of the command handler: membership in the
   *  configured chat ids. */
  predicate CommandAuthorized(chatId: int, chatIds: seq<int>): (r: bool)
    ensures r <==> exists i :: 0 <= i < |chatIds| && chatIds[i] == chatId
  {
    chatId in chatIds
  }

  /** `/mode` flips AUTO to MANUAL and anything else to AUTO. */
  function ToggleMode(mode: TradingMode): (r: TradingMode)
    ensures r != Paused
    ensures mode == Auto <==> r == Manual
  {
    if mode == Auto then Manual else Auto
  }

  /** The command handlers: an unauthorized chat changes nothing. */
  function RunCommand(mode: TradingMode, command: Command, chatId: int, chatIds: seq<int>): (r: CommandEffect)
    ensures r.authorized <==> CommandAuthorized(chatId, chatIds)
    ensures !r.authorized ==> r.mode == mode && !r.emergencyStop
    ensures r.emergencyStop <==> r.authorized && command == StopCommand
    ensures r.authorized && command == PauseCommand ==> r.mode == Paused
    ensures r.authorized && command == ResumeCommand ==> r.mode == Auto
    ensures r.authorized && command == ModeCommand ==> r.mode == ToggleMode(mode)
    ensures command in {StatusCommand, PnlCommand, StopCommand} ==> r.mode == mode
  {
    if !CommandAuthorized(chatId, chatIds) then CommandEffect(mode, false, false)
    else
      match command
      case PauseCommand => CommandEffect(Paused, false, true)
      case ResumeCommand => CommandEffect(Auto, false, true)
      case ModeCommand => CommandEffect(ToggleMode(mode), false, true)
      case StopCommand => CommandEffect(mode, true, true)
      case _ => CommandEffect(mode, false, true)
  }

  /** Two `/mode` commands bring AUTO or MANUAL back to where they were;
   *  from PAUSED a single one resumes automatic trading. */
  lemma ModeToggleTwice(mode: TradingMode)
    ensures mode != Paused ==> ToggleMode(ToggleMode(mode)) == mode
    ensures mode == Paused ==> ToggleMode(mode) == Auto
  {
  }

  // ---------------------------------------------------------------------
  // CallbackHandler
  // ---------------------------------------------------------------------

  /** `int(piece.strip())`. */
  function ChatIdPiece(piece: string): Option<int>
  {
    Text.ParseInt(Text.Strip(piece))
  }

  /** `[int(c.strip()) for c in setting.split(',')]`; `None` where `int()`
   *  raises. */
  function ParseChatIds(pieces: seq<string>): (r: Option<seq<int>>)
    ensures r.Some? <==> forall i :: 0 <= i < |pieces| ==> ChatIdPiece(pieces[i]).Some?
    ensures r.Some? ==> (|r.value| == |pieces|
      && forall i :: 0 <= i < |pieces| ==> r.value[i] == ChatIdPiece(pieces[i]).value)
  {
    MapAll(pieces, ChatIdPiece)
  }

  /**
   * `_is_authorized` of the callback handler: no setting, or an empty
   * one, denies everyone; a piece that is not an integer raises, which the
   * callback handler reports as an error.
   */
  function CallbackAuthorized(userId: int, setting: Option<string>): (r: Result<bool>)
    ensures setting.None? || setting.value == [] ==> r == Ok(false)
    ensures r.Failure? <==> setting.Some? && setting.value != [] && ParseChatIds(Text.Split(setting.value, ',')).None?
    ensures r == Ok(true) ==> setting.Some? && ParseChatIds(Text.Split(setting.value, ',')).Some?
                              && userId in ParseChatIds(Text.Split(setting.value, ',')).value
  {
    if setting.None? || setting.value == [] then Ok(false)
    else
      var ids := ParseChatIds(Text.Split(setting.value, ','));
      if ids.None? then Failure("invalid literal for int()") else Ok(userId in ids.value)
  }

  /** `str(n)` never contains a comma, and `int()` reads it back. */
  lemma IntToStringIsChatIdPiece(n: int)
    ensures ',' !in Text.IntToString(n)
    ensures ChatIdPiece(Text.IntToString(n)) == Some(n)
  {
    var s := Text.IntToString(n);
    var d := Text.NatToDigits(if n < 0 then -n else n);
    assert s == (if n < 0 then "-" + d else d);
    assert forall i :: 0 <= i < |d| ==> Text.IsDigit(d[i]);
    assert !Text.IsSpace(s[0]) && !Text.IsSpace(s[|s| - 1]);
    Text.IntToStringRoundTrip(n);
  }

  function ChatIdPieces(ids: seq<int>): (r: seq<string>)
    ensures |r| == |ids|
    ensures forall i :: 0 <= i < |ids| ==> r[i] == Text.IntToString(ids[i])
  {
    if ids == [] then [] else [Text.IntToString(ids[0])] + ChatIdPieces(ids[1..])
  }

  /** A setting written as `",".join(str(i) for i in ids)` authorizes exactly
   *  the users in `ids`: the callback handler then agrees with the command
   *  handler configured with `ids`. */
  lemma CallbackAuthorizationRoundTrip(userId: int, ids: seq<int>)
    ensures CallbackAuthorized(userId, Some(Text.Join(ChatIdPieces(ids), ','))) == Ok(CommandAuthorized(userId, ids))
  {
    var pieces := ChatIdPieces(ids);
    var setting := Text.Join(pieces, ',');
    if ids != [] {
      ChatIdPiecesParse(ids);
      Text.SplitJoin(pieces, ',');
      assert setting != [] by {
        assert |pieces[0]| > 0;
      }
    }
  }

  /** Every piece written by `ChatIdPieces` is comma-free and reads back as
   *  its id. */
  lemma ChatIdPiecesParse(ids: seq<int>)
    ensures forall i :: 0 <= i < |ids| ==> ',' !in ChatIdPieces(ids)[i]
    ensures ParseChatIds(ChatIdPieces(ids)) == Some(ids)
  {
    var pieces := ChatIdPieces(ids);
    forall i | 0 <= i < |pieces|
      ensures ',' !in pieces[i] && ChatIdPiece(pieces[i]) == Some(ids[i])
    {
      IntToStringIsChatIdPiece(ids[i]);
    }
    var parsed := ParseChatIds(pieces);
    assert parsed.Some? && parsed.value == ids;
  }

  /** What an inline button asks for, read off its callback data. */
  datatype CallbackAction =
    | ApproveSignal(signalId: string)
    | RejectSignal(signalId: string)
    | ModifySignal(signalId: string)
    | SignalDetails(signalId: string)
    | NoAction

  /**
   * The dispatch of `handle_callback`: the first matching prefix wins, and
   * the signal id is the data with EVERY occurrence of that prefix removed
   * (`str.replace`, not a prefix strip).
   */
  function ParseCallback(data: string): (r: CallbackAction)
    ensures Text.StartsWith(data, "approve_") <==> r.ApproveSignal?
    ensures r.ApproveSignal? ==> r.signalId == Text.RemoveAll(data, "approve_")
    ensures r.RejectSignal? <==> !Text.StartsWith(data, "approve_") && Text.StartsWith(data, "reject_")
    ensures r.RejectSignal? ==> r.signalId == Text.RemoveAll(data, "reject_")
    ensures r.ModifySignal? <==> !Text.StartsWith(data, "approve_") && !Text.StartsWith(data, "reject_")
                                 && Text.StartsWith(data, "modify_")
    ensures r.ModifySignal? ==> r.signalId == Text.RemoveAll(data, "modify_")
    ensures r.SignalDetails? <==> !Text.StartsWith(data, "approve_") && !Text.StartsWith(data, "reject_")
                                  && !Text.StartsWith(data, "modify_") && Text.StartsWith(data, "details_")
    ensures r.SignalDetails? ==> r.signalId == Text.RemoveAll(data, "details_")
    ensures r.NoAction? <==> !Text.StartsWith(data, "approve_") && !Text.StartsWith(data, "reject_")
                             && !Text.StartsWith(data, "modify_") && !Text.StartsWith(data, "details_")
  {
    if Text.StartsWith(data, "approve_") then ApproveSignal(Text.RemoveAll(data, "approve_"))
    else if Text.StartsWith(data, "reject_") then RejectSignal(Text.RemoveAll(data, "reject_"))
    else if Text.StartsWith(data, "modify_") then ModifySignal(Text.RemoveAll(data, "modify_"))
    else if Text.StartsWith(data, "details_") then SignalDetails(Text.RemoveAll(data, "details_"))
    else NoAction
  }

  /** Removing every `pat` from `pat + s` removes it from `s`. */
  lemma RemoveAllLeading(pat: string, s: string)
    requires |pat| > 0
    ensures Text.RemoveAll(pat + s, pat) == Text.RemoveAll(s, pat)
  {
    var t := pat + s;
    assert t[..|pat|] == pat;
    assert t[|pat|..] == s;
  }

  /** The buttons of an alert carry `approve_<id>` and `reject_<id>`; for an
   *  id in which the prefix does not occur, dispatch gives the id back. */
  lemma ApproveButtonRoundTrip(signalId: string)
    requires !Text.Occurs(signalId, "approve_")
    ensures ParseCallback("approve_" + signalId) == ApproveSignal(signalId)
  {
    RemoveAllLeading("approve_", signalId);
    Text.RemoveAllAbsent(signalId, "approve_");
    assert ("approve_" + signalId)[..8] == "approve_";
  }

  lemma RejectButtonRoundTrip(signalId: string)
    requires !Text.Occurs(signalId, "reject_")
    ensures ParseCallback("reject_" + signalId) == RejectSignal(signalId)
  {
    RemoveAllLeading("reject_", signalId);
    Text.RemoveAllAbsent(signalId, "reject_");
    var data := "reject_" + signalId;
    assert data[..7] == "reject_";
    assert data[0] != "approve_"[0];
  }

  /** How the callback query is answered. */
  datatype CallbackReply =
    | UnauthorizedReply
    | ErrorReply
    | DecisionReply(approved: bool)
    | ApprovalFailedReply
    | ModificationUnavailableReply
    | DetailsReply(entry: PendingSignal)
    | NotFoundReply
    | NoReply

  /**
   * `handle_callback`: authorization first (an error while reading the
   * setting is answered with the generic error), then dispatch. Only a
   * decision changes the pending map.
   */
  function HandleCallback(pending: PendingMap, userId: int, username: Option<string>,
                          data: string, setting: Option<string>): (r: (PendingMap, CallbackReply))
    ensures CallbackAuthorized(userId, setting).Failure? ==> r == (pending, ErrorReply)
    ensures CallbackAuthorized(userId, setting) == Ok(false) ==> r == (pending, UnauthorizedReply)
    ensures !r.1.DecisionReply? ==> r.0 == pending
    ensures r.1.DecisionReply? ==>
      CallbackAuthorized(userId, setting) == Ok(true)
      && (ParseCallback(data).ApproveSignal? || ParseCallback(data).RejectSignal?)
      && r.1.approved == ParseCallback(data).ApproveSignal?
      && r.0 == pending - {ParseCallback(data).signalId}
    ensures CallbackAuthorized(userId, setting) == Ok(true) ==>
      var action := ParseCallback(data);
      && (action.ApproveSignal? || action.RejectSignal? ==>
            r == DecisionCallback(pending, action.signalId, action.ApproveSignal?, userId, username))
      && (action.ModifySignal? ==> r == (pending, ModificationUnavailableReply))
      && (action.SignalDetails? ==>
            r.0 == pending
            && (action.signalId in pending ==> r.1 == DetailsReply(pending[action.signalId]))
            && (action.signalId !in pending ==> r.1 == NotFoundReply))
      && (action.NoAction? ==> r == (pending, NoReply))
  {
    match CallbackAuthorized(userId, setting)
    case Failure(_) => (pending, ErrorReply)
    case Ok(authorized) =>
      if !authorized then (pending, UnauthorizedReply)
      else
        match ParseCallback(data)
        case ApproveSignal(id) => DecisionCallback(pending, id, true, userId, username)
        case RejectSignal(id) => DecisionCallback(pending, id, false, userId, username)
        case ModifySignal(_) => (pending, ModificationUnavailableReply)
        case SignalDetails(id) => (pending, if id in pending then DetailsReply(pending[id]) else NotFoundReply)
        case NoAction => (pending, NoReply)
  }

  /**
   * The alert's approve button, pressed by an authorized user on a signal
   * still pending, approves that signal and takes it out of the map; on a
   * signal no longer pending it is answered with the failure text.
   */
  lemma ApproveButtonDecides(pending: PendingMap, userId: int, username: Option<string>,
                             setting: Option<string>, signalId: string)
    requires CallbackAuthorized(userId, setting) == Ok(true)
    requires !Text.Occurs(signalId, "approve_")
    ensures signalId in pending && pending[signalId].status == Pending ==>
      HandleCallback(pending, userId, username, "approve_" + signalId, setting)
        == (pending - {signalId}, DecisionReply(true))
    ensures signalId !in pending || pending[signalId].status != Pending ==>
      HandleCallback(pending, userId, username, "approve_" + signalId, setting)
        == (pending, ApprovalFailedReply)
  {
    ApproveButtonRoundTrip(signalId);
  }

  /** `_handle_signal_approval`. */
  function DecisionCallback(pending: PendingMap, signalId: string, approved: bool,
                            userId: int, username: Option<string>): (r: (PendingMap, CallbackReply))
    ensures r.1 == DecisionReply(approved) || r.1 == ApprovalFailedReply
    ensures r.1.DecisionReply? <==> HandleApproval(pending, signalId, approved, userId, username).0
    ensures r.1.DecisionReply? ==> r.0 == pending - {signalId}
    ensures !r.1.DecisionReply? ==> r.0 == pending
  {
    var (ok, after, _) := HandleApproval(pending, signalId, approved, userId, username);
    (after, if ok then DecisionReply(approved) else ApprovalFailedReply)
  }

  // ---------------------------------------------------------------------
  // process_signal
  // ---------------------------------------------------------------------

  /** What `process_signal` set in motion. */
  datatype SignalAction =
    | Ignored
    | ExecutionRequested(notified: bool)
    | ApprovalRequested(signalId: Option<string>)

  /** Python's `signal.confidence * max_position_size`: `confidence` is a
   *  `SignalConfidence` enum member, and `*` between an enum and a float
   *  raises `TypeError`. */
  function ConfidenceTimesSize(confidence: EarningsScanner.Confidence, maxPositionSize: real): (r: Result<real>)
    ensures r.Failure?
  {
    Failure("unsupported operand type(s) for *: 'SignalConfidence' and 'float'")
  }

  /**
   * `process_signal` as written. PAUSED ignores the signal; AUTO asks the
   * order engine to execute it (`tradeId` is its answer), but once a trade
   * comes back the position-size line raises, the handler swallows the
   * error and the answer is false with no entry notification; MANUAL sends
   * an approval alert.
   */
  function ProcessSignal(mode: TradingMode, pending: PendingMap, signal: EarningsScanner.Signal,
                         maxPositionSize: real, tradeId: Option<string>, epochSeconds: int,
                         now: int, timeoutSeconds: int, deliveries: seq<Delivery>): (r: (bool, PendingMap, SignalAction))
    ensures mode == Paused ==> r == (false, pending, Ignored)
    ensures mode == Auto ==> r.1 == pending && r.2.ExecutionRequested?
    ensures mode == Manual ==> (r.2.ApprovalRequested?
      && (r.1, r.2.signalId) == SendSignalAlert(pending, signal, epochSeconds, now, timeoutSeconds, deliveries)
      && (r.0 <==> r.2.signalId.Some?))
  {
    match mode
    case Paused => (false, pending, Ignored)
    case Auto =>
      if tradeId.None? then (false, pending, ExecutionRequested(false))
      else
        (match ConfidenceTimesSize(signal.confidence, maxPositionSize)
         case Failure(_) => (false, pending, ExecutionRequested(false))
         case Ok(_) => (true, pending, ExecutionRequested(true)))
    case Manual =>
      var (after, id) := SendSignalAlert(pending, signal, epochSeconds, now, timeoutSeconds, deliveries);
      (id.Some?, after, ApprovalRequested(id))
  }

  /** In AUTO mode the answer is false even when the order engine returned
   *  a trade, and the entry notification is never sent. */
  lemma AutoModeReportsExecutedTradeAsFailure(pending: PendingMap, signal: EarningsScanner.Signal,
                                              maxPositionSize: real, tradeId: string, epochSeconds: int,
                                              now: int, timeoutSeconds: int, deliveries: seq<Delivery>)
    ensures ProcessSignal(Auto, pending, signal, maxPositionSize, Some(tradeId), epochSeconds,
                          now, timeoutSeconds, deliveries) == (false, pending, ExecutionRequested(false))
  {
  }

  /**
   * `process_signal` as evidently intended: in AUTO mode the answer is
   * whether the order engine returned a trade, and a returned trade is
   * announced. The other modes are unchanged.
   */
  function ProcessSignalReportingTrade(mode: TradingMode, pending: PendingMap, signal: EarningsScanner.Signal,
                                       tradeId: Option<string>, epochSeconds: int, now: int,
                                       timeoutSeconds: int, deliveries: seq<Delivery>): (r: (bool, PendingMap, SignalAction))
    ensures mode == Paused ==> r == (false, pending, Ignored)
    ensures mode == Auto ==> r.1 == pending && (r.0 <==> tradeId.Some?) && r.2 == ExecutionRequested(tradeId.Some?)
    ensures mode == Manual ==> (r.2.ApprovalRequested?
      && (r.1, r.2.signalId) == SendSignalAlert(pending, signal, epochSeconds, now, timeoutSeconds, deliveries)
      && (r.0 <==> r.2.signalId.Some?))
  {
    match mode
    case Paused => (false, pending, Ignored)
    case Auto => (tradeId.Some?, pending, ExecutionRequested(tradeId.Some?))
    case Manual =>
      var (after, id) := SendSignalAlert(pending, signal, epochSeconds, now, timeoutSeconds, deliveries);
      (id.Some?, after, ApprovalRequested(id))
  }

  /** Outside AUTO mode, and in AUTO mode when no trade came back, the two
   *  agree. */
  lemma ProcessSignalVersionsAgree(mode: TradingMode, pending: PendingMap, signal: EarningsScanner.Signal,
                                   maxPositionSize: real, tradeId: Option<string>, epochSeconds: int,
                                   now: int, timeoutSeconds: int, deliveries: seq<Delivery>)
    requires mode != Auto || tradeId.None?
    ensures ProcessSignal(mode, pending, signal, maxPositionSize, tradeId, epochSeconds, now, timeoutSeconds, deliveries)
         == ProcessSignalReportingTrade(mode, pending, signal, tradeId, epochSeconds, now, timeoutSeconds, deliveries)
  {
  }
}

=== FILE: text.dfy ===
/**
 * The Python string operations the trading code leans on: character
 * classes, `strip()`, `split(sep)`, `replace(pat, "")`, `upper()`, `int()`
 * and `str()` of an integer. Character classes are the ASCII ones; the
 * whitespace class is Python's (`str.isspace()`, which is also what `\s`
 * matches in a `re` pattern on `str`).
 */
module Text {
  import opened Wrappers

  predicate IsDigit(c: char) { '0' <= c <= '9' }
  predicate IsUpper(c: char) { 'A' <= c <= 'Z' }
  predicate IsLower(c: char) { 'a' <= c <= 'z' }
  predicate IsAlpha(c: char) { IsUpper(c) || IsLower(c) }
  predicate IsAlnum(c: char) { IsAlpha(c) || IsDigit(c) }

  predicate IsSpace(c: char)
  {
    c == ' ' || '\t' <= c <= '\r' || '\U{1c}' <= c <= '\U{1f}'
    || c == '\U{85}' || c == '\U{a0}' || c == '\U{1680}'
    || '\U{2000}' <= c <= '\U{200a}' || c == '\U{2028}' || c == '\U{2029}'
    || c == '\U{202f}' || c == '\U{205f}' || c == '\U{3000}'
  }

  predicate AllChars(s: string, p: char -> bool)
  {
    forall i :: 0 <= i < |s| ==> p(s[i])
  }

  predicate IsDigits(s: string) { |s| > 0 && AllChars(s, IsDigit) }

  predicate StartsWith(s: string, prefix: string)
  {
    |prefix| <= |s| && s[..|prefix|] == prefix
  }

  predicate EndsWith(s: string, suffix: string)
  {
    |suffix| <= |s| && s[|s| - |suffix|..] == suffix
  }

  /** `s.lstrip()`: the longest suffix of `s` that does not start with whitespace. */
  function LStrip(s: string): (r: string)
    ensures |r| <= |s| && r == s[|s| - |r|..]
    ensures forall i :: 0 <= i < |s| - |r| ==> IsSpace(s[i])
    ensures |r| > 0 ==> !IsSpace(r[0])
  {
    if |s| > 0 && IsSpace(s[0]) then LStrip(s[1..]) else s
  }

  /** `s.rstrip()`: the longest prefix of `s` that does not end with whitespace. */
  function RStrip(s: string): (r: string)
    ensures |r| <= |s| && r == s[..|r|]
    ensures forall i :: |r| <= i < |s| ==> IsSpace(s[i])
    ensures |r| > 0 ==> !IsSpace(r[|r| - 1])
  {
    if |s| > 0 && IsSpace(s[|s| - 1]) then RStrip(s[..|s| - 1]) else s
  }

  /** `s.strip()`. */
  function Strip(s: string): (r: string)
    ensures |r| <= |s|
    ensures |r| > 0 ==> !IsSpace(r[0]) && !IsSpace(r[|r| - 1])
    ensures (|s| > 0 && !IsSpace(s[0]) && !IsSpace(s[|s| - 1])) ==> r == s
  {
    RStrip(LStrip(s))
  }

  /** Stripping a line read with its newline gives back the text, when the
   *  text itself has no surrounding whitespace. */
  lemma StripNewline(t: string)
    requires |t| > 0 && !IsSpace(t[0]) && !IsSpace(t[|t| - 1])
    ensures Strip(t + "\n") == t
  {
    var s := t + "\n";
    assert LStrip(s) == s;
    assert s[..|s| - 1] == t;
    assert RStrip(s) == RStrip(t);
  }

  /** `c.upper()` on an ASCII letter; every other character is kept. */
  function UpperChar(c: char): (r: char)
    ensures IsLower(c) ==> IsUpper(r)
    ensures !IsLower(c) ==> r == c
  {
    if IsLower(c) then (c as int - 32) as char else c
  }

  /** `s.upper()` on ASCII letters. */
  function Upper(s: string): (r: string)
    ensures |r| == |s|
    ensures forall i :: 0 <= i < |s| ==> r[i] == UpperChar(s[i])
    ensures forall i :: 0 <= i < |s| ==> !IsLower(r[i])
  {
    if |s| == 0 then []
    else [UpperChar(s[0])] + Upper(s[1..])
  }

  /** A string without lower-case letters is its own upper case. */
  lemma UpperNoLower(s: string)
    requires forall i :: 0 <= i < |s| ==> !IsLower(s[i])
    ensures Upper(s) == s
  {
  }

  lemma UpperIdempotent(s: string)
    ensures Upper(Upper(s)) == Upper(s)
  {
    UpperNoLower(Upper(s));
  }

  /** `strip()` keeps a contiguous run of the input. */
  lemma StripChars(s: string)
    ensures forall c :: c in Strip(s) ==> c in s
  {
    var l := LStrip(s);
    assert l == s[|s| - |l|..];
    assert Strip(s) == l[..|Strip(s)|];
  }

  /** A sequence is its prefix up to `k` followed by the rest. */
  lemma SplitAt<T>(s: seq<T>, k: nat)
    requires k <= |s|
    ensures s == s[..k] + s[k..]
  {
  }

  /** Concatenation is associative. */
  lemma AppendAssoc<T>(x: seq<T>, y: seq<T>, z: seq<T>)
    ensures x + (y + z) == (x + y) + z
  {
  }

  /** The tail of a concatenation with a non-empty front. */
  lemma TailOfAppend<T>(x: seq<T>, y: seq<T>)
    requires |x| > 0
    ensures (x + y)[0] == x[0] && (x + y)[1..] == x[1..] + y
  {
  }

  /** The first index of `c` in `s` (`s.index(c)`). */
  function IndexOf(s: string, c: char): (i: nat)
    requires c in s
    ensures i < |s| && s[i] == c && c !in s[..i]
  {
    if s[0] == c then 0 else 1 + IndexOf(s[1..], c)
  }

  /** `s.split(sep)` for a one-character separator: never empty, and the
   *  pieces are the maximal runs of `s` between separators. */
  function Split(s: string, sep: char): (r: seq<string>)
    ensures |r| >= 1
    ensures forall i :: 0 <= i < |r| ==> sep !in r[i]
    decreases |s|
  {
    if sep !in s then [s]
    else
      var i := IndexOf(s, sep);
      [s[..i]] + Split(s[i + 1..], sep)
  }

  /** `sep.join(parts)`, the inverse of `Split`. */
  function Join(parts: seq<string>, sep: char): string
  {
    if |parts| == 0 then ""
    else if |parts| == 1 then parts[0]
    else parts[0] + [sep] + Join(parts[1..], sep)
  }

  lemma {:induction false} JoinSplit(s: string, sep: char)
    ensures Join(Split(s, sep), sep) == s
    decreases |s|
  {
    if sep in s {
      var i := IndexOf(s, sep);
      JoinSplit(s[i + 1..], sep);
      assert s == s[..i] + [sep] + s[i + 1..];
    }
  }

  lemma {:induction false} SplitJoin(parts: seq<string>, sep: char)
    requires |parts| >= 1
    requires forall i :: 0 <= i < |parts| ==> sep !in parts[i]
    ensures Split(Join(parts, sep), sep) == parts
  {
    if |parts| > 1 {
      var s := Join(parts, sep);
      SplitJoin(parts[1..], sep);
      assert s == parts[0] + [sep] + Join(parts[1..], sep);
      assert s[|parts[0]|] == sep;
      assert s[..|parts[0]|] == parts[0];
      assert IndexOf(s, sep) == |parts[0]| by {
        IndexOfAfterFree(parts[0], [sep] + Join(parts[1..], sep), sep);
      }
      assert s[|parts[0]| + 1..] == Join(parts[1..], sep);
    }
  }

  lemma {:induction false} IndexOfAfterFree(a: string, b: string, c: char)
    requires c !in a && |b| > 0 && b[0] == c
    ensures c in a + b && IndexOf(a + b, c) == |a|
  {
    assert (a + b)[|a|] == c;
    if |a| > 0 {
      TailOfAppend(a, b);
      IndexOfAfterFree(a[1..], b, c);
    }
  }

  /** `s.replace(pat, "")`: occurrences of `pat` removed in one
   *  left-to-right scan, without overlaps. */
  function RemoveAll(s: string, pat: string): (r: string)
    requires |pat| > 0
    ensures |r| <= |s|
    ensures forall c :: c in r ==> c in s
    decreases |s|
  {
    if |s| < |pat| then s
    else if s[..|pat|] == pat then RemoveAll(s[|pat|..], pat)
    else [s[0]] + RemoveAll(s[1..], pat)
  }

  predicate OccursAt(s: string, pat: string, k: int)
  {
    0 <= k <= |s| - |pat| && s[k..k + |pat|] == pat
  }

  ghost predicate Occurs(s: string, pat: string)
  {
    exists k :: OccursAt(s, pat, k)
  }

  /** Nothing is removed from a string in which the pattern does not occur. */
  lemma {:induction false} RemoveAllAbsent(s: string, pat: string)
    requires |pat| > 0 && !Occurs(s, pat)
    ensures RemoveAll(s, pat) == s
    decreases |s|
  {
    if |s| >= |pat| {
      assert !OccursAt(s, pat, 0);
      assert s[0..|pat|] == s[..|pat|];
      forall k ensures !OccursAt(s[1..], pat, k) {
        if 0 <= k <= |s| - 1 - |pat| {
          assert s[1..][k..k + |pat|] == s[k + 1..k + 1 + |pat|];
          assert !OccursAt(s, pat, k + 1);
        }
      }
      RemoveAllAbsent(s[1..], pat);
    }
  }

  /** The value of a run of decimal digits. */
  function DigitsValue(s: string): (n: nat)
    requires AllChars(s, IsDigit)
  {
    if |s| == 0 then 0
    else DigitsValue(s[..|s| - 1]) * 10 + (s[|s| - 1] as int - '0' as int)
  }

  /** The decimal digits of a natural number, without leading zeros. */
  function NatToDigits(n: nat): (s: string)
    ensures |s| > 0 && AllChars(s, IsDigit)
    ensures DigitsValue(s) == n
  {
    if n < 10 then [('0' as int + n) as char]
    else
      var prefix := NatToDigits(n / 10);
      var s := prefix + [('0' as int + n % 10) as char];
      assert s[..|s| - 1] == prefix;
      s
  }

  /** `str(n)`. */
  function IntToString(n: int): (s: string)
    ensures |s| > 0
  {
    if n < 0 then "-" + NatToDigits(-n) else NatToDigits(n)
  }

  /** The digit groups `int()` accepts: digits, with single underscores
   *  allowed between two digits. */
  predicate IsDigitGroups(s: string)
  {
    |s| > 0 && IsDigit(s[0]) && IsDigit(s[|s| - 1])
    && (forall i :: 0 <= i < |s| ==> IsDigit(s[i]) || s[i] == '_')
    && (forall i, j :: 0 <= i < |s| && j == i + 1 < |s| && s[i] == '_' ==> s[j] != '_')
  }

  function RemoveUnderscores(s: string): (r: string)
    ensures (forall i :: 0 <= i < |s| ==> IsDigit(s[i]) || s[i] == '_') ==> AllChars(r, IsDigit)
    ensures |r| <= |s|
  {
    if |s| == 0 then []
    else (if s[0] == '_' then [] else [s[0]]) + RemoveUnderscores(s[1..])
  }

  /** `int(s)` on a string: surrounding whitespace is ignored, one optional
   *  sign, then digit groups; anything else raises `ValueError` (`None`). */
  function ParseInt(s: string): (r: Option<int>)
    ensures r.Some? <==> var t := Strip(s);
      (|t| > 0 && (t[0] == '-' || t[0] == '+') && IsDigitGroups(t[1..])) || IsDigitGroups(t)
  {
    ParseStripped(Strip(s))
  }

  /** `int()` once the surrounding whitespace is gone. */
  function ParseStripped(t: string): (r: Option<int>)
    ensures r.Some? <==>
      (|t| > 0 && (t[0] == '-' || t[0] == '+') && IsDigitGroups(t[1..])) || IsDigitGroups(t)
  {
    if |t| > 0 && (t[0] == '-' || t[0] == '+') then
      if IsDigitGroups(t[1..]) then
        var v: int := DigitsValue(RemoveUnderscores(t[1..]));
        Some(if t[0] == '-' then -v else v)
      else None
    else if IsDigitGroups(t) then Some(DigitsValue(RemoveUnderscores(t)))
    else None
  }

  /** `int(str(n)) == n`. */
  lemma IntToStringRoundTrip(n: int)
    ensures ParseInt(IntToString(n)) == Some(n)
  {
    if n < 0 {
      SignedDigitsParse(NatToDigits(-n));
    } else {
      DigitsParse(NatToDigits(n));
    }
  }

  /** A run of digits reads as its value. */
  lemma DigitsParse(d: string)
    requires |d| > 0 && AllChars(d, IsDigit)
    ensures ParseInt(d) == Some(DigitsValue(d))
  {
    UnsignedDigits(d);
    assert !IsSpace(d[0]) && !IsSpace(d[|d| - 1]);
    StripUnpadded(d);
    ParseAfterStrip(d, d, Some(DigitsValue(d)));
  }

  /** A minus sign and a run of digits read as the negated value. */
  lemma SignedDigitsParse(d: string)
    requires |d| > 0 && AllChars(d, IsDigit)
    ensures ParseInt("-" + d) == Some(0 - DigitsValue(d) as int)
  {
    var s := "-" + d;
    assert s[0] == '-' && s[1..] == d;
    NegativeDigits(s, d);
    assert s[|s| - 1] == d[|d| - 1];
    assert !IsSpace(s[0]) && !IsSpace(s[|s| - 1]);
    StripUnpadded(s);
    assert Strip(s) == s;
    assert ParseStripped(s) == Some(0 - DigitsValue(d) as int);
    ParseAfterStrip(s, s, Some(0 - DigitsValue(d) as int));
  }

  /** Text without surrounding whitespace strips to itself. */
  lemma StripUnpadded(s: string)
    requires |s| > 0 && !IsSpace(s[0]) && !IsSpace(s[|s| - 1])
    ensures Strip(s) == s
  {
  }

  /** `int()` reads a text as it reads the text stripped. */
  lemma ParseAfterStrip(s: string, t: string, v: Option<int>)
    requires Strip(s) == t && ParseStripped(t) == v
    ensures ParseInt(s) == v
  {
  }

  lemma UnsignedDigits(t: string)
    requires |t| > 0 && AllChars(t, IsDigit)
    ensures ParseStripped(t) == Some(DigitsValue(t))
  {
    NoUnderscoreDigits(t);
    assert IsDigitGroups(t);
    assert t[0] != '-' && t[0] != '+';
  }

  lemma NegativeDigits(s: string, d: string)
    requires |s| > 1 && s[0] == '-' && s[1..] == d && AllChars(d, IsDigit)
    ensures ParseStripped(s) == Some(0 - DigitsValue(d) as int)
  {
    NoUnderscoreDigits(d);
    assert IsDigitGroups(d);
  }

  lemma {:induction false} NoUnderscoreDigits(d: string)
    requires AllChars(d, IsDigit)
    ensures RemoveUnderscores(d) == d
  {
    if |d| > 0 {
      NoUnderscoreDigits(d[1..]);
    }
  }

  /** `xs[start:]`, with Python's reading of a negative or too large start. */
  function PySliceFrom<T>(xs: seq<T>, start: int): (r: seq<T>)
    ensures |r| <= |xs|
    ensures r == xs[|xs| - |r|..]
    ensures 0 <= start <= |xs| ==> r == xs[start..]
    ensures start < 0 ==> |r| == (if -start >= |xs| then |xs| else -start)
  {
    if start < 0 then (if -start >= |xs| then xs else xs[|xs| + start..])
    else if start >= |xs| then []
    else xs[start..]
  }

  /** `xs[:stop]`, with Python's reading of a negative or too large stop. */
  function PySliceTo<T>(xs: seq<T>, stop: int): (r: seq<T>)
    ensures |r| <= |xs| && r == xs[..|r|]
    ensures 0 <= stop <= |xs| ==> r == xs[..stop]
    ensures stop < 0 ==> |r| == (if -stop >= |xs| then 0 else |xs| + stop)
  {
    if stop >= 0 then (if stop >= |xs| then xs else xs[..stop])
    else if -stop >= |xs| then [] else xs[..|xs| + stop]
  }
}

=== FILE: validators.dfy ===
/**
 * The input validators of `utils/validators.py`. Each returns a verdict
 * (`(is_valid, error_message)` in the source) or a list of errors.
 *
 * Regular expressions are modelled by the predicates they decide. Python's
 * `re.match(r'^...$', s)` also accepts `s` with one trailing newline,
 * because `$` matches just before a final `\n`; `MatchesWhole` says so.
 * Character classes are ASCII, except `\s`, which is `Text.IsSpace`.
 */
module Validators {
  import opened Wrappers
  import opened Numeric
  import opened Text
  import MarketData

  datatype Verdict = Pass | Fail(error: string)

  /** `re.match(r'^P$', s)` for a pattern body decided by `p`. */
  predicate MatchesWhole(s: string, p: string -> bool)
  {
    p(s) || (|s| > 0 && s[|s| - 1] == '\n' && p(s[..|s| - 1]))
  }

  /** The text a whole-string match is about: `s` without one trailing newline. */
  function WithoutFinalNewline(s: string): string
  {
    if |s| > 0 && s[|s| - 1] == '\n' then s[..|s| - 1] else s
  }

  // ------------------------------------------------------------------ symbol

  predicate IsSymbolChar(c: char) { IsUpper(c) || IsDigit(c) || c == '&' || c == '-' }

  /** `[A-Z0-9&-]+` */
  predicate SymbolCharset(s: string) { |s| > 0 && AllChars(s, IsSymbolChar) }

  /** `[A-Z]{2,10}` */
  predicate PlainLetters(s: string) { 2 <= |s| <= 10 && AllChars(s, IsUpper) }

  /** `[A-Z]+\d+` */
  predicate LettersThenDigits(s: string)
  {
    exists k | 1 <= k < |s| :: AllChars(s[..k], IsUpper) && AllChars(s[k..], IsDigit)
  }

  /** `[A-Z]+&[A-Z]+` */
  predicate LettersAmpersandLetters(s: string)
  {
    exists k | 1 <= k < |s| - 1 :: s[k] == '&' && AllChars(s[..k], IsUpper) && AllChars(s[k + 1..], IsUpper)
  }

  predicate SymbolPattern(s: string)
  {
    PlainLetters(s) || LettersThenDigits(s) || LettersAmpersandLetters(s)
  }

  /** The symbol `validate_symbol` judges: every ".NS" removed. */
  function CleanSymbol(symbol: string): string
  {
    RemoveAll(symbol, ".NS")
  }

  /**
   * `validate_symbol`: not empty; after removing ".NS", 1 to 10 characters
   * from [A-Z0-9&-], and of one of the three symbol shapes.
   */
  function ValidateSymbol(symbol: string): (v: Verdict)
    ensures v.Pass? <==> (|symbol| > 0 && 1 <= |CleanSymbol(symbol)| <= 10
      && MatchesWhole(CleanSymbol(symbol), SymbolCharset) && MatchesWhole(CleanSymbol(symbol), SymbolPattern))
    ensures |symbol| == 0 ==> v == Fail("Symbol cannot be empty")
  {
    if |symbol| == 0 then Fail("Symbol cannot be empty")
    else
      var clean := CleanSymbol(symbol);
      if |clean| < 1 || |clean| > 10 then Fail("Symbol must be 1-10 characters long")
      else if !MatchesWhole(clean, SymbolCharset) then Fail("Symbol must contain only uppercase letters, numbers, & or -")
      else if !MatchesWhole(clean, SymbolPattern) then Fail("Invalid symbol format")
      else Pass
  }

  /**
   * Whatever the charset admits, an accepted symbol has at least two
   * characters, starts with a letter and holds no hyphen.
   */
  lemma AcceptedSymbolShape(symbol: string)
    requires ValidateSymbol(symbol).Pass?
    ensures var core := WithoutFinalNewline(CleanSymbol(symbol));
      2 <= |core| <= 10 && IsUpper(core[0]) && '-' !in core
  {
    var clean := CleanSymbol(symbol);
    PatternCore(clean);
    PatternShape(WithoutFinalNewline(clean));
  }

  /** A whole-string match of the symbol shapes is a match of the text
   *  without its final newline. */
  lemma PatternCore(clean: string)
    requires MatchesWhole(clean, SymbolPattern)
    ensures SymbolPattern(WithoutFinalNewline(clean))
  {
    if |clean| > 0 && clean[|clean| - 1] == '\n' {
      NewlineNotPattern(clean);
    }
  }

  /** No symbol shape ends in a newline. */
  lemma NewlineNotPattern(t: string)
    requires |t| > 0 && t[|t| - 1] == '\n'
    ensures !SymbolPattern(t)
  {
    var last := |t| - 1;
    assert !IsUpper(t[last]) && !IsDigit(t[last]);
    forall k | 1 <= k < |t| ensures !AllChars(t[k..], IsDigit) {
      assert t[k..][last - k] == t[last];
    }
    forall j | 2 <= j < |t| ensures !AllChars(t[j..], IsUpper) {
      assert t[j..][last - j] == t[last];
    }
  }

  /** Each symbol shape has at least two characters, starts with a letter
   *  and holds no hyphen. */
  lemma PatternShape(core: string)
    requires SymbolPattern(core)
    ensures 2 <= |core| && IsUpper(core[0]) && '-' !in core
  {
    if PlainLetters(core) {
      assert '-' !in core;
    } else if LettersThenDigits(core) {
      var k :| 1 <= k < |core| && AllChars(core[..k], IsUpper) && AllChars(core[k..], IsDigit);
      assert core[0] == core[..k][0];
      forall i | 0 <= i < |core| ensures core[i] != '-' {
        if i < k { assert core[i] == core[..k][i]; } else { assert core[i] == core[k..][i - k]; }
      }
    } else {
      var k :| 1 <= k < |core| - 1 && core[k] == '&' && AllChars(core[..k], IsUpper) && AllChars(core[k + 1..], IsUpper);
      assert core[0] == core[..k][0];
      forall i | 0 <= i < |core| ensures core[i] != '-' {
        if i < k { assert core[i] == core[..k][i]; }
        else if i > k { assert core[i] == core[k + 1..][i - k - 1]; }
      }
    }
  }

  /** Removing ".NS" passes over a dot-free prefix untouched. */
  lemma {:induction false} DotFreePrefixKept(x: string, y: string)
    requires '.' !in x
    ensures CleanSymbol(x + y) == x + CleanSymbol(y)
    decreases |x|
  {
    if |x| > 0 {
      var s := x + y;
      if |s| >= 3 {
        assert s[..3] != ".NS" by { assert s[0] == x[0] != '.'; }
      }
      DotFreePrefixKept(x[1..], y);
      Text.TailOfAppend(x, y);
      assert [x[0]] + x[1..] == x;
      Text.AppendAssoc([x[0]], x[1..], CleanSymbol(y));
    } else {
      assert x + y == y;
    }
  }

  /** Removing ".NS" leaves a string without a dot alone. */
  lemma NoDotNothingRemoved(s: string)
    requires '.' !in s
    ensures CleanSymbol(s) == s
  {
    DotFreePrefixKept(s, "");
    assert s + "" == s;
  }

  /** A one-letter symbol passes the length and character checks but
   *  matches none of the shapes. */
  lemma OneLetterSymbolRejected()
    ensures ValidateSymbol("A").Fail?
  {
    NoDotNothingRemoved("A");
    assert |WithoutFinalNewline(CleanSymbol("A"))| == 1;
    if ValidateSymbol("A").Pass? {
      AcceptedSymbolShape("A");
    }
  }

  /** Hyphenated symbols are refused, even "BAJAJ-AUTO" from the Nifty 50. */
  lemma HyphenatedSymbolRejected()
    ensures MarketData.IsMajorStock("BAJAJ-AUTO") && ValidateSymbol("BAJAJ-AUTO").Fail?
  {
    var b := "BAJAJ-AUTO";
    NoDotNothingRemoved(b);
    assert b[5] == '-';
    assert '-' in WithoutFinalNewline(CleanSymbol(b));
    if ValidateSymbol(b).Pass? {
      AcceptedSymbolShape(b);
    }
  }

  /** The exchange suffix is dropped before judging. */
  lemma SuffixedSymbolAccepted()
    ensures ValidateSymbol("RELIANCE.NS").Pass?
  {
    var r := "RELIANCE";
    DotFreePrefixKept(r, ".NS");
    assert r + ".NS" == "RELIANCE.NS";
    assert CleanSymbol(".NS") == "" by { assert ".NS"[..3] == ".NS"; assert ".NS"[3..] == ""; }
    assert r + "" == r;
    assert CleanSymbol("RELIANCE.NS") == r;
    RelianceIsPlain();
  }

  lemma RelianceIsPlain()
    ensures PlainLetters("RELIANCE") && SymbolCharset("RELIANCE")
  {
    var r := "RELIANCE";
    assert forall i :: 0 <= i < |r| ==> IsUpper(r[i]);
  }

  /** Ampersand symbols such as "M&M" are accepted. */
  lemma AmpersandSymbolAccepted()
    ensures ValidateSymbol("M&M").Pass?
  {
    var m := "M&M";
    NoDotNothingRemoved(m);
    assert m[1] == '&' && AllChars(m[..1], IsUpper) && AllChars(m[2..], IsUpper);
    assert LettersAmpersandLetters(m);
    assert SymbolCharset(m);
  }

  // ------------------------------------------------------------------- price

  /** A `decimal.Decimal` as `as_tuple()` shows it: sign, coefficient, exponent. */
  datatype DecimalNumber = DecimalNumber(negative: bool, coefficient: nat, exponent: int)

  function Pow10(e: int): (r: real)
    ensures r > 0.0
    decreases if e < 0 then -e else e
  {
    if e == 0 then 1.0 else if e > 0 then 10.0 * Pow10(e - 1) else Pow10(e + 1) / 10.0
  }

  function DecimalValue(d: DecimalNumber): real
  {
    (if d.negative then -1.0 else 1.0) * d.coefficient as real * Pow10(d.exponent)
  }

  /**
   * `validate_price`: positive, at most 100000, and written with at most
   * two digits after the point. The last test reads the exponent, so it is
   * about how the number is written, not about its value.
   */
  function ValidatePrice(d: DecimalNumber): (v: Verdict)
    ensures v.Pass? <==> 0.0 < DecimalValue(d) <= 100000.0 && d.exponent >= -2
  {
    if DecimalValue(d) <= 0.0 then Fail("Price must be positive")
    else if DecimalValue(d) > 100000.0 then Fail("Price cannot exceed ₹100,000")
    else if d.exponent < -2 then Fail("Price cannot have more than 2 decimal places")
    else Pass
  }

  function NatPow10(e: nat): (r: nat)
    ensures r > 0
  {
    if e == 0 then 1 else 10 * NatPow10(e - 1)
  }

  lemma {:induction false} Pow10Shift(e: int)
    ensures Pow10(e) * 100.0 == Pow10(e + 2)
    decreases if e < 0 then -e else e
  {
    if e > 0 {
      Pow10Shift(e - 1);
    } else if e < 0 {
      if e == -1 {
        assert Pow10(1) == 10.0;
      } else {
        Pow10Shift(e + 1);
      }
    }
  }

  lemma {:induction false} Pow10Nat(e: nat)
    ensures Pow10(e) == NatPow10(e) as real
  {
    if e > 0 {
      Pow10Nat(e - 1);
    }
  }

  /** The number of paise an accepted price is: its coefficient scaled to
   *  two decimal places. */
  function Paise(d: DecimalNumber): nat
    requires d.exponent >= -2
  {
    d.coefficient * NatPow10(d.exponent + 2)
  }

  /** An accepted price is a positive whole number of paise. */
  lemma AcceptedPriceIsWholePaise(d: DecimalNumber)
    requires ValidatePrice(d).Pass?
    ensures Paise(d) > 0 && DecimalValue(d) * 100.0 == Paise(d) as real
  {
    var c := d.coefficient as real;
    var p := Pow10(d.exponent);
    Pow10Shift(d.exponent);
    Pow10Nat(d.exponent + 2);
    assert !d.negative;
    assert DecimalValue(d) == c * p;
    calc {
      DecimalValue(d) * 100.0;
      (c * p) * 100.0;
      c * (p * 100.0);
      c * (NatPow10(d.exponent + 2) as real);
    }
    assert c > 0.0;
  }

  /** 1.500 is refused although 1.5 is accepted: the check is on the
   *  written exponent. */
  lemma TrailingZerosRefused()
    ensures DecimalValue(DecimalNumber(false, 1500, -3)) == DecimalValue(DecimalNumber(false, 15, -1)) == 1.5
    ensures ValidatePrice(DecimalNumber(false, 1500, -3)).Fail?
    ensures ValidatePrice(DecimalNumber(false, 15, -1)).Pass?
  {
    assert Pow10(-3) == 0.001 by { assert Pow10(-1) == 0.1; assert Pow10(-2) == 0.01; }
    assert Pow10(-1) == 0.1;
  }

  // ---------------------------------------------------------------- quantity

  /** What `validate_quantity` may be handed: an int, a string or a float. */
  datatype QuantityInput = QuantityInt(i: int) | QuantityText(s: string) | QuantityFloat(x: real)

  /** `int(quantity)`; `None` where it raises `ValueError`. */
  function QuantityValue(q: QuantityInput): Option<int>
  {
    match q
    case QuantityInt(i) => Some(i)
    case QuantityText(s) => ParseInt(s)
    case QuantityFloat(x) => Some(Trunc(x))
  }

  /** `validate_quantity`: an integer, after conversion, in [1, 100000]. */
  function ValidateQuantity(q: QuantityInput): (v: Verdict)
    ensures v.Pass? <==> QuantityValue(q).Some? && 1 <= QuantityValue(q).value <= 100000
    ensures QuantityValue(q).None? ==> v == Fail("Quantity must be a valid integer")
  {
    match QuantityValue(q)
    case None => Fail("Quantity must be a valid integer")
    case Some(n) =>
      if n <= 0 then Fail("Quantity must be positive")
      else if n > 100000 then Fail("Quantity cannot exceed 100,000 shares")
      else Pass
  }

  /** A quantity written out as text is judged as the number itself. */
  lemma QuantityTextAgreesWithInt(n: int)
    ensures ValidateQuantity(QuantityText(IntToString(n))) == ValidateQuantity(QuantityInt(n))
  {
    IntToStringRoundTrip(n);
  }

  /** A fractional quantity is truncated first: half a share is zero shares. */
  lemma FractionalQuantityTruncated()
    ensures ValidateQuantity(QuantityFloat(0.5)) == Fail("Quantity must be positive")
    ensures ValidateQuantity(QuantityFloat(100000.9)).Pass?
    ensures ValidateQuantity(QuantityFloat(-0.5)) == Fail("Quantity must be positive")
  {
  }

  // -------------------------------------------------------------- percentage

  /** A bound of `validate_percentage` together with the text its f-string
   *  prints for it: `10` for the int 10, `0.1` for the float 0.1. */
  datatype PercentBound = PercentBound(value: real, text: string)

  /**
   * `validate_percentage`: `float(percentage)`, given as `pct` (`None` when
   * the conversion raises), must lie in the closed range [lo, hi]; the
   * messages name the broken bound followed by '%'.
   */
  function ValidatePercentage(pct: Option<real>, lo: PercentBound, hi: PercentBound): (v: Verdict)
    ensures v.Pass? <==> pct.Some? && lo.value <= pct.value <= hi.value
    ensures pct.None? ==> v == Fail("Percentage must be a valid number")
    ensures pct.Some? && pct.value < lo.value ==> v == Fail("Percentage cannot be less than " + lo.text + "%")
    ensures pct.Some? && lo.value <= pct.value && hi.value < pct.value ==>
      v == Fail("Percentage cannot exceed " + hi.text + "%")
  {
    match pct
    case None => Fail("Percentage must be a valid number")
    case Some(x) =>
      if x < lo.value then Fail("Percentage cannot be less than " + lo.text + "%")
      else if x > hi.value then Fail("Percentage cannot exceed " + hi.text + "%")
      else Pass
  }

  // ------------------------------------------------------------------- email

  predicate IsLocalChar(c: char) { IsAlnum(c) || c == '.' || c == '_' || c == '%' || c == '+' || c == '-' }
  predicate IsDomainChar(c: char) { IsAlnum(c) || c == '.' || c == '-' }

  /** `[a-zA-Z0-9._%+-]+@[a-zA-Z0-9.-]+\.[a-zA-Z]{2,}`: some split of the
   *  text into local part, '@', domain, '.', and a top-level domain. */
  predicate EmailShape(s: string)
  {
    exists at, dot | 0 < at && at + 1 < dot < |s| - 2 :: EmailParts(s, at, dot)
  }

  predicate EmailParts(s: string, at: int, dot: int)
    requires 0 < at && at + 1 < dot < |s| - 2
  {
    && s[at] == '@' && s[dot] == '.'
    && AllChars(s[..at], IsLocalChar)
    && AllChars(s[at + 1..dot], IsDomainChar)
    && AllChars(s[dot + 1..], IsAlpha)
  }

  /** `validate_email`: not empty, of the address shape, at most 254 characters. */
  function ValidateEmail(email: string): (v: Verdict)
    ensures v.Pass? <==> |email| > 0 && MatchesWhole(email, EmailShape) && |email| <= 254
  {
    if |email| == 0 then Fail("Email cannot be empty")
    else if !MatchesWhole(email, EmailShape) then Fail("Invalid email format")
    else if |email| > 254 then Fail("Email address too long")
    else Pass
  }

  /** An address ends in a letter, so a final newline is never part of one. */
  lemma EmailEndsWithLetter(s: string)
    requires EmailShape(s)
    ensures IsAlpha(s[|s| - 1])
  {
    var at, dot :| 0 < at && at + 1 < dot < |s| - 2 && EmailParts(s, at, dot);
    assert s[|s| - 1] == s[dot + 1..][|s| - dot - 2];
  }

  /** An accepted address holds exactly one '@', with text on both sides. */
  lemma AcceptedEmailHasOneAt(email: string)
    requires ValidateEmail(email).Pass?
    ensures var core := WithoutFinalNewline(email);
      exists at | 0 < at < |core| - 1 :: core[at] == '@' && '@' !in core[..at] && '@' !in core[at + 1..]
  {
    var core := WithoutFinalNewline(email);
    assert EmailShape(core) by {
      if EmailShape(email) {
        EmailEndsWithLetter(email);
      }
    }
    var at, dot :| 0 < at && at + 1 < dot < |core| - 2 && EmailParts(core, at, dot);
    assert '@' !in core[..at] by {
      forall i | 0 <= i < at ensures core[i] != '@' { assert IsLocalChar(core[..at][i]); }
    }
    assert '@' !in core[at + 1..] by {
      forall i | at + 1 <= i < |core| ensures core[i] != '@' {
        if i < dot { assert IsDomainChar(core[at + 1..dot][i - at - 1]); }
        else if i > dot { assert IsAlpha(core[dot + 1..][i - dot - 1]); }
      }
    }
  }

  // ------------------------------------------------------------------- phone

  /** `[\s\-\(\)]`: what `validate_phone_number` deletes before matching. */
  predicate IsPhoneNoise(c: char) { IsSpace(c) || c == '-' || c == '(' || c == ')' }

  function RemovePhoneNoise(s: string): (r: string)
    ensures |r| <= |s|
    ensures forall c :: c in r ==> c in s && !IsPhoneNoise(c)
  {
    if |s| == 0 then []
    else (if IsPhoneNoise(s[0]) then [] else [s[0]]) + RemovePhoneNoise(s[1..])
  }

  /** `[6-9]\d{9}` */
  predicate TenDigitMobile(s: string)
  {
    |s| == 10 && '6' <= s[0] <= '9' && AllChars(s, IsDigit)
  }

  /** One of `\+91[6-9]\d{9}`, `91[6-9]\d{9}`, `[6-9]\d{9}`. */
  predicate IndianMobile(s: string)
  {
    TenDigitMobile(s)
    || (|s| == 13 && s[..3] == "+91" && TenDigitMobile(s[3..]))
    || (|s| == 12 && s[..2] == "91" && TenDigitMobile(s[2..]))
  }

  /**
   * `validate_phone_number`: after deleting whitespace, dashes and
   * brackets, a ten-digit mobile number starting 6-9, optionally preceded
   * by "91" or "+91". The deletion removes every newline, so the trailing
   * newline allowance of `$` never comes into play.
   */
  function ValidatePhoneNumber(phone: string): (v: Verdict)
    ensures v.Pass? <==> |phone| > 0 && IndianMobile(RemovePhoneNoise(phone))
    ensures v.Pass? ==> var clean := RemovePhoneNoise(phone);
      |clean| >= 10 && TenDigitMobile(clean[|clean| - 10..])
  {
    if |phone| == 0 then Fail("Phone number cannot be empty")
    else
      var clean := RemovePhoneNoise(phone);
      if IndianMobile(clean) then
        assert clean[|clean| - 10..] == clean || clean[|clean| - 10..] == clean[3..] || clean[|clean| - 10..] == clean[2..];
        Pass
      else Fail("Invalid Indian phone number format")
  }

  lemma {:induction false} RemovePhoneNoiseConcat(a: string, b: string)
    ensures RemovePhoneNoise(a + b) == RemovePhoneNoise(a) + RemovePhoneNoise(b)
    decreases |a|
  {
    if |a| > 0 {
      RemovePhoneNoiseConcat(a[1..], b);
      var head := if IsPhoneNoise(a[0]) then [] else [a[0]];
      Text.TailOfAppend(a, b);
      assert RemovePhoneNoise(a + b) == head + (RemovePhoneNoise(a[1..]) + RemovePhoneNoise(b));
      Text.AppendAssoc(head, RemovePhoneNoise(a[1..]), RemovePhoneNoise(b));
    } else {
      assert a + b == b;
    }
  }

  /** Spaces, dashes and brackets anywhere in a number never change whether
   *  it is accepted. */
  lemma PhoneFormattingIgnored(a: string, c: char, b: string)
    requires IsPhoneNoise(c)
    ensures ValidatePhoneNumber(a + [c] + b).Pass? == ValidatePhoneNumber(a + b).Pass?
  {
    RemovePhoneNoiseConcat(a + [c], b);
    RemovePhoneNoiseConcat(a, [c]);
    RemovePhoneNoiseConcat(a, b);
    assert RemovePhoneNoise([c]) == [];
    assert RemovePhoneNoise(a + [c]) == RemovePhoneNoise(a);
    if |a + b| == 0 {
      assert RemovePhoneNoise(a + b) == [];
    }
  }

  // ----------------------------------------------------------------- chat id

  /** `-?\d+` */
  predicate SignedDigits(s: string)
  {
    IsDigits(s) || (|s| > 1 && s[0] == '-' && IsDigits(s[1..]))
  }

  /** The integer a `-?\d+` text denotes. */
  function SignedDigitsValue(s: string): int
    requires SignedDigits(s)
  {
    if s[0] == '-' then -(DigitsValue(s[1..]) as int) else DigitsValue(s)
  }

  /** A `-?\d+` text with or without a final newline strips to the text. */
  lemma StripSignedDigits(s: string)
    requires MatchesWhole(s, SignedDigits)
    ensures SignedDigits(WithoutFinalNewline(s))
    ensures Strip(s) == WithoutFinalNewline(s)
  {
    var core := WithoutFinalNewline(s);
    if |s| > 0 && s[|s| - 1] == '\n' {
      assert !SignedDigits(s) by {
        if |s| > 1 { assert s[1..][|s| - 2] == s[|s| - 1]; }
      }
      assert s == core + "\n";
      assert !IsSpace(core[0]) && !IsSpace(core[|core| - 1]);
      assert LStrip(s) == s;
      assert RStrip(s) == RStrip(core);
      assert RStrip(core) == core;
    } else {
      assert !IsSpace(core[0]) && !IsSpace(core[|core| - 1]);
    }
  }

  /** `int()` reads a `-?\d+` text, with or without a final newline, as the
   *  number its digits denote. */
  lemma ParseSignedDigits(s: string)
    requires MatchesWhole(s, SignedDigits)
    ensures ParseInt(s) == Some(SignedDigitsValue(WithoutFinalNewline(s)))
  {
    StripSignedDigits(s);
    var core := WithoutFinalNewline(s);
    SignedDigitsParseStripped(core);
    ParseAfterStrip(s, core, Some(SignedDigitsValue(core)));
  }

  /** The stripped `-?\d+` text parses to its value. */
  lemma SignedDigitsParseStripped(core: string)
    requires SignedDigits(core)
    ensures ParseStripped(core) == Some(SignedDigitsValue(core))
  {
    var v := SignedDigitsValue(core);
    if core[0] == '-' {
      assert v == 0 - DigitsValue(core[1..]) as int;
      NegativeDigits(core, core[1..]);
    } else {
      assert AllChars(core, IsDigit) && v == DigitsValue(core);
      UnsignedDigits(core);
    }
  }

  const ChatIdLimit: int := 1_000_000_000_000

  /**
   * `validate_telegram_chat_id`: not empty, an optionally negative run of
   * digits, and at most 10^12 in magnitude.
   */
  function ValidateTelegramChatId(chatId: string): (v: Verdict)
    ensures v.Pass? <==> (|chatId| > 0 && MatchesWhole(chatId, SignedDigits)
      && IntAbs(SignedDigitsValue(WithoutFinalNewline(chatId))) <= ChatIdLimit)
  {
    if |chatId| == 0 then Fail("Chat ID cannot be empty")
    else if !MatchesWhole(chatId, SignedDigits) then Fail("Invalid Telegram chat ID format")
    else
      ParseSignedDigits(chatId);
      var n := ParseInt(chatId).value;
      if IntAbs(n) > ChatIdLimit then Fail("Chat ID out of valid range")
      else Pass
  }

  // ----------------------------------------------------------------- api key

  predicate IsKeyChar(c: char) { IsAlnum(c) || c == '_' || c == '-' || c == '.' }

  /** `[a-zA-Z0-9_\-\.]+` */
  predicate KeyCharset(s: string) { |s| > 0 && AllChars(s, IsKeyChar) }

  /** `validate_api_key`: not empty, between `minLength` and 100 characters,
   *  from the key character set. */
  function ValidateApiKey(apiKey: string, minLength: int): (v: Verdict)
    ensures v.Pass? <==> |apiKey| > 0 && minLength <= |apiKey| <= 100 && MatchesWhole(apiKey, KeyCharset)
    ensures |apiKey| == 0 ==> v == Fail("API key cannot be empty")
    ensures 0 < |apiKey| < minLength ==> v == Fail("API key must be at least " + IntToString(minLength) + " characters")
    ensures 0 < |apiKey| && minLength <= |apiKey| && 100 < |apiKey| ==> v == Fail("API key too long")
  {
    if |apiKey| == 0 then Fail("API key cannot be empty")
    else if |apiKey| < minLength then Fail("API key must be at least " + IntToString(minLength) + " characters")
    else if |apiKey| > 100 then Fail("API key too long")
    else if !MatchesWhole(apiKey, KeyCharset) then Fail("API key contains invalid characters")
    else Pass
  }

  /** The final newline counts towards the length but not against the
   *  character set: fifteen key characters and a newline pass at the
   *  default minimum of 16. */
  lemma ApiKeyNewlineQuirk()
    ensures ValidateApiKey("abcdefghijklmno\n", 16).Pass?
    ensures ValidateApiKey("abcdefghijklmno", 16).Fail?
  {
    assert "abcdefghijklmno\n"[..15] == "abcdefghijklmno";
  }

  // -------------------------------------------------------------- time range

  /** `[01]?\d|2[0-3]` */
  predicate HourText(h: string)
  {
    (|h| == 1 && IsDigit(h[0]))
    || (|h| == 2 && (h[0] == '0' || h[0] == '1') && IsDigit(h[1]))
    || (|h| == 2 && h[0] == '2' && '0' <= h[1] <= '3')
  }

  /** `[0-5]?\d` */
  predicate MinuteText(m: string)
  {
    (|m| == 1 && IsDigit(m[0])) || (|m| == 2 && '0' <= m[0] <= '5' && IsDigit(m[1]))
  }

  /** `([01]?\d|2[0-3]):([0-5]?\d)` */
  predicate TimeText(s: string)
  {
    exists i | 0 <= i < |s| :: s[i] == ':' && HourText(s[..i]) && MinuteText(s[i + 1..])
  }

  /** The minute of the day a time text denotes. */
  function MinuteOfDay(s: string): (m: int)
    requires TimeText(s)
    ensures 0 <= m < 1440
  {
    var j :| 0 <= j < |s| && s[j] == ':' && HourText(s[..j]) && MinuteText(s[j + 1..]);
    HourBeforeFirstColon(s, j);
    var i := IndexOf(s, ':');
    DigitsValueBound(s[..i]);
    DigitsValueBound(s[i + 1..]);
    DigitsValue(s[..i]) * 60 + DigitsValue(s[i + 1..])
  }

  /** The hour has no colon, so the colon after it is the first. */
  lemma HourBeforeFirstColon(s: string, j: nat)
    requires j < |s| && s[j] == ':' && HourText(s[..j])
    ensures ':' in s && IndexOf(s, ':') == j
  {
    var h := s[..j];
    assert ':' !in h by {
      forall k | 0 <= k < |h| ensures h[k] != ':' {
        assert IsDigit(h[k]);
      }
    }
    SplitAt(s, j);
    IndexOfAfterFree(h, s[j..], ':');
  }

  lemma DigitsValueBound(d: string)
    requires HourText(d) || MinuteText(d)
    ensures HourText(d) ==> DigitsValue(d) < 24
    ensures MinuteText(d) ==> DigitsValue(d) < 60
  {
    if |d| == 2 {
      assert d[..1][..0] == [];
      assert DigitsValue(d[..1]) == d[0] as int - '0' as int;
    } else {
      assert d[..0] == [];
    }
  }

  /**
   * `validate_time_range`: both texts match the H:MM pattern, `strptime`
   * reads both (it refuses the final newline the pattern lets through),
   * and the start is strictly before the end.
   */
  function ValidateTimeRange(start: string, end: string): (v: Verdict)
    ensures v.Pass? <==> TimeText(start) && TimeText(end) && MinuteOfDay(start) < MinuteOfDay(end)
    ensures v.Pass? ==> MatchesWhole(start, TimeText) && MatchesWhole(end, TimeText)
  {
    if !MatchesWhole(start, TimeText) then Fail("Invalid start time format (use HH:MM)")
    else if !MatchesWhole(end, TimeText) then Fail("Invalid end time format (use HH:MM)")
    else if !TimeText(start) || !TimeText(end) then Fail("Invalid time values")
    else if MinuteOfDay(start) >= MinuteOfDay(end) then Fail("Start time must be before end time")
    else Pass
  }

  /** An accepted range is never accepted reversed, and accepted ranges chain. */
  lemma TimeRangeIsStrictOrder(a: string, b: string, c: string)
    ensures ValidateTimeRange(a, b).Pass? ==> !ValidateTimeRange(b, a).Pass?
    ensures ValidateTimeRange(a, b).Pass? && ValidateTimeRange(b, c).Pass? ==> ValidateTimeRange(a, c).Pass?
  {
  }

  /** "9:30" followed by a newline passes the pattern but not `strptime`. */
  lemma NewlineTimeRefusedByStrptime()
    ensures ValidateTimeRange("9:30\n", "10:00") == Fail("Invalid time values")
  {
    var s := "9:30\n";
    assert s[..|s| - 1] == "9:30";
    assert "9:30"[1] == ':' && "9:30"[..1] == "9" && "9:30"[2..] == "30";
    assert TimeText("9:30");
    var e := "10:00";
    assert e[2] == ':' && e[..2] == "10" && e[3..] == "00";
    assert TimeText(e);
    assert !TimeText(s) by {
      forall i | 0 <= i < |s| && s[i] == ':' ensures !MinuteText(s[i + 1..]) {
        assert i == 1;
        assert s[2..] == "30\n";
      }
    }
  }

  // ---------------------------------------------------------- trading config

  /** A configuration value: Python `int` or `float`. */
  datatype Number = IntNumber(i: int) | FloatNumber(x: real)

  function NumberValue(n: Number): real
  {
    match n
    case IntNumber(i) => i as real
    case FloatNumber(x) => x
  }

  /** The six required keys, in the order they are checked. */
  datatype ConfigField =
    | MaxPositionSize | RiskPerTrade | StopLossPercentage
    | TargetPercentage | MaxDailyLoss | MaxOpenPositions

  const RequiredConfigFields: seq<ConfigField> := [
    MaxPositionSize, RiskPerTrade, StopLossPercentage,
    TargetPercentage, MaxDailyLoss, MaxOpenPositions]

  function FieldName(f: ConfigField): string
  {
    match f
    case MaxPositionSize => "max_position_size"
    case RiskPerTrade => "risk_per_trade"
    case StopLossPercentage => "stop_loss_percentage"
    case TargetPercentage => "target_percentage"
    case MaxDailyLoss => "max_daily_loss"
    case MaxOpenPositions => "max_open_positions"
  }

  lemma EveryFieldRequired()
    ensures forall f :: f in RequiredConfigFields
  {
    forall f: ConfigField ensures f in RequiredConfigFields {
      var i := match f
        case MaxPositionSize => 0 case RiskPerTrade => 1 case StopLossPercentage => 2
        case TargetPercentage => 3 case MaxDailyLoss => 4 case MaxOpenPositions => 5;
      assert RequiredConfigFields[i] == f;
    }
  }

  /** The configuration dictionary, one entry per key `validate_trading_config`
   *  reads; other keys play no part. */
  type TradingConfigInput = map<ConfigField, Number>

  datatype ConfigError =
    | MissingField(field: ConfigField)
    | BadMaxPositionSize
    | BadRiskPerTrade(reason: string)
    | BadStopLoss(reason: string)
    | BadTarget(reason: string)
    | BadMaxDailyLoss
    | BadMaxOpenPositions
    | TargetNotAboveStop

  /** One `MissingField` per required field absent from `config`, in order. */
  function MissingFields(config: TradingConfigInput, fields: seq<ConfigField>): (r: seq<ConfigError>)
    ensures |r| <= |fields|
    ensures forall e :: e in r ==> e.MissingField? && e.field in fields && e.field !in config
    ensures forall f :: f in fields && f !in config ==> MissingField(f) in r
  {
    if |fields| == 0 then []
    else (if fields[0] in config then [] else [MissingField(fields[0])]) + MissingFields(config, fields[1..])
  }

  /** The range each field must lie in, stated on the stored value: the
   *  percentages as fractions, the sizes and losses positive, the number
   *  of positions a positive whole number. */
  predicate InRange(f: ConfigField, n: Number)
  {
    match f
    case MaxPositionSize => NumberValue(n) > 0.0
    case RiskPerTrade => 0.001 <= NumberValue(n) <= 0.1
    case StopLossPercentage => 0.005 <= NumberValue(n) <= 0.2
    case TargetPercentage => 0.01 <= NumberValue(n) <= 0.5
    case MaxDailyLoss => NumberValue(n) > 0.0
    case MaxOpenPositions => n.IntNumber? && n.i > 0
  }

  /** The ranges `validate_trading_config` passes to `validate_percentage`,
   *  printed as the source writes them (the upper bounds are ints). */
  const RiskLow := PercentBound(0.1, "0.1")
  const RiskHigh := PercentBound(10.0, "10")
  const StopLow := PercentBound(0.5, "0.5")
  const StopHigh := PercentBound(20.0, "20")
  const TargetLow := PercentBound(1.0, "1")
  const TargetHigh := PercentBound(50.0, "50")

  /** The error reported for field `f` holding the out-of-range value `n`;
   *  a percentage error carries the message of the range check on `n * 100`. */
  function RangeError(f: ConfigField, n: Number): ConfigError
    requires !InRange(f, n)
  {
    match f
    case MaxPositionSize => BadMaxPositionSize
    case RiskPerTrade => BadRiskPerTrade(ValidatePercentage(Some(NumberValue(n) * 100.0), RiskLow, RiskHigh).error)
    case StopLossPercentage => BadStopLoss(ValidatePercentage(Some(NumberValue(n) * 100.0), StopLow, StopHigh).error)
    case TargetPercentage => BadTarget(ValidatePercentage(Some(NumberValue(n) * 100.0), TargetLow, TargetHigh).error)
    case MaxDailyLoss => BadMaxDailyLoss
    case MaxOpenPositions => BadMaxOpenPositions
  }

  /** The field a range error is about; `None` for the other errors. */
  function RangeErrorField(e: ConfigError): Option<ConfigField>
  {
    match e
    case BadMaxPositionSize => Some(MaxPositionSize)
    case BadRiskPerTrade(_) => Some(RiskPerTrade)
    case BadStopLoss(_) => Some(StopLossPercentage)
    case BadTarget(_) => Some(TargetPercentage)
    case BadMaxDailyLoss => Some(MaxDailyLoss)
    case BadMaxOpenPositions => Some(MaxOpenPositions)
    case _ => None
  }

  /** `e` is the range error of a present field that is out of range. */
  predicate RangeErrorFor(config: TradingConfigInput, e: ConfigError)
  {
    RangeErrorField(e).Some?
    && var f := RangeErrorField(e).value;
    f in config && !InRange(f, config[f]) && e == RangeError(f, config[f])
  }

  /** The error a percentage range check on `value * 100` adds, if any. */
  function PercentError(config: TradingConfigInput, key: ConfigField, lo: PercentBound, hi: PercentBound,
                        wrap: string -> ConfigError): (r: seq<ConfigError>)
    ensures |r| <= 1
    ensures |r| == 1 <==> key in config && !(lo.value <= NumberValue(config[key]) * 100.0 <= hi.value)
    ensures |r| == 1 ==> r[0] == wrap(ValidatePercentage(Some(NumberValue(config[key]) * 100.0), lo, hi).error)
  {
    if key in config then
      var v := ValidatePercentage(Some(NumberValue(config[key]) * 100.0), lo, hi);
      if v.Pass? then [] else [wrap(v.error)]
    else []
  }

  /** `isinstance(v, (int, float)) and v > 0` fails. */
  function PositiveError(config: TradingConfigInput, key: ConfigField, e: ConfigError): (r: seq<ConfigError>)
    ensures r == [] || r == [e]
    ensures r == [e] <==> key in config && NumberValue(config[key]) <= 0.0
  {
    if key in config && NumberValue(config[key]) <= 0.0 then [e] else []
  }

  /** `isinstance(v, int) and v > 0` fails. */
  function PositionsError(config: TradingConfigInput): (r: seq<ConfigError>)
    ensures r == [] || r == [BadMaxOpenPositions]
    ensures r == [BadMaxOpenPositions] <==> (MaxOpenPositions in config
      && (config[MaxOpenPositions].FloatNumber? || config[MaxOpenPositions].i <= 0))
  {
    if MaxOpenPositions in config && (config[MaxOpenPositions].FloatNumber? || config[MaxOpenPositions].i <= 0)
    then [BadMaxOpenPositions] else []
  }

  /** The check of one field, as the source writes it (the percentages on
   *  the value times 100): an error exactly when the field is present and
   *  out of its range. */
  function FieldError(config: TradingConfigInput, f: ConfigField): (r: seq<ConfigError>)
    ensures r == if f in config && !InRange(f, config[f]) then [RangeError(f, config[f])] else []
  {
    match f
    case MaxPositionSize => PositiveError(config, f, BadMaxPositionSize)
    case RiskPerTrade => PercentError(config, f, RiskLow, RiskHigh, reason => BadRiskPerTrade(reason))
    case StopLossPercentage => PercentError(config, f, StopLow, StopHigh, reason => BadStopLoss(reason))
    case TargetPercentage => PercentError(config, f, TargetLow, TargetHigh, reason => BadTarget(reason))
    case MaxDailyLoss => PositiveError(config, f, BadMaxDailyLoss)
    case MaxOpenPositions => PositionsError(config)
  }

  /** The range errors of `fields`, in order: every error reports a present
   *  field that is out of range, and every such field is reported. */
  function RangeErrors(config: TradingConfigInput, fields: seq<ConfigField>): (r: seq<ConfigError>)
    ensures forall e :: e in r ==> RangeErrorFor(config, e)
    ensures forall f :: f in fields && f in config && !InRange(f, config[f]) ==> RangeError(f, config[f]) in r
  {
    if fields == [] then []
    else
      var head := FieldError(config, fields[0]);
      var rest := RangeErrors(config, fields[1..]);
      assert forall f :: f in fields ==> f == fields[0] || f in fields[1..];
      assert head != [] ==> RangeErrorFor(config, head[0]) by {
        if head != [] {
          RangeErrorNamesField(fields[0], config[fields[0]]);
        }
      }
      assert forall e :: e in head + rest ==> e in head || e in rest;
      head + rest
  }

  /** A range error names the field it was raised for. */
  lemma RangeErrorNamesField(f: ConfigField, n: Number)
    requires !InRange(f, n)
    ensures RangeErrorField(RangeError(f, n)) == Some(f)
  {
  }

  /** The error for a target that is not above the stop. */
  function OrderError(config: TradingConfigInput): (r: seq<ConfigError>)
    ensures r == [] || r == [TargetNotAboveStop]
    ensures r == [TargetNotAboveStop] <==> (StopLossPercentage in config && TargetPercentage in config
      && NumberValue(config[TargetPercentage]) <= NumberValue(config[StopLossPercentage]))
  {
    if StopLossPercentage in config && TargetPercentage in config
      && NumberValue(config[TargetPercentage]) <= NumberValue(config[StopLossPercentage])
    then [TargetNotAboveStop] else []
  }

  /** What an acceptable configuration is: every required field present
   *  and in range, and the target above the stop. */
  predicate ConfigAcceptable(config: TradingConfigInput)
  {
    (forall f :: f in config && InRange(f, config[f]))
    && NumberValue(config[StopLossPercentage]) < NumberValue(config[TargetPercentage])
  }

  /**
   * `validate_trading_config`: a missing-field error per absent required
   * field, then one error per present field out of range (risk per trade
   * 0.1-10%, stop loss 0.5-20%, target 1-50%, positive sizes and losses, a
   * positive whole number of positions), then one if the target is not
   * above the stop. Valid iff there are no errors.
   */
  function ValidateTradingConfig(config: TradingConfigInput): (r: (bool, seq<ConfigError>))
    ensures r.0 <==> |r.1| == 0
    ensures r.0 <==> ConfigAcceptable(config)
    ensures forall f :: MissingField(f) in r.1 <==> f !in config
    ensures forall f :: f in config && !InRange(f, config[f]) ==> RangeError(f, config[f]) in r.1
    ensures TargetNotAboveStop in r.1 <==> (StopLossPercentage in config && TargetPercentage in config
      && NumberValue(config[TargetPercentage]) <= NumberValue(config[StopLossPercentage]))
    ensures forall e :: e in r.1 ==> e.MissingField? || e == TargetNotAboveStop || RangeErrorFor(config, e)
  {
    var errors := TradingConfigErrors(config);
    assert |errors| > 0 ==> errors[0] in errors;
    (|errors| == 0, errors)
  }

  /** The errors of `validate_trading_config`, in the order it adds them. */
  function TradingConfigErrors(config: TradingConfigInput): (errors: seq<ConfigError>)
    ensures forall f :: MissingField(f) in errors <==> f !in config
    ensures forall f :: f in config && !InRange(f, config[f]) ==> RangeError(f, config[f]) in errors
    ensures TargetNotAboveStop in errors <==> (StopLossPercentage in config && TargetPercentage in config
      && NumberValue(config[TargetPercentage]) <= NumberValue(config[StopLossPercentage]))
    ensures forall e :: e in errors ==> e.MissingField? || e == TargetNotAboveStop || RangeErrorFor(config, e)
  {
    var fields := MissingOrRangeErrors(config);
    var order := OrderError(config);
    assert forall e :: e in fields + order <==> e in fields || e in order;
    fields + order
  }

  /** The missing-field and range errors, in the order they are found. */
  function MissingOrRangeErrors(config: TradingConfigInput): (errors: seq<ConfigError>)
    ensures forall f :: MissingField(f) in errors <==> f !in config
    ensures forall f :: f in config && !InRange(f, config[f]) ==> RangeError(f, config[f]) in errors
    ensures TargetNotAboveStop !in errors
    ensures forall e :: e in errors ==> e.MissingField? || RangeErrorFor(config, e)
  {
    var missing := MissingFields(config, RequiredConfigFields);
    var range := RangeErrors(config, RequiredConfigFields);
    EveryFieldRequired();
    assert forall e :: e in missing + range <==> e in missing || e in range;
    assert RangeErrorField(TargetNotAboveStop).None?;
    missing + range
  }

  /**
   * A configuration the validator accepts has every required field, a risk
   * per trade in [0.001, 0.1], a stop in [0.005, 0.2], a target in
   * [0.01, 0.5] above the stop, positive sizes and losses, and a positive
   * whole number of positions.
   */
  lemma AcceptedConfigMeetsBounds(config: TradingConfigInput)
    requires ValidateTradingConfig(config).0
    ensures forall f :: f in config
    ensures 0.001 <= NumberValue(config[RiskPerTrade]) <= 0.1
    ensures 0.005 <= NumberValue(config[StopLossPercentage]) <= 0.2
    ensures 0.01 <= NumberValue(config[TargetPercentage]) <= 0.5
    ensures NumberValue(config[StopLossPercentage]) < NumberValue(config[TargetPercentage])
    ensures NumberValue(config[MaxPositionSize]) > 0.0 && NumberValue(config[MaxDailyLoss]) > 0.0
    ensures config[MaxOpenPositions].IntNumber? && config[MaxOpenPositions].i > 0
  {
    assert InRange(RiskPerTrade, config[RiskPerTrade]) && InRange(StopLossPercentage, config[StopLossPercentage]);
    assert InRange(TargetPercentage, config[TargetPercentage]) && InRange(MaxPositionSize, config[MaxPositionSize]);
    assert InRange(MaxDailyLoss, config[MaxDailyLoss]) && InRange(MaxOpenPositions, config[MaxOpenPositions]);
  }

  /** The converse: every required field present and in range, and the
   *  target above the stop, is accepted. */
  lemma BoundedConfigAccepted(config: TradingConfigInput)
    requires forall f :: f in config
    requires 0.001 <= NumberValue(config[RiskPerTrade]) <= 0.1
    requires 0.005 <= NumberValue(config[StopLossPercentage]) <= 0.2
    requires 0.01 <= NumberValue(config[TargetPercentage]) <= 0.5
    requires NumberValue(config[StopLossPercentage]) < NumberValue(config[TargetPercentage])
    requires NumberValue(config[MaxPositionSize]) > 0.0 && NumberValue(config[MaxDailyLoss]) > 0.0
    requires config[MaxOpenPositions].IntNumber? && config[MaxOpenPositions].i > 0
    ensures ValidateTradingConfig(config).0
  {
    forall f | f in config ensures InRange(f, config[f]) {
      match f
      case MaxPositionSize =>
      case RiskPerTrade =>
      case StopLossPercentage =>
      case TargetPercentage =>
      case MaxDailyLoss =>
      case MaxOpenPositions =>
    }
  }

  // ------------------------------------------------------------ order params

  /** The keys `validate_order_params` looks at; `None` where the key is absent.
   *  `price` holds `Some(None)` for an explicit `None`. */
  datatype OrderParamsInput = OrderParamsInput(
    symbol: Option<string>,
    quantity: Option<QuantityInput>,
    price: Option<Option<DecimalNumber>>,
    orderType: Option<string>,
    transactionType: Option<string>)

  datatype OrderParamError =
    | SymbolRequired
    | SymbolInvalid(reason: string)
    | QuantityRequired
    | QuantityInvalid(reason: string)
    | PriceInvalid(reason: string)
    | BadOrderType
    | BadTransactionType

  const OrderTypes: set<string> := {"MARKET", "LIMIT", "SL", "SL-M"}
  const TransactionTypes: set<string> := {"BUY", "SELL"}

  /**
   * `validate_order_params`: the symbol and quantity are required and
   * checked; a price is checked when given and not None; the order and
   * transaction types, when given, must be known. Valid iff no errors.
   */
  function ValidateOrderParams(params: OrderParamsInput): (r: (bool, seq<OrderParamError>))
    ensures r.0 <==> |r.1| == 0
    ensures r.0 <==> (
      && params.symbol.Some? && ValidateSymbol(params.symbol.value).Pass?
      && params.quantity.Some? && ValidateQuantity(params.quantity.value).Pass?
      && (params.price.Some? && params.price.value.Some? ==> ValidatePrice(params.price.value.value).Pass?)
      && (params.orderType.Some? ==> params.orderType.value in OrderTypes)
      && (params.transactionType.Some? ==> params.transactionType.value in TransactionTypes))
    ensures SymbolRequired in r.1 <==> params.symbol.None?
    ensures QuantityRequired in r.1 <==> params.quantity.None?
    ensures BadOrderType in r.1 <==> params.orderType.Some? && params.orderType.value !in OrderTypes
    ensures |r.1| <= 5
  {
    var symbol :=
      match params.symbol
      case None => [SymbolRequired]
      case Some(s) => var v := ValidateSymbol(s); if v.Pass? then [] else [SymbolInvalid(v.error)];
    var quantity :=
      match params.quantity
      case None => [QuantityRequired]
      case Some(q) => var v := ValidateQuantity(q); if v.Pass? then [] else [QuantityInvalid(v.error)];
    var price :=
      if params.price.Some? && params.price.value.Some? then
        var v := ValidatePrice(params.price.value.value); if v.Pass? then [] else [PriceInvalid(v.error)]
      else [];
    var orderType := if params.orderType.Some? && params.orderType.value !in OrderTypes then [BadOrderType] else [];
    var side := if params.transactionType.Some? && params.transactionType.value !in TransactionTypes then [BadTransactionType] else [];
    var errors := symbol + quantity + price + orderType + side;
    assert forall e :: e in errors <==> e in symbol || e in quantity || e in price || e in orderType || e in side;
    (|errors| == 0, errors)
  }

  // ---------------------------------------------------------------- sanitize

  /** `[\x00-\x1f\x7f-\x9f]` */
  predicate IsControl(c: char) { c <= '\U{1f}' || '\U{7f}' <= c <= '\U{9f}' }

  function RemoveControl(s: string): (r: string)
    ensures |r| <= |s|
    ensures forall c :: c in r ==> c in s && !IsControl(c)
  {
    if |s| == 0 then []
    else (if IsControl(s[0]) then [] else [s[0]]) + RemoveControl(s[1..])
  }

  /** Whitespace appears only as single spaces. */
  predicate SingleSpaced(s: string)
  {
    && (forall i :: 0 <= i < |s| && IsSpace(s[i]) ==> s[i] == ' ')
    && (forall i :: 0 <= i < |s| - 1 ==> !(IsSpace(s[i]) && IsSpace(s[i + 1])))
  }

  /** `re.sub(r'\s+', ' ', s)`: every run of whitespace becomes one space. */
  function CollapseSpace(s: string): (r: string)
    ensures |r| <= |s|
    ensures SingleSpaced(r)
    ensures forall c :: c in r ==> c in s || c == ' '
    ensures |r| > 0 <==> |s| > 0
    ensures |r| > 0 ==> (IsSpace(r[0]) <==> IsSpace(s[0]))
    decreases |s|
  {
    if |s| == 0 then []
    else if IsSpace(s[0]) then
      var rest := LStrip(s);
      assert |rest| < |s|;
      var tail := CollapseSpace(rest);
      assert forall c :: c in rest ==> c in s;
      [' '] + tail
    else
      var tail := CollapseSpace(s[1..]);
      [s[0]] + tail
  }

  /** Slices of a single-spaced text are single-spaced. */
  lemma SingleSpacedSlice(s: string, i: nat, j: nat)
    requires SingleSpaced(s) && i <= j <= |s|
    ensures SingleSpaced(s[i..j])
  {
    var t := s[i..j];
    assert forall k :: 0 <= k < |t| ==> t[k] == s[i + k];
  }

  /** Prefixes of a single-spaced text are single-spaced. */
  lemma SingleSpacedPrefix(s: string, k: nat)
    requires SingleSpaced(s) && k <= |s|
    ensures SingleSpaced(s[..k])
    ensures forall c :: c in s[..k] ==> c in s
  {
    var t := s[..k];
    assert forall i :: 0 <= i < |t| ==> t[i] == s[i];
  }

  /** Where `strip()` starts cutting: the leading whitespace it drops. */
  function StripStart(s: string): (k: nat)
    ensures k + |Strip(s)| <= |s| && Strip(s) == s[k..k + |Strip(s)|]
  {
    var l := LStrip(s);
    var r := RStrip(l);
    var k := |s| - |l|;
    assert r == l[..|r|];
    assert l == s[k..];
    k
  }

  /** Control characters removed, whitespace collapsed, ends stripped. */
  function Normalize(input: string): (r: string)
    ensures forall c :: c in r ==> !IsControl(c) && (c in input || c == ' ')
    ensures SingleSpaced(r)
    ensures |r| > 0 ==> !IsSpace(r[0])
  {
    var collapsed := CollapseSpace(RemoveControl(input));
    StripKeepsSpacing(collapsed);
    NormalizedChars(input, collapsed, Strip(collapsed));
    Strip(collapsed)
  }

  lemma NormalizedChars(input: string, collapsed: string, r: string)
    requires collapsed == CollapseSpace(RemoveControl(input))
    requires forall c :: c in r ==> c in collapsed
    ensures forall c :: c in r ==> !IsControl(c) && (c in input || c == ' ')
  {
    forall c | c in r
      ensures !IsControl(c) && (c in input || c == ' ')
    {
      assert c in collapsed;
      assert c in RemoveControl(input) || c == ' ';
    }
  }

  lemma StripKeepsSpacing(s: string)
    requires SingleSpaced(s)
    ensures SingleSpaced(Strip(s))
    ensures forall c :: c in Strip(s) ==> c in s
  {
    var k := StripStart(s);
    SingleSpacedSlice(s, k, k + |Strip(s)|);
  }

  /**
   * `sanitize_input`: control characters removed, whitespace runs
   * collapsed to one space, surrounding whitespace stripped, and the
   * result cut to `maxLength` characters.
   */
  function SanitizeInput(input: string, maxLength: int): (r: string)
    ensures |input| == 0 ==> r == ""
    ensures maxLength >= 0 ==> |r| <= maxLength
    ensures forall c :: c in r ==> !IsControl(c) && (c in input || c == ' ')
    ensures SingleSpaced(r)
    ensures |r| > 0 ==> !IsSpace(r[0])
  {
    if |input| == 0 then ""
    else
      var n := Normalize(input);
      var r := Truncate(n, maxLength);
      SingleSpacedPrefix(n, |r|);
      r
  }

  /** `s[:maxLength]` when `s` is longer than `maxLength`, else `s`. */
  function Truncate(s: string, maxLength: int): (r: string)
    ensures |r| <= |s| && r == s[..|r|]
    ensures maxLength >= 0 ==> |r| <= maxLength
    ensures |s| <= maxLength ==> r == s
  {
    if |s| > maxLength then PySliceTo(s, maxLength) else s
  }

  /** Sanitising drops control characters and whitespace and may cut the
   *  tail; the visible characters that remain are a prefix of the input's,
   *  and all of them when the limit is at least the input's length. */
  lemma SanitizeKeepsVisible(input: string, maxLength: int)
    ensures StartsWith(Visible(input), Visible(SanitizeInput(input, maxLength)))
    ensures maxLength >= |input| ==> Visible(SanitizeInput(input, maxLength)) == Visible(input)
  {
    var r := SanitizeInput(input, maxLength);
    if |input| > 0 {
      var n := Normalize(input);
      assert r == Truncate(n, maxLength);
      var tail := n[|r|..];
      Text.SplitAt(n, |r|);
      NormalizeVisible(input);
      VisibleConcat(r, tail);
      PrefixOfAppend(Visible(r), Visible(tail));
    }
  }

  lemma PrefixOfAppend(a: string, b: string)
    ensures StartsWith(a + b, a)
  {
    assert (a + b)[..|a|] == a;
  }

  /** The characters sanitising is about: neither control characters nor
   *  whitespace, in order. */
  function Visible(s: string): (r: string)
    ensures |r| <= |s|
    ensures forall c :: c in r ==> c in s && !IsControl(c) && !IsSpace(c)
  {
    if |s| == 0 then []
    else (if IsControl(s[0]) || IsSpace(s[0]) then [] else [s[0]]) + Visible(s[1..])
  }

  lemma {:induction false} VisibleConcat(a: string, b: string)
    ensures Visible(a + b) == Visible(a) + Visible(b)
    decreases |a|
  {
    if |a| > 0 {
      VisibleConcat(a[1..], b);
      var head := if IsControl(a[0]) || IsSpace(a[0]) then [] else [a[0]];
      Text.TailOfAppend(a, b);
      assert Visible(a + b) == head + (Visible(a[1..]) + Visible(b));
      Text.AppendAssoc(head, Visible(a[1..]), Visible(b));
    } else {
      assert a + b == b;
    }
  }

  /** Normalising keeps every visible character, in order, and no other:
   *  only control characters and whitespace change. */
  lemma NormalizeVisible(input: string)
    ensures Visible(Normalize(input)) == Visible(input)
    ensures |Normalize(input)| <= |input|
  {
    var clean := RemoveControl(input);
    var collapsed := CollapseSpace(clean);
    VisibleRemoveControl(input);
    VisibleCollapse(clean);
    VisibleLStrip(collapsed);
    VisibleRStrip(LStrip(collapsed));
  }

  lemma {:induction false} VisibleRemoveControl(s: string)
    ensures Visible(RemoveControl(s)) == Visible(s)
    decreases |s|
  {
    if |s| > 0 {
      VisibleRemoveControl(s[1..]);
      var head := if IsControl(s[0]) then [] else [s[0]];
      VisibleConcat(head, RemoveControl(s[1..]));
    }
  }

  lemma {:induction false} VisibleLStrip(s: string)
    ensures Visible(LStrip(s)) == Visible(s)
    decreases |s|
  {
    if |s| > 0 && IsSpace(s[0]) {
      VisibleLStrip(s[1..]);
    }
  }

  lemma {:induction false} VisibleRStrip(s: string)
    ensures Visible(RStrip(s)) == Visible(s)
    decreases |s|
  {
    if |s| > 0 && IsSpace(s[|s| - 1]) {
      var init := s[..|s| - 1];
      var last := s[|s| - 1..];
      VisibleRStrip(init);
      Text.SplitAt(s, |s| - 1);
      VisibleConcat(init, last);
      assert Visible(last) == [];
    }
  }

  lemma {:induction false} VisibleCollapse(s: string)
    ensures Visible(CollapseSpace(s)) == Visible(s)
    decreases |s|
  {
    if |s| > 0 {
      if IsSpace(s[0]) {
        var rest := LStrip(s);
        VisibleCollapse(rest);
        VisibleLStrip(s);
        VisibleConcat([' '], CollapseSpace(rest));
      } else {
        VisibleCollapse(s[1..]);
        VisibleConcat([s[0]], CollapseSpace(s[1..]));
      }
    }
  }

  /** A text already in sanitised form, and short enough, is left as it is. */
  lemma SanitizeFixedPoint(t: string, maxLength: int)
    requires forall i :: 0 <= i < |t| ==> !IsControl(t[i])
    requires SingleSpaced(t)
    requires |t| > 0 ==> !IsSpace(t[0]) && !IsSpace(t[|t| - 1])
    requires |t| <= maxLength
    ensures SanitizeInput(t, maxLength) == t
  {
    if |t| > 0 {
      RemoveControlFree(t);
      CollapseSingleSpaced(t);
      assert Normalize(t) == t;
    }
  }

  lemma {:induction false} RemoveControlFree(s: string)
    requires forall i :: 0 <= i < |s| ==> !IsControl(s[i])
    ensures RemoveControl(s) == s
    decreases |s|
  {
    if |s| > 0 {
      RemoveControlFree(s[1..]);
      assert s == [s[0]] + s[1..];
    }
  }

  lemma {:induction false} CollapseSingleSpaced(s: string)
    requires SingleSpaced(s)
    ensures CollapseSpace(s) == s
    decreases |s|
  {
    if |s| > 0 {
      SingleSpacedSlice(s, 1, |s|);
      CollapseSingleSpaced(s[1..]);
      if IsSpace(s[0]) {
        LoneSpaceStripped(s);
        assert CollapseSpace(s) == [' '] + s[1..];
      } else {
        assert CollapseSpace(s) == [s[0]] + s[1..];
      }
      assert s == [s[0]] + s[1..];
    }
  }

  /** In a single-spaced text a leading space stands alone. */
  lemma LoneSpaceStripped(s: string)
    requires SingleSpaced(s) && |s| > 0 && IsSpace(s[0])
    ensures s[0] == ' ' && LStrip(s) == s[1..]
  {
    if |s| > 1 {
      assert !IsSpace(s[1]);
    }
  }

  /** Control characters vanish without a trace. */
  lemma ControlCharactersDropped(a: string, c: char, b: string)
    requires IsControl(c)
    ensures RemoveControl(a + [c] + b) == RemoveControl(a + b)
  {
    RemoveControlConcat(a + [c], b);
    RemoveControlConcat(a, [c]);
    RemoveControlConcat(a, b);
    assert RemoveControl([c]) == [];
    assert RemoveControl(a + [c]) == RemoveControl(a);
  }

  lemma {:induction false} RemoveControlConcat(a: string, b: string)
    ensures RemoveControl(a + b) == RemoveControl(a) + RemoveControl(b)
    decreases |a|
  {
    if |a| > 0 {
      RemoveControlConcat(a[1..], b);
      var head := if IsControl(a[0]) then [] else [a[0]];
      Text.TailOfAppend(a, b);
      assert RemoveControl(a + b) == head + (RemoveControl(a[1..]) + RemoveControl(b));
      Text.AppendAssoc(head, RemoveControl(a[1..]), RemoveControl(b));
    } else {
      assert a + b == b;
    }
  }

  // ------------------------------------------------------------- json schema

  datatype SchemaError = MissingRequired(field: string) | UnexpectedFields(fields: set<string>) | NotADictionary

  function MissingRequiredFields(keys: set<string>, required: seq<string>): (r: seq<SchemaError>)
    ensures |r| <= |required|
    ensures forall e :: e in r ==> e.MissingRequired? && e.field in required && e.field !in keys
    ensures forall f :: f in required && f !in keys ==> MissingRequired(f) in r
  {
    if |required| == 0 then []
    else (if required[0] in keys then [] else [MissingRequired(required[0])]) + MissingRequiredFields(keys, required[1..])
  }

  /**
   * `validate_json_schema`: a non-dictionary is refused outright; otherwise
   * one error per absent required field, then one error naming every key
   * that is neither required nor optional. Valid iff there are no errors.
   */
  function ValidateJsonSchema(data: Option<set<string>>, required: seq<string>, optional: seq<string>): (r: (bool, seq<SchemaError>))
    ensures r.0 <==> |r.1| == 0
    ensures data.None? ==> r == (false, [NotADictionary])
    ensures data.Some? ==> forall f :: f in required ==> (MissingRequired(f) in r.1 <==> f !in data.value)
    ensures data.Some? ==> (
      var extra := data.value - (set f | f in required + optional);
      && (extra == {} ==> forall e :: e in r.1 ==> e.MissingRequired?)
      && (extra != {} ==> |r.1| > 0 && r.1[|r.1| - 1] == UnexpectedFields(extra)))
    ensures r.0 ==> (data.Some? && (forall f :: f in required ==> f in data.value)
      && (forall k :: k in data.value ==> k in required || k in optional))
  {
    match data
    case None => (false, [NotADictionary])
    case Some(keys) =>
      var missing := MissingRequiredFields(keys, required);
      var extra := keys - (set f | f in required + optional);
      var errors := missing + (if extra != {} then [UnexpectedFields(extra)] else []);
      assert forall k :: k in keys && k !in required && k !in optional ==> k in extra;
      assert forall f :: f in required ==> (MissingRequired(f) in errors <==> MissingRequired(f) in missing);
      (|errors| == 0, errors)
  }
}

=== FILE: wrappers.dfy ===
/**
 * Option and Result, the two shapes every modelled operation returns.
 * `None` stands for Python's `None`; `Failure` stands for an exception that
 * the modelled code raises (or catches and turns into a fallback value).
 */
module Wrappers {

  datatype Option<+T> = None | Some(value: T) {
    /** The value, or `default` when there is none (Python's `x or default`
     *  for values whose only falsy state is absence). */
    function GetOr(default: T): (r: T)
      ensures Some? ==> r == value
      ensures None? ==> r == default
    {
      match this
      case Some(v) => v
      case None => default
    }
  }

  datatype Result<+T> = Ok(value: T) | Failure(error: string) {
    function ToOption(): (r: Option<T>)
      ensures r.Some? <==> Ok?
      ensures Ok? ==> r.value == value
    {
      match this
      case Ok(v) => Some(v)
      case Failure(_) => None
    }
  }

  /** `f` applied to every element, or `None` as soon as one application
   *  gives none (a list comprehension whose element expression may raise). */
  function MapAll<A, B>(xs: seq<A>, f: A -> Option<B>): (r: Option<seq<B>>)
    ensures r.Some? <==> forall i :: 0 <= i < |xs| ==> f(xs[i]).Some?
    ensures r.Some? ==> |r.value| == |xs| && forall i :: 0 <= i < |xs| ==> r.value[i] == f(xs[i]).value
  {
    if xs == [] then Some([])
    else
      var head := f(xs[0]);
      var rest := MapAll(xs[1..], f);
      if head.None? || rest.None? then None
      else Some([head.value] + rest.value)
  }
}
